=== FILE: README.md ===
# mu: a verified model of the VM core

This project models in Dafny the core of mu, a small dynamically typed
language with a bytecode virtual machine. The repository holds several
generations of the VM side by side (`src/`, `crates/` and `ex/vm3/`); the
model follows each piece in the generation where it lives. Every module
is one source file, in the form the source takes: values and pure
lookups become datatypes and functions, and the code that updates state
in place becomes classes and methods with loop invariants. Each method is
proved against a specification function or states its new state outright.

- **Values and objects.**
  - `NanBox` models the NaN-boxed 64-bit value word: tags, masks, constructors and accessors, with their round trips.
  - `RcPtr` models the reference-counted object pointer over a heap of allocations: alloc, clone, drop, `into_any` and checked casts.
  - `StrObject` models the string object.
  - `ClassObject` models classes with single inheritance: `ClassDef::new`, `instance`, `Class`, `Proxy` and their field access.
  - `NativeClass` models host-implemented classes and their accessor lookup order.
  - `Objects` gives the object store and the `Access` protocol every object answers.
  - `FieldOps` and `IndexOps` hold the generic field and index rules: the frozen check, optional chaining on `none`, and method binding.
- **Interpreter.**
  - `Isolate` models the accumulator handler of `crates/vm`: registers in a window at `base`, constants, captures, globals that must exist before a store, dictionaries and lists built in place, jumps and comparisons.
  - `Dispatch` models the control-flow skeleton of the dispatch loop: width prefixes, jumps measured from the opcode, and frame reload on call and return.
  - `Encoding` models the variable-width operand encoding and in-place register patching that the opcode unit test pins down.
  - `Disasm` models the disassembly line format and listing loop.
- **Compiler back end.**
  - `RegAlloc` models the linear-scan register allocator. No two intervals that overlap share a physical register.
  - `StmtLabels` and `StmtEmit` model statement lowering to labelled jumps. Every jump the emitter produces lands on a label it binds, in the right direction, or on the enclosing loop.
  - `Vm3Op` models the vm3 instruction set, including a four-byte layout that round-trips.
  - `Vm3Emit` models the vm3 emitter's register counter, scopes, module-variable table, name resolution, `let`, literals and `top_level`.
  - `Vm3Func` models the vm3 label map, source-line lookup and byte-counting writer.
- **Tooling.**
  - `Repl` models the REPL's "is this input complete?" check and its one command.

Functions the core calls but whose code is not part of this model enter as parameters. These are the arithmetic, comparison and truthiness operations, the host callables and the parser's verdict. Non-termination of the dispatch loop is handled by a step budget.

## Model

| member | source | states |
|---|---|---|
| NanBox.Float | crates/runtime/src/value/impl/nanbox.rs:70-76 | a float is refused (the panic) exactly when its bits already hold every quiet-NaN bit; otherwise the value's bits are the float's bits unchanged |
| NanBox.AsFloat | crates/runtime/src/value/impl/nanbox.rs:211-216 | yields a float exactly when `is_float` holds |
| NanBox.AsInt | crates/runtime/src/value/impl/nanbox.rs:222-227 | yields an int exactly when the tag is INT |
| NanBox.AsBool | crates/runtime/src/value/impl/nanbox.rs:233-238 | yields a bool exactly when the tag is BOOL |
| NanBox.AsNone | crates/runtime/src/value/impl/nanbox.rs:244-249 | yields `()` exactly when the tag is NONE |
| NanBox.AsObject | crates/runtime/src/value/impl/nanbox.rs:148-168 | yields an address exactly when the tag is OBJECT |
| NanBox.Signed | crates/runtime/src/value/impl/nanbox.rs:78-83 | the signed reading of an i32 bit pattern lies in the i32 range |
| NanBox.IntRoundTrip | crates/runtime/src/value/impl/nanbox.rs:78-83 | `as_int(int(v)) == Some(v)` for every i32, sign included |
| NanBox.BoolRoundTrip | crates/runtime/src/value/impl/nanbox.rs:87-91 | `as_bool(bool(b)) == Some(b)` and the value is a bool |
| NanBox.NoneRoundTrip | crates/runtime/src/value/impl/nanbox.rs:93-96 | `none()` is none and `as_none` yields `()` |
| NanBox.FloatRoundTrip | crates/runtime/src/value/impl/nanbox.rs:211-216 | a float whose bits are not a quiet NaN is accepted and read back with the same bits |
| NanBox.ObjectKeepsLowBits | crates/runtime/src/value/impl/nanbox.rs:98-102 | `object(p)` is an object whose payload is the address masked to its low 48 bits |
| NanBox.IntIsNeverFloat | crates/runtime/src/value/impl/nanbox.rs:21 | the INT tag equals the quiet-NaN mask, so no int is a float |
| NanBox.AtMostOneTag | crates/runtime/src/value/impl/nanbox.rs:117-140 | no bit pattern satisfies two of the five type checks |
| NanBox.FloatHasOneTag | crates/runtime/src/value/impl/nanbox.rs:70-76 | an accepted float satisfies exactly one type check, `is_float` |
| NanBox.IntHasOneTag | crates/runtime/src/value/impl/nanbox.rs:78-83 | `int(v)` satisfies exactly one type check, `is_int` |
| NanBox.BoolHasOneTag | crates/runtime/src/value/impl/nanbox.rs:87-91 | `bool(b)` satisfies exactly one type check, `is_bool` |
| NanBox.NoneHasOneTag | crates/runtime/src/value/impl/nanbox.rs:93-96 | `none()` satisfies exactly one type check, `is_none` |
| NanBox.ObjectHasOneTag | crates/runtime/src/value/impl/nanbox.rs:98-102 | `object(p)` satisfies exactly one type check, `is_object` |
| NanBox.AccessorsRejectOtherTags | crates/runtime/src/value/impl/nanbox.rs:211-249 | every `as_*` accessor yields None on a value of another type |
| NanBox.Int | crates/runtime/src/value/impl/nanbox.rs:78-83 | the INT tag over the i32's bit pattern; `IntRoundTrip` and `IntHasOneTag` state what it promises |
| NanBox.Bool | crates/runtime/src/value/impl/nanbox.rs:87-91 | the BOOL tag over 0 or 1; `BoolRoundTrip` and `BoolHasOneTag` state what it promises |
| NanBox.NoneValue | crates/runtime/src/value/impl/nanbox.rs:93-96 | the NONE tag alone; `NoneRoundTrip` and `NoneHasOneTag` state what it promises |
| NanBox.Object | crates/runtime/src/value/impl/nanbox.rs:98-102 | the OBJECT tag over the address's low 48 bits; `ObjectKeepsLowBits` and `ObjectHasOneTag` state what it promises |
| NanBox.TypeTag | crates/runtime/src/value/impl/nanbox.rs:113-115 | the bits under the tag mask, which the type checks compare |
| NanBox.IsFloat | crates/runtime/src/value/impl/nanbox.rs:118-121 | not every quiet-NaN bit is set; `AtMostOneTag` proves it excludes the other four checks |
| NanBox.IsInt | crates/runtime/src/value/impl/nanbox.rs:123-126 | the tag is INT; `AtMostOneTag` proves it excludes the other four checks |
| NanBox.IsBool | crates/runtime/src/value/impl/nanbox.rs:128-131 | the tag is BOOL; `AtMostOneTag` proves it excludes the other four checks |
| NanBox.IsNone | crates/runtime/src/value/impl/nanbox.rs:133-136 | the tag is NONE; `AtMostOneTag` proves it excludes the other four checks |
| NanBox.IsObject | crates/runtime/src/value/impl/nanbox.rs:138-141 | the tag is OBJECT; `AtMostOneTag` proves it excludes the other four checks |
| RcPtr.Heap.constructor | src/value/object.rs:108-121 | the heap starts with no allocations and no destructor run |
| RcPtr.Heap.Alloc | src/value/object.rs:109-120 | a fresh address, not live before, holding the payload with refcount 1; nothing else changes |
| RcPtr.Heap.Clone | src/value/object.rs:75-80 | the same pointer comes back and its allocation's count goes up by one; nothing else changes |
| RcPtr.Heap.Drop | src/value/object.rs:60-73 | with more than one reference the count goes down by one and the payload stays; the last reference runs the payload's destructor and frees the allocation |
| RcPtr.Heap.Cast | src/value/object.rs:201-208 | succeeds exactly when the stored type id is the requested one, giving a pointer to the same allocation at that type; on failure the original pointer comes back |
| RcPtr.IntoAny | src/value/object.rs:195-199 | the same allocation, viewed as `Ptr<Any>`; the refcount is untouched |
| RcPtr.CastUndoesIntoAny | src/value/object.rs:306-319 | casting back to the allocated type after `into_any` gives the original pointer |
| RcPtr.CastToOtherTypeFails | src/value/object.rs:355-363 | casting to another type fails and hands back the `Any` pointer |
| RcPtr.DefaultGetField | src/value/object.rs:16-18 | the default `get_field` is `Ok(None)` |
| RcPtr.DefaultSetField | src/value/object.rs:19-21 | the default `set_field` fails with "cannot set field `key`" |
| RcPtr.RefcountLifecycle | src/value/object.rs:271-304 | alloc, clone, drop, `into_any`, drop leaves the heap empty with the payload's destructor run exactly once |
| Values.WrapI32 | src/value/object/string.rs:43-48 | Rust's `as i32` on a length: the result is in the i32 range, equals the length below 2^31 and agrees with it modulo 2^32 |
| StrObject.Utf8Width | src/value/object/string.rs:45 | one scalar value takes one to four UTF-8 bytes, one exactly for ASCII |
| StrObject.ByteLen | src/value/object/string.rs:45 | `String::len` lies between the number of characters and four times it |
| StrObject.AsciiByteLen | src/value/object/string.rs:45 | an ASCII string has as many bytes as characters |
| StrObject.ByteLenAppend | src/value/object/string.rs:85-90 | byte lengths add up over concatenation |
| StrObject.FromString | src/value/object/string.rs:30-40 | `as_str` of a string built from a text is that text |
| StrObject.FieldGet | src/value/object/string.rs:43-48 | a field exists exactly for "len"; it is an Int in the i32 range, and the byte length itself when that is below 2^31 |
| StrObject.Display | src/value/object/string.rs:51-55 | the contents wrapped in one double quote on each side |
| StrObject.Concat | src/value/object/string.rs:85-90 | self's contents followed by the other text; lengths, in characters and in bytes, add up |
| StrObject.ConcatLenField | src/value/object/string.rs:43-48 | the "len" of a concatenation is the sum of the byte lengths |
| ClassObject.ZipKeys | crates/runtime/src/value/object/class.rs:169-172 | the zip-insert loop's table has exactly the listed names as keys |
| ClassObject.ZipValues | crates/runtime/src/value/object/class.rs:169-172 | each name maps to the value paired with its last occurrence: a later duplicate wins |
| ClassObject.OrInsertAll | crates/runtime/src/value/object/class.rs:180-187 | `entry().or_insert_with()`: own entries are kept, the other table's entries are added only under names not already present |
| ClassObject.InsertZipped | crates/runtime/src/value/object/class.rs:169-177 | the insert loop over `names.zip(args)` leaves every name mapped to the value at its last occurrence and no other key |
| ClassObject.BuildTable | crates/runtime/src/value/object/class.rs:169-187 | one table of `ClassDef::new`: own names bound to their arguments, shadowing the parent's entries, which fill in only the missing names |
| ClassObject.NewClassDef | crates/runtime/src/value/object/class.rs:155-196 | panics exactly when fewer arguments than (derived ? 1 : 0) + methods + fields are given or a derived class's first argument is not a class definition; otherwise the name is kept, the parent is present exactly when derived and is `args[0]`, and methods then fields are read from the argument layout, own entries shadowing inherited ones |
| ClassObject.AssembleClassDef | crates/runtime/src/value/object/class.rs:158-195 | past the checks: the parent, the method table from `args[methods_offset..]` and the field table from `args[fields_offset..]`, each merged over the parent's |
| ClassObject.InsertAll | crates/runtime/src/value/object/class.rs:205-208 | inserting one table's entries into another: the inserted entries overwrite, the rest are kept |
| ClassObject.Instance | crates/runtime/src/value/object/class.rs:201-216 | the instance holds every field and method name; a method wins over a field of the same name; name and parent are kept and the instance is not frozen |
| ClassObject.ClassInsert | crates/runtime/src/value/object/class.rs:41-43 | afterwards the key maps to the new value, every other key is as before, and the previous entry is returned |
| ClassObject.Freeze | crates/runtime/src/value/object/class.rs:45-47 | sets the frozen flag and changes nothing else |
| ClassObject.ClassFieldGet | crates/runtime/src/value/object/class.rs:55-61 | any key kind is looked up in the instance's table: found exactly when present, with its value |
| ClassObject.ClassFieldSet | crates/runtime/src/value/object/class.rs:63-66 | always succeeds, whatever the frozen flag: the key now maps to the value, other keys and the flag are unchanged |
| ClassObject.ClassDefFieldGet | crates/runtime/src/value/object/class.rs:249-260 | an Int key finds nothing; a string key finds exactly the methods, never field defaults |
| ClassObject.ProxyFieldGet | crates/runtime/src/value/object/class.rs:104-112 | a proxy answers from its parent definition: exactly the parent's methods |
| ClassObject.FrozenInstanceAcceptsFieldSet | crates/runtime/src/value/object/class.rs:45-66 | a frozen instance still accepts `field_set`, which stores the value and leaves it frozen |
| NativeClass.AccessorOf | src/value/object/native.rs:277-289 | a field's getter is the method "get <field>", and it has a setter "set <field>" exactly when the field lists one |
| NativeClass.New | src/value/object/native.rs:270-302 | the class keeps the type's name; its tables are those of `AccessorsOfNew`, `AccessorKeys` and `MethodsOfNew` |
| NativeClass.AccessorsOfNew | src/value/object/native.rs:274-291 | every listed field has an accessor, and a name listed twice keeps its last entry |
| NativeClass.AccessorKeys | src/value/object/native.rs:274-291 | only listed fields have accessors |
| NativeClass.MethodsOfNew | src/value/object/native.rs:292-300 | every listed method is in the table under its name, the last entry of a name winning |
| NativeClass.FieldGetter | src/value/object/native.rs:315-317 | a getter exactly for the fields with an accessor |
| NativeClass.FieldSetter | src/value/object/native.rs:319-321 | nothing when there is no accessor or the accessor has no setter; the setter otherwise |
| NativeClass.Method | src/value/object/native.rs:323-325 | a method exactly for the names in the method table |
| NativeClass.ClassFieldGet | src/value/object/native.rs:333-339 | the class itself exposes its methods only, never its accessors, and never fails |
| NativeClass.InstanceFieldGet | src/value/object/native.rs:389-400 | a getter wins and is called with the user data and no arguments, its error passed on; failing that, the class method of that name; otherwise nothing |
| NativeClass.InstanceFieldSet | src/value/object/native.rs:402-409 | the setter is called with the value as its only argument and its error passed on; without a setter the write fails with "cannot set field" |
| NativeClass.ReadOnlyFieldRefusesSet | src/value/object/native.rs:285-287 | a field declared without a setter refuses every write, whatever the host functions do (also lines 402-409) |
| NativeClass.GetterShadowsMethod | src/value/object/native.rs:333-339 | on an instance a getter shadows a method of the same name, while the class still exposes that method (also lines 389-399) |
| Objects.FieldGet | crates/runtime/src/value/object/class.rs:50-61 | `Access::field_get` dispatched on the object's kind: an instance answers from its table, a class definition and a proxy from the definition's methods, a string from its own fields (also lines 104-112, 249-260); the `Access` defaults for the other kinds are assumed (see Left out) |
| Objects.FieldSet | crates/runtime/src/value/object/class.rs:63-66 | an instance always stores the value; a native instance defers to its setter; every other object refuses with "cannot set field"; the `Access` defaults for the other kinds are assumed (see Left out) |
| Objects.IndexGet | crates/runtime/src/isolate/index.rs:19-30 | only dictionaries have entries: found exactly when the key is present, with the stored value; the `Access` defaults for the other kinds are assumed (see Left out) |
| Objects.IndexSet | crates/runtime/src/isolate/index.rs:5-11 | a dictionary stores the entry; any other object refuses with "cannot set field"; the `Access` defaults for the other kinds are assumed (see Left out) |
| Objects.ObjectSpace.constructor | src/value/object.rs:108-121 | the object space starts empty |
| Objects.ObjectSpace.Alloc | src/value/object.rs:109-120 | the object is stored at an address no live object had; nothing else changes |
| FieldOps.SetSpec | src/isolate/field.rs:7-18 | a non-object receiver, or a new field on a frozen object, is refused with "cannot set field"; an error from `field_get` is passed on; otherwise the write succeeds exactly when `field_set` does, and the receiver's object becomes `field_set`'s result while every other object stays as it was |
| FieldOps.Lookup | src/isolate/field.rs:20-59 | the value `field_get` found, bound to the receiver exactly when the receiver binds methods and the value is function-like; a miss or a non-object receiver gives nothing, and an error from `field_get` is passed on |
| FieldOps.GetSpec | src/isolate/field.rs:20-35 | a found field is the value `field_get` returned, bound exactly when the receiver binds methods and the value is function-like; an error from `field_get` is passed on; a non-object receiver or a missing field is the error "cannot get field" |
| FieldOps.GetOptSpec | src/isolate/field.rs:37-55 | a `none` receiver, a non-object receiver and a missing field give `none`; a found field is the value `field_get` returned, bound as in `get`; an error from `field_get` is passed on |
| FieldOps.GetOptExtendsGet | src/isolate/field.rs:20-55 | `get_opt` agrees with `get` wherever `get` finds the field or fails inside `field_get`, and gives `none` where `get` misses |
| FieldOps.InstanceMethodIsBound | src/isolate/field.rs:22-26 | a function-valued field read from an instance comes back bound to the instance |
| FieldOps.ClassDefMethodIsPlain | src/isolate/field.rs:22-28 | a method read from a class definition comes back unbound |
| FieldOps.ProxyRefusesSet | src/isolate/field.rs:7-18 | writing through a proxy always fails: it is frozen and has no `field_set` |
| FieldOps.FrozenInstanceSet | src/isolate/field.rs:9-12 | a frozen instance accepts writes to existing fields and refuses new ones |
| FieldOps.SetThenGet | src/isolate/field.rs:7-29 | after a successful write to an instance, reading the field gives the value written |
| FieldOps.Set | src/isolate/field.rs:7-18 | the object space afterwards is `SetSpec`'s heap, or unchanged with its error |
| FieldOps.Materialize | src/isolate/field.rs:23-28 | a plain value is returned as it is; a function to bind becomes a freshly allocated `Method` holding the receiver and the function |
| FieldOps.Get | src/isolate/field.rs:20-35 | the error, plain value or newly allocated bound method that `GetSpec` describes, and no other change to the object space |
| FieldOps.GetOpt | src/isolate/field.rs:37-55 | the error, plain value or newly allocated bound method that `GetOptSpec` describes, and no other change to the object space |
| IndexOps.SetSpec | crates/runtime/src/isolate/index.rs:5-17 | succeeds exactly when the receiver is an object, the key exists or the object is not frozen, and the object accepts the entry; the only error is "cannot set field"; only the receiver changes |
| IndexOps.GetSpec | crates/runtime/src/isolate/index.rs:19-30 | the stored value as it is, never bound; a miss or a non-object receiver is "cannot get field" |
| IndexOps.GetOptSpec | crates/runtime/src/isolate/index.rs:32-45 | never fails; a `none` receiver gives `none` |
| IndexOps.GetOptIsTotalGet | crates/runtime/src/isolate/index.rs:19-45 | `get_opt` is `get` with every error replaced by `none` |
| IndexOps.SetThenGet | crates/runtime/src/isolate/index.rs:5-30 | writing a dictionary entry and reading it back gives the value; other keys read as before |
| IndexOps.Set | crates/runtime/src/isolate/index.rs:5-17 | the object space afterwards is `SetSpec`'s heap, or unchanged with its error |
| Objects.IsFrozen | crates/runtime/src/value/object/class.rs:51-53 | an instance is frozen when its flag says so, a proxy always (lines 105-107), a native instance never (src/value/object/native.rs:381-383), a dictionary never, and the other kinds take the assumed `Access` default (see Left out); `FrozenInstanceSet` and `ProxyRefusesSet` use it |
| Objects.BindsMethods | crates/runtime/src/value/object/class.rs:250-252 | class definitions, and native classes (src/value/object/native.rs:328-331), hand out their methods unbound; every other object binds them; `InstanceMethodIsBound` and `ClassDefMethodIsPlain` use it |
| Objects.IsFnLike | src/isolate/field.rs:57-59 | `is_function() || is_method()`, where the model assumes (see Left out) that functions, closures, bound methods and native class methods are the function-like values; `FieldOps.Lookup` binds exactly those |
| Isolate.KeyOf | crates/vm/src/lib.rs:219-222 | the key conversion `dict::Key::try_from` that the keyed handlers call, where the model assumes (see Left out) that integers and string objects are the only keys, with their number or text, and that anything else fails |
| Isolate.ComparisonLaws | crates/vm/src/lib.rs:589-701 | `!=` is the negation of `==` (incomparable operands are unequal), `>=`/`<=` are the strict test or equality, `<` is `>` with the ordering reversed, and incomparable operands pass no ordering test |
| Isolate.NotAsWritten | crates/vm/src/lib.rs:580-587 | `op_unary_not` as written leaves the accumulator's own truthiness |
| Isolate.NotAsWrittenDoesNotNegate | crates/vm/src/lib.rs:580-587 | under the code as written, `not true` is `true` and `not false` is `false` |
| Isolate.Not | crates/vm/src/lib.rs:580-587 | the corrected `not`: the negated truthiness |
| Isolate.NotNegates | crates/vm/src/lib.rs:580-587 | the corrected `not` negates every boolean, and applying it twice gives the operand's truthiness |
| Isolate.Isolate.constructor | crates/vm/src/lib.rs:29-43 | a new isolate has `none` in the accumulator, an empty stack, no frames and no globals |
| Isolate.Isolate.LoadConst | crates/vm/src/lib.rs:51-58 | the accumulator becomes the top frame's constant `slot`; nothing else changes |
| Isolate.Isolate.LoadReg | crates/vm/src/lib.rs:60-67 | the accumulator becomes `stack[base + reg]` of the top frame |
| Isolate.Isolate.StoreReg | crates/vm/src/lib.rs:69-76 | `stack[base + reg]` becomes the accumulator and no other slot changes |
| Isolate.Isolate.LoadCapture | crates/vm/src/lib.rs:78-93 | the accumulator becomes the running closure's capture `slot` |
| Isolate.Isolate.StoreCapture | crates/vm/src/lib.rs:95-111 | the running closure's capture `slot` becomes the accumulator, in place; nothing else in the object space changes |
| Isolate.Isolate.LoadGlobal | crates/vm/src/lib.rs:113-125 | a name that is not yet a global is an error and leaves the accumulator; otherwise the accumulator becomes the global |
| Isolate.Isolate.StoreGlobal | crates/vm/src/lib.rs:127-139 | stores only over an existing global, erring otherwise; the set of globals never grows |
| Isolate.Isolate.LoadNamed | crates/vm/src/lib.rs:141-165 | the accumulator must be a dictionary holding the name, else an error; on success it becomes the entry |
| Isolate.Isolate.LoadNamedOpt | crates/vm/src/lib.rs:167-194 | `none` stays `none`; a non-dictionary is an error; a missing name reads as `none` |
| Isolate.Isolate.DictInsert | crates/vm/src/lib.rs:196-213 | the dictionary gains the accumulator under the key, in place; nothing else changes |
| Isolate.Isolate.StoreNamed | crates/vm/src/lib.rs:196-213 | the register must hold a dictionary, which then maps the name to the accumulator; otherwise an error and no change |
| Isolate.Isolate.LoadKeyed | crates/vm/src/lib.rs:215-241 | the key register must hold a key and the accumulator a dictionary, else an error; a missing key reads as `none` |
| Isolate.Isolate.LoadKeyedOpt | crates/vm/src/lib.rs:243-274 | the key is checked before the `none` short-circuit; then as `LoadKeyed` |
| Isolate.Isolate.StoreKeyed | crates/vm/src/lib.rs:276-296 | succeeds exactly when the key register holds a key and the object register a dictionary, which then maps the key to the accumulator (also lines 348-367) |
| Isolate.Isolate.InsertToDictNamed | crates/vm/src/lib.rs:369-386 | the dictionary register is checked before the name; on success the dictionary maps the name to the accumulator |
| Isolate.Isolate.Push | crates/vm/src/lib.rs:298-320 | the accumulator becomes `none`, `true`, `false` or the small integer |
| Isolate.Isolate.CreateEmptyList | crates/vm/src/lib.rs:322-326 | the accumulator holds a freshly allocated empty list |
| Isolate.Isolate.CreateEmptyDict | crates/vm/src/lib.rs:342-346 | the accumulator holds a freshly allocated empty dictionary |
| Isolate.Isolate.PushToList | crates/vm/src/lib.rs:328-340 | succeeds exactly when the register holds a list, which then ends with the accumulator |
| Isolate.Isolate.CreateClosure | crates/vm/src/lib.rs:388-396 | the accumulator holds a fresh closure over the descriptor with one `none` slot per capture |
| Isolate.Isolate.CaptureReg | crates/vm/src/lib.rs:398-413 | the register is copied into the capture slot of the closure in the accumulator |
| Isolate.Isolate.CaptureSlot | crates/vm/src/lib.rs:415-439 | the running closure's capture is copied into a slot of the closure in the accumulator |
| Isolate.Isolate.JumpOp | crates/vm/src/lib.rs:441-447 | forward and backward jumps hand their offset to the dispatch loop |
| Isolate.Isolate.JumpIfFalse | crates/vm/src/lib.rs:449-459 | a non-boolean accumulator is an error; `true` falls through, `false` jumps by the offset |
| Isolate.Isolate.Arith | crates/vm/src/lib.rs:461-555 | the accumulator becomes `binop(register, accumulator)`, or the error is passed on and the accumulator kept |
| Isolate.Isolate.UnaryPlus | crates/vm/src/lib.rs:557-562 | always succeeds and changes nothing |
| Isolate.Isolate.UnaryMinus | crates/vm/src/lib.rs:564-578 | integers are negated (the least i32 panics on overflow), floats flip their sign bit, anything else reaches `unimplemented!()` |
| Isolate.Isolate.UnaryNotAsWritten | crates/vm/src/lib.rs:580-587 | the accumulator becomes `NotAsWritten` of itself |
| Isolate.Isolate.UnaryNot | crates/vm/src/lib.rs:580-587 | the accumulator becomes the negation of its truthiness |
| Isolate.Isolate.Compare | crates/vm/src/lib.rs:589-701 | the accumulator becomes the boolean the ordering answers for the operator, or the comparison's error is passed on |
| Isolate.Isolate.IsNone | crates/vm/src/lib.rs:703-707 | the accumulator becomes whether it was `none` |
| Isolate.CmpHolds | crates/vm/src/lib.rs:589-701 | the boolean each comparison leaves for the ordering `partial_cmp` answered; `ComparisonLaws` relates the six operators |
| Encoding.FromByte | src/bytecode/opcode/tests.rs:46-53 | a byte reads as an opcode exactly when it is below the opcode count, and then as itself (`Opcode as u8`) |
| Encoding.MinWidth | src/bytecode/opcode/tests.rs:46-53 | the chosen width holds every operand, and is the narrowest that does |
| Encoding.LE | src/bytecode/opcode/tests.rs:48-49 | a little-endian operand takes exactly its width in bytes |
| Encoding.ReadLE | src/bytecode/opcode/tests.rs:48-49 | reading little-endian bytes gives a number below 256 to the number of bytes |
| Encoding.ReadLEOfLE | src/bytecode/opcode/tests.rs:48-49 | reading back the little-endian bytes of a number gives the number |
| Encoding.EncodeOperands | src/bytecode/opcode/tests.rs:52-53 | every operand takes the instruction's width |
| Encoding.EncodeW | src/bytecode/opcode/tests.rs:46-53 | an instruction takes its prefix, one opcode byte and its operands at the width |
| Encoding.DecodeOperands | src/bytecode/opcode/tests.rs:46-53 | a successful read yields the requested number of operands from bytes that hold them |
| Encoding.DecodeAt | src/bytecode/opcode/tests.rs:46-53 | a decoded instruction ends past its opcode and within the bytes |
| Encoding.Decode | src/bytecode/opcode/tests.rs:46-53 | a decoded instruction takes at least one byte and no more than there are |
| Encoding.DecodeOperandsOfEncode | src/bytecode/opcode/tests.rs:46-53 | operands encoded at a width read back, whatever follows them |
| Encoding.DecodeEncodeW | src/bytecode/opcode/tests.rs:46-53 | decoding an instruction encoded at a width gives back the instruction, the width and its length |
| Encoding.DecodeAtOpcode | src/bytecode/opcode/tests.rs:48-53 | past the prefix, the opcode and operands decode back |
| Encoding.DecodeEncode | src/bytecode/opcode/tests.rs:43-55 | decoding what the builder emits gives back the instruction, at the narrowest width, with its length |
| Encoding.SmallOperandsAreCompact | src/bytecode/opcode/tests.rs:46-51 | operands below 256 take one byte each and no prefix |
| Encoding.OneLargeOperandWidensAll | src/bytecode/opcode/tests.rs:48-52 | one operand of at least 256 gives a `Wide16` prefix and two bytes to every operand, small ones included |
| Encoding.RegisterPatchingLoads | src/bytecode/opcode/tests.rs:10-49 | the four `Load` instructions of the test encode as its expected bytes, 256 as `Wide16` and 65536 as `Wide32` |
| Encoding.RegisterPatchingImports | src/bytecode/opcode/tests.rs:22-51 | the two narrow `Import` instructions encode as the test expects, path before destination |
| Encoding.RegisterPatchingWideImport16 | src/bytecode/opcode/tests.rs:30-52 | a 16-bit `Import` widens its constant path too |
| Encoding.RegisterPatchingWideImport32 | src/bytecode/opcode/tests.rs:34-53 | a 32-bit `Import` widens its constant path too |
| Encoding.Patch | src/bytecode/opcode/tests.rs:57-69 | every register operand is renamed through the map (including the `parts` register of the data-class constructors), every other operand kept, and the result still fits the width the instruction was emitted at |
| Encoding.DataClassPartsRenamed | src/vm/dispatch.rs:560-569 | the `parts` operand of `MakeDataClass`/`MakeDataClassDerived` is a register that patching renames, while the descriptor constant is kept |
| Encoding.PatchedBytes | src/bytecode/opcode/tests.rs:57-69 | patching keeps each instruction's length |
| Encoding.DecodePatched | src/bytecode/opcode/tests.rs:57-69 | a patched instruction decodes, at its old width and length, to the renamed instruction |
| Encoding.RegisterPatchingWideLoad | src/bytecode/opcode/tests.rs:64 | a widened `Load` keeps its prefix and pads the new register with a zero byte |
| Encoding.RegisterPatchingWideImport | src/bytecode/opcode/tests.rs:69 | a 32-bit `Import` keeps its prefix and its constant path; only the destination becomes 127 |
| Encoding.PatchedImportOperandBytes | src/bytecode/opcode/tests.rs:69 | the operands 0 and 127 at 32 bits are the bytes the test expects |
| Encoding.WideImportOperands | src/bytecode/opcode/tests.rs:34-57 | the 32-bit `Import` of the test can be patched and its operands become the path and 127 |
| Encoding.WriteAt | src/bytecode/opcode/tests.rs:57 | the bytes are copied over the array at the position and nothing else changes |
| Encoding.DecodeHead | src/bytecode/opcode/tests.rs:57-69 | the instruction at the head of an encoded stream decodes, and the rest of the stream follows it |
| Encoding.PatchAtDecodes | src/bytecode/opcode/tests.rs:57-69 | before the k-th instruction is patched it decodes at its position, and its patched bytes fit where it stood |
| Encoding.PatchAtSplices | src/bytecode/opcode/tests.rs:57-69 | after patching the k-th instruction in place, one more instruction is done and the rest is untouched |
| Encoding.PatchAt | src/bytecode/opcode/tests.rs:57-69 | patches one instruction in place and returns its length: the array is one instruction further along |
| Encoding.PatchRegisters | src/bytecode/opcode/tests.rs:57-71 | `patch_registers` leaves the array equal to the stream with every instruction patched at its own width |
| Encoding.Encode | src/bytecode/opcode/tests.rs:46-53 | the builder's bytes for an instruction, at the narrowest width; `DecodeEncode` proves they decode back to it with that length |
| Encoding.Kinds | src/vm/dispatch.rs:536-609 | the operand kinds of each opcode, in the order of its handler's parameters; `DataClassPartsRenamed` and `Patch` rely on the `parts` register of the data-class constructors being a register |
| Dispatch.Execute | src/vm/dispatch.rs:239-483 | the handler arms steer the instruction pointer as the one-step function `Exec` says (jumps from the opcode, calls and `Yield` from past the operands) |
| Dispatch.Fetch | src/vm/dispatch.rs:35-52 | one pass of the inner loop: a prefix sets the width, `Nop` goes on, any other opcode is executed with its start at the opcode |
| Dispatch.ReadOperands | src/vm/dispatch.rs:37-54 | reading an opcode and its operands at the width in force, or the panic for a read past the end or an unknown byte |
| Dispatch.Dispatch | src/vm/dispatch.rs:14-487 | the `'load_frame` loop and the inner loop compute exactly the outcome of the step function `Run`: a control-flow result, the handler's error, a panic, or the step budget spent |
| Dispatch.LoadFramePastEndPanics | src/vm/dispatch.rs:24-30 | a frame loaded with its pc at or past the end of its bytecode panics before any handler runs |
| Dispatch.ExecResetsWidth | src/vm/dispatch.rs:33-57 | after an instruction the next one is read at `Normal` width again |
| Dispatch.ReadAtOpcode | src/vm/dispatch.rs:37-54 | at an encoded opcode one pass reads exactly that instruction and ends past its operands |
| Dispatch.RunByInstr | src/vm/dispatch.rs:35-52 | dispatch is one whole instruction at a time; a width prefix takes one pass more |
| Dispatch.StepOverEncoded | src/vm/dispatch.rs:37-52 | over an encoded instruction the prefix is seen exactly when the width is wide, and the handler sees `start` at the opcode and `next` past the operands |
| Dispatch.EncodedLayout | src/vm/dispatch.rs:37-54 | where the prefix, opcode and operands of an encoded instruction sit in the bytecode |
| Dispatch.JumpLandsFromOpcode | src/vm/dispatch.rs:239-254 | `Jump`/`JumpConst` land `offset` bytes after the opcode, not after the prefix, with the width back to `Normal` |
| Dispatch.JumpLoopLandsFromOpcode | src/vm/dispatch.rs:255-262 | `JumpLoop` lands `offset` bytes before its opcode; where the handler's unchecked pointer subtraction would leave the bytecode, the model stops with a panic instead (see Left out) |
| Dispatch.JumpIfFalseLands | src/vm/dispatch.rs:263-282 | a conditional jump lands `offset` bytes after its opcode or falls through past its operands |
| Dispatch.CallOutcomes | src/vm/dispatch.rs:397-463 | `Call`, `Call0` and `Import` pass the address past their operands as the return address, then reload a frame, go on, or stop with `Poll` at that address |
| Dispatch.ReturnOutcomes | src/vm/dispatch.rs:464-476 | `Return` resumes the frame the handler names or leaves dispatch with `ControlFlow::Return` |
| Dispatch.YieldStops | src/vm/dispatch.rs:477-483 | `Yield` stops dispatch with the address just past it |
| Dispatch.HandlerErrorAborts | src/vm/dispatch.rs:53-57 | a handler error in any other opcode stops dispatch with that error (`?`) |
| Dispatch.PlainGoesOn | src/vm/dispatch.rs:53-57 | any other opcode goes on just past its operands |
| Dispatch.Exec | src/vm/dispatch.rs:239-483 | after a handler dispatch goes on at `Normal` width; an opcode that does not steer goes on just past its operands or stops with the handler's error; only calls and `Return` load a frame, only they and `Yield` finish, and the only panic is a `JumpLoop` whose offset reaches before the bytecode (also lines 53-57) |
| Dispatch.Step | src/vm/dispatch.rs:35-57 | reading past the end panics with the end-of-stream message; a pass that leaves a wide width in force moves one byte, past a prefix or a `Nop`; a pass never runs out of fuel |
| Dispatch.Run | src/vm/dispatch.rs:14-57 | the outcome of dispatching from `pc`, pass by pass; the method `Dispatch` is proved to compute it, and `LoadFramePastEndPanics`, `CallOutcomes`, `ReturnOutcomes` and `YieldStops` state its cases |
| Disasm.Text | src/bytecode/disasm.rs:17-33 | an instruction's text starts with its name, and is only its name when it has neither operands nor a constant |
| Disasm.Split | src/bytecode/disasm.rs:27 | cutting a text at its spaces gives at least one word |
| Disasm.Semicolon | src/bytecode/disasm.rs:29-31 | finds the first `;` of a text, or says there is none |
| Disasm.SplitWord | src/bytecode/disasm.rs:25-27 | a word without spaces is not cut |
| Disasm.SplitAfterWord | src/bytecode/disasm.rs:25-27 | the space written after a word is where the text is cut |
| Disasm.SplitJoin | src/bytecode/disasm.rs:27 | operands joined with single spaces are recovered by cutting at the spaces |
| Disasm.JoinChars | src/bytecode/disasm.rs:27 | joining adds no character but spaces |
| Disasm.TextParses | src/bytecode/disasm.rs:17-33 | the line format is unambiguous: name, operands and constant are all read back from an instruction's text |
| Disasm.SemicolonAt | src/bytecode/disasm.rs:29-31 | the `; ` written before the constant is the first semicolon when the name and operands have none |
| Disasm.Format | src/bytecode/disasm.rs:52-67 | the decode loop writes what the listing function `Listing` says and fails exactly when it does |
| Disasm.ListingStep | src/bytecode/disasm.rs:55-64 | each pass writes the padded line of the instruction in front, then lists the remainder |
| Disasm.ListingOfEncoded | src/bytecode/disasm.rs:52-67 | a stream of encoded instructions lists in full, one line per instruction in order, and formatting succeeds |
| Disasm.ListingFails | src/bytecode/disasm.rs:56 | formatting fails only where a remainder of the bytecode does not decode |
| Disasm.Parse | src/bytecode/disasm.rs:17-33 | reads a line back into name, operands and constant; `TextParses` proves it inverts `Text` |
| Disasm.Line | src/bytecode/disasm.rs:58-64 | the padding, the instruction's text, then a newline; `ListingStep` places one per decoded instruction |
| Disasm.Listing | src/bytecode/disasm.rs:52-67 | the text the disassembly writes and whether it succeeds; `Format` proves the loop computes it, `ListingOfEncoded` and `ListingFails` when it succeeds |
| RegAlloc.Smallest | src/emit/regalloc.rs:111-114 | a non-empty pool has a smallest register, the one the min-heap pops |
| RegAlloc.Allocate | src/emit/regalloc.rs:111-120 | takes the smallest pooled register out of the pool, or, with the pool empty, the next new register and one more in the count |
| RegAlloc.Expire | src/emit/regalloc.rs:122-143 | every active interval that ended before the start leaves the active set and its register joins the pool; every other one stays |
| RegAlloc.ExpireKeeps | src/emit/regalloc.rs:72-74 | expiring before the next interval keeps the scan's invariant: active intervals hold distinct registers that are not in the pool (also lines 122-143) |
| RegAlloc.AllocatedUnheld | src/emit/regalloc.rs:76-120 | the register handed out is held by no active interval and has left the pool |
| RegAlloc.AssignKeeps | src/emit/regalloc.rs:79-85 | giving the next interval that register keeps the invariant, one interval further |
| RegAlloc.ExtendNoShared | src/emit/regalloc.rs:79-85 | a register no still-live earlier interval holds keeps overlapping intervals apart |
| RegAlloc.LinearScan | src/emit/regalloc.rs:58-89 | one physical register per interval, each below the count returned, no more registers than intervals, and no register shared by two intervals that overlap |
| RegAlloc.RegAlloc.constructor | src/emit/regalloc.rs:22-28 | a new allocator has no intervals and starts at event 0 |
| RegAlloc.RegAlloc.Event | src/emit/regalloc.rs:30-34 | hands out the current event and moves one past it |
| RegAlloc.RegAlloc.Access | src/emit/regalloc.rs:36-40 | returns the register's index and moves that interval's end, and only that, to a fresh event |
| RegAlloc.RegAlloc.Alloc | src/emit/regalloc.rs:42-51 | opens the next virtual register as a one-event interval at a fresh event |
| RegAlloc.RegAlloc.Finish | src/emit/regalloc.rs:53-55 | the mapping of the intervals opened onto physical registers, with no register shared by overlapping intervals |
| RegAlloc.AllocInOrder | src/emit/regalloc.rs:42-51 | `alloc` called n times hands out the registers 0 to n-1 in order |
| StmtLabels.BindsAppend | src/emit/stmt.rs:21-25 | the labels bound by code emitted one piece after another are those of the pieces |
| StmtLabels.ClosedAppend | src/emit/stmt.rs:21-25 | two pieces of code, each resolving its jumps into the other and binding different labels, resolve every jump together |
| StmtLabels.ClosedWeaken | src/emit/stmt.rs:206-215 | code resolved against some outside labels stays resolved with more allowed |
| StmtLabels.ClosedSingle | src/emit/stmt.rs:217-245 | a single instruction or binding is resolved when its jump, if any, aims at an allowed label |
| StmtLabels.ClosedStraight | src/emit/stmt.rs:27-47 | code without jumps or bindings is resolved and binds nothing (also lines 255-292) |
| StmtLabels.ClosedStraightThen | src/emit/stmt.rs:175-183 | code without jumps or bindings in front of resolved code leaves it resolved |
| StmtLabels.ClosedThen | src/emit/stmt.rs:21-25 | a resolved piece followed by another, with the earlier piece's labels allowed backwards, is resolved |
| StmtLabels.ClosedCons | src/emit/stmt.rs:180-197 | one item in front of resolved code, aiming at its labels or the allowed ones, keeps it resolved |
| StmtEmit.EmittedAppend | src/emit/stmt.rs:21-25 | statements emitted one after another, each with labels reserved after the previous, resolve every jump together |
| StmtEmit.EmittedStraight | src/emit/stmt.rs:27-47 | straight-line code is emitted code whatever labels were reserved (also lines 255-292) |
| StmtEmit.StoreEach | src/emit/stmt.rs:273-281 | two instructions per printed value |
| StmtEmit.StoreEachAt | src/emit/stmt.rs:269-281 | value k is evaluated and stored into the k-th register allocated, in order |
| StmtEmit.StoreEachStraight | src/emit/stmt.rs:273-281 | the stores of `print` neither jump nor bind |
| StmtEmit.BranchClosed | src/emit/stmt.rs:53-64 | a branch resolves its own `next` label and leaves only its jump to `end` outside |
| StmtEmit.BranchesStep | src/emit/stmt.rs:53-64 | adding a branch keeps the branches emitted so far resolved up to their shared `end` |
| StmtEmit.BranchesSnoc | src/emit/stmt.rs:53-64 | the branches so far, then one more, are the code of the branches one further |
| StmtEmit.BranchesGrow | src/emit/stmt.rs:53-64 | a branch emitted with fresh labels after the earlier branches keeps them resolved |
| StmtEmit.IfClosed | src/emit/stmt.rs:66-74 | binding `end` after the branches and the `else` body resolves every jump to it |
| StmtEmit.LoopTail | src/emit/stmt.rs:185-203 | the jump back to the header then the end label close a loop body whose `break`/`continue` aim at them |
| StmtEmit.IfEmitted | src/emit/stmt.rs:49-75 | an `if` whose `end` was reserved before its branches and `else` is emitted code |
| StmtEmit.WhileClosed | src/emit/stmt.rs:175-190 | a `while` loop resolves every jump of its own and binds its header and end |
| StmtEmit.InfiniteClosed | src/emit/stmt.rs:192-204 | a `loop` resolves every jump of its own and binds its header and end |
| StmtEmit.RangeHeadClosed | src/emit/stmt.rs:89-159 | the head of a range loop resolves its jumps to the body and back to the test; only `end` is left |
| StmtEmit.ForRangeClosed | src/emit/stmt.rs:88-169 | a range loop, `continue` going to the latch, resolves every jump of its own |
| StmtEmit.ForRangeEmitted | src/emit/stmt.rs:88-169 | a range loop with four fresh labels and its body emitted after them is emitted code |
| StmtEmit.Emitter.Reserve | src/emit/stmt.rs:51-92 | each reserved label is new |
| StmtEmit.Emitter.Put | src/emit/stmt.rs:32-39 | emitting appends exactly one item |
| StmtEmit.Emitter.EmitExpr | src/emit/stmt.rs:28 | an expression appends its evaluation and nothing else (also lines 255-257) |
| StmtEmit.Emitter.EnterScope | src/emit/stmt.rs:57 | one scope deeper (also lines 94, 179) |
| StmtEmit.Emitter.LeaveScope | src/emit/stmt.rs:62 | one scope shallower (also lines 168, 189) |
| StmtEmit.Emitter.DeclareLocal | src/emit/stmt.rs:45-99 | the local is added at the current depth with its register |
| StmtEmit.Emitter.DeclareModuleVar | src/emit/stmt.rs:34 | the index of the name among the module's variables, added only when new |
| StmtEmit.Emitter.EnterLoopBody | src/emit/stmt.rs:211 | the loop becomes current and the previous one is handed back |
| StmtEmit.Emitter.LeaveLoopBody | src/emit/stmt.rs:213-214 | the previous loop is restored and the one left is handed back |
| StmtEmit.Emitter.EmitVar | src/emit/stmt.rs:27-47 | at global scope in the root module a `StoreGlobal` of the name; at global scope elsewhere a `StoreModuleVar` of the name's index; otherwise a `Store` to a new register and a new local |
| StmtEmit.Emitter.EmitPrint | src/emit/stmt.rs:261-292 | no value prints nothing, one value prints from the accumulator, more values go to as many new registers in order, then `PrintN` |
| StmtEmit.Emitter.EmitCtrl | src/emit/stmt.rs:217-245 | `return` emits its value or `LoadNone` then `Ret`; `continue` jumps back to the loop header and `break` to the loop end; outside a loop, and for `yield`, it panics |
| StmtEmit.Emitter.EmitStmt | src/emit/stmt.rs:6-19 | a statement panics exactly when it holds a `todo!` kind or a `break`/`continue` outside a loop; otherwise its code resolves every jump within itself or to the enclosing loop |
| StmtEmit.Emitter.EmitStmtList | src/emit/stmt.rs:21-25 | the statements in turn, stopping at the first that panics; the code resolves its jumps as above |
| StmtEmit.Emitter.EmitLoopBody | src/emit/stmt.rs:206-215 | the body is emitted with `break`/`continue` aimed at the given loop, and the enclosing loop is restored |
| StmtEmit.Emitter.EmitLoopHead | src/emit/stmt.rs:176-197 | reserves the header and end, opens a scope and binds the header |
| StmtEmit.Emitter.EmitLoopEnd | src/emit/stmt.rs:186-203 | jumps back to the header, binds the end and closes the scope |
| StmtEmit.Emitter.EmitBranchHead | src/emit/stmt.rs:54-57 | reserves the next branch's label, tests the condition and opens a scope |
| StmtEmit.Emitter.EmitBranchEnd | src/emit/stmt.rs:61-63 | leaves for `end`, closes the scope and binds the next branch's label |
| StmtEmit.Emitter.EmitBranch | src/emit/stmt.rs:53-64 | one branch's code, with its body's labels reserved after its `next` |
| StmtEmit.Emitter.EmitNextBranch | src/emit/stmt.rs:53-64 | one more branch extends the branches so far, still resolved up to `end` |
| StmtEmit.Emitter.EmitBranches | src/emit/stmt.rs:53-64 | all branches in order, each leaving for `end`; it panics exactly when a branch body does |
| StmtEmit.Emitter.EmitElse | src/emit/stmt.rs:66-72 | the `else` body in a scope of its own, or nothing |
| StmtEmit.Emitter.EmitIf | src/emit/stmt.rs:49-75 | the branches, the `else` body, then `end`; every jump lands inside the `if` or on the enclosing loop |
| StmtEmit.Emitter.EmitWhile | src/emit/stmt.rs:175-190 | header, test, exit when false, body, jump back, end; every jump resolved |
| StmtEmit.Emitter.EmitInfinite | src/emit/stmt.rs:192-204 | header, body, jump back, end; every jump resolved |
| StmtEmit.Emitter.EmitRangeInit | src/emit/stmt.rs:96-114 | two new registers, the item declared as a local, the start and end stored in them |
| StmtEmit.Emitter.EmitRangeTest | src/emit/stmt.rs:116-139 | at `cond`, compare the item with the end (`<=` when inclusive, `<` otherwise), leave when false, else enter the body |
| StmtEmit.Emitter.EmitRangeLatch | src/emit/stmt.rs:141-159 | at the latch add 1 to the item and jump back to the test; the body label follows |
| StmtEmit.Emitter.EmitRangeSetup | src/emit/stmt.rs:88-159 | four new labels in order, a scope, and the head of the loop |
| StmtEmit.Emitter.KeepAlive | src/emit/stmt.rs:163-164 | the end and item registers live past the start of every register allocated so far |
| StmtEmit.Emitter.EmitRangeEnd | src/emit/stmt.rs:161-168 | back to the latch, both registers kept alive, `end` bound, scope closed |
| StmtEmit.Emitter.EmitForRange | src/emit/stmt.rs:88-169 | the whole range loop, every jump resolved, and the item and end registers live across the body, so no register allocated in it can share theirs |
| StmtEmit.Emitter.IsGlobalScope | src/emit/stmt.rs:29 | module top-level code outside every block; its definition in src/emit/mod.rs is assumed (see Left out) |
| Vm3Op.Reg.Wide | ex/vm3/src/op.rs:20-24 | widening a register index neither changes nor loses it |
| Vm3Op.Const8.Wide | ex/vm3/src/op.rs:30-34 | widening a one-byte constant index neither changes nor loses it |
| Vm3Op.Const16.Wide | ex/vm3/src/op.rs:30-34 | widening a two-byte constant index neither changes nor loses it |
| Vm3Op.Const24.Wide | ex/vm3/src/op.rs:30-34 | widening a three-byte constant index neither changes nor loses it |
| Vm3Op.Mvar.Wide | ex/vm3/src/op.rs:60-64 | widening a module-variable index neither changes nor loses it |
| Vm3Op.Offset.Wide | ex/vm3/src/op.rs:40-44 | widening a jump offset neither changes nor loses it |
| Vm3Op.Count.Wide | ex/vm3/src/op.rs:50-54 | widening an argument count neither changes nor loses it |
| Vm3Op.Smi.Wide | ex/vm3/src/op.rs:70-74 | widening an immediate to `i32` keeps its sign and value |
| Vm3Op.Split16 | ex/vm3/src/op.rs:76-78 | the two bytes of a 16-bit field read back as the field |
| Vm3Op.SplitI16 | ex/vm3/src/op.rs:76-78 | the two's-complement bytes of a signed immediate read back as the immediate |
| Vm3Op.Split24 | ex/vm3/src/op.rs:4 | the three bytes of a 24-bit field read back as the field (also lines 76-78) |
| Vm3Op.Word.Bytes | ex/vm3/src/op.rs:303 | an instruction is four bytes, its tag first |
| Vm3Op.Decode | ex/vm3/src/op.rs:76-301 | a tag is an instruction exactly when it names one of the 58 variants |
| Vm3Op.DecodeEncode | ex/vm3/src/op.rs:76-303 | four bytes hold every instruction: decoding its bytes gives it back, so no two instructions share an encoding |
| Vm3Op.DecodeEncode0 | ex/vm3/src/op.rs:79-116 | the round trip for the variants `Nop` to `LoadFieldReg` |
| Vm3Op.DecodeEncode1 | ex/vm3/src/op.rs:117-160 | the round trip for the variants `LoadFieldConst` to `LoadTrue` |
| Vm3Op.DecodeEncode2 | ex/vm3/src/op.rs:161-196 | the round trip for the variants `LoadFalse` to `Jump` |
| Vm3Op.DecodeEncode3 | ex/vm3/src/op.rs:197-236 | the round trip for the variants `JumpConst` to `Rem` |
| Vm3Op.DecodeEncode4 | ex/vm3/src/op.rs:237-275 | the round trip for the variants `Pow` to `CmpType` |
| Vm3Op.DecodeEncode5 | ex/vm3/src/op.rs:276-301 | the round trip for the variants `Contains` to `Yld` |
| Vm3Op.Encode | ex/vm3/src/op.rs:76-303 | the four bytes of an instruction, tag first; `DecodeEncode` proves decoding them gives the instruction back |
| Vm3Op.Within | ex/vm3/src/op.rs:76-301 | every register an instruction names is below the register count, every constant and name index is in the pool, every module variable is below the variable count; `CodeInBounds` over it is what `TopLevel` and `EmitModule` ensure |
| Vm3Emit.FindLast | ex/vm3/src/op/emit.rs:222-236 | `rfind`: the last local satisfying the test, none after it satisfies it, and none at all when it finds nothing |
| Vm3Emit.GrowsTrans | ex/vm3/src/op/emit.rs:315-333 | emitting one thing after another never takes back code, constants, module variables, locals or stack space |
| Vm3Emit.LitOp | ex/vm3/src/op/emit.rs:481-495 | the instruction for a small integer, `nil` or a boolean loads exactly the literal's value into `dst`, and names no operand but `dst` |
| Vm3Emit.LitConstLoads | ex/vm3/src/op/emit.rs:477-500 | a float or string literal pooled at the next index is what `load_const` of that index loads |
| Vm3Emit.FunctionState.constructor | ex/vm3/src/op/emit.rs:271-283 | a new function state has no registers in use, scope 0, no locals and an empty builder |
| Vm3Emit.FunctionState.EnterScope | ex/vm3/src/op/emit.rs:111 | one scope deeper, nothing else changed |
| Vm3Emit.FunctionState.LeaveScope | ex/vm3/src/op/emit.rs:113 | one scope shallower, nothing else changed |
| Vm3Emit.FunctionState.AllocReg | ex/vm3/src/op/emit.rs:117-136 | the next register and one more in use, the high-water mark raised to cover it; with 255 in use, the "too many registers" error and nothing changed |
| Vm3Emit.FunctionState.Free | ex/vm3/src/op/emit.rs:138-141 | the register and all after it are free again; the high-water mark stays |
| Vm3Emit.FunctionState.Emit | ex/vm3/src/op/emit.rs:143-147 | appends one instruction and changes nothing else |
| Vm3Emit.FunctionState.AddConstant | ex/vm3/src/op/emit.rs:478-498 | the constant goes at the end of the pool and its index is returned; a full pool is an error that changes nothing |
| Vm3Emit.FunctionState.ResolveLocal | ex/vm3/src/op/emit.rs:222-228 | the register of the most recently declared local of that name, none exactly when there is no such local |
| Vm3Emit.FunctionState.ResolveLocalInScope | ex/vm3/src/op/emit.rs:230-236 | the register of a local of that name declared in that scope, none exactly when there is none |
| Vm3Emit.FunctionState.ResolveVar | ex/vm3/src/op/emit.rs:202-240 | a local first; at the top level a module variable, else a global; inside, the upvalue lookup panics |
| Vm3Emit.FunctionState.DeclareVar | ex/vm3/src/op/emit.rs:159-200 | at the top level a full table is an error; otherwise the name keeps its index or takes the next one, the value is stored there and `reg` freed, and the name then resolves to it; elsewhere a local of this scope, added unless one exists |
| Vm3Emit.FunctionState.DeclareModuleVar | ex/vm3/src/op/emit.rs:163-183 | the top-level arm: the table-full error, or the index reused or added, `SetMvar`, and `reg` freed |
| Vm3Emit.FunctionState.DeclareLocal | ex/vm3/src/op/emit.rs:185-197 | the nested arm: the local is added unless this scope has one of that name, and then resolves |
| Vm3Emit.FunctionState.EmitGetVar | ex/vm3/src/op/emit.rs:443-464 | a local is its own register and emits nothing; a module variable is loaded into `dst` when there is one; an upvalue or a global panics |
| Vm3Emit.FunctionState.LocalBelow | ex/vm3/src/op/emit.rs:117-124 | a local's register is below the high-water mark (also lines 222-228) |
| Vm3Emit.FunctionState.EmitLit | ex/vm3/src/op/emit.rs:466-507 | no destination emits nothing; otherwise the emitted instruction loads the literal's value into `dst`, floats and strings through a new constant; a full pool is an error; a wide integer, a record, a list or a tuple panics |
| Vm3Emit.FunctionState.EmitConstant | ex/vm3/src/op/emit.rs:477-500 | pools the literal's constant and loads it into `dst`, or the pool-full error with nothing changed |
| Vm3Emit.FunctionState.LocalInScopeBelow | ex/vm3/src/op/emit.rs:230-236 | a local's register in a given scope is below the high-water mark |
| Vm3Emit.FunctionState.EmitStmt | ex/vm3/src/op/emit.rs:315-333 | a statement only adds to the function, keeps the scope unless it panics, and a successful `let` declares its name |
| Vm3Emit.FunctionState.EmitStmts | ex/vm3/src/op/emit.rs:285-290 | statements in order up to the first that fails; the function only grows (also lines 425-427) |
| Vm3Emit.FunctionState.EmitLet | ex/vm3/src/op/emit.rs:335-360 | `let` only adds to the function and, when it succeeds, declares its name |
| Vm3Emit.FunctionState.EmitLetInto | ex/vm3/src/op/emit.rs:346-357 | the value into the chosen register, then the declaration |
| Vm3Emit.FunctionState.LetTarget | ex/vm3/src/op/emit.rs:341-344 | this scope's local of that name keeps its register; otherwise a new one |
| Vm3Emit.FunctionState.EmitLetValue | ex/vm3/src/op/emit.rs:346-355 | a value left elsewhere is moved into `dst`; no initialiser loads `none` into it |
| Vm3Emit.FunctionState.FinishTopLevel | ex/vm3/src/op/emit.rs:292-305 | the code ends with `FinalizeModule`, `none` loaded into register 0 and returned, the stack space is at least 1, and every operand of the code exists |
| Vm3Emit.FunctionState.ReturnNone | ex/vm3/src/op/emit.rs:293-296 | every register freed, register 0 taken again, `none` loaded and returned |
| Vm3Emit.FunctionState.EmitReturn | ex/vm3/src/op/emit.rs:295-296 | `none` loaded into the register and returned from it |
| Vm3Emit.FunctionState.EmitExpr | ex/vm3/src/op/emit.rs:395-417 | an expression only adds to the function, keeps the scope unless it panics, and any register it hands back is in the frame |
| Vm3Emit.FunctionState.EmitBlock | ex/vm3/src/op/emit.rs:419-434 | a block's statements and tail one scope deeper; the scope is restored whether it succeeds or fails (also lines 107-115) |
| Vm3Emit.VarsInsert | ex/vm3/src/op/emit.rs:166-181 | a new name takes the next index, so the module's variables stay numbered 0, 1, 2, … |
| Vm3Emit.TopLevel | ex/vm3/src/op/emit.rs:266-313 | every register the module code names fits its stack space, every constant is in its pool, every module variable is declared, and it ends by returning `none` |
| Vm3Emit.ModuleVarCount | ex/vm3/src/op/emit.rs:262 | the count given to the module descriptor covers every declared index |
| Vm3Emit.ModuleVarCountWraps | ex/vm3/src/op/emit.rs:262 | with 65536 module variables, which `declare_var` accepts, `len() as u16` is 0 while some name holds index 65535 (also line 167) |
| Vm3Emit.EmitModule | ex/vm3/src/op/emit.rs:243-264 | the descriptor has the module's name, and its code refers only to variables within its count; it is the corrected descriptor, whose count is `ModuleVarCount` rather than the wrapping `vars.len() as u16` (see Findings) |
| Vm3Func.BoundAt | ex/vm3/src/obj/func.rs:72-78 | the labels bound at an offset: empty exactly when nothing was bound there, and each one was bound there |
| Vm3Func.LastReference | ex/vm3/src/obj/func.rs:68-70 | the label the last reference from a jump named; none exactly when that jump never referred to one |
| Vm3Func.RecordsIndexed | ex/vm3/src/obj/func.rs:113-126 | every index the finished map holds names a reserved label, so the lookups never index out of range |
| Vm3Func.ByOffsetBound | ex/vm3/src/obj/func.rs:113-119 | `by_offset` finds nothing exactly when no label was bound at the offset, and otherwise yields the labels bound there, in the order they were bound |
| Vm3Func.ByReferrerLast | ex/vm3/src/obj/func.rs:121-126 | `by_referrer` finds nothing exactly when no jump at that offset referred to a label, and otherwise yields the label of its last `on_emit` |
| Vm3Func.BoundAtSnoc | ex/vm3/src/obj/func.rs:72-78 | one more binding goes at the end of its offset's list and changes no other list |
| Vm3Func.LastReferenceSnoc | ex/vm3/src/obj/func.rs:68-70 | one more reference replaces that jump's label and leaves every other jump alone |
| Vm3Func.LabelMapBuilder.constructor | ex/vm3/src/obj/func.rs:52-59 | no labels, nothing bound, nothing referred to |
| Vm3Func.LabelMapBuilder.ReserveLabel | ex/vm3/src/obj/func.rs:61-66 | the new label is numbered by how many came before it and appended; nothing else changes |
| Vm3Func.LabelMapBuilder.OnEmit | ex/vm3/src/obj/func.rs:68-70 | the jump now refers to the label, replacing any earlier entry; nothing else changes |
| Vm3Func.LabelMapBuilder.OnBind | ex/vm3/src/obj/func.rs:72-78 | the label is appended to its offset's list, a new list when there was none; nothing else changes |
| Vm3Func.LabelMapBuilder.Finish | ex/vm3/src/obj/func.rs:80-103 | the finished map has the same labels, offset lists and referrer entries, and records every binding and reference made |
| Vm3Func.LabelMapBuilder.CopyOffsets | ex/vm3/src/obj/func.rs:83-89 | every offset list is moved into the new table, unchanged |
| Vm3Func.LabelMapBuilder.CopyReferrers | ex/vm3/src/obj/func.rs:91-96 | every referrer entry is moved into the new table, unchanged |
| Vm3Func.BindRecords | ex/vm3/src/obj/func.rs:72-78 | what `on_bind` does keeps the map a record of the bindings, one longer |
| Vm3Func.BindOffsets | ex/vm3/src/obj/func.rs:73-77 | appending under the offset keeps the offset table a record of the bindings, one longer |
| Vm3Func.ReferRecords | ex/vm3/src/obj/func.rs:68-70 | what `on_emit` does keeps the map a record of the references, one longer |
| Vm3Func.ReferReferrers | ex/vm3/src/obj/func.rs:69 | the updated referrer table is a record of the references, one longer |
| Vm3Func.RFind | ex/vm3/src/obj/func.rs:419 | the position of the last newline before the span, or none when there is none |
| Vm3Func.Find | ex/vm3/src/obj/func.rs:420-422 | the position of the first newline after the span, or none when there is none |
| Vm3Func.FindLine | ex/vm3/src/obj/func.rs:418-428 | the line holds the span; it starts at the last newline before the span or at 0 when there is none, and ends at the first newline at or after the span's end or at the end of the source |
| Vm3Func.RFindPastEnd | ex/vm3/src/obj/func.rs:419 | text without a newline after the last one does not move it |
| Vm3Func.FindPastStart | ex/vm3/src/obj/func.rs:420-422 | text without a newline in front of the first one only shifts it |
| Vm3Func.SameLineStart | ex/vm3/src/obj/func.rs:418-428 | spans starting on the same line find the same line start |
| Vm3Func.SameLineEnd | ex/vm3/src/obj/func.rs:418-428 | spans ending on the same line find the same line end |
| Vm3Func.RemainderTo | ex/vm3/src/obj/func.rs:430-436 | the padding brings a column of width `v` up to `n`, and is zero when it is already that wide |
| Vm3Func.Utf8Len | ex/vm3/src/obj/func.rs:442 | a text's byte length is between its character count and four times it |
| Vm3Func.Utf8LenAppend | ex/vm3/src/obj/func.rs:442 | byte lengths add up over concatenation |
| Vm3Func.ConcatNext | ex/vm3/src/obj/func.rs:441-443 | one more piece written adds its text and its bytes |
| Vm3Func.ProxyFmt.constructor | ex/vm3/src/obj/func.rs:438 | a new proxy over the writer has counted 0 bytes |
| Vm3Func.ProxyFmt.WriteStr | ex/vm3/src/obj/func.rs:440-445 | the bytes of the string are counted whether or not the wrapped writer takes it, and the result is the wrapped writer's |
| Vm3Func.ProxyFmt.WriteAll | ex/vm3/src/obj/func.rs:438-451 | a formatted write sends its pieces in order until one is refused; the count covers every piece sent, the refused one included |
| Repl.Leading | crates/cli/src/repl.rs:94-102 | how many characters at the front pass the test: all of those do, and the next does not |
| Repl.Trailing | crates/cli/src/repl.rs:94-106 | how many characters at the back pass the test: all of those do, and the one before does not |
| Repl.LastLine | crates/cli/src/repl.rs:108-116 | the text after the last line break, or all of it: a suffix with no line break, preceded by one when shorter |
| Repl.EmptyIsBlank | crates/cli/src/repl.rs:94-96 | a line is empty after trimming exactly when every character is white space |
| Repl.IndentedLine | crates/cli/src/repl.rs:98-106 | on a single line, indented means the first character is ASCII white space, and opening a block means the last is `:` |
| Repl.ContinuesBlock | crates/cli/src/repl.rs:108-113 | a multi-line input whose last line is not blank and opens a block or is indented is incomplete, whatever the parser says |
| Repl.SingleLineBlock | crates/cli/src/repl.rs:104-116 | a single line ending in `:` opens a block and is never parsed |
| Repl.BlankLineSubmits | crates/cli/src/repl.rs:108-127 | a blank last line hands the input to the parser: complete when it parses, otherwise its error reports |
| Repl.TrimPadded | crates/cli/src/repl.rs:72 | trimming removes exactly the white space around a text that does not start or end with it |
| Repl.Repl.constructor | crates/cli/src/repl.rs:12-15 | bytecode printing starts off |
| Repl.Repl.TryCmd | crates/cli/src/repl.rs:71-79 | the input is consumed exactly when, trimmed, it is `.print_bytecode`, and then bytecode printing is on; any other input changes nothing |
| Repl.PaddedCommand | crates/cli/src/repl.rs:71-79 | the command is recognised with any white space around it |
| Repl.IsEmpty | crates/cli/src/repl.rs:94-96 | a line is empty when trimming leaves nothing; `EmptyIsBlank` proves this is exactly "every character is white space" |
| Repl.IsIndented | crates/cli/src/repl.rs:98-102 | past any leading line breaks the line starts with ASCII white space; `IndentedLine` reduces it to the first character on a single line |
| Repl.BeginsBlock | crates/cli/src/repl.rs:104-106 | before any trailing line breaks the line ends with `:`; `IndentedLine` reduces it to the last character on a single line |
| Repl.Validate | crates/cli/src/repl.rs:91-127 | "incomplete" only for a last line that is not blank and is indented or opens a block; "complete" only when the parser accepts the input; an error only when the parser rejects it, and then it is its reports one after the other |

## Left out

- Output is not modelled:
  - `op_print` and `op_print_list` (crates/vm/src/lib.rs:709-749)
  - the `println!` tracing in the dispatch loop
  - the REPL's rustyline read loop and `eval` (crates/cli/src/repl.rs:42-69, 81-89)
- Unsafe pointer machinery is replaced by addresses into a map:
  - `offset_of!`
  - the `Any` vtable reconstruction and the transmutes
  - the raw refcounting in `Value::clone`/`drop`
- The dispatch loop's `ip` pointer arithmetic is modelled as indices into the bytecode.
- Float arithmetic is not modelled: floats are kept as bit patterns, and the only float operation modelled is negation, which flips the sign bit. The Unicode `upper`/`lower` of strings are not modelled either.
- Isolate.Isolate.UnaryMinus: negating the least i32 is modelled as the panic a debug build raises on overflow. A release build would wrap it to the least i32 again.
- The "cannot set field" and "cannot get field" errors carry the key but not the receiver, because formatting a value for display is not modelled. The source's messages also name the receiver (src/isolate/field.rs:15-17, 32-34).
- The `Access` trait's default methods are defined in a file that is not part of this model. The model assumes the following defaults for every object kind that does not override them, and the `Objects` rows rely on these assumptions:
  - `field_get` finds nothing
  - `field_set` refuses with "cannot set field"
  - `is_frozen` is true, except that a dictionary is never frozen (otherwise indexing could never add a key, crates/runtime/src/isolate/index.rs:7)
  - `should_bind_methods` is true
  - indexing works only on dictionaries
- `Import` carries two operands, the path constant and the destination register, following the encoding test (src/bytecode/opcode/tests.rs:22-37, 50-53). The dispatch loop as written reads only the path (src/vm/dispatch.rs:439-440). The model follows the encoding test.
- Vm3Emit.FunctionState.AddConstant: the constant builder is not part of this model. The model assumes the builder appends every constant without merging duplicates, and allows at most 65536 constants.
- The `Isolate` methods require the register, constant and capture indices they are given to be in range. The source panics on an out-of-range index, and the capture accessors fail an `expect`. These panics are not modelled.
- Isolate.Isolate.CreateClosure: requires the constant to be a function descriptor. The source hands any constant to `Closure::new`, which is not part of this model, so what happens with any other constant is not modelled.
- Isolate.Isolate.CaptureReg: requires the accumulator to hold a closure with the slot in range. The source panics otherwise, and that panic is not modelled.
- Isolate.Isolate.CaptureSlot: requires the accumulator to hold a closure with the slot in range. The source panics otherwise, and that panic is not modelled.
- The following are not part of this model; the model takes them as parameters:
  - the `binop`, `cmp`, `truth` and `call` modules of the `crates/vm` interpreter
  - the parser used by the REPL
- Objects.IsFnLike: `Value::is_function` and `Value::is_method` are defined in files that are not part of this model. The model assumes that functions, closures, bound methods and native class methods are the function-like values.
- Isolate.KeyOf: `dict::Key::try_from` is defined in files that are not part of this model. The model assumes that integers and string objects are the only keys, and that converting any other value fails.
- The `Dict` type is not part of this model. Dictionaries are Dafny maps, so their insertion order is not modelled.
- The bytecode builder, the `patch_registers` implementation, `symbolic::decode` and the `read_opcode!`/`read_operands!` macros are not part of this model. The encoding is the model's own: it follows the contract of the register-patching test, but the numeric value of each opcode is the model's own numbering.
- Dispatch.Exec: a `JumpLoop` whose offset reaches before the bytecode stops the model with a panic. The handler's unchecked pointer subtraction (src/vm/dispatch.rs:255-262) would leave the bytecode there, which is undefined behaviour rather than a panic.
- Dispatch.ExecResetsWidth: the macros are not part of this model. The model assumes the operand width goes back to `Normal` after each instruction, so a prefix governs exactly the instruction it precedes.
- Dispatch.Dispatch: the step budget `fuel` bounds the passes of the inner loop. A run that would go on forever ends as `OutOfFuel`.
- The `Function`/`Method`/`InitFn` trait objects of native classes, and `bind`/`unbind`, are not modelled. Getters, setters and methods are opaque callers.
- The `unimplemented!()` handlers are left out: `op_call`, `op_call_kw`, the parameter checks and `op_ret` (crates/vm/src/lib.rs:751-773).
- `todo!()` branches are modelled as panics or as the outcome `Todo`, not as behaviour:
  - in src/emit/stmt.rs: iterator loops, functions, classes, imports and `yield`
  - in ex/vm3/src/op/emit.rs: `loop_`, `break_`, `continue_`, `return_`, `func`, upvalues, most expression kinds and wide integers
- The vm3 emitter calls `load_nil`, which op.rs does not define. It is modelled as the `LoadNone` instruction of ex/vm3/src/op.rs.
- The vm3 `Code` handed over by `top_level` keeps its stack space, instructions and pool. The source locations are dropped.
- Allocation failures (`AllocError`) of the vm3 descriptors and of `LabelMapBuilder::finish` are not modelled, and neither is string interning in `lit`.
- Vm3Emit.FunctionState.Emit: requires the instruction's operands to exist (registers below the high-water mark, constants in the pool, module variables declared). The builder's own checks are not part of this model. A `Call`'s argument registers beyond the callee are not checked.
- Vm3Emit.FunctionState.EmitStmt: states only the following, not the exact instructions it emits:
  - the function only grows
  - the scope is kept
  - a successful `let` declares its name
- Vm3Emit.FunctionState.EmitExpr: states only that the function grows, the scope is kept and a returned register is in the frame.
- Vm3Emit.TopLevel: states bounds and the final return, not the full instruction sequence.
- Vm3Func.FindLine: positions are character indices rather than UTF-8 byte offsets. The `as u32` truncation of the result is not modelled. A span past the end of the source is excluded: the source panics there when it slices.
- Vm3Func.ProxyFmt.WriteStr: the wrapped writer is taken to accept a whole string or fail, given as a parameter.
- Vm3Func.LabelMapBuilder.OnEmit: requires a label reserved by this builder. The source does not check this, and a foreign label would make the lookups index out of range.
- Vm3Func.LabelMapBuilder.OnBind: requires a label reserved by this builder, for the same reason.
- The vm3 `Disasm::fmt` mnemonic table is not modelled (ex/vm3/src/obj/func.rs:251-416): it is pretty-printing only.
- RegAlloc.LinearScan: requires the intervals in the order `alloc` creates them, each starting no earlier than the previous one. The defensive sort by start (src/emit/regalloc.rs:68-69) is therefore not modelled, and neither is the unused `preserve` field.
- Encoding.PatchRegisters: requires that every register operand has a new name that fits the width its instruction was emitted at. What the implementation does otherwise is not part of this model.
- StmtEmit.Emitter.LeaveScope: only the depth changes. Dropping the scope's locals happens in the emitter's scope code in src/emit/mod.rs, which is not part of this model.
- StmtEmit.Emitter.IsGlobalScope, StmtEmit.Emitter.DeclareModuleVar and StmtEmit.Emitter.DeclareLocal: the global-scope test, the assignment of module-variable indices and the declaration of locals are defined in src/emit/mod.rs, which is not part of this model. Their behaviour is assumed from how src/emit/stmt.rs uses them.
- The emitter state's construction is in src/emit/mod.rs, which is not part of this model.
- `Call::Poll` and `AsyncFrame` are kept only as an opaque frame number. The async test harness is not modelled.
- The snapshot tests (crates/syntax/src/parser/tests.rs, crates/vm/tests/simple.rs) are not modelled: they compare printed output against recorded snapshots.
- The generated constructors of ex/vm3/src/op/asm.rs are replaced by the `Op` constructors. The thin map wrapper of src/object/table.rs is not modelled.

## Findings

| source | as written | input that shows it | evidently intended | confidence | as-written member | corrected member |
|---|---|---|---|---|---|---|
| crates/vm/src/lib.rs:580-587 | `op_unary_not` stores the accumulator's truthiness, not its negation | accumulator `true`: after `not` it is still `true` | the accumulator becomes the negated truthiness | not executed; the code is unambiguous, and the TODO only mentions overloading | Isolate.NotAsWrittenDoesNotNegate | Isolate.NotNegates |
| ex/vm3/src/op/emit.rs:262 | the module descriptor gets `vars.len() as u16`, but `declare_var` (lines 166-181) accepts a 65536th variable | a module declaring 65536 distinct top-level names: the count wraps to 0 and variable 65535 lies outside it | a count that covers every declared index (or a table limited to 65535 names) | not executed | Vm3Emit.ModuleVarCountWraps | Vm3Emit.ModuleVarCount |

=== FILE: class_object.dfy ===
/**
 * Classes with single inheritance (crates/runtime/src/value/object/class.rs):
 * the descriptor the compiler emits, the class definition built from it at
 * run time, instances, the `super` proxy and bound methods. Dictionaries are
 * maps; their insertion order is not modelled.
 */
module ClassObject {
  import opened Wrappers
  import opened Values

  /** What the compiler knows about a class: name, whether it has a parent, method and field names. */
  datatype ClassDesc = ClassDesc(name: string, isDerived: bool, methods: seq<string>, fields: seq<string>)

  /** A class definition: methods and field defaults, own entries merged over the parent's. */
  datatype ClassDef = ClassDef(name: string, methods: map<string, Value>, fields: map<string, Value>, parent: Option<Addr>)

  /** An instance: one field table holding field values and methods. */
  datatype Class = Class(name: string, fields: map<Key, Value>, parent: Option<Addr>, isFrozen: bool)

  /** `super`: the instance seen through its parent definition. */
  datatype Proxy = Proxy(instance: Addr, parent: Addr)

  /** A function bound to a receiver. */
  datatype Method = Method(receiver: Value, func: Value)

  function ParentSlots(desc: ClassDesc): nat {
    if desc.isDerived then 1 else 0
  }

  /** The number of arguments `ClassDef::new` asserts it is given. */
  function ArgCount(desc: ClassDesc): nat {
    ParentSlots(desc) + |desc.methods| + |desc.fields|
  }

  /** The map left by inserting `names[i] := vals[i]` for each i in order; a later name overwrites. */
  function Zip(names: seq<string>, vals: seq<Value>): map<string, Value>
    requires |names| <= |vals|
  {
    if |names| == 0 then map[]
    else Zip(names[..|names| - 1], vals)[names[|names| - 1] := vals[|names| - 1]]
  }

  /** `i` is the last position at which `names[i]` occurs. */
  ghost predicate LastOccurrence(names: seq<string>, i: int)
    requires 0 <= i < |names|
  {
    forall j :: i < j < |names| ==> names[j] != names[i]
  }

  lemma {:induction false} ZipKeys(names: seq<string>, vals: seq<Value>)
    requires |names| <= |vals|
    ensures forall k :: k in Zip(names, vals) <==> k in names
  {
    if |names| > 0 {
      var n := |names| - 1;
      ZipKeys(names[..n], vals);
      assert names == names[..n] + [names[n]];
    }
  }

  lemma {:induction false} ZipValues(names: seq<string>, vals: seq<Value>)
    requires |names| <= |vals|
    ensures forall i :: 0 <= i < |names| && LastOccurrence(names, i) ==>
      names[i] in Zip(names, vals) && Zip(names, vals)[names[i]] == vals[i]
  {
    if |names| > 0 {
      var n := |names| - 1;
      ZipValues(names[..n], vals);
      forall i | 0 <= i < |names| && LastOccurrence(names, i)
        ensures names[i] in Zip(names, vals) && Zip(names, vals)[names[i]] == vals[i]
      {
        if i < n {
          assert names[..n][i] == names[i];
          assert LastOccurrence(names[..n], i);
        }
      }
    }
  }

  /**
   * `for (k, v) in from { m.entry(k).or_insert(v) }`: entries of `from` are
   * added only under names `own` does not already hold.
   */
  method OrInsertAll<K, V>(own: map<K, V>, from: map<K, V>) returns (m: map<K, V>)
    ensures forall k :: k in m <==> k in own || k in from
    ensures forall k :: k in own ==> m[k] == own[k]
    ensures forall k :: k in from && k !in own ==> m[k] == from[k]
  {
    m := own;
    var todo := from.Keys;
    while todo != {}
      invariant todo <= from.Keys
      invariant forall k :: k in m <==> k in own || (k in from && k !in todo)
      invariant forall k :: k in own ==> m[k] == own[k]
      invariant forall k :: k in m && k !in own ==> m[k] == from[k]
      decreases todo
    {
      var k :| k in todo;
      if k !in m {
        m := m[k := from[k]];
      }
      todo := todo - {k};
    }
  }

  /** `for (k, v) in names.iter().zip(vals) { m.insert(k, v) }` into an empty table. */
  method InsertZipped(names: seq<string>, vals: seq<Value>) returns (m: map<string, Value>)
    requires |names| <= |vals|
    ensures forall k :: k in m <==> k in names
    ensures forall i :: 0 <= i < |names| && LastOccurrence(names, i) ==> names[i] in m && m[names[i]] == vals[i]
  {
    m := map[];
    var i := 0;
    while i < |names|
      invariant 0 <= i <= |names|
      invariant m == Zip(names[..i], vals)
    {
      assert names[..i + 1][..i] == names[..i];
      m := m[names[i] := vals[i]];
      i := i + 1;
    }
    assert names[..i] == names;
    ZipKeys(names, vals);
    ZipValues(names, vals);
  }

  /** The parent's tables when the descriptor is derived, nothing otherwise. */
  function Inherited(desc: ClassDesc, parentDef: Option<ClassDef>): ClassDef {
    if desc.isDerived && parentDef.Some? then parentDef.value else ClassDef("", map[], map[], None)
  }

  /**
   * `m` is the table built from `names` bound to `vals` (a later duplicate
   * name wins) with `inherited` entries kept only under names not already
   * present.
   */
  ghost predicate Merged(m: map<string, Value>, names: seq<string>, vals: seq<Value>, inherited: map<string, Value>)
    requires |names| <= |vals|
  {
    && (forall k :: k in m <==> k in names || k in inherited)
    && (forall i :: 0 <= i < |names| && LastOccurrence(names, i) ==> names[i] in m && m[names[i]] == vals[i])
    && (forall k :: k in inherited && k !in names ==> k in m && m[k] == inherited[k])
  }

  /** One table of `ClassDef::new`: the zip loop, then the inheriting loop when there is a parent. */
  method BuildTable(names: seq<string>, vals: seq<Value>, hasParent: bool, inherited: map<string, Value>)
    returns (m: map<string, Value>)
    requires |names| <= |vals|
    requires !hasParent ==> inherited == map[]
    ensures Merged(m, names, vals, inherited)
  {
    m := InsertZipped(names, vals);
    if hasParent {
      m := OrInsertAll(m, inherited);
    }
  }

  /** The panic messages of `ClassDef::new`: the argument count assertion and the parent's unwrap. */
  const ArgCountFailed := "assertion failed: args.len() >= desc.is_derived() as usize + desc.methods().len() + desc.fields().len()"
  const UnwrapNone := "called `Option::unwrap()` on a `None` value"

  /**
   * `ClassDef::new(desc, args)`. The arguments are laid out as the parent
   * (when derived), one value per method, one value per field. `parentDef`
   * is the class definition `args[0]` refers to, if it refers to one; the
   * source unwraps that cast and panics otherwise.
   */
  method NewClassDef(desc: ClassDesc, args: seq<Value>, parentDef: Option<ClassDef>) returns (r: Result<ClassDef, Error>)
    ensures r.Err? <==> |args| < ArgCount(desc) || (desc.isDerived && (!args[0].Obj? || parentDef.None?))
    ensures r.Err? ==> r.error.Panic?
    ensures r.Ok? ==> r.value.name == desc.name
    ensures r.Ok? ==> (r.value.parent.Some? <==> desc.isDerived)
    ensures r.Ok? && desc.isDerived ==> r.value.parent == Some(args[0].addr)
    ensures r.Ok? ==> Merged(r.value.methods, desc.methods, args[ParentSlots(desc)..], Inherited(desc, parentDef).methods)
    ensures r.Ok? ==> Merged(r.value.fields, desc.fields, args[ParentSlots(desc) + |desc.methods|..], Inherited(desc, parentDef).fields)
  {
    if |args| < ArgCount(desc) {
      return Err(Panic(ArgCountFailed));
    }
    if desc.isDerived && (!args[0].Obj? || parentDef.None?) {
      return Err(Panic(UnwrapNone));
    }
    var def := AssembleClassDef(desc, args, parentDef);
    r := Ok(def);
  }

  /** The checks of `ClassDef::new` passed: the parent, then the two tables. */
  method AssembleClassDef(desc: ClassDesc, args: seq<Value>, parentDef: Option<ClassDef>) returns (def: ClassDef)
    requires |args| >= ArgCount(desc)
    requires desc.isDerived ==> args[0].Obj? && parentDef.Some?
    ensures def.name == desc.name
    ensures def.parent.Some? <==> desc.isDerived
    ensures desc.isDerived ==> def.parent == Some(args[0].addr)
    ensures Merged(def.methods, desc.methods, args[ParentSlots(desc)..], Inherited(desc, parentDef).methods)
    ensures Merged(def.fields, desc.fields, args[ParentSlots(desc) + |desc.methods|..], Inherited(desc, parentDef).fields)
  {
    var parent: Option<Addr> := None;
    if desc.isDerived {
      parent := Some(args[0].addr);
    }
    var methodsOffset := ParentSlots(desc);
    var fieldsOffset := methodsOffset + |desc.methods|;
    var inherited := Inherited(desc, parentDef);
    var methods := BuildTable(desc.methods, args[methodsOffset..], parent.Some?, inherited.methods);
    var fields := BuildTable(desc.fields, args[fieldsOffset..], parent.Some?, inherited.fields);
    def := ClassDef(desc.name, methods, fields, parent);
  }

  /** `for (k, v) in src { into.insert(k, v) }`: entries of `src` overwrite, under string keys. */
  method InsertAll(into: map<Key, Value>, src: map<string, Value>) returns (m: map<Key, Value>)
    ensures forall k :: k in m <==> k in into || (k.StrKey? && k.s in src)
    ensures forall s :: s in src ==> m[StrKey(s)] == src[s]
    ensures forall k :: k in into && !(k.StrKey? && k.s in src) ==> m[k] == into[k]
  {
    m := into;
    var todo := src.Keys;
    while todo != {}
      invariant todo <= src.Keys
      invariant forall k :: k in m <==> k in into || (k.StrKey? && k.s in src && k.s !in todo)
      invariant forall s :: s in src && s !in todo ==> m[StrKey(s)] == src[s]
      invariant forall k :: k in into && !(k.StrKey? && k.s in src && k.s !in todo) ==> m[k] == into[k]
      decreases todo
    {
      var s :| s in todo;
      m := m[StrKey(s) := src[s]];
      todo := todo - {s};
    }
  }

  /**
   * `ClassDef::instance`: field defaults are inserted first and methods
   * second, so a method wins over a field of the same name. The instance
   * keeps the definition's name and parent and starts unfrozen.
   */
  method Instance(def: ClassDef) returns (c: Class)
    ensures c.name == def.name && c.parent == def.parent && !c.isFrozen
    ensures forall k :: k in c.fields <==> k.StrKey? && (k.s in def.fields || k.s in def.methods)
    ensures forall s :: s in def.methods ==> c.fields[StrKey(s)] == def.methods[s]
    ensures forall s :: s in def.fields && s !in def.methods ==> c.fields[StrKey(s)] == def.fields[s]
  {
    var fields := InsertAll(map[], def.fields);
    fields := InsertAll(fields, def.methods);
    c := Class(def.name, fields, def.parent, false);
  }

  /** `Class::get`. */
  function ClassGet(c: Class, key: Key): Option<Value> {
    if key in c.fields then Some(c.fields[key]) else None
  }

  /** `Class::insert`: the new table maps `key` to `v`; the previous entry is returned. */
  function ClassInsert(c: Class, key: Key, v: Value): (r: (Class, Option<Value>))
    ensures ClassGet(r.0, key) == Some(v)
    ensures forall k :: k != key ==> ClassGet(r.0, k) == ClassGet(c, k)
    ensures r.1 == ClassGet(c, key)
    ensures r.0.name == c.name && r.0.parent == c.parent && r.0.isFrozen == c.isFrozen
  {
    (c.(fields := c.fields[key := v]), ClassGet(c, key))
  }

  /** `Class::freeze`: only the frozen flag changes. */
  function Freeze(c: Class): (r: Class)
    ensures r.isFrozen && r.fields == c.fields && r.name == c.name && r.parent == c.parent
  {
    c.(isFrozen := true)
  }

  /** `Access::field_get` of an instance: a lookup of any key kind. */
  function ClassFieldGet(c: Class, key: Key): (r: Result<Option<Value>, Error>)
    ensures r.Ok? && (r.value.Some? <==> key in c.fields)
    ensures r.Ok? && key in c.fields ==> r.value.value == c.fields[key]
  {
    Ok(ClassGet(c, key))
  }

  /** `Access::field_set` of an instance: inserts whether or not the instance is frozen. */
  function ClassFieldSet(c: Class, key: Key, v: Value): (r: Result<Class, Error>)
    ensures r.Ok? && ClassGet(r.value, key) == Some(v)
    ensures r.Ok? ==> forall k :: k != key ==> ClassGet(r.value, k) == ClassGet(c, k)
    ensures r.Ok? ==> r.value.isFrozen == c.isFrozen && r.value.name == c.name && r.value.parent == c.parent
  {
    Ok(ClassInsert(c, key, v).0)
  }

  /** `Access::field_get` of a class definition: methods only, never field defaults or integer keys. */
  function ClassDefFieldGet(def: ClassDef, key: Key): (r: Result<Option<Value>, Error>)
    ensures r.Ok?
    ensures key.IntKey? ==> r.value.None?
    ensures key.StrKey? ==> (r.value.Some? <==> key.s in def.methods)
    ensures key.StrKey? && key.s in def.methods ==> r.value == Some(def.methods[key.s])
  {
    match key
    case IntKey(_) => Ok(None)
    case StrKey(s) => Ok(if s in def.methods then Some(def.methods[s]) else None)
  }

  /** `Access::field_get` of a proxy: the lookup goes to the parent definition `parentDef`. */
  function ProxyFieldGet(p: Proxy, parentDef: ClassDef, key: Key): (r: Result<Option<Value>, Error>)
    ensures r.Ok? && (r.value.Some? <==> key.StrKey? && key.s in parentDef.methods)
    ensures r.Ok? && key.StrKey? && key.s in parentDef.methods ==> r.value == Some(parentDef.methods[key.s])
  {
    ClassDefFieldGet(parentDef, key)
  }

  /** Freezing does not stop `field_set`: the frozen check belongs to the generic field rules. */
  lemma FrozenInstanceAcceptsFieldSet(c: Class, key: Key, v: Value)
    ensures ClassFieldSet(Freeze(c), key, v).Ok?
    ensures ClassFieldGet(ClassFieldSet(Freeze(c), key, v).value, key) == Ok(Some(v))
    ensures ClassFieldSet(Freeze(c), key, v).value.isFrozen
  {
  }
}

=== FILE: disasm.dfy ===
/**
 * The text form of bytecode (src/bytecode/disasm.rs).
 *
 * An instruction is shown as its name, then its operands separated by
 * single spaces, then `; ` and its constant when it refers to one. A
 * listing decodes the bytecode instruction by instruction and writes one
 * line per instruction, indented by `padding` spaces; a byte sequence that
 * does not decode stops the listing with a formatting error.
 *
 * What each instruction's parts are (`Disassemble::disassemble`) is given
 * by the caller as a function; operands and constants appear here as the
 * text their `Display` produces.
 */
module Disasm {
  import opened Wrappers
  import opened Encoding

  /** `disasm::Instruction`: a name, the text of each operand, and the text of the constant, if any. */
  datatype Instruction = Instruction(name: string, operands: seq<string>, constant: Option<string>)

  /** `operands.iter().join(" ")`. */
  function Join(parts: seq<string>): string {
    if |parts| == 0 then ""
    else if |parts| == 1 then parts[0]
    else parts[0] + " " + Join(parts[1..])
  }

  /** `Instruction::fmt`. */
  function Text(ins: Instruction): (r: string)
    ensures |ins.name| <= |r| && r[..|ins.name|] == ins.name
    ensures |ins.operands| == 0 && ins.constant.None? ==> r == ins.name
  {
    ins.name
      + (if |ins.operands| == 0 then "" else " " + Join(ins.operands))
      + (match ins.constant case None => "" case Some(c) => "; " + c)
  }

  /** Cut a text at every space. */
  function Split(s: string): (r: seq<string>)
    ensures |r| >= 1
  {
    if |s| == 0 then [""]
    else
      var rest := Split(s[1..]);
      if s[0] == ' ' then [""] + rest else [[s[0]] + rest[0]] + rest[1..]
  }

  /** The first `;` in `s`, if there is one. */
  function Semicolon(s: string): (r: Option<nat>)
    ensures r.Some? ==> r.value < |s| && s[r.value] == ';' && ';' !in s[..r.value]
    ensures r.None? ==> ';' !in s
  {
    if |s| == 0 then None
    else if s[0] == ';' then Some(0)
    else match Semicolon(s[1..])
      case None => None
      case Some(k) => Some(k + 1)
  }

  /** Read a line of `Text` back: words before the first `;`, and what follows `; ` as the constant. */
  function Parse(s: string): Option<Instruction> {
    match Semicolon(s)
    case None =>
      var words := Split(s);
      Some(Instruction(words[0], words[1..], None))
    case Some(k) =>
      if k + 1 < |s| && s[k + 1] == ' ' then
        var words := Split(s[..k]);
        Some(Instruction(words[0], words[1..], Some(s[k + 2..])))
      else None
  }

  /** A word that `Text` cannot run together with its neighbours. */
  predicate Plain(w: string) {
    ' ' !in w && ';' !in w
  }

  /** A word without spaces is one piece. */
  lemma {:induction false} SplitWord(a: string)
    requires ' ' !in a
    ensures Split(a) == [a]
  {
    if |a| > 0 {
      assert ' ' !in a[1..] by {
        forall c | c in a[1..] ensures c != ' ' {
          assert c in a;
        }
      }
      SplitWord(a[1..]);
      assert [a[0]] + a[1..] == a;
    }
  }

  /** Splitting after a word without spaces cuts exactly at the space that follows it. */
  lemma {:induction false} SplitAfterWord(a: string, b: string)
    requires ' ' !in a
    ensures Split(a + " " + b) == [a] + Split(b)
  {
    if |a| == 0 {
      assert a + " " + b == [' '] + b;
      assert (a + " " + b)[1..] == b;
    } else {
      assert ' ' !in a[1..] by {
        forall c | c in a[1..] ensures c != ' ' {
          assert c in a;
        }
      }
      assert (a + " " + b)[1..] == a[1..] + " " + b;
      SplitAfterWord(a[1..], b);
      assert [a[0]] + a[1..] == a;
    }
  }

  /** Joining words without spaces and cutting at spaces gives the words back. */
  lemma {:induction false} SplitJoin(parts: seq<string>)
    requires |parts| >= 1
    requires forall k :: 0 <= k < |parts| ==> ' ' !in parts[k]
    ensures Split(Join(parts)) == parts
  {
    if |parts| == 1 {
      SplitWord(parts[0]);
    } else {
      SplitAfterWord(parts[0], Join(parts[1..]));
      SplitJoin(parts[1..]);
    }
  }

  /** `Join` brings in no character but the spaces between the parts. */
  lemma {:induction false} JoinChars(parts: seq<string>, c: char)
    requires c != ' ' && forall k :: 0 <= k < |parts| ==> c !in parts[k]
    ensures c !in Join(parts)
  {
    if |parts| > 1 {
      JoinChars(parts[1..], c);
    }
  }

  /**
   * The line format can be read back: with a name and operands free of
   * spaces and semicolons, `Parse` recovers the name, every operand and the
   * constant from the text.
   */
  lemma TextParses(ins: Instruction)
    requires Plain(ins.name) && forall k :: 0 <= k < |ins.operands| ==> Plain(ins.operands[k])
    ensures Parse(Text(ins)) == Some(ins)
  {
    var words := [ins.name] + ins.operands;
    assert forall k :: 0 <= k < |words| ==> Plain(words[k]);
    var head := ins.name + (if |ins.operands| == 0 then "" else " " + Join(ins.operands));
    assert head == Join(words);
    JoinChars(words, ';');
    SplitJoin(words);
    match ins.constant
    case None =>
      assert Text(ins) == head;
    case Some(c) =>
      var s := Text(ins);
      assert s == head + ("; " + c);
      assert s[..|head|] == head;
      assert s[|head|] == ';';
      assert Semicolon(s) == Some(|head|) by {
        SemicolonAt(s, |head|);
      }
      assert s[|head| + 2..] == c;
  }

  /** The first `;` is at `k` when `s[k]` is one and none comes before it. */
  lemma {:induction false} SemicolonAt(s: string, k: nat)
    requires k < |s| && s[k] == ';' && ';' !in s[..k]
    ensures Semicolon(s) == Some(k)
  {
    if k > 0 {
      assert s[0] in s[..k];
      assert s[1..][..k - 1] == s[..k][1..];
      assert s[..k] == [s[0]] + s[1..][..k - 1];
      SemicolonAt(s[1..], k - 1);
    }
  }

  /** `"{:padding$}{}"` with an empty first argument, then the newline `writeln!` adds. */
  function Line(ins: Instruction, padding: nat): string {
    seq(padding, _ => ' ') + Text(ins) + "\n"
  }

  /**
   * `Disassembly::fmt`: the text written and whether formatting succeeded.
   * Lines written before a decode failure stay written.
   */
  function Listing(bytecode: seq<Byte>, padding: nat, disassemble: Instr -> Instruction): (r: (string, bool))
    decreases |bytecode|
  {
    if |bytecode| == 0 then ("", true)
    else match Decode(bytecode)
      case None => ("", false)
      case Some((i, _, len)) =>
        var rest := Listing(bytecode[len..], padding, disassemble);
        (Line(disassemble(i), padding) + rest.0, rest.1)
  }

  /** The loop of `Disassembly::fmt`, over the remainder of the bytecode. */
  method Format(bytecode: seq<Byte>, padding: nat, disassemble: Instr -> Instruction) returns (out: string, ok: bool)
    ensures out == Listing(bytecode, padding, disassemble).0 && ok == Listing(bytecode, padding, disassemble).1
  {
    var remainder := bytecode;
    out := "";
    while |remainder| > 0
      invariant out + Listing(remainder, padding, disassemble).0 == Listing(bytecode, padding, disassemble).0
      invariant Listing(remainder, padding, disassemble).1 == Listing(bytecode, padding, disassemble).1
      decreases |remainder|
    {
      var decoded := Decode(remainder);
      if decoded.None? {
        assert out + "" == out;
        return out, false;
      }
      var (i, _, len) := decoded.value;
      ListingStep(remainder, padding, disassemble);
      var line := Line(disassemble(i), padding);
      assert out + Listing(remainder, padding, disassemble).0 == (out + line) + Listing(remainder[len..], padding, disassemble).0;
      out := out + line;
      remainder := remainder[len..];
    }
    assert out + "" == out;
    ok := true;
  }

  /** One pass of the loop: the line of the instruction in front, then the listing of the rest. */
  lemma ListingStep(bytecode: seq<Byte>, padding: nat, disassemble: Instr -> Instruction)
    requires |bytecode| > 0 && Decode(bytecode).Some?
    ensures
      var (i, _, len) := Decode(bytecode).value;
      var rest := Listing(bytecode[len..], padding, disassemble);
      Listing(bytecode, padding, disassemble) == (Line(disassemble(i), padding) + rest.0, rest.1)
  {
  }

  /** The lines of a sequence of instructions, one after the other. */
  function Lines(instrs: seq<Instruction>, padding: nat): string {
    if |instrs| == 0 then "" else Line(instrs[0], padding) + Lines(instrs[1..], padding)
  }

  /** What the builder emitted lists in full: one line per instruction, in order. */
  lemma {:induction false} ListingOfEncoded(instrs: seq<Encoding.Instruction>, padding: nat, disassemble: Instr -> Instruction)
    ensures Listing(EncodeSeq(instrs), padding, disassemble)
      == (Lines(seq(|instrs|, k requires 0 <= k < |instrs| => disassemble(instrs[k])), padding), true)
  {
    var shown := seq(|instrs|, k requires 0 <= k < |instrs| => disassemble(instrs[k]));
    if |instrs| > 0 {
      var tail := EncodeSeq(instrs[1..]);
      DecodeEncode(instrs[0], tail);
      assert EncodeSeq(instrs)[|Encode(instrs[0])|..] == tail;
      ListingOfEncoded(instrs[1..], padding, disassemble);
      assert shown[1..] == seq(|instrs[1..]|, k requires 0 <= k < |instrs[1..]| => disassemble(instrs[1..][k]));
    }
  }

  /** A listing that fails has decoded nothing past a byte sequence that does not decode. */
  lemma {:induction false} ListingFails(bytecode: seq<Byte>, padding: nat, disassemble: Instr -> Instruction)
    requires !Listing(bytecode, padding, disassemble).1
    ensures exists n :: 0 <= n < |bytecode| && Decode(bytecode[n..]).None?
    decreases |bytecode|
  {
    match Decode(bytecode)
    case None =>
      assert bytecode[0..] == bytecode;
    case Some((i, _, len)) =>
      ListingFails(bytecode[len..], padding, disassemble);
      var n :| 0 <= n < |bytecode[len..]| && Decode(bytecode[len..][n..]).None?;
      assert bytecode[len..][n..] == bytecode[len + n..];
  }
}

=== FILE: dispatch.dfy ===
/**
 * The control-flow skeleton of `dispatch` (src/vm/dispatch.rs): the loop
 * that loads a frame, reads an opcode, reads its operands at the current
 * width and hands them to the handler, then moves the instruction pointer
 * according to what the handler answered.
 *
 * The handler is a value of functions: what each opcode does to the VM is
 * not part of this model, only how its answer steers dispatch. The
 * instruction pointer is an index into the current frame's bytecode.
 * Dispatch need not terminate, so the model runs on a step budget (`fuel`)
 * and says `OutOfFuel` when it is spent.
 */
module Dispatch {
  import opened Wrappers
  import opened Encoding

  /** `Jump`: what a conditional jump decided. */
  datatype JumpTo = Skip | Move(offset: nat)

  /** `Call`: what the handler decided about a call or an import. */
  datatype CallOutcome = CallLoadFrame(code: seq<Byte>, pc: nat) | CallContinue | CallPoll(frame: nat)

  /** `Return`: resume another frame, or leave dispatch. */
  datatype ReturnOutcome = ReturnLoadFrame(code: seq<Byte>, pc: nat) | ReturnYield

  /** `ControlFlow`: why dispatch stopped without an error. */
  datatype ControlFlow = Return | Yield(pc: nat) | Poll(frame: nat, pc: nat)

  datatype Outcome<H, E> =
    | Done(h: H, flow: ControlFlow)
    | Failed(error: E)
    | Panicked(reason: string)
    | OutOfFuel

  /** The handler's answers, by the shape of the answer. */
  datatype Handler<!H, E> = Handler(
    plain: (H, Instr) -> Result<H, E>,
    jump: (H, Instr) -> Result<(H, nat), E>,
    jumpIfFalse: (H, Instr) -> Result<(H, JumpTo), E>,
    call: (H, Instr, nat) -> Result<(H, CallOutcome), E>,
    ret: H -> Result<(H, ReturnOutcome), E>,
    suspend: H -> Result<H, E>)

  /** One step of the inner loop: go on in this frame, load another frame, or stop. */
  datatype Next<H, E> =
    | Continue(h: H, ip: nat, width: Width)
    | Reload(h: H, code: seq<Byte>, pc: nat)
    | Stop(out: Outcome<H, E>)

  const END_OF_STREAM := "unexpected end of bytecode stream"

  predicate IsForwardJump(op: Opcode) { op == Jump || op == JumpConst }
  predicate IsCondJump(op: Opcode) { op == JumpIfFalse || op == JumpIfFalseConst }
  predicate IsCall(op: Opcode) { op == Call || op == Call0 || op == Import }

  /** Opcodes whose handler answer steers dispatch; every other opcode just goes on. */
  predicate Steers(op: Opcode) {
    IsForwardJump(op) || op == JumpLoop || IsCondJump(op) || IsCall(op) || op == Encoding.Return || op == Encoding.Yield
  }

  /**
   * Run the handler for `i`, whose opcode is at `start` and whose operands
   * end at `next`, and say where dispatch goes from there.
   */
  function Exec<H, E>(handler: Handler<H, E>, h: H, i: Instr, start: nat, next: nat): (r: Next<H, E>)
    ensures r.Continue? ==> r.width == Normal
    ensures !Steers(i.op) ==> (r.Continue? && r.ip == next) || (r.Stop? && r.out.Failed?)
    ensures r.Reload? ==> IsCall(i.op) || i.op == Encoding.Return
    ensures r.Stop? && r.out.Done? ==> IsCall(i.op) || i.op == Encoding.Return || i.op == Encoding.Yield
    ensures r.Stop? && r.out.Panicked? ==> i.op == JumpLoop && handler.jump(h, i).Ok? && start < handler.jump(h, i).value.1
    ensures r.Stop? ==> !r.out.OutOfFuel?
  {
    if IsForwardJump(i.op) then
      match handler.jump(h, i)
      case Err(e) => Stop(Failed(e))
      case Ok((h', offset)) => Continue(h', start + offset, Normal)
    else if i.op == JumpLoop then
      match handler.jump(h, i)
      case Err(e) => Stop(Failed(e))
      case Ok((h', offset)) =>
        if offset <= start then Continue(h', start - offset, Normal)
        else Stop(Panicked("jump before the start of the bytecode"))
    else if IsCondJump(i.op) then
      match handler.jumpIfFalse(h, i)
      case Err(e) => Stop(Failed(e))
      case Ok((h', Move(offset))) => Continue(h', start + offset, Normal)
      case Ok((h', Skip)) => Continue(h', next, Normal)
    else if IsCall(i.op) then
      match handler.call(h, i, next)
      case Err(e) => Stop(Failed(e))
      case Ok((h', CallLoadFrame(code, pc))) => Reload(h', code, pc)
      case Ok((h', CallContinue)) => Continue(h', next, Normal)
      case Ok((h', CallPoll(frame))) => Stop(Done(h', Poll(frame, next)))
    else if i.op == Encoding.Return then
      match handler.ret(h)
      case Err(e) => Stop(Failed(e))
      case Ok((h', ReturnLoadFrame(code, pc))) => Reload(h', code, pc)
      case Ok((h', ReturnYield)) => Stop(Done(h', ControlFlow.Return))
    else if i.op == Encoding.Yield then
      match handler.suspend(h)
      case Err(e) => Stop(Failed(e))
      case Ok(h') => Stop(Done(h', ControlFlow.Yield(next)))
    else
      match handler.plain(h, i)
      case Err(e) => Stop(Failed(e))
      case Ok(h') => Continue(h', next, Normal)
  }

  /** What reading at `ip` finds: a bad read, a width prefix, a `Nop`, or an instruction and where its operands end. */
  datatype Read = BadRead(reason: string) | PrefixRead(width: Width) | NopRead | InstrRead(instr: Instr, next: nat)

  /** `read_opcode!` then, for a real opcode, `read_operands!` at the width in force. */
  function ReadAt(code: seq<Byte>, ip: nat, width: Width): Read {
    if ip >= |code| then BadRead(END_OF_STREAM)
    else match FromByte(code[ip])
      case None => BadRead("invalid opcode")
      case Some(op) =>
        if op == Nop then NopRead
        else if op == Wide16 then PrefixRead(W16)
        else if op == Wide32 then PrefixRead(W32)
        else match DecodeOperands(code[ip + 1..], |Kinds(op)|, Size(width))
          case None => BadRead(END_OF_STREAM)
          case Some(operands) => InstrRead(Instr(op, operands), ip + 1 + |Kinds(op)| * Size(width))
  }

  /** One pass of the inner loop at `ip` with the operand width `width` in force. */
  function Step<H, E>(handler: Handler<H, E>, h: H, code: seq<Byte>, ip: nat, width: Width): (r: Next<H, E>)
    ensures ip >= |code| ==> r == Stop(Panicked(END_OF_STREAM))
    ensures r.Continue? && r.width != Normal ==> r.ip == ip + 1
    ensures r.Stop? ==> !r.out.OutOfFuel?
  {
    match ReadAt(code, ip, width)
    case BadRead(reason) => Stop(Panicked(reason))
    case PrefixRead(w) => Continue(h, ip + 1, w)
    case NopRead => Continue(h, ip + 1, width)
    case InstrRead(i, next) => Exec(handler, h, i, ip, next)
  }

  /** `dispatch` from `pc` in `code`, with at most `fuel` passes of the inner loop. */
  function Run<H, E>(handler: Handler<H, E>, h: H, code: seq<Byte>, pc: nat, fuel: nat): Outcome<H, E>
    decreases fuel, 2
  {
    if pc >= |code| then Panicked(END_OF_STREAM)
    else RunFrom(handler, h, code, pc, Normal, fuel)
  }

  /** The inner loop from `ip`, with `width` in force. */
  function RunFrom<H, E>(handler: Handler<H, E>, h: H, code: seq<Byte>, ip: nat, width: Width, fuel: nat): Outcome<H, E>
    decreases fuel, 1
  {
    if fuel == 0 then OutOfFuel
    else Resume(handler, Step(handler, h, code, ip, width), code, fuel - 1)
  }

  /** Carry on from what one pass decided. */
  function Resume<H, E>(handler: Handler<H, E>, n: Next<H, E>, code: seq<Byte>, fuel: nat): Outcome<H, E>
    decreases fuel, 3
  {
    match n
    case Continue(h, ip, width) => RunFrom(handler, h, code, ip, width, fuel)
    case Reload(h, code', pc) => Run(handler, h, code', pc, fuel)
    case Stop(out) => out
  }

  /** The arms of the opcode `match` that run the handler and steer the instruction pointer. */
  method Execute<H, E>(handler: Handler<H, E>, h: H, i: Instr, start: nat, next: nat) returns (n: Next<H, E>)
    ensures n == Exec(handler, h, i, start, next)
  {
    var op := i.op;
    if IsForwardJump(op) {
      var r := handler.jump(h, i);
      if r.Err? {
        return Stop(Failed(r.error));
      }
      return Continue(r.value.0, start + r.value.1, Normal);
    } else if op == JumpLoop {
      var r := handler.jump(h, i);
      if r.Err? {
        return Stop(Failed(r.error));
      }
      if r.value.1 > start {
        return Stop(Panicked("jump before the start of the bytecode"));
      }
      return Continue(r.value.0, start - r.value.1, Normal);
    } else if IsCondJump(op) {
      var r := handler.jumpIfFalse(h, i);
      if r.Err? {
        return Stop(Failed(r.error));
      }
      match r.value.1
      case Move(offset) => return Continue(r.value.0, start + offset, Normal);
      case Skip => return Continue(r.value.0, next, Normal);
    } else if IsCall(op) {
      var r := handler.call(h, i, next);
      if r.Err? {
        return Stop(Failed(r.error));
      }
      match r.value.1
      case CallLoadFrame(code, pc) => return Reload(r.value.0, code, pc);
      case CallContinue => return Continue(r.value.0, next, Normal);
      case CallPoll(frame) => return Stop(Done(r.value.0, Poll(frame, next)));
    } else if op == Encoding.Return {
      var r := handler.ret(h);
      if r.Err? {
        return Stop(Failed(r.error));
      }
      match r.value.1
      case ReturnLoadFrame(code, pc) => return Reload(r.value.0, code, pc);
      case ReturnYield => return Stop(Done(r.value.0, ControlFlow.Return));
    } else if op == Encoding.Yield {
      var r := handler.suspend(h);
      if r.Err? {
        return Stop(Failed(r.error));
      }
      return Stop(Done(r.value, ControlFlow.Yield(next)));
    } else {
      var r := handler.plain(h, i);
      if r.Err? {
        return Stop(Failed(r.error));
      }
      return Continue(r.value, next, Normal);
    }
  }

  /**
   * One pass of the inner loop: read the opcode at `ip`; a prefix sets the
   * width and `Nop` does nothing; any other opcode has its operands read at
   * the width in force and is executed with `start` at the opcode itself.
   */
  method Fetch<H, E>(handler: Handler<H, E>, h: H, code: seq<Byte>, ip: nat, width: Width) returns (n: Next<H, E>)
    ensures n == Step(handler, h, code, ip, width)
  {
    var read := ReadOperands(code, ip, width);
    match read
    case BadRead(reason) => n := Stop(Panicked(reason));
    case PrefixRead(w) => n := Continue(h, ip + 1, w);
    case NopRead => n := Continue(h, ip + 1, width);
    case InstrRead(i, next) => n := Execute(handler, h, i, ip, next);
  }

  /** `read_opcode!` and `read_operands!`. */
  method ReadOperands(code: seq<Byte>, ip: nat, width: Width) returns (r: Read)
    ensures r == ReadAt(code, ip, width)
  {
    if ip >= |code| {
      return BadRead(END_OF_STREAM);
    }
    var opcode := FromByte(code[ip]);
    if opcode.None? {
      return BadRead("invalid opcode");
    }
    var op := opcode.value;
    if op == Nop {
      return NopRead;
    } else if op == Wide16 {
      return PrefixRead(W16);
    } else if op == Wide32 {
      return PrefixRead(W32);
    }
    var operands := DecodeOperands(code[ip + 1..], |Kinds(op)|, Size(width));
    if operands.None? {
      return BadRead(END_OF_STREAM);
    }
    r := InstrRead(Instr(op, operands.value), ip + 1 + |Kinds(op)| * Size(width));
  }


  /**
   * `dispatch`: the `'load_frame` loop checks the pc and resets the width;
   * the inner loop reads one instruction per pass and follows the handler.
   */
  method Dispatch<H, E>(handler: Handler<H, E>, h0: H, code0: seq<Byte>, pc0: nat, fuel0: nat)
    returns (out: Outcome<H, E>)
    ensures out == Run(handler, h0, code0, pc0, fuel0)
  {
    var h, code := h0, code0;
    var pc: nat, fuel: nat := pc0, fuel0;
    while true
      invariant Run(handler, h, code, pc, fuel) == Run(handler, h0, code0, pc0, fuel0)
      decreases fuel
    {
      if pc >= |code| {
        return Panicked(END_OF_STREAM);
      }
      var ip: nat, width := pc, Normal;
      ghost var frameFuel := fuel;
      var reload := false;
      while !reload
        invariant fuel <= frameFuel
        invariant !reload ==> RunFrom(handler, h, code, ip, width, fuel) == Run(handler, h0, code0, pc0, fuel0)
        invariant reload ==> fuel < frameFuel && Run(handler, h, code, pc, fuel) == Run(handler, h0, code0, pc0, fuel0)
        decreases fuel, if reload then 0 else 1
      {
        if fuel == 0 {
          return OutOfFuel;
        }
        ghost var goal := RunFrom(handler, h, code, ip, width, fuel);
        fuel := fuel - 1;
        var n := Fetch(handler, h, code, ip, width);
        assert goal == Resume(handler, n, code, fuel);
        match n
        case Continue(h', ip', width') =>
          h, ip, width := h', ip', width';
        case Reload(h', c, p) =>
          h, code, pc, reload := h', c, p, true;
        case Stop(o) =>
          return o;
      }
    }
  }

  /** Loading a frame whose pc is past its bytecode panics, before anything runs. */
  lemma LoadFramePastEndPanics<H, E>(handler: Handler<H, E>, h: H, code: seq<Byte>, pc: nat, fuel: nat)
    requires pc >= |code|
    ensures Run(handler, h, code, pc, fuel).Panicked?
  {
  }

  /** Every pass that stays in the frame after an instruction leaves the operand width back at `Normal`. */
  lemma ExecResetsWidth<H, E>(handler: Handler<H, E>, h: H, i: Instr, start: nat, next: nat)
    ensures Exec(handler, h, i, start, next).Continue? ==> Exec(handler, h, i, start, next).width == Normal
  {
  }

  /** At an opcode whose operands follow at the width in force, one pass reads exactly that instruction. */
  lemma ReadAtOpcode(code: seq<Byte>, at: nat, i: Instr, w: Width)
    requires !IsPrefix(i.op) && i.op != Nop && |i.operands| == |Kinds(i.op)| && FitsWidth(i.operands, w)
    requires at + 1 + |i.operands| * Size(w) <= |code| && code[at] == i.op
    requires code[at + 1..] == EncodeOperands(i.operands, w) + code[at + 1 + |i.operands| * Size(w)..]
    ensures ReadAt(code, at, w) == InstrRead(i, at + 1 + |i.operands| * Size(w))
  {
    DecodeOperandsOfEncode(i.operands, w, code[at + 1 + |i.operands| * Size(w)..]);
  }

  /** A width prefix byte at `p`. */
  predicate PrefixAt(code: seq<Byte>, p: nat) {
    p < |code| && (code[p] == Wide16 || code[p] == Wide32)
  }

  /**
   * One whole instruction: a width prefix, when there is one, takes a pass
   * of its own and sets the width, then the opcode after it runs at that
   * width.
   */
  function StepInstr<H, E>(handler: Handler<H, E>, h: H, code: seq<Byte>, p: nat): Next<H, E> {
    match ReadAt(code, p, Normal)
    case PrefixRead(w) => Step(handler, h, code, p + 1, w)
    case _ => Step(handler, h, code, p, Normal)
  }

  /** Dispatch from `p` is one whole instruction, then dispatch from wherever it leads; a prefix costs a pass more. */
  lemma RunByInstr<H, E>(handler: Handler<H, E>, h: H, code: seq<Byte>, p: nat, fuel: nat)
    requires fuel >= 2
    ensures RunFrom(handler, h, code, p, Normal, fuel)
      == Resume(handler, StepInstr(handler, h, code, p), code, if PrefixAt(code, p) then fuel - 2 else fuel - 1)
  {
    var first := Step(handler, h, code, p, Normal);
    assert RunFrom(handler, h, code, p, Normal, fuel) == Resume(handler, first, code, fuel - 1);
    if PrefixAt(code, p) {
      var w := ReadAt(code, p, Normal).width;
      assert first == Continue(h, p + 1, w);
      assert Resume(handler, first, code, fuel - 1) == RunFrom(handler, h, code, p + 1, w, fuel - 1);
    }
  }

  /** `code` holds `i`, encoded at width `w`, from `p` on. */
  predicate EncodedAt(code: seq<Byte>, p: nat, i: Instruction, w: Width) {
    FitsWidth(i.operands, w) && p + |EncodeW(i, w)| <= |code| && code[p..p + |EncodeW(i, w)|] == EncodeW(i, w)
  }

  /**
   * Over an encoded instruction, the prefix is recognised exactly when the
   * width is wide, and the handler runs with `start` at the opcode, not at
   * the prefix, and `next` where the encoding ends.
   */
  lemma StepOverEncoded<H, E>(handler: Handler<H, E>, h: H, code: seq<Byte>, p: nat, i: Instruction, w: Width)
    requires i.op != Nop && EncodedAt(code, p, i, w)
    ensures PrefixAt(code, p) <==> w != Normal
    ensures StepInstr(handler, h, code, p) == Exec(handler, h, i, p + |PrefixBytes(w)|, p + |EncodeW(i, w)|)
  {
    EncodedLayout(code, p, i, w);
    ReadAtOpcode(code, p + |PrefixBytes(w)|, i, w);
    if w == Normal {
      assert !ReadAt(code, p, Normal).PrefixRead?;
    } else {
      assert ReadAt(code, p, Normal) == PrefixRead(w);
    }
  }

  /** Where the parts of an encoded instruction sit in the bytecode. */
  lemma EncodedLayout(code: seq<Byte>, p: nat, i: Instruction, w: Width)
    requires EncodedAt(code, p, i, w)
    ensures
      var start := p + |PrefixBytes(w)|;
      var next := p + |EncodeW(i, w)|;
      && start < |code| && code[start] == i.op
      && next == start + 1 + |i.operands| * Size(w)
      && code[start + 1..] == EncodeOperands(i.operands, w) + code[next..]
      && (w != Normal ==> code[p] == PrefixBytes(w)[0])
  {
    SliceParts(code, p, PrefixBytes(w), i.op, EncodeOperands(i.operands, w));
  }

  /** Where the parts of a three-part slice sit in the whole sequence. */
  lemma SliceParts(code: seq<Byte>, p: nat, pre: seq<Byte>, op: Byte, ops: seq<Byte>)
    requires p + |pre| + 1 + |ops| <= |code| && code[p..p + |pre| + 1 + |ops|] == pre + [op] + ops
    ensures code[p + |pre|] == op
    ensures code[p + |pre| + 1..] == ops + code[p + |pre| + 1 + |ops|..]
    ensures |pre| > 0 ==> code[p] == pre[0]
  {
    var n := p + |pre| + 1 + |ops|;
    assert code[p + |pre|] == code[p..n][|pre|];
    assert code[p + |pre| + 1..n] == code[p..n][|pre| + 1..];
    assert code[p + |pre| + 1..] == code[p + |pre| + 1..n] + code[n..];
    if |pre| > 0 {
      assert code[p] == code[p..n][0];
    }
  }

  /** `Jump` lands `offset` bytes after its opcode, whatever width prefix precedes it. */
  lemma JumpLandsFromOpcode<H, E>(handler: Handler<H, E>, h: H, code: seq<Byte>, p: nat, i: Instruction, w: Width)
    requires IsForwardJump(i.op) && EncodedAt(code, p, i, w) && handler.jump(h, i).Ok?
    ensures
      var (h', offset) := handler.jump(h, i).value;
      StepInstr(handler, h, code, p) == Continue(h', p + |PrefixBytes(w)| + offset, Normal)
  {
    StepOverEncoded(handler, h, code, p, i, w);
  }

  /**
   * `JumpLoop` goes back `offset` bytes from its opcode. Where the handler's
   * unchecked pointer subtraction would leave the bytecode, the model stops
   * with a panic instead.
   */
  lemma JumpLoopLandsFromOpcode<H, E>(handler: Handler<H, E>, h: H, code: seq<Byte>, p: nat, i: Instruction, w: Width)
    requires i.op == JumpLoop && EncodedAt(code, p, i, w) && handler.jump(h, i).Ok?
    ensures
      var (h', offset) := handler.jump(h, i).value;
      var start := p + |PrefixBytes(w)|;
      StepInstr(handler, h, code, p)
        == if offset <= start then Continue(h', start - offset, Normal)
           else Stop(Panicked("jump before the start of the bytecode"))
  {
    StepOverEncoded(handler, h, code, p, i, w);
  }

  /** `JumpIfFalse` either lands `offset` bytes after its opcode or falls through past its operands. */
  lemma JumpIfFalseLands<H, E>(handler: Handler<H, E>, h: H, code: seq<Byte>, p: nat, i: Instruction, w: Width)
    requires IsCondJump(i.op) && EncodedAt(code, p, i, w) && handler.jumpIfFalse(h, i).Ok?
    ensures
      var (h', to) := handler.jumpIfFalse(h, i).value;
      StepInstr(handler, h, code, p)
        == match to
           case Move(offset) => Continue(h', p + |PrefixBytes(w)| + offset, Normal)
           case Skip => Continue(h', p + |EncodeW(i, w)|, Normal)
  {
    StepOverEncoded(handler, h, code, p, i, w);
  }

  /**
   * `Call`, `Call0` and `Import` hand the handler the address just past
   * their operands as the return address, then load the frame it names,
   * go on after the instruction, or stop with `Poll`.
   */
  lemma CallOutcomes<H, E>(handler: Handler<H, E>, h: H, code: seq<Byte>, p: nat, i: Instruction, w: Width)
    requires IsCall(i.op) && EncodedAt(code, p, i, w)
    ensures
      var returnAddr := p + |EncodeW(i, w)|;
      StepInstr(handler, h, code, p)
        == match handler.call(h, i, returnAddr)
           case Err(e) => Stop(Failed(e))
           case Ok((h', CallLoadFrame(code', pc'))) => Reload(h', code', pc')
           case Ok((h', CallContinue)) => Continue(h', returnAddr, Normal)
           case Ok((h', CallPoll(frame))) => Stop(Done(h', Poll(frame, returnAddr)))
  {
    StepOverEncoded(handler, h, code, p, i, w);
  }

  /** `Return` resumes the frame the handler names, or leaves dispatch with `ControlFlow::Return`. */
  lemma ReturnOutcomes<H, E>(handler: Handler<H, E>, h: H, code: seq<Byte>, p: nat)
    requires p < |code| && code[p] == Encoding.Return
    ensures !PrefixAt(code, p)
    ensures
      StepInstr(handler, h, code, p)
        == match handler.ret(h)
           case Err(e) => Stop(Failed(e))
           case Ok((h', ReturnLoadFrame(code', pc'))) => Reload(h', code', pc')
           case Ok((h', ReturnYield)) => Stop(Done(h', ControlFlow.Return))
  {
    ReadAtOpcode(code, p, Instr(Encoding.Return, []), Normal);
  }

  /** The `Yield` opcode stops dispatch with the address just past it. */
  lemma YieldStops<H, E>(handler: Handler<H, E>, h: H, code: seq<Byte>, p: nat)
    requires p < |code| && code[p] == Encoding.Yield
    ensures !PrefixAt(code, p)
    ensures
      StepInstr(handler, h, code, p)
        == match handler.suspend(h)
           case Err(e) => Stop(Failed(e))
           case Ok(h') => Stop(Done(h', ControlFlow.Yield(p + 1)))
  {
    ReadAtOpcode(code, p, Instr(Encoding.Yield, []), Normal);
  }

  /** A handler error in an opcode that does not steer stops dispatch with that error. */
  lemma HandlerErrorAborts<H, E>(handler: Handler<H, E>, h: H, code: seq<Byte>, p: nat, i: Instruction, w: Width)
    requires !Steers(i.op) && i.op != Nop && EncodedAt(code, p, i, w) && handler.plain(h, i).Err?
    ensures StepInstr(handler, h, code, p) == Stop(Failed(handler.plain(h, i).error))
  {
    StepOverEncoded(handler, h, code, p, i, w);
  }

  /** An opcode that does not steer goes on just past its operands, at `Normal` width. */
  lemma PlainGoesOn<H, E>(handler: Handler<H, E>, h: H, code: seq<Byte>, p: nat, i: Instruction, w: Width)
    requires !Steers(i.op) && i.op != Nop && EncodedAt(code, p, i, w) && handler.plain(h, i).Ok?
    ensures StepInstr(handler, h, code, p) == Continue(handler.plain(h, i).value, p + |EncodeW(i, w)|, Normal)
  {
    StepOverEncoded(handler, h, code, p, i, w);
  }

}

=== FILE: encoding.dfy ===
/**
 * The variable-width bytecode encoding that src/bytecode/opcode/tests.rs
 * pins down. An instruction is an opcode byte followed by its operands;
 * every operand of one instruction has the same width, the smallest of 1,
 * 2 or 4 bytes that holds all of them. A 2-byte width is announced by a
 * `Wide16` prefix byte and a 4-byte width by `Wide32`; operands are
 * little-endian. `patch_registers` rewrites the register operands in place,
 * keeping every prefix and width.
 *
 * The numeric value of each opcode is not fixed by the source shown; the
 * model numbers the opcodes in the order of the `Opcode` datatype.
 */
module Encoding {
  import opened Wrappers

  newtype Byte = x: int | 0 <= x < 256

  datatype Width = Normal | W16 | W32

  datatype OperandKind = Reg | Const | Upvalue | ModuleVar | Smi | Offset | Count

  const OPCODE_COUNT: Byte := 64

  /** An opcode is the byte that names it (`#[repr(u8)]`): the bytes below `OPCODE_COUNT`. */
  type Opcode = b: Byte | b < OPCODE_COUNT

  const Nop: Opcode := 0
  const Wide16: Opcode := 1
  const Wide32: Opcode := 2
  const Load: Opcode := 3
  const Store: Opcode := 4
  const LoadConst: Opcode := 5
  const LoadUpvalue: Opcode := 6
  const StoreUpvalue: Opcode := 7
  const LoadModuleVar: Opcode := 8
  const StoreModuleVar: Opcode := 9
  const LoadGlobal: Opcode := 10
  const StoreGlobal: Opcode := 11
  const LoadField: Opcode := 12
  const LoadFieldOpt: Opcode := 13
  const StoreField: Opcode := 14
  const LoadIndex: Opcode := 15
  const LoadIndexOpt: Opcode := 16
  const StoreIndex: Opcode := 17
  const LoadSelf: Opcode := 18
  const LoadSuper: Opcode := 19
  const LoadNone: Opcode := 20
  const LoadTrue: Opcode := 21
  const LoadFalse: Opcode := 22
  const LoadSmi: Opcode := 23
  const MakeFn: Opcode := 24
  const MakeClass: Opcode := 25
  const MakeClassDerived: Opcode := 26
  const MakeDataClass: Opcode := 27
  const MakeDataClassDerived: Opcode := 28
  const FinalizeClass: Opcode := 29
  const MakeList: Opcode := 30
  const MakeListEmpty: Opcode := 31
  const MakeTable: Opcode := 32
  const MakeTableEmpty: Opcode := 33
  const Jump: Opcode := 34
  const JumpConst: Opcode := 35
  const JumpLoop: Opcode := 36
  const JumpIfFalse: Opcode := 37
  const JumpIfFalseConst: Opcode := 38
  const Add: Opcode := 39
  const Sub: Opcode := 40
  const Mul: Opcode := 41
  const Div: Opcode := 42
  const Rem: Opcode := 43
  const Pow: Opcode := 44
  const Inv: Opcode := 45
  const Not: Opcode := 46
  const CmpEq: Opcode := 47
  const CmpNe: Opcode := 48
  const CmpGt: Opcode := 49
  const CmpGe: Opcode := 50
  const CmpLt: Opcode := 51
  const CmpLe: Opcode := 52
  const CmpType: Opcode := 53
  const Contains: Opcode := 54
  const IsNone: Opcode := 55
  const Print: Opcode := 56
  const PrintN: Opcode := 57
  const Call: Opcode := 58
  const Call0: Opcode := 59
  const Import: Opcode := 60
  const FinalizeModule: Opcode := 61
  const Return: Opcode := 62
  const Yield: Opcode := 63

  /** Reading an opcode byte: bytes past the last opcode are not opcodes. */
  function FromByte(b: Byte): (r: Option<Opcode>)
    ensures r.Some? <==> b < OPCODE_COUNT
    ensures r.Some? ==> r.value == b
  {
    if b < OPCODE_COUNT then Some(b) else None
  }

  predicate IsPrefix(op: Opcode) {
    op == Wide16 || op == Wide32
  }

  /**
   * The operands each opcode carries, in order. The opcodes are compared by
   * their byte values (see the constants above); the comment before each
   * group names them.
   */
  function Kinds(op: Opcode): seq<OperandKind> {
    // Load, Store, LoadIndex, LoadIndexOpt, Add, Sub, Mul, Div, Rem, Pow, CmpEq, CmpNe,
    // CmpGt, CmpGe, CmpLt, CmpLe, CmpType, Contains
    if op == 3 || op == 4 || op == 15 || op == 16 || op == 39 || op == 40 || op == 41 || op == 42 || op == 43 ||
        op == 44 || op == 47 || op == 48 || op == 49 || op == 50 || op == 51 || op == 52 || op == 53 || op == 54
    then [Reg]
    // LoadConst, LoadGlobal, StoreGlobal, LoadField, LoadFieldOpt, MakeFn, MakeClass,
    // MakeClassDerived, JumpConst, JumpIfFalseConst
    else if op == 5 || op == 10 || op == 11 || op == 12 || op == 13 || op == 24 || op == 25 || op == 26 || op == 35 ||
        op == 38
    then [Const]
    // LoadUpvalue, StoreUpvalue
    else if op == 6 || op == 7 then [Upvalue]
    // LoadModuleVar, StoreModuleVar
    else if op == 8 || op == 9 then [ModuleVar]
    // StoreField
    else if op == 14 then [Reg, Const]
    // StoreIndex
    else if op == 17 then [Reg, Reg]
    // LoadSmi
    else if op == 23 then [Smi]
    // MakeDataClass, MakeDataClassDerived
    else if op == 27 || op == 28 then [Const, Reg]
    // MakeList, MakeTable, PrintN, Call
    else if op == 30 || op == 32 || op == 57 || op == 58 then [Reg, Count]
    // Jump, JumpLoop, JumpIfFalse
    else if op == 34 || op == 36 || op == 37 then [Offset]
    // Import
    else if op == 60 then [Const, Reg]
    else []
  }

  function Size(w: Width): nat {
    match w
    case Normal => 1
    case W16 => 2
    case W32 => 4
  }

  function Pow256(n: nat): (p: nat)
    ensures p >= 1
  {
    if n == 0 then 1 else 256 * Pow256(n - 1)
  }

  /** One past the largest operand a width can hold. */
  function Limit(w: Width): (l: nat)
    ensures l == Pow256(Size(w))
  {
    assert Pow256(2) == 65536 by { assert Pow256(1) == 256; }
    assert Pow256(4) == 0x1_0000_0000 by { assert Pow256(3) == 0x100_0000; }
    match w
    case Normal => 256
    case W16 => 65536
    case W32 => 0x1_0000_0000
  }

  datatype Instr = Instr(op: Opcode, operands: seq<nat>)

  predicate FitsWidth(operands: seq<nat>, w: Width) {
    forall j :: 0 <= j < |operands| ==> operands[j] < Limit(w)
  }

  /** An instruction the builder can emit: a real opcode with its operands, each below 2^32. */
  predicate WellFormed(i: Instr) {
    !IsPrefix(i.op) && |i.operands| == |Kinds(i.op)| && FitsWidth(i.operands, W32)
  }

  /** What the builder emits: only well-formed instructions. */
  type Instruction = i: Instr | WellFormed(i) witness Instr(Nop, [])

  /** The width the builder picks: the narrowest that holds every operand. */
  function MinWidth(operands: seq<nat>): (w: Width)
    requires FitsWidth(operands, W32)
    ensures FitsWidth(operands, w)
    ensures w == W16 ==> !FitsWidth(operands, Normal)
    ensures w == W32 ==> !FitsWidth(operands, W16)
  {
    if FitsWidth(operands, Normal) then Normal
    else if FitsWidth(operands, W16) then W16
    else W32
  }

  /** `n` as `size` little-endian bytes. */
  function LE(n: nat, size: nat): (bytes: seq<Byte>)
    requires n < Pow256(size)
    ensures |bytes| == size
  {
    if size == 0 then [] else [(n % 256) as Byte] + LE(n / 256, size - 1)
  }

  function ReadLE(bytes: seq<Byte>): (n: nat)
    ensures n < Pow256(|bytes|)
  {
    if |bytes| == 0 then 0 else bytes[0] as nat + 256 * ReadLE(bytes[1..])
  }

  lemma {:induction false} ReadLEOfLE(n: nat, size: nat)
    requires n < Pow256(size)
    ensures ReadLE(LE(n, size)) == n
  {
    if size > 0 {
      ReadLEOfLE(n / 256, size - 1);
      assert LE(n, size)[1..] == LE(n / 256, size - 1);
    }
  }

  function PrefixBytes(w: Width): seq<Byte> {
    match w
    case Normal => []
    case W16 => [Wide16]
    case W32 => [Wide32]
  }

  function EncodeOperands(operands: seq<nat>, w: Width): (bytes: seq<Byte>)
    requires FitsWidth(operands, w)
    ensures |bytes| == |operands| * Size(w)
  {
    if |operands| == 0 then []
    else LE(operands[0], Size(w)) + EncodeOperands(operands[1..], w)
  }

  /** The bytes of `i` at an explicitly chosen width. */
  function EncodeW(i: Instr, w: Width): (bytes: seq<Byte>)
    requires FitsWidth(i.operands, w)
    ensures |bytes| == |PrefixBytes(w)| + 1 + |i.operands| * Size(w)
  {
    PrefixBytes(w) + [i.op] + EncodeOperands(i.operands, w)
  }

  /** What the builder emits for `i`. */
  function Encode(i: Instr): seq<Byte>
    requires WellFormed(i)
  {
    EncodeW(i, MinWidth(i.operands))
  }

  function EncodeSeq(instrs: seq<Instruction>): seq<Byte>
  {
    if |instrs| == 0 then [] else Encode(instrs[0]) + EncodeSeq(instrs[1..])
  }

  /** Read `count` operands of `size` bytes each. */
  function DecodeOperands(bytes: seq<Byte>, count: nat, size: nat): (r: Option<seq<nat>>)
    ensures r.Some? ==> |r.value| == count && count * size <= |bytes|
  {
    if count == 0 then Some([])
    else if |bytes| < size then None
    else match DecodeOperands(bytes[size..], count - 1, size)
      case None => None
      case Some(rest) => Some([ReadLE(bytes[..size])] + rest)
  }

  /** The width a byte announces, if it is a width prefix. */
  function PrefixWidth(b: Byte): Option<Width> {
    if b == Wide16 then Some(W16)
    else if b == Wide32 then Some(W32)
    else None
  }

  /** Decode the opcode at `at` and its operands of width `w`. */
  function DecodeAt(bytes: seq<Byte>, w: Width, at: nat): (r: Option<(Instr, Width, nat)>)
    ensures r.Some? ==> at + 1 <= r.value.2 <= |bytes|
  {
    if at >= |bytes| then None
    else match FromByte(bytes[at])
      case None => None
      case Some(op) =>
        if IsPrefix(op) then None
        else match DecodeOperands(bytes[at + 1..], |Kinds(op)|, Size(w))
          case None => None
          case Some(operands) => Some((Instr(op, operands), w, at + 1 + |Kinds(op)| * Size(w)))
  }

  /**
   * `symbolic::decode` at the byte level: an optional width prefix, an
   * opcode and its operands; the instruction, its width and the number of
   * bytes it took, or nothing when the bytes do not form an instruction.
   */
  function Decode(bytes: seq<Byte>): (r: Option<(Instr, Width, nat)>)
    ensures r.Some? ==> 1 <= r.value.2 <= |bytes|
  {
    if |bytes| == 0 then None
    else match PrefixWidth(bytes[0])
      case Some(w) => DecodeAt(bytes, w, 1)
      case None => DecodeAt(bytes, Normal, 0)
  }

  lemma {:induction false} DecodeOperandsOfEncode(operands: seq<nat>, w: Width, rest: seq<Byte>)
    requires FitsWidth(operands, w)
    ensures DecodeOperands(EncodeOperands(operands, w) + rest, |operands|, Size(w)) == Some(operands)
  {
    if |operands| > 0 {
      var bytes := EncodeOperands(operands, w) + rest;
      var head := LE(operands[0], Size(w));
      assert bytes == head + (EncodeOperands(operands[1..], w) + rest);
      assert bytes[..Size(w)] == head;
      assert bytes[Size(w)..] == EncodeOperands(operands[1..], w) + rest;
      ReadLEOfLE(operands[0], Size(w));
      DecodeOperandsOfEncode(operands[1..], w, rest);
      assert [operands[0]] + operands[1..] == operands;
    }
  }

  /** Decoding what was encoded at a width gives back the instruction, the width and the length. */
  lemma DecodeEncodeW(i: Instr, w: Width, rest: seq<Byte>)
    requires !IsPrefix(i.op) && |i.operands| == |Kinds(i.op)| && FitsWidth(i.operands, w)
    ensures Decode(EncodeW(i, w) + rest) == Some((i, w, |EncodeW(i, w)|))
  {
    var bytes := EncodeW(i, w) + rest;
    DecodeAtOpcode(i, w, rest);
    if w == Normal {
      assert bytes[0] == i.op;
      assert PrefixWidth(bytes[0]) == None;
    } else {
      assert bytes[0] == PrefixBytes(w)[0];
      assert PrefixWidth(bytes[0]) == Some(w);
    }
  }

  /** Past the prefix, the opcode and operands decode back. */
  lemma DecodeAtOpcode(i: Instr, w: Width, rest: seq<Byte>)
    requires !IsPrefix(i.op) && |i.operands| == |Kinds(i.op)| && FitsWidth(i.operands, w)
    ensures DecodeAt(EncodeW(i, w) + rest, w, |PrefixBytes(w)|) == Some((i, w, |EncodeW(i, w)|))
  {
    var bytes := EncodeW(i, w) + rest;
    var tail := EncodeOperands(i.operands, w) + rest;
    assert bytes == PrefixBytes(w) + [i.op] + tail;
    OpcodeAndTail(PrefixBytes(w), i.op, tail);
    DecodeOperandsOfEncode(i.operands, w, rest);
  }

  /** In `pre + [op] + tail`, `op` sits just after `pre` and `tail` follows it. */
  lemma OpcodeAndTail(pre: seq<Byte>, op: Byte, tail: seq<Byte>)
    ensures (pre + [op] + tail)[|pre|] == op
    ensures (pre + [op] + tail)[|pre| + 1..] == tail
  {
  }


  /** The round trip for what the builder emits. */
  lemma DecodeEncode(i: Instr, rest: seq<Byte>)
    requires WellFormed(i)
    ensures Decode(Encode(i) + rest) == Some((i, MinWidth(i.operands), |Encode(i)|))
  {
    DecodeEncodeW(i, MinWidth(i.operands), rest);
  }

  /** Operands below 256 take one byte each and no prefix. */
  lemma SmallOperandsAreCompact(i: Instr)
    requires WellFormed(i) && FitsWidth(i.operands, Normal)
    ensures Encode(i)[0] == i.op
    ensures |Encode(i)| == 1 + |i.operands|
  {
  }

  /** One operand of at least 256 widens the whole instruction, small operands included. */
  lemma OneLargeOperandWidensAll(i: Instr, j: nat)
    requires WellFormed(i) && FitsWidth(i.operands, W16)
    requires j < |i.operands| && 256 <= i.operands[j]
    ensures MinWidth(i.operands) == W16
    ensures Encode(i)[0] == Wide16 && Encode(i)[1] == i.op
    ensures |Encode(i)| == 2 + 2 * |i.operands|
  {
    assert !FitsWidth(i.operands, Normal) by { assert i.operands[j] >= Limit(Normal); }
  }

  /** The bytes the register-patching test expects for `Load`. */
  lemma RegisterPatchingLoads()
    ensures Encode(Instr(Load, [0])) == [Load, 0]
    ensures Encode(Instr(Load, [1])) == [Load, 1]
    ensures Encode(Instr(Load, [256])) == [Wide16, Load, 0, 1]
    ensures Encode(Instr(Load, [65536])) == [Wide32, Load, 0, 0, 1, 0]
  {
    assert !FitsWidth([256], Normal) by { assert [256][0] >= Limit(Normal); }
    assert !FitsWidth([65536], W16) by { assert [65536][0] >= Limit(W16); }
  }

  /** The bytes the register-patching test expects for a one-byte `Import`, whose register comes second. */
  lemma RegisterPatchingImports()
    ensures Encode(Instr(Import, [0, 0])) == [Import, 0, 0]
    ensures Encode(Instr(Import, [0, 1])) == [Import, 0, 1]
  {
  }

  /** The bytes the register-patching test expects for a widened `Import`: the constant widens with it. */
  lemma RegisterPatchingWideImport16()
    ensures Encode(Instr(Import, [0, 256])) == [Wide16, Import, 0, 0, 0, 1]
  {
    assert !FitsWidth([0, 256], Normal) by { assert [0, 256][1] >= Limit(Normal); }
    assert LE(0, 2) == [0, 0];
    assert LE(256, 2) == [0, 1];
    assert EncodeOperands([0, 256], W16) == [0, 0] + [0, 1] by {
      assert [0, 256][1..] == [256];
    }
  }

  lemma RegisterPatchingWideImport32()
    ensures Encode(Instr(Import, [0, 65536])) == [Wide32, Import, 0, 0, 0, 0, 0, 0, 1, 0]
  {
    var ops := [0, 65536];
    assert FitsWidth(ops, W32) by { assert Limit(W32) == 0x1_0000_0000; }
    assert !FitsWidth(ops, W16) by { assert ops[1] >= Limit(W16); }
    assert MinWidth(ops) == W32;
    assert EncodeOperands(ops[1..], W32) == [0, 0, 1, 0] by {
      assert ops[1..] == [65536];
      assert LE(65536, 4) == [0, 0, 1, 0];
    }
    assert EncodeOperands(ops, W32) == [0, 0, 0, 0] + [0, 0, 1, 0] by {
      assert LE(0, 4) == [0, 0, 0, 0];
    }
  }

  /** A register operand of `i` that `regs` cannot rename, or whose new name does not fit the width `i` was emitted at, blocks patching. */
  predicate Patchable(i: Instr, regs: seq<nat>)
    requires WellFormed(i)
  {
    forall j :: 0 <= j < |i.operands| && Kinds(i.op)[j] == Reg ==>
      i.operands[j] < |regs| && regs[i.operands[j]] < Limit(MinWidth(i.operands))
  }

  /** `i` with every register operand `r` renamed to `regs[r]`; other operands are kept. */
  function Patch(i: Instr, regs: seq<nat>): (p: Instr)
    requires WellFormed(i) && Patchable(i, regs)
    ensures p.op == i.op && |p.operands| == |i.operands|
    ensures forall j :: 0 <= j < |i.operands| ==>
      p.operands[j] == if Kinds(i.op)[j] == Reg then regs[i.operands[j]] else i.operands[j]
    ensures FitsWidth(p.operands, MinWidth(i.operands))
  {
    Instr(i.op, seq(|i.operands|, j requires 0 <= j < |i.operands| =>
      if Kinds(i.op)[j] == Reg then regs[i.operands[j]] else i.operands[j]))
  }

  /**
   * The bytes of `i` after patching: the prefix and width it was emitted
   * with are kept. An instruction that cannot be patched is left as it was;
   * `PatchRegisters` is never given one.
   */
  function PatchedBytes(i: Instr, regs: seq<nat>): (bytes: seq<Byte>)
    requires WellFormed(i)
    ensures |bytes| == |Encode(i)|
  {
    if Patchable(i, regs) then EncodeW(Patch(i, regs), MinWidth(i.operands)) else Encode(i)
  }

  predicate AllPatchable(instrs: seq<Instruction>, regs: seq<nat>) {
    forall k :: 0 <= k < |instrs| ==> Patchable(instrs[k], regs)
  }

  /** The whole stream after patching, instruction by instruction. */
  function PatchedSeq(instrs: seq<Instruction>, regs: seq<nat>): seq<Byte>
  {
    if |instrs| == 0 then []
    else PatchedSeq(instrs[..|instrs| - 1], regs) + PatchedBytes(instrs[|instrs| - 1], regs)
  }

  /** A patched instruction still decodes, at its old width and length, to the renamed instruction. */
  lemma DecodePatched(i: Instr, regs: seq<nat>, rest: seq<Byte>)
    requires WellFormed(i) && Patchable(i, regs)
    ensures Decode(PatchedBytes(i, regs) + rest) == Some((Patch(i, regs), MinWidth(i.operands), |Encode(i)|))
  {
    DecodeEncodeW(Patch(i, regs), MinWidth(i.operands), rest);
  }

  /** The register map of the register-patching test: every register becomes 127. */
  const TEST_REGS: seq<nat> := seq(65537, _ => 127)

  /** In the register-patching test a widened `Load` keeps its prefix and pads the new register with a zero byte. */
  lemma RegisterPatchingWideLoad()
    ensures PatchedBytes(Instr(Load, [256]), TEST_REGS) == [Wide16 as Byte, Load, 127, 0]
  {
    assert !FitsWidth([256], Normal) by { assert [256][0] >= Limit(Normal); }
    assert Patch(Instr(Load, [256]), TEST_REGS).operands == [127];
    assert LE(127, 2) == [127, 0];
  }

  /** The `parts` operand of a data-class constructor is a register: patching renames it and keeps the descriptor constant. */
  lemma DataClassPartsRenamed(desc: nat, parts: nat, regs: seq<nat>)
    requires desc < 256 && parts < |regs| && parts < 256 && regs[parts] < 256
    ensures WellFormed(Instr(MakeDataClass, [desc, parts])) && Patchable(Instr(MakeDataClass, [desc, parts]), regs)
    ensures Patch(Instr(MakeDataClass, [desc, parts]), regs) == Instr(MakeDataClass, [desc, regs[parts]])
    ensures WellFormed(Instr(MakeDataClassDerived, [desc, parts])) && Patchable(Instr(MakeDataClassDerived, [desc, parts]), regs)
    ensures Patch(Instr(MakeDataClassDerived, [desc, parts]), regs) == Instr(MakeDataClassDerived, [desc, regs[parts]])
  {
    assert FitsWidth([desc, parts], Normal);
    assert MinWidth([desc, parts]) == Normal;
  }

  /** In the register-patching test a 32-bit `Import` keeps its constant and its prefix. */
  lemma RegisterPatchingWideImport()
    ensures PatchedBytes(Instr(Import, [0, 65536]), TEST_REGS) == [Wide32 as Byte, Import, 0, 0, 0, 0, 127, 0, 0, 0]
  {
    WideImportOperands();
    PatchedImportOperandBytes();
  }

  lemma PatchedImportOperandBytes()
    ensures EncodeOperands([0, 127], W32) == [0, 0, 0, 0, 127, 0, 0, 0]
  {
    var p := [0, 127];
    assert p[1..] == [127];
    assert LE(0, 4) == [0, 0, 0, 0];
    assert LE(127, 4) == [127, 0, 0, 0];
  }

  lemma WideImportOperands()
    ensures WellFormed(Instr(Import, [0, 65536]))
    ensures MinWidth([0, 65536]) == W32
    ensures Patchable(Instr(Import, [0, 65536]), TEST_REGS)
    ensures Patch(Instr(Import, [0, 65536]), TEST_REGS).operands == [0, 127]
  {
    var ops := [0, 65536];
    assert FitsWidth(ops, W32) by { assert Limit(W32) == 0x1_0000_0000; }
    assert !FitsWidth(ops, W16) by { assert ops[1] >= Limit(W16); }
    assert Kinds(Import) == [Const, Reg];
    assert TEST_REGS[65536] == 127;
    var p := Patch(Instr(Import, ops), TEST_REGS).operands;
    assert p[0] == 0 && p[1] == 127;
  }

  /** Copy `bytes` over `a[at..at + |bytes|]`. */
  method WriteAt(a: array<Byte>, at: nat, bytes: seq<Byte>)
    requires at + |bytes| <= a.Length
    modifies a
    ensures a[..] == old(a[..])[..at] + bytes + old(a[..])[at + |bytes|..]
  {
    var t := 0;
    while t < |bytes|
      invariant 0 <= t <= |bytes|
      invariant forall j :: 0 <= j < a.Length ==> a[j] == if at <= j < at + t then bytes[j - at] else old(a[j])
    {
      a[at + t] := bytes[t];
      t := t + 1;
    }
    assert a[..] == old(a[..])[..at] + bytes + old(a[..])[at + |bytes|..];
  }

  /** The instruction at the head of an encoded stream decodes back, and the rest of the stream follows it. */
  lemma DecodeHead(instrs: seq<Instruction>, k: nat, rest: seq<Byte>)
    requires k < |instrs| && rest == EncodeSeq(instrs[k..])
    ensures Decode(rest) == Some((instrs[k], MinWidth(instrs[k].operands), |Encode(instrs[k])|))
    ensures rest[|Encode(instrs[k])|..] == EncodeSeq(instrs[k + 1..])
  {
    assert instrs[k..][1..] == instrs[k + 1..];
    assert rest == Encode(instrs[k]) + EncodeSeq(instrs[k + 1..]);
    DecodeEncode(instrs[k], EncodeSeq(instrs[k + 1..]));
  }

  lemma PatchedSeqStep(instrs: seq<Instruction>, regs: seq<nat>, k: nat)
    requires k < |instrs|
    ensures PatchedSeq(instrs[..k + 1], regs) == PatchedSeq(instrs[..k], regs) + PatchedBytes(instrs[k], regs)
  {
    assert instrs[..k + 1][..k] == instrs[..k];
  }

  lemma SpliceParts(before: seq<Byte>, after: seq<Byte>, pc: nat, bytes: seq<Byte>, tail: seq<Byte>)
    requires pc + |bytes| <= |before|
    requires before[pc + |bytes|..] == tail
    requires after == before[..pc] + bytes + before[pc + |bytes|..]
    ensures after[..pc] == before[..pc]
    ensures after[..pc + |bytes|] == before[..pc] + bytes
    ensures after[pc + |bytes|..] == tail
  {
  }

  /** An encoded stream is empty exactly when it holds no instruction. */
  lemma EncodeSeqEmpty(instrs: seq<Instruction>)
    ensures |EncodeSeq(instrs)| == 0 <==> |instrs| == 0
  {
  }

  /** Before patching the `k`th instruction: it decodes at `pc`, and its patched bytes fit where it stood. */
  lemma PatchAtDecodes(s: seq<Byte>, instrs: seq<Instruction>, regs: seq<nat>, k: nat, pc: nat)
    requires k < |instrs|
    requires |PatchedSeq(instrs[..k], regs)| == pc
    requires s == PatchedSeq(instrs[..k], regs) + EncodeSeq(instrs[k..])
    ensures pc <= |s| && Decode(s[pc..]) == Some((instrs[k], MinWidth(instrs[k].operands), |Encode(instrs[k])|))
    ensures pc + |PatchedBytes(instrs[k], regs)| <= |s|
  {
    assert s[pc..] == EncodeSeq(instrs[k..]);
    DecodeHead(instrs, k, s[pc..]);
  }

  /** After patching the `k`th instruction in place, one more instruction is done and the rest is untouched. */
  lemma PatchAtSplices(before: seq<Byte>, after: seq<Byte>, bytes: seq<Byte>, instrs: seq<Instruction>, regs: seq<nat>, k: nat, pc: nat)
    requires k < |instrs| && bytes == PatchedBytes(instrs[k], regs)
    requires |PatchedSeq(instrs[..k], regs)| == pc
    requires before == PatchedSeq(instrs[..k], regs) + EncodeSeq(instrs[k..])
    requires pc + |bytes| <= |before|
    requires after == before[..pc] + bytes + before[pc + |bytes|..]
    ensures |PatchedSeq(instrs[..k + 1], regs)| == pc + |bytes|
    ensures after == PatchedSeq(instrs[..k + 1], regs) + EncodeSeq(instrs[k + 1..])
  {
    assert before[pc..] == EncodeSeq(instrs[k..]);
    DecodeHead(instrs, k, before[pc..]);
    assert before[pc..][|bytes|..] == before[pc + |bytes|..];
    SpliceParts(before, after, pc, bytes, EncodeSeq(instrs[k + 1..]));
    PatchedSeqStep(instrs, regs, k);
    assert after == after[..pc + |bytes|] + after[pc + |bytes|..];
  }

  /** Patch the `k`th instruction, which starts at `pc`; say how many bytes it takes. */
  method PatchAt(a: array<Byte>, regs: seq<nat>, pc: nat, ghost instrs: seq<Instruction>, ghost k: nat) returns (len: nat)
    requires k < |instrs|
    requires |PatchedSeq(instrs[..k], regs)| == pc
    requires a[..] == PatchedSeq(instrs[..k], regs) + EncodeSeq(instrs[k..])
    modifies a
    ensures 0 < len && |PatchedSeq(instrs[..k + 1], regs)| == pc + len
    ensures a[..] == PatchedSeq(instrs[..k + 1], regs) + EncodeSeq(instrs[k + 1..])
  {
    PatchAtDecodes(a[..], instrs, regs, k, pc);
    var d := Decode(a[pc..]);
    len := d.value.2;
    var bytes := PatchedBytes(d.value.0, regs);
    ghost var before := a[..];
    WriteAt(a, pc, bytes);
    PatchAtSplices(before, a[..], bytes, instrs, regs, k, pc);
  }

  /**
   * `patch_registers`: walk the encoded stream and rename every register
   * operand through `regs`, in place, keeping each instruction's width.
   */
  method PatchRegisters(a: array<Byte>, regs: seq<nat>, ghost instrs: seq<Instruction>)
    requires AllPatchable(instrs, regs)
    requires a[..] == EncodeSeq(instrs)
    modifies a
    ensures a[..] == PatchedSeq(instrs, regs)
  {
    var pc := 0;
    ghost var k := 0;
    while pc < a.Length
      invariant 0 <= k <= |instrs| && 0 <= pc <= a.Length
      invariant |PatchedSeq(instrs[..k], regs)| == pc
      invariant a[..] == PatchedSeq(instrs[..k], regs) + EncodeSeq(instrs[k..])
      decreases a.Length - pc
    {
      EncodeSeqEmpty(instrs[k..]);
      var len := PatchAt(a, regs, pc, instrs, k);
      pc := pc + len;
      k := k + 1;
    }
    EncodeSeqEmpty(instrs[k..]);
    assert instrs[..k] == instrs;
    assert a[..] == PatchedSeq(instrs[..k], regs) + [];
  }
}

=== FILE: field_ops.dfy ===
/**
 * The generic named-field rules of src/isolate/field.rs: writing a field
 * respects the frozen flag, reading one binds functions to the receiver
 * when the receiver asks for it, and the optional-chaining read turns every
 * miss into `none`.
 */
module FieldOps {
  import opened Wrappers
  import opened Values
  import opened Objects
  import ClassObject
  import NativeClass

  /** What a successful read hands back: a plain value, or a function to bind to the receiver as a new `Method`. */
  datatype Fetched = Plain(value: Value) | Bind(receiver: Value, func: Value) {
    /** The value `field_get` found, before any binding. */
    function Found(): Value {
      if Plain? then value else func
    }
  }

  /** What a read of a found value hands back: bound to the receiver exactly when it binds methods and the value is function-like. */
  function Fetch(heap: Heap, receiver: Value, v: Value): Fetched
    requires IsObject(heap, receiver)
  {
    if BindsMethods(heap[receiver.addr]) && IsFnLike(heap, v) then Bind(receiver, v) else Plain(v)
  }

  /** The heap after `set`, or the error it reports. */
  function SetSpec(heap: Heap, receiver: Value, key: string, value: Value, call: NativeClass.Caller): (r: Result<Heap, Error>)
    ensures !IsObject(heap, receiver) ==> r == Err(CannotSetField(StrKey(key)))
    ensures (IsObject(heap, receiver) && FieldGet(heap, heap[receiver.addr], StrKey(key), call) == Ok(None)
             && IsFrozen(heap[receiver.addr])) ==> r == Err(CannotSetField(StrKey(key)))
    ensures IsObject(heap, receiver) && FieldGet(heap, heap[receiver.addr], StrKey(key), call).Err? ==>
      r == Err(FieldGet(heap, heap[receiver.addr], StrKey(key), call).error)
    ensures IsObject(heap, receiver) && FieldGet(heap, heap[receiver.addr], StrKey(key), call).Ok?
            && (FieldGet(heap, heap[receiver.addr], StrKey(key), call).value.Some? || !IsFrozen(heap[receiver.addr])) ==>
      && (r.Ok? <==> FieldSet(heap[receiver.addr], StrKey(key), value, call).Ok?)
      && (r.Ok? ==> r.value == heap[receiver.addr := FieldSet(heap[receiver.addr], StrKey(key), value, call).value])
      && (r.Err? ==> r.error == FieldSet(heap[receiver.addr], StrKey(key), value, call).error)
    ensures r.Ok? ==> IsObject(heap, receiver) && r.value.Keys == heap.Keys
    ensures r.Ok? ==> forall a :: a in heap && a != receiver.addr ==> r.value[a] == heap[a]
  {
    if IsObject(heap, receiver) then
      var o := heap[receiver.addr];
      match FieldGet(heap, o, StrKey(key), call)
      case Err(e) => Err(e)
      case Ok(existing) =>
        if existing.Some? || !IsFrozen(o) then
          match FieldSet(o, StrKey(key), value, call)
          case Err(e) => Err(e)
          case Ok(o') => Ok(heap[receiver.addr := o'])
        else Err(CannotSetField(StrKey(key)))
    else Err(CannotSetField(StrKey(key)))
  }

  /** The lookup both reads share: `field_get` on an object receiver, then the binding decision. */
  function Lookup(heap: Heap, receiver: Value, key: string, call: NativeClass.Caller): (r: Result<Option<Fetched>, Error>)
    ensures !IsObject(heap, receiver) ==> r == Ok(None)
    ensures IsObject(heap, receiver) && FieldGet(heap, heap[receiver.addr], StrKey(key), call).Err? ==>
      r == Err(FieldGet(heap, heap[receiver.addr], StrKey(key), call).error)
    ensures IsObject(heap, receiver) && FieldGet(heap, heap[receiver.addr], StrKey(key), call) == Ok(None) ==> r == Ok(None)
    ensures r.Ok? && r.value.Some? ==>
      IsObject(heap, receiver) && FieldGet(heap, heap[receiver.addr], StrKey(key), call) == Ok(Some(r.value.value.Found()))
    ensures r.Ok? && r.value.Some? && r.value.value.Bind? ==>
      r.value.value.receiver == receiver && BindsMethods(heap[receiver.addr]) && IsFnLike(heap, r.value.value.func)
    ensures r.Ok? && r.value.Some? && r.value.value.Plain? ==>
      !BindsMethods(heap[receiver.addr]) || !IsFnLike(heap, r.value.value.value)
  {
    if IsObject(heap, receiver) then
      var o := heap[receiver.addr];
      match FieldGet(heap, o, StrKey(key), call)
      case Err(e) => Err(e)
      case Ok(None) => Ok(None)
      case Ok(Some(v)) => Ok(Some(if BindsMethods(o) && IsFnLike(heap, v) then Bind(receiver, v) else Plain(v)))
    else Ok(None)
  }

  /** `get`: a miss, or a receiver that is not an object, is an error. */
  function GetSpec(heap: Heap, receiver: Value, key: string, call: NativeClass.Caller): (r: Result<Fetched, Error>)
    ensures !IsObject(heap, receiver) ==> r == Err(CannotGetField(StrKey(key)))
    ensures IsObject(heap, receiver) && FieldGet(heap, heap[receiver.addr], StrKey(key), call) == Ok(None) ==>
      r == Err(CannotGetField(StrKey(key)))
    ensures IsObject(heap, receiver) && FieldGet(heap, heap[receiver.addr], StrKey(key), call).Err? ==>
      r == Err(FieldGet(heap, heap[receiver.addr], StrKey(key), call).error)
    ensures IsObject(heap, receiver) && FieldGet(heap, heap[receiver.addr], StrKey(key), call).Ok?
            && FieldGet(heap, heap[receiver.addr], StrKey(key), call).value.Some? ==>
      r == Ok(Fetch(heap, receiver, FieldGet(heap, heap[receiver.addr], StrKey(key), call).value.value))
  {
    match Lookup(heap, receiver, key, call)
    case Err(e) => Err(e)
    case Ok(None) => Err(CannotGetField(StrKey(key)))
    case Ok(Some(f)) => Ok(f)
  }

  /** `get_opt`: `none` short-circuits, and a miss reads as `none`. */
  function GetOptSpec(heap: Heap, receiver: Value, key: string, call: NativeClass.Caller): (r: Result<Fetched, Error>)
    ensures receiver.NoneValue? ==> r == Ok(Plain(NoneValue))
    ensures !IsObject(heap, receiver) ==> r == Ok(Plain(NoneValue))
    ensures IsObject(heap, receiver) && FieldGet(heap, heap[receiver.addr], StrKey(key), call) == Ok(None) ==>
      r == Ok(Plain(NoneValue))
    ensures IsObject(heap, receiver) && FieldGet(heap, heap[receiver.addr], StrKey(key), call).Err? ==>
      r == Err(FieldGet(heap, heap[receiver.addr], StrKey(key), call).error)
    ensures IsObject(heap, receiver) && FieldGet(heap, heap[receiver.addr], StrKey(key), call).Ok?
            && FieldGet(heap, heap[receiver.addr], StrKey(key), call).value.Some? ==>
      r == Ok(Fetch(heap, receiver, FieldGet(heap, heap[receiver.addr], StrKey(key), call).value.value))
  {
    if receiver.NoneValue? then Ok(Plain(NoneValue))
    else
      match Lookup(heap, receiver, key, call)
      case Err(e) => Err(e)
      case Ok(None) => Ok(Plain(NoneValue))
      case Ok(Some(f)) => Ok(f)
  }

  /** `get_opt` agrees with `get` where `get` succeeds or fails inside `field_get`, and reads `none` where `get` misses. */
  lemma GetOptExtendsGet(heap: Heap, receiver: Value, key: string, call: NativeClass.Caller)
    requires !receiver.NoneValue?
    ensures GetSpec(heap, receiver, key, call) != Err(CannotGetField(StrKey(key))) ==>
      GetOptSpec(heap, receiver, key, call) == GetSpec(heap, receiver, key, call)
    ensures GetSpec(heap, receiver, key, call) == Err(CannotGetField(StrKey(key))) ==>
      GetOptSpec(heap, receiver, key, call) == Ok(Plain(NoneValue))
      || GetOptSpec(heap, receiver, key, call) == Err(CannotGetField(StrKey(key)))
  {
  }

  /** A function-valued field read from an instance is bound to the instance. */
  lemma InstanceMethodIsBound(heap: Heap, receiver: Value, key: string, call: NativeClass.Caller)
    requires IsObject(heap, receiver) && heap[receiver.addr].ClassObj?
    requires StrKey(key) in heap[receiver.addr].instance.fields
    requires IsFnLike(heap, heap[receiver.addr].instance.fields[StrKey(key)])
    ensures GetSpec(heap, receiver, key, call) == Ok(Bind(receiver, heap[receiver.addr].instance.fields[StrKey(key)]))
  {
  }

  /** A method read from a class definition comes back unbound. */
  lemma ClassDefMethodIsPlain(heap: Heap, receiver: Value, key: string, call: NativeClass.Caller)
    requires IsObject(heap, receiver) && heap[receiver.addr].ClassDefObj?
    requires key in heap[receiver.addr].def.methods
    ensures GetSpec(heap, receiver, key, call) == Ok(Plain(heap[receiver.addr].def.methods[key]))
  {
  }

  /** Writing through a proxy always fails: it is frozen and refuses `field_set` even for existing names. */
  lemma ProxyRefusesSet(heap: Heap, receiver: Value, key: string, value: Value, call: NativeClass.Caller)
    requires IsObject(heap, receiver) && heap[receiver.addr].ProxyObj?
    ensures SetSpec(heap, receiver, key, value, call).Err?
  {
  }

  /** A frozen instance accepts writes to existing fields and refuses new ones. */
  lemma FrozenInstanceSet(heap: Heap, receiver: Value, key: string, value: Value, call: NativeClass.Caller)
    requires IsObject(heap, receiver) && heap[receiver.addr].ClassObj? && heap[receiver.addr].instance.isFrozen
    ensures StrKey(key) in heap[receiver.addr].instance.fields ==> SetSpec(heap, receiver, key, value, call).Ok?
    ensures StrKey(key) !in heap[receiver.addr].instance.fields ==>
      SetSpec(heap, receiver, key, value, call) == Err(CannotSetField(StrKey(key)))
  {
  }

  /** After a successful write to an instance, reading the field gives the value written. */
  lemma SetThenGet(heap: Heap, receiver: Value, key: string, value: Value, call: NativeClass.Caller)
    requires IsObject(heap, receiver) && heap[receiver.addr].ClassObj?
    requires SetSpec(heap, receiver, key, value, call).Ok?
    ensures var heap' := SetSpec(heap, receiver, key, value, call).value;
      FieldGet(heap', heap'[receiver.addr], StrKey(key), call) == Ok(Some(value))
  {
  }

  /** `set`. */
  method Set(space: ObjectSpace, receiver: Value, key: string, value: Value, call: NativeClass.Caller)
    returns (r: Result<(), Error>)
    modifies space
    ensures SetSpec(old(space.objects), receiver, key, value, call).Ok? ==>
      r.Ok? && space.objects == SetSpec(old(space.objects), receiver, key, value, call).value
    ensures SetSpec(old(space.objects), receiver, key, value, call).Err? ==>
      r == Err(SetSpec(old(space.objects), receiver, key, value, call).error) && space.objects == old(space.objects)
    ensures space.next == old(space.next)
  {
    if receiver.Obj? && receiver.addr in space.objects {
      var o := space.objects[receiver.addr];
      var existing := FieldGet(space.objects, o, StrKey(key), call);
      if existing.Err? {
        return Err(existing.error);
      }
      if existing.value.Some? || !IsFrozen(o) {
        var updated := FieldSet(o, StrKey(key), value, call);
        if updated.Err? {
          return Err(updated.error);
        }
        space.objects := space.objects[receiver.addr := updated.value];
        return Ok(());
      }
    }
    r := Err(CannotSetField(StrKey(key)));
  }

  /** Turn a fetched field into a value, allocating the bound `Method` object when needed. */
  method Materialize(space: ObjectSpace, f: Fetched) returns (v: Value)
    requires space.Valid()
    modifies space
    ensures space.Valid()
    ensures f.Plain? ==> v == f.value && space.objects == old(space.objects)
    ensures f.Bind? ==> (v.Obj? && v.addr !in old(space.objects)
                         && space.objects == old(space.objects)[v.addr := MethodObj(ClassObject.Method(f.receiver, f.func))])
  {
    match f
    case Plain(x) => v := x;
    case Bind(receiver, func) =>
      var a := space.Alloc(MethodObj(ClassObject.Method(receiver, func)));
      v := Obj(a);
  }

  /** `get`. */
  method Get(space: ObjectSpace, receiver: Value, key: string, call: NativeClass.Caller) returns (r: Result<Value, Error>)
    requires space.Valid()
    modifies space
    ensures space.Valid()
    ensures GetSpec(old(space.objects), receiver, key, call).Err? ==>
      r == Err(GetSpec(old(space.objects), receiver, key, call).error) && space.objects == old(space.objects)
    ensures GetSpec(old(space.objects), receiver, key, call).Ok? && GetSpec(old(space.objects), receiver, key, call).value.Plain? ==>
      r == Ok(GetSpec(old(space.objects), receiver, key, call).value.value) && space.objects == old(space.objects)
    ensures GetSpec(old(space.objects), receiver, key, call).Ok? && GetSpec(old(space.objects), receiver, key, call).value.Bind? ==>
      r.Ok? && r.value.Obj? && r.value.addr !in old(space.objects)
      && space.objects == old(space.objects)[r.value.addr := MethodObj(ClassObject.Method(receiver,
           GetSpec(old(space.objects), receiver, key, call).value.func))]
  {
    var spec := GetSpec(space.objects, receiver, key, call);
    if spec.Err? {
      return Err(spec.error);
    }
    var v := Materialize(space, spec.value);
    r := Ok(v);
  }

  /** `get_opt`. */
  method GetOpt(space: ObjectSpace, receiver: Value, key: string, call: NativeClass.Caller) returns (r: Result<Value, Error>)
    requires space.Valid()
    modifies space
    ensures space.Valid()
    ensures GetOptSpec(old(space.objects), receiver, key, call).Err? ==>
      r == Err(GetOptSpec(old(space.objects), receiver, key, call).error) && space.objects == old(space.objects)
    ensures GetOptSpec(old(space.objects), receiver, key, call).Ok? && GetOptSpec(old(space.objects), receiver, key, call).value.Plain? ==>
      r == Ok(GetOptSpec(old(space.objects), receiver, key, call).value.value) && space.objects == old(space.objects)
    ensures GetOptSpec(old(space.objects), receiver, key, call).Ok? && GetOptSpec(old(space.objects), receiver, key, call).value.Bind? ==>
      r.Ok? && r.value.Obj? && r.value.addr !in old(space.objects)
      && space.objects == old(space.objects)[r.value.addr := MethodObj(ClassObject.Method(receiver,
           GetOptSpec(old(space.objects), receiver, key, call).value.func))]
  {
    var spec := GetOptSpec(space.objects, receiver, key, call);
    if spec.Err? {
      return Err(spec.error);
    }
    var v := Materialize(space, spec.value);
    r := Ok(v);
  }
}

=== FILE: index_ops.dfy ===
/**
 * The generic keyed-access rules of crates/runtime/src/isolate/index.rs:
 * like the field rules, but with integer or string keys and without method
 * binding.
 */
module IndexOps {
  import opened Wrappers
  import opened Values
  import opened Objects

  /** The heap after `set`, or the error it reports. */
  function SetSpec(heap: Heap, receiver: Value, key: Key, value: Value): (r: Result<Heap, Error>)
    ensures r.Ok? <==> (IsObject(heap, receiver)
                        && (IndexGet(heap[receiver.addr], key).value.Some? || !IsFrozen(heap[receiver.addr]))
                        && IndexSet(heap[receiver.addr], key, value).Ok?)
    ensures r.Err? ==> r.error == CannotSetField(key)
    ensures r.Ok? ==> r.value == heap[receiver.addr := IndexSet(heap[receiver.addr], key, value).value]
  {
    if IsObject(heap, receiver) then
      var o := heap[receiver.addr];
      match IndexGet(o, key)
      case Err(e) => Err(e)
      case Ok(existing) =>
        if existing.Some? || !IsFrozen(o) then
          match IndexSet(o, key, value)
          case Err(e) => Err(e)
          case Ok(o') => Ok(heap[receiver.addr := o'])
        else Err(CannotSetField(key))
    else Err(CannotSetField(key))
  }

  /** `get`: the stored value as it is; a miss or a non-object receiver is an error. */
  function GetSpec(heap: Heap, receiver: Value, key: Key): (r: Result<Value, Error>)
    ensures r.Ok? <==> IsObject(heap, receiver) && heap[receiver.addr].DictObj? && key in heap[receiver.addr].entries
    ensures r.Ok? ==> r.value == heap[receiver.addr].entries[key]
    ensures r.Err? ==> r.error == CannotGetField(key)
  {
    if IsObject(heap, receiver) then
      match IndexGet(heap[receiver.addr], key)
      case Err(e) => Err(e)
      case Ok(None) => Err(CannotGetField(key))
      case Ok(Some(v)) => Ok(v)
    else Err(CannotGetField(key))
  }

  /** `get_opt`: `none` short-circuits and every miss reads as `none`. */
  function GetOptSpec(heap: Heap, receiver: Value, key: Key): (r: Result<Value, Error>)
    ensures receiver.NoneValue? ==> r == Ok(NoneValue)
    ensures r.Ok?
  {
    if receiver.NoneValue? then Ok(NoneValue)
    else if IsObject(heap, receiver) then
      match IndexGet(heap[receiver.addr], key)
      case Err(e) => Err(e)
      case Ok(None) => Ok(NoneValue)
      case Ok(Some(v)) => Ok(v)
    else Ok(NoneValue)
  }

  /** `get_opt` is `get` with every error replaced by `none`. */
  lemma GetOptIsTotalGet(heap: Heap, receiver: Value, key: Key)
    ensures GetSpec(heap, receiver, key).Ok? ==> GetOptSpec(heap, receiver, key) == GetSpec(heap, receiver, key)
    ensures GetSpec(heap, receiver, key).Err? ==> GetOptSpec(heap, receiver, key) == Ok(NoneValue)
  {
  }

  /** Writing a dictionary entry and reading it back gives the value; other entries and objects are untouched. */
  lemma SetThenGet(heap: Heap, receiver: Value, key: Key, other: Key, value: Value)
    requires IsObject(heap, receiver) && heap[receiver.addr].DictObj?
    ensures SetSpec(heap, receiver, key, value).Ok?
    ensures GetSpec(SetSpec(heap, receiver, key, value).value, receiver, key) == Ok(value)
    ensures other != key ==>
      GetSpec(SetSpec(heap, receiver, key, value).value, receiver, other) == GetSpec(heap, receiver, other)
  {
  }

  /** `set`. */
  method Set(space: ObjectSpace, receiver: Value, key: Key, value: Value) returns (r: Result<(), Error>)
    modifies space
    ensures SetSpec(old(space.objects), receiver, key, value).Ok? ==>
      r.Ok? && space.objects == SetSpec(old(space.objects), receiver, key, value).value
    ensures SetSpec(old(space.objects), receiver, key, value).Err? ==>
      r == Err(SetSpec(old(space.objects), receiver, key, value).error) && space.objects == old(space.objects)
    ensures space.next == old(space.next)
  {
    if receiver.Obj? && receiver.addr in space.objects {
      var o := space.objects[receiver.addr];
      var existing := IndexGet(o, key);
      if existing.value.Some? || !IsFrozen(o) {
        var updated := IndexSet(o, key, value);
        if updated.Err? {
          return Err(updated.error);
        }
        space.objects := space.objects[receiver.addr := updated.value];
        return Ok(());
      }
    }
    r := Err(CannotSetField(key));
  }
}

=== FILE: isolate.dfy ===
/**
 * The accumulator interpreter of crates/vm/src/lib.rs. Every operation reads
 * or writes the accumulator `acc`; registers are the slots of `stack` from
 * the top frame's `base`; constants come from the top frame's pool; globals
 * are a dictionary that must already hold a name before it can be stored to.
 * Lists, dictionaries and closures live in the object space and are updated
 * in place. Arithmetic, comparison, truthiness and the text output are in
 * modules that are not part of this model: they enter as function parameters.
 */
module Isolate {
  import opened Wrappers
  import opened Values
  import opened Objects

  /** A call frame: its register window, its constant pool, the captures of the running closure. */
  datatype Frame = Frame(base: nat, constPool: seq<Value>, captures: Option<Addr>)

  /** What a jump handler tells the dispatch loop. */
  datatype ControlFlow = Next | Jump(offset: nat) | Loop(offset: nat)

  datatype Ordering = Less | Equal | Greater
  datatype CmpOp = Eq | Neq | Gt | Ge | Lt | Le
  datatype ArithOp = Add | Sub | Mul | Div | Rem | Pow
  datatype Literal = LitNone | LitTrue | LitFalse | LitSmallInt(i: int)

  /** `dict::Key::try_from`, as the model assumes it: integers and strings are keys, nothing else is. */
  function KeyOf(heap: Heap, v: Value): (r: Option<Key>)
    ensures r.Some? <==> v.Int? || (IsObject(heap, v) && heap[v.addr].StrObj?)
    ensures v.Int? ==> r == Some(IntKey(v.i))
    ensures IsObject(heap, v) && heap[v.addr].StrObj? ==> r == Some(StrKey(heap[v.addr].str.contents))
  {
    match v
    case Int(i) => Some(IntKey(i))
    case Obj(a) => if a in heap && heap[a].StrObj? then Some(StrKey(heap[a].str.contents)) else None
    case _ => None
  }

  predicate IsDict(heap: Heap, v: Value) {
    IsObject(heap, v) && heap[v.addr].DictObj?
  }

  predicate IsList(heap: Heap, v: Value) {
    IsObject(heap, v) && heap[v.addr].ListObj?
  }

  predicate IsClosure(heap: Heap, v: Value) {
    IsObject(heap, v) && heap[v.addr].ClosureObj?
  }

  /** The boolean a comparison leaves in `acc`, given what `partial_cmp` answered. */
  function CmpHolds(op: CmpOp, ord: Option<Ordering>): bool {
    match op
    case Eq => ord == Some(Equal)
    case Neq => ord != Some(Equal)
    case Gt => ord == Some(Greater)
    case Ge => ord == Some(Greater) || ord == Some(Equal)
    case Lt => ord == Some(Less)
    case Le => ord == Some(Equal) || ord == Some(Less)
  }

  function Reverse(ord: Option<Ordering>): Option<Ordering> {
    match ord
    case Some(Less) => Some(Greater)
    case Some(Greater) => Some(Less)
    case _ => ord
  }

  /**
   * How the six comparisons relate: `!=` is the negation of `==` (so
   * incomparable operands are unequal), `>=` and `<=` are the strict test or
   * equality, `<` is `>` with the ordering reversed, and incomparable
   * operands satisfy no ordering test.
   */
  lemma ComparisonLaws(ord: Option<Ordering>)
    ensures CmpHolds(Neq, ord) == !CmpHolds(Eq, ord)
    ensures CmpHolds(Ge, ord) == (CmpHolds(Gt, ord) || CmpHolds(Eq, ord))
    ensures CmpHolds(Le, ord) == (CmpHolds(Lt, ord) || CmpHolds(Eq, ord))
    ensures CmpHolds(Lt, ord) == CmpHolds(Gt, Reverse(ord))
    ensures CmpHolds(Le, ord) == CmpHolds(Ge, Reverse(ord))
    ensures ord.None? ==> (CmpHolds(Neq, ord) && !CmpHolds(Eq, ord) && !CmpHolds(Gt, ord)
                           && !CmpHolds(Ge, ord) && !CmpHolds(Lt, ord) && !CmpHolds(Le, ord))
  {
  }

  /** A truthiness test that treats booleans as themselves. */
  ghost predicate BoolsAreThemselves(truthy: Value -> bool) {
    forall b: bool :: truthy(Bool(b)) == b
  }

  /** `op_unary_not` as the source writes it: the accumulator becomes its own truthiness. */
  function NotAsWritten(truthy: Value -> bool, v: Value): (r: Value)
    ensures r.Bool? && r.b == truthy(v)
  {
    Bool(truthy(v))
  }

  /** Under `NotAsWritten`, `!true` evaluates to `true`: the operator does not negate. */
  lemma NotAsWrittenDoesNotNegate(truthy: Value -> bool)
    requires BoolsAreThemselves(truthy)
    ensures NotAsWritten(truthy, Bool(true)) == Bool(true)
    ensures NotAsWritten(truthy, Bool(false)) == Bool(false)
  {
    assert truthy(Bool(true)) == true;
    assert truthy(Bool(false)) == false;
  }

  /** Logical not: the negated truthiness of the operand. */
  function Not(truthy: Value -> bool, v: Value): (r: Value)
    ensures r.Bool? && r.b == !truthy(v)
  {
    Bool(!truthy(v))
  }

  /** The corrected `not` negates booleans and is its own inverse on truth values. */
  lemma NotNegates(truthy: Value -> bool, v: Value)
    requires BoolsAreThemselves(truthy)
    ensures forall b: bool :: Not(truthy, Bool(b)) == Bool(!b)
    ensures Not(truthy, Not(truthy, v)) == Bool(truthy(v))
  {
    forall b: bool
      ensures Not(truthy, Bool(b)) == Bool(!b)
    {
      assert truthy(Bool(b)) == b;
    }
    assert truthy(Not(truthy, v)) == !truthy(v);
  }

  /** The sign bit of an IEEE 754 double. */
  const SIGN_BIT: bv64 := 0x8000_0000_0000_0000

  class Isolate {
    var acc: Value
    var stack: seq<Value>
    var frames: seq<Frame>
    var globals: map<Key, Value>
    const space: ObjectSpace

    ghost predicate Valid()
      reads this, space
    {
      space.Valid()
    }

    constructor (space: ObjectSpace)
      requires space.Valid()
      ensures Valid() && this.space == space
      ensures acc == NoneValue && stack == [] && frames == [] && globals == map[]
    {
      this.space := space;
      acc := NoneValue;
      stack := [];
      frames := [];
      globals := map[];
    }

    function Top(): Frame
      reads this
      requires |frames| > 0
    {
      frames[|frames| - 1]
    }

    /** Register `r` of the top frame exists. */
    predicate HasReg(r: nat)
      reads this
    {
      |frames| > 0 && Top().base + r < |stack|
    }

    function Reg(r: nat): Value
      reads this
      requires HasReg(r)
    {
      stack[Top().base + r]
    }

    /** Constant `c` of the top frame exists. */
    predicate HasConst(c: nat)
      reads this
    {
      |frames| > 0 && c < |Top().constPool|
    }

    function Const(c: nat): Value
      reads this
      requires HasConst(c)
    {
      Top().constPool[c]
    }

    /** The top frame runs a closure whose captures hold `slot`. */
    predicate HasCapture(slot: nat)
      reads this, space
    {
      && |frames| > 0 && Top().captures.Some?
      && Top().captures.value in space.objects
      && space.objects[Top().captures.value].ClosureObj?
      && slot < |space.objects[Top().captures.value].captures|
    }

    /** `op_load_const`. */
    method LoadConst(slot: nat)
      requires HasConst(slot)
      modifies this
      ensures acc == old(Const(slot))
      ensures stack == old(stack) && frames == old(frames) && globals == old(globals)
    {
      acc := Const(slot);
    }

    /** `op_load_reg`. */
    method LoadReg(reg: nat)
      requires HasReg(reg)
      modifies this
      ensures acc == old(Reg(reg))
      ensures stack == old(stack) && frames == old(frames) && globals == old(globals)
    {
      acc := Reg(reg);
    }

    /** `op_store_reg`: only the register's slot changes. */
    method StoreReg(reg: nat)
      requires HasReg(reg)
      modifies this
      ensures |stack| == |old(stack)|
      ensures stack[old(Top().base) + reg] == acc
      ensures forall i :: 0 <= i < |stack| && i != old(Top().base) + reg ==> stack[i] == old(stack[i])
      ensures acc == old(acc) && frames == old(frames) && globals == old(globals)
    {
      stack := stack[Top().base + reg := acc];
    }

    /** `op_load_capture`. */
    method LoadCapture(slot: nat)
      requires HasCapture(slot)
      modifies this
      ensures acc == old(space.objects[Top().captures.value].captures[slot])
      ensures stack == old(stack) && frames == old(frames) && globals == old(globals)
    {
      acc := space.objects[Top().captures.value].captures[slot];
    }

    /** `op_store_capture`: writes the running closure's capture slot in place. */
    method StoreCapture(slot: nat)
      requires HasCapture(slot)
      modifies space
      ensures space.next == old(space.next)
      ensures var c := old(Top().captures.value);
        space.objects == old(space.objects)[c := ClosureObj(old(space.objects[c].descriptor),
                                                            old(space.objects[c].captures)[slot := acc])]
    {
      var c := Top().captures.value;
      var closure := space.objects[c];
      space.objects := space.objects[c := closure.(captures := closure.captures[slot := acc])];
    }

    /**
     * `op_load_global`: the name constant is always a string; a name that
     * is not a global yet is an error.
     */
    method LoadGlobal(name: nat) returns (r: Result<(), Error>)
      requires HasConst(name)
      modifies this
      ensures KeyOf(space.objects, old(Const(name))).None? ==> r.Err? && r.error.Panic? && acc == old(acc)
      ensures KeyOf(space.objects, old(Const(name))).Some? ==>
        var k := KeyOf(space.objects, old(Const(name))).value;
        (r.Ok? <==> k in globals) && (r.Ok? ==> acc == globals[k]) && (r.Err? ==> r == Err(VmError) && acc == old(acc))
      ensures stack == old(stack) && frames == old(frames) && globals == old(globals)
    {
      var key := KeyOf(space.objects, Const(name));
      if key.None? {
        return Err(Panic("called `Result::unwrap()` on an `Err` value"));
      }
      if key.value !in globals {
        return Err(VmError);
      }
      acc := globals[key.value];
      r := Ok(());
    }

    /** `op_store_global`: only overwrites an existing global, never creates one. */
    method StoreGlobal(name: nat) returns (r: Result<(), Error>)
      requires HasConst(name)
      modifies this
      ensures KeyOf(space.objects, old(Const(name))).None? ==> r.Err? && r.error.Panic? && globals == old(globals)
      ensures KeyOf(space.objects, old(Const(name))).Some? ==>
        var k := KeyOf(space.objects, old(Const(name))).value;
        (r.Ok? <==> k in old(globals))
        && (r.Ok? ==> globals == old(globals)[k := acc])
        && (r.Err? ==> r == Err(VmError) && globals == old(globals))
      ensures globals.Keys == old(globals).Keys
      ensures acc == old(acc) && stack == old(stack) && frames == old(frames)
    {
      var key := KeyOf(space.objects, Const(name));
      if key.None? {
        return Err(Panic("called `Result::unwrap()` on an `Err` value"));
      }
      if key.value !in globals {
        return Err(VmError);
      }
      globals := globals[key.value := acc];
      r := Ok(());
    }

    /** `op_load_named`: `acc` must be a dictionary holding the name. */
    method LoadNamed(name: nat) returns (r: Result<(), Error>)
      requires HasConst(name)
      modifies this
      ensures !IsDict(space.objects, old(acc)) ==> r == Err(VmError) && acc == old(acc)
      ensures IsDict(space.objects, old(acc)) && KeyOf(space.objects, old(Const(name))).None? ==> r.Err? && r.error.Panic?
      ensures IsDict(space.objects, old(acc)) && KeyOf(space.objects, old(Const(name))).Some? ==>
        var k := KeyOf(space.objects, old(Const(name))).value;
        var entries := space.objects[old(acc).addr].entries;
        (r.Ok? <==> k in entries) && (r.Ok? ==> acc == entries[k]) && (r.Err? ==> r == Err(VmError) && acc == old(acc))
      ensures stack == old(stack) && frames == old(frames) && globals == old(globals)
    {
      if !IsDict(space.objects, acc) {
        return Err(VmError);
      }
      var key := KeyOf(space.objects, Const(name));
      if key.None? {
        return Err(Panic("called `Result::unwrap()` on an `Err` value"));
      }
      var entries := space.objects[acc.addr].entries;
      if key.value !in entries {
        return Err(VmError);
      }
      acc := entries[key.value];
      r := Ok(());
    }

    /** `op_load_named_opt`: `none` stays `none`; a missing name reads as `none`. */
    method LoadNamedOpt(name: nat) returns (r: Result<(), Error>)
      requires HasConst(name)
      modifies this
      ensures old(acc).NoneValue? ==> r.Ok? && acc == NoneValue
      ensures !old(acc).NoneValue? && !IsDict(space.objects, old(acc)) ==> r == Err(VmError) && acc == old(acc)
      ensures IsDict(space.objects, old(acc)) && KeyOf(space.objects, old(Const(name))).None? ==> r.Err? && r.error.Panic?
      ensures IsDict(space.objects, old(acc)) && KeyOf(space.objects, old(Const(name))).Some? ==>
        var k := KeyOf(space.objects, old(Const(name))).value;
        var entries := space.objects[old(acc).addr].entries;
        r.Ok? && acc == (if k in entries then entries[k] else NoneValue)
      ensures stack == old(stack) && frames == old(frames) && globals == old(globals)
    {
      if acc.NoneValue? {
        return Ok(());
      }
      if !IsDict(space.objects, acc) {
        return Err(VmError);
      }
      var key := KeyOf(space.objects, Const(name));
      if key.None? {
        return Err(Panic("called `Result::unwrap()` on an `Err` value"));
      }
      var entries := space.objects[acc.addr].entries;
      acc := if key.value in entries then entries[key.value] else NoneValue;
      r := Ok(());
    }

    /** Insert `acc` under `key` into the dictionary `target` in place. */
    method DictInsert(target: Addr, key: Key)
      requires target in space.objects && space.objects[target].DictObj?
      modifies space
      ensures space.objects == old(space.objects)[target := DictObj(old(space.objects[target].entries)[key := acc])]
      ensures space.next == old(space.next)
    {
      var entries := space.objects[target].entries;
      space.objects := space.objects[target := DictObj(entries[key := acc])];
    }

    /** `op_store_named`: the register must hold a dictionary; the name goes in with `acc`. */
    method StoreNamed(name: nat, obj: nat) returns (r: Result<(), Error>)
      requires HasConst(name) && HasReg(obj)
      modifies space
      ensures space.next == old(space.next)
      ensures !IsDict(old(space.objects), Reg(obj)) ==> r == Err(VmError) && space.objects == old(space.objects)
      ensures IsDict(old(space.objects), Reg(obj)) && KeyOf(old(space.objects), Const(name)).None? ==>
        r.Err? && r.error.Panic? && space.objects == old(space.objects)
      ensures IsDict(old(space.objects), Reg(obj)) && KeyOf(old(space.objects), Const(name)).Some? ==>
        r.Ok? && space.objects == old(space.objects)[Reg(obj).addr :=
          DictObj(old(space.objects[Reg(obj).addr].entries)[KeyOf(old(space.objects), Const(name)).value := acc])]
    {
      var target := Reg(obj);
      if !IsDict(space.objects, target) {
        return Err(VmError);
      }
      var key := KeyOf(space.objects, Const(name));
      if key.None? {
        return Err(Panic("called `Result::unwrap()` on an `Err` value"));
      }
      DictInsert(target.addr, key.value);
      r := Ok(());
    }

    /** `op_load_keyed`: the key register must hold a key; a missing key reads as `none`. */
    method LoadKeyed(key: nat) returns (r: Result<(), Error>)
      requires HasReg(key)
      modifies this
      ensures KeyOf(space.objects, old(Reg(key))).None? ==> r == Err(VmError) && acc == old(acc)
      ensures KeyOf(space.objects, old(Reg(key))).Some? && !IsDict(space.objects, old(acc)) ==> r == Err(VmError) && acc == old(acc)
      ensures KeyOf(space.objects, old(Reg(key))).Some? && IsDict(space.objects, old(acc)) ==>
        var k := KeyOf(space.objects, old(Reg(key))).value;
        var entries := space.objects[old(acc).addr].entries;
        r.Ok? && acc == (if k in entries then entries[k] else NoneValue)
      ensures stack == old(stack) && frames == old(frames) && globals == old(globals)
    {
      var k := KeyOf(space.objects, Reg(key));
      if k.None? {
        return Err(VmError);
      }
      if !IsDict(space.objects, acc) {
        return Err(VmError);
      }
      var entries := space.objects[acc.addr].entries;
      acc := if k.value in entries then entries[k.value] else NoneValue;
      r := Ok(());
    }

    /** `op_load_keyed_opt`: the key is checked before the `none` short-circuit. */
    method LoadKeyedOpt(key: nat) returns (r: Result<(), Error>)
      requires HasReg(key)
      modifies this
      ensures KeyOf(space.objects, old(Reg(key))).None? ==> r == Err(VmError) && acc == old(acc)
      ensures KeyOf(space.objects, old(Reg(key))).Some? && old(acc).NoneValue? ==> r.Ok? && acc == NoneValue
      ensures KeyOf(space.objects, old(Reg(key))).Some? && !old(acc).NoneValue? && !IsDict(space.objects, old(acc)) ==>
        r == Err(VmError) && acc == old(acc)
      ensures KeyOf(space.objects, old(Reg(key))).Some? && IsDict(space.objects, old(acc)) ==>
        var k := KeyOf(space.objects, old(Reg(key))).value;
        var entries := space.objects[old(acc).addr].entries;
        r.Ok? && acc == (if k in entries then entries[k] else NoneValue)
      ensures stack == old(stack) && frames == old(frames) && globals == old(globals)
    {
      var k := KeyOf(space.objects, Reg(key));
      if k.None? {
        return Err(VmError);
      }
      if acc.NoneValue? {
        return Ok(());
      }
      if !IsDict(space.objects, acc) {
        return Err(VmError);
      }
      var entries := space.objects[acc.addr].entries;
      acc := if k.value in entries then entries[k.value] else NoneValue;
      r := Ok(());
    }

    /** `op_store_keyed` and `op_insert_to_dict`: key register, then dictionary register, then insert `acc`. */
    method StoreKeyed(key: nat, obj: nat) returns (r: Result<(), Error>)
      requires HasReg(key) && HasReg(obj)
      modifies space
      ensures space.next == old(space.next)
      ensures r.Ok? <==> KeyOf(old(space.objects), Reg(key)).Some? && IsDict(old(space.objects), Reg(obj))
      ensures r.Err? ==> r == Err(VmError) && space.objects == old(space.objects)
      ensures r.Ok? ==> space.objects == old(space.objects)[Reg(obj).addr :=
        DictObj(old(space.objects[Reg(obj).addr].entries)[KeyOf(old(space.objects), Reg(key)).value := acc])]
    {
      var k := KeyOf(space.objects, Reg(key));
      if k.None? {
        return Err(VmError);
      }
      var target := Reg(obj);
      if !IsDict(space.objects, target) {
        return Err(VmError);
      }
      DictInsert(target.addr, k.value);
      r := Ok(());
    }

    /** `op_insert_to_dict_named`: the dictionary register is checked first, then the name. */
    method InsertToDictNamed(name: nat, dict: nat) returns (r: Result<(), Error>)
      requires HasConst(name) && HasReg(dict)
      modifies space
      ensures space.next == old(space.next)
      ensures !IsDict(old(space.objects), Reg(dict)) ==> r == Err(VmError) && space.objects == old(space.objects)
      ensures IsDict(old(space.objects), Reg(dict)) && KeyOf(old(space.objects), Const(name)).None? ==>
        r.Err? && r.error.Panic? && space.objects == old(space.objects)
      ensures IsDict(old(space.objects), Reg(dict)) && KeyOf(old(space.objects), Const(name)).Some? ==>
        r.Ok? && space.objects == old(space.objects)[Reg(dict).addr :=
          DictObj(old(space.objects[Reg(dict).addr].entries)[KeyOf(old(space.objects), Const(name)).value := acc])]
    {
      r := StoreNamed(name, dict);
    }

    /** `op_push_none`, `op_push_true`, `op_push_false`, `op_push_small_int`. */
    method Push(lit: Literal)
      modifies this
      ensures acc == match lit
        case LitNone => NoneValue
        case LitTrue => Bool(true)
        case LitFalse => Bool(false)
        case LitSmallInt(i) => Int(i)
      ensures stack == old(stack) && frames == old(frames) && globals == old(globals)
    {
      match lit
      case LitNone => acc := NoneValue;
      case LitTrue => acc := Bool(true);
      case LitFalse => acc := Bool(false);
      case LitSmallInt(i) => acc := Int(i);
    }

    /** `op_create_empty_list`. */
    method CreateEmptyList()
      requires Valid()
      modifies this, space
      ensures Valid()
      ensures acc.Obj? && acc.addr !in old(space.objects) && space.objects == old(space.objects)[acc.addr := ListObj([])]
      ensures stack == old(stack) && frames == old(frames) && globals == old(globals)
    {
      var a := space.Alloc(ListObj([]));
      acc := Obj(a);
    }

    /** `op_create_empty_dict`. */
    method CreateEmptyDict()
      requires Valid()
      modifies this, space
      ensures Valid()
      ensures acc.Obj? && acc.addr !in old(space.objects) && space.objects == old(space.objects)[acc.addr := DictObj(map[])]
      ensures stack == old(stack) && frames == old(frames) && globals == old(globals)
    {
      var a := space.Alloc(DictObj(map[]));
      acc := Obj(a);
    }

    /** `op_push_to_list`: appends `acc` to the list in the register. */
    method PushToList(list: nat) returns (r: Result<(), Error>)
      requires HasReg(list)
      modifies space
      ensures space.next == old(space.next)
      ensures r.Ok? <==> IsList(old(space.objects), Reg(list))
      ensures r.Err? ==> r == Err(VmError) && space.objects == old(space.objects)
      ensures r.Ok? ==> space.objects == old(space.objects)[Reg(list).addr := ListObj(old(space.objects[Reg(list).addr].items) + [acc])]
    {
      var target := Reg(list);
      if !IsList(space.objects, target) {
        return Err(VmError);
      }
      var items := space.objects[target.addr].items;
      space.objects := space.objects[target.addr := ListObj(items + [acc])];
      r := Ok(());
    }

    /** `op_create_closure`: a closure over the descriptor constant, with one empty slot per capture. */
    method CreateClosure(descriptor: nat)
      requires Valid() && HasConst(descriptor)
      requires IsObject(space.objects, Const(descriptor)) && space.objects[Const(descriptor).addr].FunctionDescObj?
      modifies this, space
      ensures Valid()
      ensures acc.Obj? && acc.addr !in old(space.objects)
      ensures space.objects == old(space.objects)[acc.addr := ClosureObj(old(Const(descriptor)),
        seq(old(space.objects[Const(descriptor).addr].numCaptures), _ => NoneValue))]
      ensures stack == old(stack) && frames == old(frames) && globals == old(globals)
    {
      var desc := Const(descriptor);
      var n := space.objects[desc.addr].numCaptures;
      var a := space.Alloc(ClosureObj(desc, seq(n, _ => NoneValue)));
      acc := Obj(a);
    }

    /** `op_capture_reg`: copies a register into a capture slot of the closure in `acc`. */
    method CaptureReg(reg: nat, slot: nat)
      requires HasReg(reg) && IsClosure(space.objects, acc) && slot < |space.objects[acc.addr].captures|
      modifies space
      ensures space.next == old(space.next)
      ensures space.objects == old(space.objects)[acc.addr := ClosureObj(old(space.objects[acc.addr].descriptor),
        old(space.objects[acc.addr].captures)[slot := Reg(reg)])]
    {
      var closure := space.objects[acc.addr];
      space.objects := space.objects[acc.addr := closure.(captures := closure.captures[slot := Reg(reg)])];
    }

    /** `op_capture_slot`: copies a capture of the running closure into the closure in `acc`. */
    method CaptureSlot(parentSlot: nat, selfSlot: nat)
      requires HasCapture(parentSlot) && IsClosure(space.objects, acc) && selfSlot < |space.objects[acc.addr].captures|
      modifies space
      ensures space.next == old(space.next)
      ensures space.objects == old(space.objects)[acc.addr := ClosureObj(old(space.objects[acc.addr].descriptor),
        old(space.objects[acc.addr].captures)[selfSlot := old(space.objects[Top().captures.value].captures[parentSlot])])]
    {
      var v := space.objects[Top().captures.value].captures[parentSlot];
      var closure := space.objects[acc.addr];
      space.objects := space.objects[acc.addr := closure.(captures := closure.captures[selfSlot := v])];
    }

    /** `op_jump` and `op_jump_back`: the offset is handed to the dispatch loop. */
    method JumpOp(offset: nat, back: bool) returns (r: Result<ControlFlow, Error>)
      ensures r == Ok(if back then Loop(offset) else Jump(offset))
    {
      r := Ok(if back then Loop(offset) else Jump(offset));
    }

    /** `op_jump_if_false`: `acc` must be a boolean; true falls through, false jumps. */
    method JumpIfFalse(offset: nat) returns (r: Result<ControlFlow, Error>)
      ensures !acc.Bool? ==> r == Err(VmError)
      ensures acc == Bool(true) ==> r == Ok(Next)
      ensures acc == Bool(false) ==> r == Ok(Jump(offset))
    {
      if !acc.Bool? {
        return Err(VmError);
      }
      r := if acc.b then Ok(Next) else Ok(Jump(offset));
    }

    /** `op_add` … `op_pow`: `acc := binop(reg, acc)`, or the error. */
    method Arith(op: ArithOp, lhs: nat, binop: (ArithOp, Value, Value) -> Result<Value, Error>) returns (r: Result<(), Error>)
      requires HasReg(lhs)
      modifies this
      ensures r.Ok? <==> binop(op, old(Reg(lhs)), old(acc)).Ok?
      ensures r.Ok? ==> acc == binop(op, old(Reg(lhs)), old(acc)).value
      ensures r.Err? ==> r.error == binop(op, old(Reg(lhs)), old(acc)).error && acc == old(acc)
      ensures stack == old(stack) && frames == old(frames) && globals == old(globals)
    {
      var res := binop(op, Reg(lhs), acc);
      if res.Err? {
        return Err(res.error);
      }
      acc := res.value;
      r := Ok(());
    }

    /** `op_unary_plus`: leaves everything as it is. */
    method UnaryPlus() returns (r: Result<(), Error>)
      ensures r.Ok?
    {
      r := Ok(());
    }

    /**
     * `op_unary_minus`: integers are negated (negating the least i32
     * overflows, which panics in a debug build), floats flip their sign bit,
     * anything else reaches `unimplemented!()`.
     */
    method UnaryMinus() returns (r: Result<(), Error>)
      modifies this
      ensures old(acc).Int? && old(acc).i != -0x8000_0000 ==> r.Ok? && acc == Int(-old(acc).i)
      ensures old(acc).Int? && old(acc).i == -0x8000_0000 ==> r.Err? && r.error.Panic? && acc == old(acc)
      ensures old(acc).Float? ==> r.Ok? && acc == Float(old(acc).bits ^ SIGN_BIT)
      ensures !old(acc).Int? && !old(acc).Float? ==> r == Err(Panic("not implemented")) && acc == old(acc)
      ensures stack == old(stack) && frames == old(frames) && globals == old(globals)
    {
      if acc.Int? {
        if acc.i == -0x8000_0000 {
          return Err(Panic("attempt to negate with overflow"));
        }
        acc := Int(-acc.i);
      } else if acc.Float? {
        acc := Float(acc.bits ^ SIGN_BIT);
      } else {
        return Err(Panic("not implemented"));
      }
      r := Ok(());
    }

    /** `op_unary_not` exactly as written (see `NotAsWritten`). */
    method UnaryNotAsWritten(truthy: Value -> bool)
      modifies this
      ensures acc == NotAsWritten(truthy, old(acc))
      ensures stack == old(stack) && frames == old(frames) && globals == old(globals)
    {
      acc := Bool(truthy(acc));
    }

    /** `op_unary_not` with the negation it is evidently meant to perform. */
    method UnaryNot(truthy: Value -> bool)
      modifies this
      ensures acc == Not(truthy, old(acc))
      ensures stack == old(stack) && frames == old(frames) && globals == old(globals)
    {
      acc := Bool(!truthy(acc));
    }

    /** `op_cmp_eq` … `op_cmp_le`: `acc` becomes the boolean the ordering answers for `op`. */
    method Compare(op: CmpOp, lhs: nat, partialCmp: (Value, Value) -> Result<Option<Ordering>, Error>)
      returns (r: Result<(), Error>)
      requires HasReg(lhs)
      modifies this
      ensures r.Ok? <==> partialCmp(old(Reg(lhs)), old(acc)).Ok?
      ensures r.Ok? ==> acc == Bool(CmpHolds(op, partialCmp(old(Reg(lhs)), old(acc)).value))
      ensures r.Err? ==> r.error == partialCmp(old(Reg(lhs)), old(acc)).error && acc == old(acc)
      ensures stack == old(stack) && frames == old(frames) && globals == old(globals)
    {
      var ord := partialCmp(Reg(lhs), acc);
      if ord.Err? {
        return Err(ord.error);
      }
      acc := Bool(CmpHolds(op, ord.value));
      r := Ok(());
    }

    /** `op_is_none`. */
    method IsNone()
      modifies this
      ensures acc == Bool(old(acc).NoneValue?)
      ensures stack == old(stack) && frames == old(frames) && globals == old(globals)
    {
      acc := Bool(acc.NoneValue?);
    }
  }
}

=== FILE: nanbox.dfy ===
/**
 * The NaN-boxed value encoding of the runtime crate: every value is one
 * 64-bit word. Floats are stored as themselves; every other kind sets all the
 * quiet-NaN bits and uses the next two bits as a type tag, with a 48-bit
 * payload below. Only the bit patterns are modelled: float arithmetic and
 * the reference counting done by Clone/Drop are not.
 */
module NanBox {
  import opened Wrappers

  /** Bits that every non-float value sets. */
  const QNAN: bv64 := 0x7FFC_0000_0000_0000
  /** Bits that hold the type tag. */
  const TAG: bv64 := 0xFFFF_0000_0000_0000
  /** The 48 payload bits. */
  const VALUE: bv64 := 0x0000_FFFF_FFFF_FFFF

  const INT_TAG: bv64 := 0x7FFC_0000_0000_0000
  const BOOL_TAG: bv64 := 0x7FFD_0000_0000_0000
  const NONE_TAG: bv64 := 0x7FFE_0000_0000_0000
  const OBJECT_TAG: bv64 := 0x7FFF_0000_0000_0000

  /** A boxed value: just its bits. */
  datatype Value = Value(bits: bv64)

  /**
   * Builds a float from the bit pattern of an f64. The source panics when the
   * pattern already contains every quiet-NaN bit; that panic is `None` here.
   */
  function Float(v: bv64): (r: Option<Value>)
    ensures r.None? <==> v & QNAN == QNAN
    ensures r.Some? ==> r.value.bits == v
  {
    if v & QNAN == QNAN then None else Some(Value(v))
  }

  /** Builds an int; `v` is the two's-complement bit pattern of the i32. */
  function Int(v: bv32): Value {
    Value((v as bv64) | INT_TAG)
  }

  function Bool(b: bool): Value {
    Value((if b then 1 else 0) | BOOL_TAG)
  }

  function NoneValue(): Value {
    Value(NONE_TAG)
  }

  /** Builds an object reference from an address; only the low 48 bits are kept. */
  function Object(addr: bv64): Value {
    Value((addr & VALUE) | OBJECT_TAG)
  }

  function Payload(v: Value): bv64 { v.bits & VALUE }

  function TypeTag(v: Value): bv64 { v.bits & TAG }

  predicate IsFloat(v: Value) { v.bits & QNAN != QNAN }
  predicate IsInt(v: Value) { TypeTag(v) == INT_TAG }
  predicate IsBool(v: Value) { TypeTag(v) == BOOL_TAG }
  predicate IsNone(v: Value) { TypeTag(v) == NONE_TAG }
  predicate IsObject(v: Value) { TypeTag(v) == OBJECT_TAG }

  function AsFloat(v: Value): (r: Option<bv64>)
    ensures r.Some? <==> IsFloat(v)
  {
    if IsFloat(v) then Some(v.bits) else None
  }

  /** The low 32 payload bits, reinterpreted as an i32 bit pattern. */
  function AsInt(v: Value): (r: Option<bv32>)
    ensures r.Some? <==> IsInt(v)
  {
    if IsInt(v) then Some((Payload(v) & 0xFFFF_FFFF) as bv32) else None
  }

  function AsBool(v: Value): (r: Option<bool>)
    ensures r.Some? <==> IsBool(v)
  {
    if IsBool(v) then Some(Payload(v) == 1) else None
  }

  function AsNone(v: Value): (r: Option<()>)
    ensures r.Some? <==> IsNone(v)
  {
    if IsNone(v) then Some(()) else None
  }

  /** The address stored in an object value. */
  function AsObject(v: Value): (r: Option<bv64>)
    ensures r.Some? <==> IsObject(v)
  {
    if IsObject(v) then Some(Payload(v)) else None
  }

  /** The signed meaning of an i32 bit pattern. */
  function Signed(b: bv32): (x: int)
    ensures -0x8000_0000 <= x < 0x8000_0000
  {
    if b as int >= 0x8000_0000 then b as int - 0x1_0000_0000 else b as int
  }

  /** How many of the five type predicates a value satisfies. */
  function TagCount(v: Value): nat {
    (if IsFloat(v) then 1 else 0) + (if IsInt(v) then 1 else 0) + (if IsBool(v) then 1 else 0)
    + (if IsNone(v) then 1 else 0) + (if IsObject(v) then 1 else 0)
  }

  lemma IntRoundTrip(v: bv32)
    ensures IsInt(Int(v)) && AsInt(Int(v)) == Some(v)
    ensures Signed(AsInt(Int(v)).value) == Signed(v)
  {
  }

  lemma BoolRoundTrip(b: bool)
    ensures IsBool(Bool(b)) && AsBool(Bool(b)) == Some(b)
  {
  }

  lemma NoneRoundTrip()
    ensures IsNone(NoneValue()) && AsNone(NoneValue()) == Some(())
  {
  }

  lemma FloatRoundTrip(v: bv64)
    requires v & QNAN != QNAN
    ensures Float(v) == Some(Value(v))
    ensures AsFloat(Value(v)) == Some(v)
  {
  }

  lemma ObjectKeepsLowBits(addr: bv64)
    ensures IsObject(Object(addr))
    ensures Payload(Object(addr)) == addr & VALUE
    ensures AsObject(Object(addr)) == Some(addr & VALUE)
  {
  }

  /** The int tag equals the quiet-NaN mask, so no int is ever read as a float. */
  lemma IntIsNeverFloat(v: Value)
    requires IsInt(v)
    ensures !IsFloat(v)
  {
  }

  /** No bit pattern satisfies two type predicates. */
  lemma AtMostOneTag(v: Value)
    ensures TagCount(v) <= 1
  {
  }

  /** Every constructed value satisfies exactly one type predicate. */
  lemma FloatHasOneTag(f: bv64)
    requires f & QNAN != QNAN
    ensures TagCount(Value(f)) == 1 && IsFloat(Value(f))
  {
    AtMostOneTag(Value(f));
  }

  lemma IntHasOneTag(i: bv32)
    ensures TagCount(Int(i)) == 1 && IsInt(Int(i))
  {
    AtMostOneTag(Int(i));
  }

  lemma BoolHasOneTag(b: bool)
    ensures TagCount(Bool(b)) == 1 && IsBool(Bool(b))
  {
    AtMostOneTag(Bool(b));
  }

  lemma NoneHasOneTag()
    ensures TagCount(NoneValue()) == 1 && IsNone(NoneValue())
  {
    AtMostOneTag(NoneValue());
  }

  lemma ObjectHasOneTag(addr: bv64)
    ensures TagCount(Object(addr)) == 1 && IsObject(Object(addr))
  {
    AtMostOneTag(Object(addr));
  }

  /** Each accessor is None exactly when the value carries another tag. */
  lemma AccessorsRejectOtherTags(v: Value)
    ensures IsInt(v) ==> AsFloat(v).None? && AsBool(v).None? && AsNone(v).None? && AsObject(v).None?
    ensures IsBool(v) ==> AsFloat(v).None? && AsInt(v).None? && AsNone(v).None? && AsObject(v).None?
    ensures IsNone(v) ==> AsFloat(v).None? && AsInt(v).None? && AsBool(v).None? && AsObject(v).None?
    ensures IsObject(v) ==> AsFloat(v).None? && AsInt(v).None? && AsBool(v).None? && AsNone(v).None?
    ensures IsFloat(v) ==> AsInt(v).None? && AsBool(v).None? && AsNone(v).None? && AsObject(v).None?
  {
    AtMostOneTag(v);
  }
}

=== FILE: native_class.dfy ===
/**
 * Classes implemented by the host (src/value/object/native.rs). A native
 * class has a table of field accessors (a getter and an optional setter per
 * field) and a table of methods; an instance pairs the class with opaque user
 * data. The host functions themselves are opaque: a `Caller` stands for
 * invoking one with the user data and an argument list.
 */
module NativeClass {
  import opened Wrappers
  import opened Values

  /** Invoking a native method on user data with positional arguments. */
  type Caller = (NativeClassMethod, nat, seq<Value>) -> Result<Value, Error>

  /** One entry of `TypeInfo::fields()`: a name, a getter and maybe a setter. */
  datatype FieldInfo = FieldInfo(name: string, getter: nat, setter: Option<nat>)
  /** One entry of `TypeInfo::methods()`. */
  datatype MethodInfo = MethodInfo(name: string, f: nat)
  datatype TypeInfo = TypeInfo(name: string, fields: seq<FieldInfo>, methods: seq<MethodInfo>)

  datatype Accessor = Accessor(getter: NativeClassMethod, setter: Option<NativeClassMethod>)
  datatype NativeClass = NativeClass(name: string, accessors: map<string, Accessor>, methods: map<string, NativeClassMethod>)
  datatype NativeClassInstance = NativeClassInstance(cls: NativeClass, userData: nat)

  /** The accessor built for one field: methods named "get <field>" and "set <field>". */
  function AccessorOf(f: FieldInfo): (a: Accessor)
    ensures a.getter == NativeClassMethod("get " + f.name, f.getter)
    ensures a.setter.Some? <==> f.setter.Some?
    ensures f.setter.Some? ==> a.setter.value == NativeClassMethod("set " + f.name, f.setter.value)
  {
    Accessor(
      NativeClassMethod("get " + f.name, f.getter),
      if f.setter.Some? then Some(NativeClassMethod("set " + f.name, f.setter.value)) else None)
  }

  /** Collecting `(name, accessor)` pairs into a map: a later entry of the same name replaces an earlier one. */
  function Accessors(fields: seq<FieldInfo>): map<string, Accessor> {
    if |fields| == 0 then map[]
    else
      var last := fields[|fields| - 1];
      Accessors(fields[..|fields| - 1])[last.name := AccessorOf(last)]
  }

  function Methods(methods: seq<MethodInfo>): map<string, NativeClassMethod> {
    if |methods| == 0 then map[]
    else
      var last := methods[|methods| - 1];
      Methods(methods[..|methods| - 1])[last.name := NativeClassMethod(last.name, last.f)]
  }

  /** `NativeClass::new`. */
  function New(info: TypeInfo): (c: NativeClass)
    ensures c.name == info.name
  {
    NativeClass(info.name, Accessors(info.fields), Methods(info.methods))
  }

  /** Every listed field gets an accessor, and the last entry of a name is the one kept. */
  lemma {:induction false} AccessorsOfNew(fields: seq<FieldInfo>, i: nat)
    requires i < |fields|
    requires forall j :: i < j < |fields| ==> fields[j].name != fields[i].name
    ensures fields[i].name in Accessors(fields)
    ensures Accessors(fields)[fields[i].name] == AccessorOf(fields[i])
  {
    var n := |fields| - 1;
    if i < n {
      AccessorsOfNew(fields[..n], i);
    }
  }

  /** Only listed fields have accessors. */
  lemma {:induction false} AccessorKeys(fields: seq<FieldInfo>, key: string)
    ensures key in Accessors(fields) <==> exists j :: 0 <= j < |fields| && fields[j].name == key
  {
    if |fields| > 0 {
      var n := |fields| - 1;
      AccessorKeys(fields[..n], key);
      if key in Accessors(fields[..n]) {
        var j :| 0 <= j < n && fields[..n][j].name == key;
        assert fields[j].name == key;
      }
      if exists j :: 0 <= j < |fields| && fields[j].name == key {
        var j :| 0 <= j < |fields| && fields[j].name == key;
        if j < n {
          assert fields[..n][j].name == key;
        }
      }
    }
  }

  lemma {:induction false} MethodsOfNew(methods: seq<MethodInfo>, i: nat)
    requires i < |methods|
    requires forall j :: i < j < |methods| ==> methods[j].name != methods[i].name
    ensures methods[i].name in Methods(methods)
    ensures Methods(methods)[methods[i].name] == NativeClassMethod(methods[i].name, methods[i].f)
  {
    var n := |methods| - 1;
    if i < n {
      MethodsOfNew(methods[..n], i);
    }
  }

  /** `field_getter`. */
  function FieldGetter(c: NativeClass, key: string): (r: Option<NativeClassMethod>)
    ensures r.Some? <==> key in c.accessors
    ensures r.Some? ==> r.value == c.accessors[key].getter
  {
    if key in c.accessors then Some(c.accessors[key].getter) else None
  }

  /** `field_setter`: nothing without an accessor, nothing for an accessor without a setter. */
  function FieldSetter(c: NativeClass, key: string): (r: Option<NativeClassMethod>)
    ensures r.Some? <==> key in c.accessors && c.accessors[key].setter.Some?
    ensures r.Some? ==> r.value == c.accessors[key].setter.value
  {
    if key in c.accessors then c.accessors[key].setter else None
  }

  /** `NativeClass::method`. */
  function Method(c: NativeClass, key: string): (r: Option<NativeClassMethod>)
    ensures r.Some? <==> key in c.methods
    ensures r.Some? ==> r.value == c.methods[key]
  {
    if key in c.methods then Some(c.methods[key]) else None
  }

  /** `Access::field_get` of the class itself: methods only, never accessors. */
  function ClassFieldGet(c: NativeClass, key: string): (r: Result<Option<Value>, Error>)
    ensures r.Ok?
    ensures r.value.Some? <==> key in c.methods
    ensures r.value.Some? ==> r.value.value == Native(c.methods[key])
  {
    match Method(c, key)
    case Some(m) => Ok(Some(Native(m)))
    case None => Ok(None)
  }

  /**
   * `Access::field_get` of an instance: a getter wins and is called with
   * the user data and no arguments; failing that, the class method of that
   * name; otherwise nothing.
   */
  function InstanceFieldGet(o: NativeClassInstance, key: string, call: Caller): (r: Result<Option<Value>, Error>)
    ensures key in o.cls.accessors ==>
      var res := call(o.cls.accessors[key].getter, o.userData, []);
      (r.Ok? <==> res.Ok?) && (r.Ok? ==> r.value == Some(res.value)) && (r.Err? ==> r.error == res.error)
    ensures key !in o.cls.accessors && key in o.cls.methods ==> r == Ok(Some(Native(o.cls.methods[key])))
    ensures key !in o.cls.accessors && key !in o.cls.methods ==> r == Ok(None)
  {
    match FieldGetter(o.cls, key)
    case Some(getter) =>
      (match call(getter, o.userData, [])
       case Ok(v) => Ok(Some(v))
       case Err(e) => Err(e))
    case None =>
      match Method(o.cls, key)
      case Some(m) => Ok(Some(Native(m)))
      case None => Ok(None)
  }

  /** `Access::field_set` of an instance: the setter gets the value as its only argument. */
  function InstanceFieldSet(o: NativeClassInstance, key: string, value: Value, call: Caller): (r: Result<(), Error>)
    ensures FieldSetter(o.cls, key).Some? ==>
      var res := call(FieldSetter(o.cls, key).value, o.userData, [value]);
      (r.Ok? <==> res.Ok?) && (r.Err? ==> r.error == res.error)
    ensures FieldSetter(o.cls, key).None? ==> r == Err(CannotSetField(StrKey(key)))
  {
    match FieldSetter(o.cls, key)
    case Some(setter) =>
      (match call(setter, o.userData, [value])
       case Ok(_) => Ok(())
       case Err(e) => Err(e))
    case None => Err(CannotSetField(StrKey(key)))
  }

  /** A read-only field (no setter) refuses writes, whatever the host functions do. */
  lemma ReadOnlyFieldRefusesSet(info: TypeInfo, i: nat, userData: nat, value: Value, call: Caller)
    requires i < |info.fields| && info.fields[i].setter.None?
    requires forall j :: i < j < |info.fields| ==> info.fields[j].name != info.fields[i].name
    ensures InstanceFieldSet(NativeClassInstance(New(info), userData), info.fields[i].name, value, call)
      == Err(CannotSetField(StrKey(info.fields[i].name)))
  {
    AccessorsOfNew(info.fields, i);
  }

  /** A field getter shadows a method of the same name on instances, but the class still exposes the method. */
  lemma GetterShadowsMethod(info: TypeInfo, i: nat, k: nat, userData: nat, call: Caller)
    requires i < |info.fields| && k < |info.methods| && info.fields[i].name == info.methods[k].name
    requires forall j :: i < j < |info.fields| ==> info.fields[j].name != info.fields[i].name
    requires forall j :: k < j < |info.methods| ==> info.methods[j].name != info.methods[k].name
    requires call(NativeClassMethod("get " + info.fields[i].name, info.fields[i].getter), userData, []).Ok?
    ensures InstanceFieldGet(NativeClassInstance(New(info), userData), info.fields[i].name, call)
      == Ok(Some(call(NativeClassMethod("get " + info.fields[i].name, info.fields[i].getter), userData, []).value))
    ensures ClassFieldGet(New(info), info.fields[i].name)
      == Ok(Some(Native(NativeClassMethod(info.methods[k].name, info.methods[k].f))))
  {
    AccessorsOfNew(info.fields, i);
    MethodsOfNew(info.methods, k);
  }
}

=== FILE: objects.dfy ===
/**
 * The object store and the `Access` protocol every heap object answers:
 * whether it is frozen, whether fields read from it bind as methods, field
 * and index lookup and update. The dynamic dispatch over object kinds
 * becomes a match over the `Object` sum.
 */
module Objects {
  import opened Wrappers
  import opened Values
  import StrObject
  import ClassObject
  import NativeClass

  datatype Object =
    | StrObj(str: StrObject.Str)
    | FunctionObj(id: nat)
    | FunctionDescObj(name: string, numCaptures: nat)
    | ClosureObj(descriptor: Value, captures: seq<Value>)
    | MethodObj(bound: ClassObject.Method)
    | ClassDescObj(desc: ClassObject.ClassDesc)
    | ClassDefObj(def: ClassObject.ClassDef)
    | ClassObj(instance: ClassObject.Class)
    | ProxyObj(proxy: ClassObject.Proxy)
    | NativeClassObj(native: NativeClass.NativeClass)
    | NativeInstanceObj(nativeInstance: NativeClass.NativeClassInstance)
    | DictObj(entries: map<Key, Value>)
    | ListObj(items: seq<Value>)

  type Heap = map<Addr, Object>

  /** A value is the handle of a live object. */
  predicate IsObject(heap: Heap, v: Value) {
    v.Obj? && v.addr in heap
  }

  /** `is_function() || is_method()`, as the model assumes them: compiled functions, closures, bound methods and native methods. */
  predicate IsFnLike(heap: Heap, v: Value) {
    || v.Native?
    || (IsObject(heap, v) && (heap[v.addr].FunctionObj? || heap[v.addr].ClosureObj? || heap[v.addr].MethodObj?))
  }

  /** `Access::is_frozen`: instances say so themselves, proxies always are, native instances and dicts never are. */
  predicate IsFrozen(o: Object) {
    match o
    case ClassObj(c) => c.isFrozen
    case NativeInstanceObj(_) => false
    case DictObj(_) => false
    case _ => true
  }

  /** `Access::should_bind_methods`: class definitions and native classes hand out their methods unbound. */
  predicate BindsMethods(o: Object) {
    !(o.ClassDefObj? || o.NativeClassObj?)
  }

  /** `Access::field_get`, dispatched on the object's kind. */
  function FieldGet(heap: Heap, o: Object, key: Key, call: NativeClass.Caller): (r: Result<Option<Value>, Error>)
    ensures o.ClassObj? ==> r == ClassObject.ClassFieldGet(o.instance, key)
    ensures o.ClassDefObj? ==> r == ClassObject.ClassDefFieldGet(o.def, key)
    ensures o.ProxyObj? && o.proxy.parent in heap && heap[o.proxy.parent].ClassDefObj? ==>
      r == ClassObject.ClassDefFieldGet(heap[o.proxy.parent].def, key)
    ensures o.StrObj? && key.StrKey? ==> r == Ok(StrObject.FieldGet(o.str, key.s))
  {
    match o
    case StrObj(s) => if key.StrKey? then Ok(StrObject.FieldGet(s, key.s)) else Ok(None)
    case ClassObj(c) => ClassObject.ClassFieldGet(c, key)
    case ClassDefObj(d) => ClassObject.ClassDefFieldGet(d, key)
    case ProxyObj(p) =>
      // a proxy's parent handle always names a class definition
      if p.parent in heap && heap[p.parent].ClassDefObj? then ClassObject.ProxyFieldGet(p, heap[p.parent].def, key)
      else Ok(None)
    case NativeClassObj(c) => if key.StrKey? then NativeClass.ClassFieldGet(c, key.s) else Ok(None)
    case NativeInstanceObj(i) => if key.StrKey? then NativeClass.InstanceFieldGet(i, key.s, call) else Ok(None)
    case _ => Ok(None)
  }

  /** `Access::field_set`: the object after the write, or the refusal. */
  function FieldSet(o: Object, key: Key, value: Value, call: NativeClass.Caller): (r: Result<Object, Error>)
    ensures o.ClassObj? ==> r.Ok? && r.value == ClassObj(ClassObject.ClassFieldSet(o.instance, key, value).value)
    ensures !o.ClassObj? && !o.NativeInstanceObj? ==> r == Err(CannotSetField(key))
    ensures o.NativeInstanceObj? && r.Ok? ==> r.value == o
  {
    match o
    case ClassObj(c) => Ok(ClassObj(ClassObject.ClassFieldSet(c, key, value).value))
    case NativeInstanceObj(i) =>
      if !key.StrKey? then Err(CannotSetField(key))
      else
        // the setter's effect on the user data is the host's business
        var res := NativeClass.InstanceFieldSet(i, key.s, value, call);
        if res.Ok? then Ok(o) else Err(res.error)
    case _ => Err(CannotSetField(key))
  }

  /** `Access::index_get`: dictionaries look the key up; other objects have no entries. */
  function IndexGet(o: Object, key: Key): (r: Result<Option<Value>, Error>)
    ensures r.Ok?
    ensures r.value.Some? <==> o.DictObj? && key in o.entries
    ensures r.value.Some? ==> r.value.value == o.entries[key]
  {
    if o.DictObj? && key in o.entries then Ok(Some(o.entries[key])) else Ok(None)
  }

  /** `Access::index_set`: dictionaries insert; other objects refuse. */
  function IndexSet(o: Object, key: Key, value: Value): (r: Result<Object, Error>)
    ensures r.Ok? <==> o.DictObj?
    ensures r.Ok? ==> r.value == DictObj(o.entries[key := value])
    ensures r.Err? ==> r.error == CannotSetField(key)
  {
    if o.DictObj? then Ok(DictObj(o.entries[key := value])) else Err(CannotSetField(key))
  }

  /** The heap of live objects. Addresses below `next` have been handed out. */
  class ObjectSpace {
    var objects: Heap
    var next: Addr

    ghost predicate Valid()
      reads this
    {
      forall a :: a in objects ==> a < next
    }

    constructor ()
      ensures Valid() && objects == map[]
    {
      objects := map[];
      next := 0;
    }

    /** `alloc`: store `o` at an address no live object has. */
    method Alloc(o: Object) returns (a: Addr)
      requires Valid()
      modifies this
      ensures Valid()
      ensures a !in old(objects)
      ensures objects == old(objects)[a := o]
    {
      a := next;
      objects := objects[a := o];
      next := next + 1;
    }
  }
}

=== FILE: rc_ptr.dfy ===
/**
 * The reference-counted object pointer `Ptr<T>` of src/value/object.rs.
 * An allocation carries the type id of its payload, a reference count and
 * the payload. The unsafe layout tricks (offset_of, vtables, transmutes) are
 * replaced by a map from addresses to allocations.
 */
module RcPtr {
  import opened Wrappers
  import Values

  type Addr = nat
  type TypeId = nat

  /** The type id that `Ptr<Any>` carries statically. */
  const ANY: TypeId := 0

  /** One allocation: the dynamic type of its payload, its count, the payload. */
  datatype Repr = Repr(typeId: TypeId, refs: nat, data: nat)

  /** A pointer: an address and the static type it is viewed at. */
  datatype Ptr = Ptr(addr: Addr, view: TypeId)

  class Heap {
    /** Live allocations. */
    var cells: map<Addr, Repr>
    /** Payloads whose destructor has run, in order. */
    var dropped: seq<nat>
    /** Addresses never handed out so far start here. */
    var next: Addr

    ghost predicate Valid()
      reads this
    {
      forall a :: a in cells ==> a < next && cells[a].refs >= 1
    }

    constructor ()
      ensures Valid() && cells == map[] && dropped == []
    {
      cells := map[];
      dropped := [];
      next := 0;
    }

    function Refs(p: Ptr): nat
      reads this
      requires p.addr in cells
    {
      cells[p.addr].refs
    }

    /** `Context::alloc`: a fresh allocation whose count is 1. */
    method Alloc(typeId: TypeId, data: nat) returns (p: Ptr)
      requires Valid()
      modifies this
      ensures Valid()
      ensures p.addr !in old(cells) && p.view == typeId
      ensures cells == old(cells)[p.addr := Repr(typeId, 1, data)]
      ensures dropped == old(dropped)
    {
      p := Ptr(next, typeId);
      cells := cells[next := Repr(typeId, 1, data)];
      next := next + 1;
    }

    /** `Clone`: one more reference to the same allocation. */
    method Clone(p: Ptr) returns (q: Ptr)
      requires Valid() && p.addr in cells
      modifies this
      ensures Valid()
      ensures q == p
      ensures cells == old(cells)[p.addr := old(cells[p.addr]).(refs := old(cells[p.addr].refs) + 1)]
      ensures dropped == old(dropped)
    {
      var r := cells[p.addr];
      cells := cells[p.addr := r.(refs := r.refs + 1)];
      q := p;
    }

    /**
     * `Drop`: with other references left the count goes down by one and the
     * payload stays; the last reference runs the payload's destructor and
     * frees the allocation.
     */
    method Drop(p: Ptr)
      requires Valid() && p.addr in cells
      modifies this
      ensures Valid()
      ensures old(cells[p.addr].refs) > 1 ==>
        cells == old(cells)[p.addr := old(cells[p.addr]).(refs := old(cells[p.addr].refs) - 1)]
        && dropped == old(dropped)
      ensures old(cells[p.addr].refs) <= 1 ==>
        cells == old(cells) - {p.addr} && dropped == old(dropped) + [old(cells[p.addr].data)]
    {
      var r := cells[p.addr];
      if r.refs > 1 {
        cells := cells[p.addr := r.(refs := r.refs - 1)];
      } else {
        dropped := dropped + [r.data];
        cells := cells - {p.addr};
      }
    }

    /** `Ptr::cast`: succeeds iff the stored type id is `t`; on failure the pointer comes back as it was. */
    function Cast(p: Ptr, t: TypeId): (r: Result<Ptr, Ptr>)
      reads this
      requires p.addr in cells
      ensures r.Ok? <==> cells[p.addr].typeId == t
      ensures r.Ok? ==> r.value.addr == p.addr && r.value.view == t
      ensures r.Err? ==> r.error == p
    {
      if cells[p.addr].typeId == t then Ok(Ptr(p.addr, t)) else Err(p)
    }
  }

  /** `Ptr::into_any`: the same allocation seen as `Ptr<Any>`; nothing in the heap changes. */
  function IntoAny(p: Ptr): (r: Ptr)
    ensures r.addr == p.addr && r.view == ANY
  {
    Ptr(p.addr, ANY)
  }

  /** Casting back to the allocated type after `into_any` gives the original pointer. */
  lemma CastUndoesIntoAny(h: Heap, p: Ptr)
    requires p.addr in h.cells && h.cells[p.addr].typeId == p.view
    ensures h.Cast(IntoAny(p), p.view) == Ok(p)
  {
  }

  /** A cast to any other type fails and hands the `Any` pointer back. */
  lemma CastToOtherTypeFails(h: Heap, p: Ptr, t: TypeId)
    requires p.addr in h.cells && h.cells[p.addr].typeId != t
    ensures h.Cast(IntoAny(p), t) == Err(IntoAny(p))
  {
  }

  /** The default `Object::get_field`: no field, no error. */
  function DefaultGetField(key: string): (r: Result<Option<Values.Value>, Values.Error>)
    ensures r == Ok(None)
  {
    Ok(None)
  }

  /** The default `Object::set_field`: always refused. */
  function DefaultSetField(key: string, value: Values.Value): (r: Result<(), Values.Error>)
    ensures r.Err? && Values.ErrorText(r.error) == "cannot set field `" + key + "`"
  {
    Err(Values.CannotSetField(Values.StrKey(key)))
  }

  /** The life cycle of the refcount tests: alloc, clone, drop, drop. */
  method RefcountLifecycle(typeId: TypeId, data: nat) returns (h: Heap)
    ensures h.Valid() && h.cells == map[] && h.dropped == [data]
  {
    h := new Heap();
    var p := h.Alloc(typeId, data);
    assert h.Refs(p) == 1;
    var q := h.Clone(p);
    assert h.Refs(p) == 2;
    h.Drop(q);
    assert h.Refs(p) == 1 && h.dropped == [];
    var any := IntoAny(p);
    assert h.Refs(any) == 1;
    h.Drop(any);
  }
}

=== FILE: regalloc.dfy ===
/**
 * Register allocation by linear scan (src/emit/regalloc.rs).
 *
 * While a function is emitted, every virtual register is an interval of
 * events: `alloc` opens one at a fresh event and `access` moves its end to
 * a fresh event. `finish` then maps the intervals onto as few physical
 * registers as the linear scan finds: intervals are visited by increasing
 * start; the ones that ended before the current start give their register
 * back to a pool; the current one takes the smallest pooled register, or a
 * new one when the pool is empty. Nothing is ever spilled.
 */
module RegAlloc {

  /** `Interval`: the virtual register `index` is live from event `start` to event `end`. */
  datatype Interval = Interval(index: nat, start: nat, end: nat)

  /** `Register`: a virtual register, named by the index of its interval. */
  datatype Register = Register(id: nat)

  /**
   * What `linear_scan` relies on: interval `k` is virtual register `k`,
   * it ends no earlier than it starts, and starts never decrease.
   */
  predicate InOrder(intervals: seq<Interval>) {
    && (forall k :: 0 <= k < |intervals| ==> intervals[k].index == k && intervals[k].start <= intervals[k].end)
    && (forall j, k :: 0 <= j < k < |intervals| ==> intervals[j].start <= intervals[k].start)
  }

  /** Two of the first `n` intervals that share an event do not share a physical register. */
  predicate NoSharedRegister(intervals: seq<Interval>, mapping: seq<nat>, n: nat)
    requires n <= |intervals| && n <= |mapping|
  {
    forall j, k :: 0 <= j < k < n && intervals[k].start <= intervals[j].end ==> mapping[j] != mapping[k]
  }

  /** Every finite non-empty set of registers has a smallest element. */
  lemma {:induction false} Smallest(s: set<nat>) returns (m: nat)
    requires s != {}
    ensures m in s && forall y :: y in s ==> m <= y
    decreases |s|
  {
    var x :| x in s;
    if s - {x} == {} {
      m := x;
      forall y | y in s ensures m <= y {
        assert y !in s - {x};
      }
    } else {
      var m' := Smallest(s - {x});
      m := if x < m' then x else m';
      forall y | y in s ensures m <= y {
        if y != x {
          assert y in s - {x};
        }
      }
    }
  }

  /**
   * The pool `free` and the count `registers` give `reg`: the smallest
   * pooled register, taken out of the pool, or a new register when the
   * pool is empty.
   */
  predicate Allocated(free: set<nat>, registers: nat, reg: nat, free': set<nat>, registers': nat) {
    && (free != {} ==> reg in free && (forall y :: y in free ==> reg <= y) && free' == free - {reg} && registers' == registers)
    && (free == {} ==> reg == registers && registers' == registers + 1 && free' == free)
  }

  /**
   * `allocate`: pop the smallest register from the pool (a min-heap of
   * `Reverse`), or, when the pool is empty, make a new one.
   */
  method Allocate(free: set<nat>, registers: nat) returns (reg: nat, free': set<nat>, registers': nat)
    ensures Allocated(free, registers, reg, free', registers')
  {
    if free != {} {
      ghost var least := Smallest(free);
      reg :| reg in free && forall y :: y in free ==> reg <= y;
      free' := free - {reg};
      registers' := registers;
    } else {
      reg := registers;
      registers' := registers + 1;
      free' := free;
    }
  }

  /**
   * `active'` and `free'` are `active` and `free` once every interval
   * that ended before `start` has left and handed its register to the pool.
   */
  ghost predicate Expired(start: nat, active: map<nat, (Interval, nat)>, free: set<nat>,
                          active': map<nat, (Interval, nat)>, free': set<nat>)
  {
    && (forall j :: j in active' <==> j in active && active[j].0.end >= start)
    && (forall j :: j in active' ==> active'[j] == active[j])
    && (forall r :: r in free' <==> r in free || exists j :: j in active && active[j].0.end < start && active[j].1 == r)
  }

  /**
   * `expire_old_intervals`: every active interval that ended before
   * `start` leaves the active set and its register goes back to the pool.
   */
  method Expire(start: nat, active: map<nat, (Interval, nat)>, free: set<nat>)
    returns (active': map<nat, (Interval, nat)>, free': set<nat>)
    ensures Expired(start, active, free, active', free')
  {
    var pending := active.Keys;
    active', free' := active, free;
    while pending != {}
      invariant pending <= active.Keys
      invariant forall j :: j in active' <==> j in active && (j in pending || active[j].0.end >= start)
      invariant forall j :: j in active' ==> active'[j] == active[j]
      invariant forall r :: r in free' <==>
        r in free || exists j :: j in active && j !in pending && active[j].0.end < start && active[j].1 == r
      decreases |pending|
    {
      var j :| j in pending;
      if active[j].0.end < start {
        free' := free' + {active[j].1};
        active' := active' - {j};
      }
      pending := pending - {j};
    }
  }

  /**
   * The state of `linear_scan` after `k` intervals, when every interval
   * ending at `live` or later is still active: each interval has a
   * register below `registers`; the active intervals hold their own,
   * pairwise different registers; the pool holds registers no active
   * interval holds; overlapping intervals seen so far do not share one.
   */
  ghost predicate Scanned(intervals: seq<Interval>, k: nat, live: nat, registers: nat, mapping: seq<nat>,
                          active: map<nat, (Interval, nat)>, free: set<nat>)
  {
    && k <= |intervals| && |mapping| == k && registers <= k
    && (forall j :: 0 <= j < k ==> mapping[j] < registers)
    && (forall j :: j in active ==> j < k && active[j] == (intervals[j], mapping[j]))
    && (forall j :: 0 <= j < k && intervals[j].end >= live ==> j in active)
    && (forall a, b :: a in active && b in active && a != b ==> mapping[a] != mapping[b])
    && (forall r :: r in free ==> r < registers && forall j :: j in active ==> mapping[j] != r)
    && NoSharedRegister(intervals, mapping, k)
  }

  /** Expiring against the next start keeps the scan state, now live from that start. */
  lemma ExpireKeeps(intervals: seq<Interval>, k: nat, live: nat, registers: nat, mapping: seq<nat>,
                    active: map<nat, (Interval, nat)>, free: set<nat>,
                    active': map<nat, (Interval, nat)>, free': set<nat>)
    requires InOrder(intervals) && k < |intervals|
    requires Scanned(intervals, k, live, registers, mapping, active, free)
    requires live <= intervals[k].start
    requires Expired(intervals[k].start, active, free, active', free')
    ensures Scanned(intervals, k, intervals[k].start, registers, mapping, active', free')
  {
    forall r | r in free' ensures r < registers && forall j :: j in active' ==> mapping[j] != r {
      if r !in free {
        var j :| j in active && active[j].0.end < intervals[k].start && active[j].1 == r;
        assert mapping[j] == r;
      }
    }
  }

  /** The register `allocate` hands out is below the new count, held by no active interval, and left out of the pool. */
  lemma AllocatedUnheld(intervals: seq<Interval>, k: nat, live: nat, registers: nat, mapping: seq<nat>,
                        active: map<nat, (Interval, nat)>, free: set<nat>,
                        register: nat, registers': nat, free': set<nat>)
    requires Scanned(intervals, k, live, registers, mapping, active, free)
    requires Allocated(free, registers, register, free', registers')
    ensures register < registers' && registers <= registers' <= registers + 1
    ensures forall j :: j in active ==> mapping[j] != register
    ensures forall r :: r in free' ==> r in free && r != register
  {
  }

  /** Giving interval `k` a register that no active interval or pool holds extends the scan state by one. */
  lemma AssignKeeps(intervals: seq<Interval>, k: nat, registers: nat, mapping: seq<nat>,
                    active: map<nat, (Interval, nat)>, free: set<nat>,
                    register: nat, registers': nat, free': set<nat>)
    requires InOrder(intervals) && k < |intervals|
    requires Scanned(intervals, k, intervals[k].start, registers, mapping, active, free)
    requires register < registers' && registers <= registers' <= registers + 1
    requires forall j :: j in active ==> mapping[j] != register
    requires forall r :: r in free' ==> r in free && r != register
    ensures
      var i := intervals[k];
      Scanned(intervals, k + 1, i.start, registers', mapping[..i.index] + [register] + mapping[i.index..],
              active[i.index := (i, register)], free')
  {
    assert mapping[..k] + [register] + mapping[k..] == mapping + [register];
    ExtendNoShared(intervals, k, mapping, register);
  }

  /**
   * A register held by none of the earlier intervals still live at the
   * start of interval `k` keeps overlapping intervals apart.
   */
  lemma ExtendNoShared(intervals: seq<Interval>, k: nat, mapping: seq<nat>, register: nat)
    requires k < |intervals| && |mapping| == k && NoSharedRegister(intervals, mapping, k)
    requires forall j :: 0 <= j < k && intervals[j].end >= intervals[k].start ==> mapping[j] != register
    ensures NoSharedRegister(intervals, mapping + [register], k + 1)
  {
    var mapping' := mapping + [register];
    forall j, j2 | 0 <= j < j2 < k + 1 && intervals[j2].start <= intervals[j].end
      ensures mapping'[j] != mapping'[j2]
    {
      if j2 < k {
        assert mapping'[j] == mapping[j] && mapping'[j2] == mapping[j2];
      }
    }
  }

  /**
   * `linear_scan`: one physical register per interval, no more registers
   * than intervals, and no register shared by two intervals that overlap.
   */
  method LinearScan(intervals: seq<Interval>) returns (registers: nat, mapping: seq<nat>)
    requires InOrder(intervals)
    ensures |mapping| == |intervals| && registers <= |intervals|
    ensures forall k :: 0 <= k < |mapping| ==> mapping[k] < registers
    ensures NoSharedRegister(intervals, mapping, |intervals|)
  {
    mapping := [];
    var free: set<nat> := {};
    var active: map<nat, (Interval, nat)> := map[];
    registers := 0;
    ghost var live: nat := 0;
    for k := 0 to |intervals|
      invariant k < |intervals| ==> live <= intervals[k].start
      invariant Scanned(intervals, k, live, registers, mapping, active, free)
    {
      var i := intervals[k];
      ghost var active0, free0 := active, free;
      active, free := Expire(i.start, active, free);
      ExpireKeeps(intervals, k, live, registers, mapping, active0, free0, active, free);
      ghost var registers0, free1 := registers, free;
      var register;
      register, free, registers := Allocate(free, registers);
      AllocatedUnheld(intervals, k, i.start, registers0, mapping, active, free1, register, registers, free);
      AssignKeeps(intervals, k, registers0, mapping, active, free1, register, registers, free);
      active := active[i.index := (i, register)];
      mapping := mapping[..i.index] + [register] + mapping[i.index..];
      live := i.start;
    }
  }

  /** `RegAlloc`: the intervals opened so far and the next event number. */
  class RegAlloc {
    var intervals: seq<Interval>
    var event: nat

    /** Interval `k` is register `k`; every event used is below `event`; starts strictly increase. */
    ghost predicate Valid()
      reads this
    {
      && (forall k :: 0 <= k < |intervals| ==>
            intervals[k].index == k && intervals[k].start <= intervals[k].end < event)
      && (forall j, k :: 0 <= j < k < |intervals| ==> intervals[j].start < intervals[k].start)
    }

    constructor ()
      ensures Valid() && intervals == [] && event == 0
    {
      intervals := [];
      event := 0;
    }

    /** `event`: hand out the current event number and move past it. */
    method Event() returns (e: nat)
      modifies this
      ensures e == old(event) && event == old(event) + 1 && intervals == old(intervals)
    {
      e := event;
      event := event + 1;
    }

    /** `access`: the register is live until a fresh event. Indexing a register never allocated panics. */
    method Access(register: Register) returns (index: nat)
      requires Valid() && register.id < |intervals|
      modifies this
      ensures Valid() && index == register.id && event == old(event) + 1
      ensures intervals == old(intervals)[index := old(intervals)[index].(end := old(event))]
    {
      index := register.id;
      var e := Event();
      intervals := intervals[index := intervals[index].(end := e)];
    }

    /** `alloc`: open the next virtual register, live at a fresh event. */
    method Alloc() returns (register: Register)
      requires Valid()
      modifies this
      ensures Valid() && register.id == |old(intervals)| && event == old(event) + 1
      ensures intervals == old(intervals) + [Interval(register.id, old(event), old(event))]
    {
      var index := |intervals|;
      var e := Event();
      intervals := intervals + [Interval(index, e, e)];
      register := Register(index);
    }

    /** `finish`: the linear scan over the intervals opened. */
    method Finish() returns (registers: nat, mapping: seq<nat>)
      requires Valid()
      ensures |mapping| == |intervals| && registers <= |intervals|
      ensures forall k :: 0 <= k < |mapping| ==> mapping[k] < registers
      ensures NoSharedRegister(intervals, mapping, |intervals|)
    {
      registers, mapping := LinearScan(intervals);
    }
  }

  /** The registers `alloc` hands out are 0, 1, 2, … in call order. */
  method AllocInOrder(n: nat) returns (a: RegAlloc, ids: seq<nat>)
    ensures fresh(a) && a.Valid() && |a.intervals| == n
    ensures ids == seq(n, k => k)
  {
    a := new RegAlloc();
    ids := [];
    for k := 0 to n
      invariant a.Valid() && |a.intervals| == k && ids == seq(k, j => j)
    {
      var r := a.Alloc();
      ids := ids + [r.id];
    }
  }
}

=== FILE: repl.dfy ===
/**
 * The REPL's input checks (crates/cli/src/repl.rs): whether what has been
 * typed so far is a REPL command, and whether it is a complete program or
 * the REPL should keep reading lines.
 *
 * Input that ends in a line opening a block (`:`) or in an indented line
 * is not finished yet; anything else goes to the parser, whose verdict is
 * given as a function: `None` when the input parses, or the rendered error
 * reports when it does not.
 */
module Repl {
  import opened Wrappers

  /** `char::is_whitespace`: the characters with the Unicode White_Space property. */
  predicate IsWhitespace(c: char) {
    || '\U{9}' <= c <= '\U{D}' || c == ' ' || c == '\U{85}' || c == '\U{A0}' || c == '\U{1680}'
    || '\U{2000}' <= c <= '\U{200A}' || c == '\U{2028}' || c == '\U{2029}' || c == '\U{202F}' || c == '\U{205F}'
    || c == '\U{3000}'
  }

  /** `char::is_ascii_whitespace`: space, tab, line feed, form feed and carriage return. */
  predicate IsAsciiWhitespace(c: char) {
    c == ' ' || c == '\t' || c == '\n' || c == '\U{C}' || c == '\r'
  }

  /** How many characters at the front of `s` satisfy `p`. */
  function Leading(s: string, p: char -> bool): (n: nat)
    ensures n <= |s| && (forall k :: 0 <= k < n ==> p(s[k])) && (n < |s| ==> !p(s[n]))
  {
    if |s| == 0 || !p(s[0]) then 0 else 1 + Leading(s[1..], p)
  }

  /** How many characters at the back of `s` satisfy `p`. */
  function Trailing(s: string, p: char -> bool): (n: nat)
    ensures n <= |s| && (forall k :: |s| - n <= k < |s| ==> p(s[k])) && (n < |s| ==> !p(s[|s| - n - 1]))
  {
    if |s| == 0 || !p(s[|s| - 1]) then 0 else 1 + Trailing(s[..|s| - 1], p)
  }

  /** `trim_start_matches(p)`. */
  function TrimStart(s: string, p: char -> bool): string {
    s[Leading(s, p)..]
  }

  /** `trim_end_matches(p)`. */
  function TrimEnd(s: string, p: char -> bool): string {
    s[..|s| - Trailing(s, p)]
  }

  /** `str::trim`: without the white space at either end. */
  function Trim(s: string): string {
    TrimEnd(TrimStart(s, IsWhitespace), IsWhitespace)
  }

  /** `is_empty`: the line is blank. */
  predicate IsEmpty(line: string) {
    Trim(line) == ""
  }

  /** `is_indented`: past any leading line breaks, the line starts with ASCII white space. */
  predicate IsIndented(line: string) {
    var rest := TrimStart(line, c => c == '\n');
    |rest| > 0 && IsAsciiWhitespace(rest[0])
  }

  /** `begins_block`: before any trailing line breaks, the line ends with `:`. */
  predicate BeginsBlock(line: string) {
    var rest := TrimEnd(line, c => c == '\n');
    |rest| > 0 && rest[|rest| - 1] == ':'
  }

  /** `split('\n').last()`: the text after the last line break, or all of it. */
  function LastLine(s: string): (r: string)
    ensures |r| <= |s| && r == s[|s| - |r|..] && '\n' !in r
    ensures |r| < |s| ==> s[|s| - |r| - 1] == '\n'
  {
    if |s| == 0 || s[|s| - 1] == '\n' then ""
    else
      var r := LastLine(s[..|s| - 1]) + [s[|s| - 1]];
      assert s == s[..|s| - 1] + [s[|s| - 1]];
      r
  }

  /** `ParseResult`. */
  datatype ParseResult = Incomplete | Complete

  /** `validate`: keep reading, run it, or the parser's error reports, one after the other. */
  function Validate(input: string, parse: string -> Option<seq<string>>): (r: Result<ParseResult, string>)
    ensures r == Ok(Incomplete) ==> !IsEmpty(LastLine(input)) && (IsIndented(LastLine(input)) || BeginsBlock(LastLine(input)))
    ensures r == Ok(Complete) ==> parse(input) == None
    ensures r.Err? ==> parse(input).Some? && r.error == Concat(parse(input).value)
  {
    if '\n' in input && !IsEmpty(LastLine(input)) && (IsIndented(LastLine(input)) || BeginsBlock(LastLine(input))) then
      Ok(Incomplete)
    else if '\n' !in input && BeginsBlock(input) then
      Ok(Incomplete)
    else match parse(input)
      case None => Ok(Complete)
      case Some(reports) => Err(Concat(reports))
  }

  function Concat(parts: seq<string>): string {
    if |parts| == 0 then "" else parts[0] + Concat(parts[1..])
  }

  /** A line is blank exactly when every character in it is white space. */
  lemma {:induction false} EmptyIsBlank(line: string)
    ensures IsEmpty(line) <==> forall k :: 0 <= k < |line| ==> IsWhitespace(line[k])
  {
    var n := Leading(line, IsWhitespace);
    var rest := line[n..];
    var m := Trailing(rest, IsWhitespace);
    assert n < |line| ==> rest[0] == line[n];
    assert forall k :: n <= k < |line| ==> line[k] == rest[k - n];
  }

  /** Within one line (no line break), indentation is the first character being ASCII white space. */
  lemma IndentedLine(line: string)
    requires '\n' !in line
    ensures IsIndented(line) <==> |line| > 0 && IsAsciiWhitespace(line[0])
    ensures BeginsBlock(line) <==> |line| > 0 && line[|line| - 1] == ':'
  {
    if |line| > 0 {
      assert line[0] in line && line[|line| - 1] in line;
    }
  }

  /**
   * Typing on after a block opener or an indented line: a multi-line input
   * whose last line is not blank and is indented or ends in `:` is
   * incomplete, whatever the parser would say.
   */
  lemma ContinuesBlock(input: string, parse: string -> Option<seq<string>>)
    requires '\n' in input
    requires var last := LastLine(input);
      || (|last| > 0 && last[|last| - 1] == ':')
      || (|last| > 0 && last[0] in {' ', '\t', '\U{C}', '\r'} && exists k :: 0 <= k < |last| && !IsWhitespace(last[k]))
    ensures Validate(input, parse) == Ok(Incomplete)
  {
    var last := LastLine(input);
    IndentedLine(last);
    EmptyIsBlank(last);
  }

  /** A single line ending in `:` (before any trailing line breaks) opens a block and is never parsed. */
  lemma SingleLineBlock(input: string, parse: string -> Option<seq<string>>)
    requires '\n' !in input && |input| > 0 && input[|input| - 1] == ':'
    ensures Validate(input, parse) == Ok(Incomplete)
  {
    IndentedLine(input);
  }

  /** A blank last line ends the input: the parser decides. */
  lemma BlankLineSubmits(input: string, parse: string -> Option<seq<string>>)
    requires '\n' in input
    requires forall k :: 0 <= k < |LastLine(input)| ==> IsWhitespace(LastLine(input)[k])
    ensures Validate(input, parse) == (match parse(input) case None => Ok(Complete) case Some(reports) => Err(Concat(reports)))
  {
    EmptyIsBlank(LastLine(input));
  }

  /** White space around a text that neither starts nor ends with it is what `trim` removes. */
  lemma {:induction false} TrimPadded(pre: string, core: string, post: string)
    requires forall k :: 0 <= k < |pre| ==> IsWhitespace(pre[k])
    requires forall k :: 0 <= k < |post| ==> IsWhitespace(post[k])
    requires |core| > 0 && !IsWhitespace(core[0]) && !IsWhitespace(core[|core| - 1])
    ensures Trim(pre + core + post) == core
  {
    var s := pre + core + post;
    var n := Leading(s, IsWhitespace);
    assert forall k :: 0 <= k < |pre| ==> s[k] == pre[k];
    assert s[|pre|] == core[0];
    var rest := s[n..];
    assert rest == core + post;
    var m := Trailing(rest, IsWhitespace);
    assert forall k :: 0 <= k < |post| ==> rest[|core| + k] == post[k];
    assert rest[|core| - 1] == core[|core| - 1];
    assert rest[..|rest| - m] == core;
  }

  const PrintBytecode := ".print_bytecode"

  /** The REPL's settings: `State`. */
  class Repl {
    var printBytecode: bool

    /** `State::default()`. */
    constructor ()
      ensures !printBytecode
    {
      printBytecode := false;
    }

    /**
     * `try_cmd`: `.print_bytecode`, with any white space around it, turns
     * on printing of the bytecode and is consumed; any other input is not a
     * command and changes nothing.
     */
    method TryCmd(input: string) returns (handled: bool)
      modifies this
      ensures handled <==> Trim(input) == PrintBytecode
      ensures printBytecode == (old(printBytecode) || handled)
    {
      if Trim(input) == PrintBytecode {
        printBytecode := true;
        return true;
      }
      return false;
    }
  }

  /** The command is recognised with any white space around it. */
  lemma PaddedCommand(pre: string, post: string)
    requires forall k :: 0 <= k < |pre| ==> IsWhitespace(pre[k])
    requires forall k :: 0 <= k < |post| ==> IsWhitespace(post[k])
    ensures Trim(pre + PrintBytecode + post) == PrintBytecode
  {
    TrimPadded(pre, PrintBytecode, post);
  }
}

=== FILE: stmt_emit.dfy ===
/**
 * Statement lowering (src/emit/stmt.rs).
 *
 * The emitter walks a statement list and appends instructions to the
 * current function's code: expressions leave their value in the
 * accumulator, variables are stored to a global, a module variable or a
 * fresh register, control flow becomes jumps between labels it reserves
 * and binds, and `break`/`continue` jump to the labels of the loop being
 * emitted. Registers are virtual: each comes from the function's
 * `RegAlloc`, and every use of one goes through `access`, which extends
 * its live interval.
 *
 * The emit methods for single constructs state the exact code they
 * append; `EmitStmt` and `EmitStmtList` state only the panic conditions and
 * what holds of the code whatever the statements are. When an emit method
 * does not panic, its code binds fresh labels only, each once, and every
 * jump in it lands on one of them in the right direction or on the
 * enclosing loop's header or end.
 */
module StmtEmit {
  import opened Wrappers
  import opened StmtLabels
  import RegAlloc

  datatype Branch = Branch(cond: Expr, body: seq<Stmt>)

  /** The `else` part of an `if`, when there is one. */
  datatype Else = NoElse | Else(body: seq<Stmt>)

  /** The statement kinds of the syntax tree. */
  datatype Stmt =
    | VarStmt(name: string, value: Expr)
    | IfStmt(branches: seq<Branch>, default: Else)
    | ForRange(item: string, start: Expr, end: Expr, inclusive: bool, body: seq<Stmt>)
    | ForIter(item: string, iter: Expr, body: seq<Stmt>)
    | WhileLoop(cond: Expr, body: seq<Stmt>)
    | InfiniteLoop(body: seq<Stmt>)
    | ReturnStmt(result: Option<Expr>)
    | YieldStmt(yielded: Option<Expr>)
    | ContinueStmt
    | BreakStmt
    | FuncStmt(name: string)
    | ClassStmt(name: string)
    | ExprStmt(expr: Expr)
    | PassStmt
    | PrintStmt(values: seq<Expr>)
    | ImportStmt(path: string)

  /** The header and end labels of the loop whose body is being emitted. */
  datatype Loop = Loop(start: nat, end: nat)

  /** A local variable: its name, the scope depth it was declared at, and its register. */
  datatype Local = Local(name: string, depth: nat, register: RegAlloc.Register)

  /** Where `break` may jump: the end of the current loop. */
  function Fwd(loop: Option<Loop>): set<nat> {
    match loop
    case None => {}
    case Some(l) => {l.end}
  }

  /** Where `continue` may jump: the header of the current loop. */
  function Back(loop: Option<Loop>): set<nat> {
    match loop
    case None => {}
    case Some(l) => {l.start}
  }

  /**
   * Emitting the statement panics: a `todo!()` kind (iterator loops,
   * functions, classes, imports, `yield`), or `continue`/`break` outside
   * a loop, anywhere in it.
   */
  ghost predicate Panics(s: Stmt, inLoop: bool)
    decreases s
  {
    match s
    case IfStmt(branches, default) =>
      (exists k :: 0 <= k < |branches| && PanicsIn(branches[k].body, inLoop))
      || (match default case Else(d) => PanicsIn(d, inLoop) case NoElse => false)
    case ForRange(_, _, _, _, body) => PanicsIn(body, true)
    case WhileLoop(_, body) => PanicsIn(body, true)
    case InfiniteLoop(body) => PanicsIn(body, true)
    case ContinueStmt => !inLoop
    case BreakStmt => !inLoop
    case ForIter(_, _, _) => true
    case YieldStmt(_) => true
    case FuncStmt(_) => true
    case ClassStmt(_) => true
    case ImportStmt(_) => true
    case _ => false
  }

  ghost predicate PanicsIn(ss: seq<Stmt>, inLoop: bool)
    decreases ss
  {
    exists k :: 0 <= k < |ss| && Panics(ss[k], inLoop)
  }

  /**
   * Code for which every jump is resolved within it or to the enclosing
   * loop, and whose labels were all reserved between `lo` and `hi`.
   */
  ghost predicate Emitted(piece: seq<Item>, lo: nat, hi: nat, loop: Option<Loop>) {
    Closed(piece, Fwd(loop), Back(loop)) && forall l :: l in Binds(piece) ==> lo <= l < hi
  }

  /** Code like `Emitted`, but whose forward jumps may also go to `end`, bound later. */
  ghost predicate Pending(piece: seq<Item>, lo: nat, hi: nat, end: nat, loop: Option<Loop>) {
    Closed(piece, Fwd(loop) + {end}, Back(loop)) && forall l :: l in Binds(piece) ==> lo <= l < hi
  }

  lemma EmittedAppend(p: seq<Item>, q: seq<Item>, lo: nat, mid: nat, hi: nat, loop: Option<Loop>)
    requires lo <= mid <= hi && Emitted(p, lo, mid, loop) && Emitted(q, mid, hi, loop)
    ensures Emitted(p + q, lo, hi, loop)
  {
    assert Binds(p) !! Binds(q) by {
      forall l | l in Binds(p) ensures l !in Binds(q) {
        assert l < mid;
      }
    }
    ClosedWeaken(p, Fwd(loop), Back(loop), Fwd(loop) + Binds(q), Back(loop));
    ClosedThen(p, q, Fwd(loop), Back(loop), Fwd(loop), Back(loop));
  }

  lemma EmittedStraight(p: seq<Item>, lo: nat, hi: nat, loop: Option<Loop>)
    requires Straight(p)
    ensures Emitted(p, lo, hi, loop)
  {
    ClosedStraight(p, Fwd(loop), Back(loop));
  }

  // ---- the code each statement kind emits ----

  /** `return`: the value, or `LoadNone` when there is none, then `Ret`. */
  function ReturnCode(value: Option<Expr>): seq<Item> {
    match value
    case Some(e) => [Emit(Eval(e)), Emit(Ret)]
    case None => [Emit(LoadNone), Emit(Ret)]
  }

  /** For each value in turn: evaluate it, then store it in the next of the registers from `first`. */
  function StoreEach(values: seq<Expr>, first: nat): (r: seq<Item>)
    ensures |r| == 2 * |values|
  {
    if |values| == 0 then []
    else
      var n := |values| - 1;
      StoreEach(values[..n], first) + [Emit(Eval(values[n])), Emit(Store(first + n))]
  }

  /** `print`: nothing, one `Print`, or the values in consecutive registers and one `PrintN`. */
  function PrintCode(values: seq<Expr>, first: nat): seq<Item> {
    if |values| == 0 then []
    else if |values| == 1 then [Emit(Eval(values[0])), Emit(Print)]
    else StoreEach(values, first) + [Emit(PrintN(first, |values| % 0x1_0000_0000))]
  }

  /** One `if`/`elif` branch: test, skip to `next` when false, body, leave for `end`. */
  function BranchCode(cond: Expr, next: nat, body: seq<Item>, end: nat): seq<Item> {
    [Emit(Eval(cond)), Emit(JumpIfFalse(next))] + body + [Emit(Jump(end)), Bind(next)]
  }

  function Branches(branches: seq<Branch>, nexts: seq<nat>, bodies: seq<seq<Item>>, end: nat): seq<Item>
    requires |nexts| == |bodies| == |branches|
  {
    if |branches| == 0 then []
    else
      var n := |branches| - 1;
      Branches(branches[..n], nexts[..n], bodies[..n], end) + BranchCode(branches[n].cond, nexts[n], bodies[n], end)
  }

  /** `if`: every branch in order, then the `else` body, then the shared `end`. */
  function IfCode(branches: seq<Branch>, nexts: seq<nat>, bodies: seq<seq<Item>>, otherwise: seq<Item>, end: nat): seq<Item>
    requires |nexts| == |bodies| == |branches|
  {
    Branches(branches, nexts, bodies, end) + otherwise + [Bind(end)]
  }

  /** `while`: header, test, exit when false, body, jump back to the header, end. */
  function WhileCode(start: nat, end: nat, cond: Expr, body: seq<Item>): seq<Item> {
    [Bind(start), Emit(Eval(cond)), Emit(JumpIfFalse(end))] + body + [Emit(JumpLoop(start)), Bind(end)]
  }

  /** `loop`: header, body, jump back to the header, end. */
  function InfiniteCode(start: nat, end: nat, body: seq<Item>): seq<Item> {
    [Bind(start)] + body + [Emit(JumpLoop(start)), Bind(end)]
  }

  /**
   * The part of a range loop before its body: store the start in the item
   * register and the end in its own register; at `cond` compare them and
   * leave for `end` or enter `body`; at `latch` add 1 to the item and go
   * back to `cond`.
   */
  function RangeHead(cond: nat, latch: nat, bodyLabel: nat, end: nat, item: nat, last: nat,
                     from: Expr, to: Expr, inclusive: bool): seq<Item>
  {
    [ Emit(Eval(from)), Emit(Store(item)), Emit(Eval(to)), Emit(Store(last)),
      Bind(cond), Emit(Load(last)), Emit(if inclusive then CmpLe(item) else CmpLt(item)),
      Emit(JumpIfFalse(end)), Emit(Jump(bodyLabel)),
      Bind(latch), Emit(LoadSmi(1)), Emit(Add(item)), Emit(Store(item)), Emit(JumpLoop(cond)),
      Bind(bodyLabel) ]
  }

  /** A range loop: the head, the body (where `continue` goes to the latch), back to the latch, end. */
  function ForRangeCode(cond: nat, latch: nat, bodyLabel: nat, end: nat, item: nat, last: nat,
                        from: Expr, to: Expr, inclusive: bool, body: seq<Item>): seq<Item>
  {
    RangeHead(cond, latch, bodyLabel, end, item, last, from, to, inclusive) + body + [Emit(JumpLoop(latch)), Bind(end)]
  }

  // ---- what each shape resolves ----

  /** Value `k` is evaluated and stored into register `first + k`, in order. */
  lemma {:induction false} StoreEachAt(values: seq<Expr>, first: nat, k: nat)
    requires k < |values|
    ensures StoreEach(values, first)[2 * k] == Emit(Eval(values[k]))
    ensures StoreEach(values, first)[2 * k + 1] == Emit(Store(first + k))
  {
    var n := |values| - 1;
    if k < n {
      StoreEachAt(values[..n], first, k);
    }
  }

  lemma {:induction false} StoreEachStraight(values: seq<Expr>, first: nat)
    ensures Straight(StoreEach(values, first))
  {
    if |values| > 0 {
      StoreEachStraight(values[..|values| - 1], first);
    }
  }

  /** A branch resolves its `next` itself and leaves only the jump to `end` outside. */
  lemma BranchClosed(cond: Expr, next: nat, body: seq<Item>, end: nat, fwd: set<nat>, back: set<nat>)
    requires Closed(body, fwd, back) && next != end && next !in Binds(body) && end !in Binds(body)
    ensures Closed(BranchCode(cond, next, body, end), fwd + {end}, back)
    ensures Binds(BranchCode(cond, next, body, end)) == Binds(body) + {next}
  {
    var leave := Emit(Jump(end));
    var skip := Emit(JumpIfFalse(next));
    var head := [Emit(Eval(cond)), skip];
    var tail := [leave, Bind(next)];
    ClosedSingle(Bind(next), fwd + {end}, back + Binds([leave]));
    ClosedCons(leave, [Bind(next)], fwd + {end}, back);
    assert [leave] + [Bind(next)] == tail;
    ClosedSingle(skip, {next}, {});
    ClosedStraightThen([Emit(Eval(cond))], [skip], {next}, {});
    assert [Emit(Eval(cond))] + [skip] == head;
    ClosedWeaken(head, {next}, {}, fwd + {end} + Binds(tail) + Binds(body), back);
    ClosedThen(head, body, fwd + {end} + Binds(tail), back, fwd, back);
    ClosedThen(head + body, tail, fwd + {end}, back, fwd + {end}, back);
  }

  /** Adding a branch keeps the branches so far resolved, up to their common `end`. */
  lemma BranchesStep(acc: seq<Item>, cond: Expr, next: nat, body: seq<Item>, end: nat, fwd: set<nat>, back: set<nat>)
    requires Closed(acc, fwd + {end}, back) && Closed(body, fwd, back)
    requires next != end && next !in Binds(body) && end !in Binds(body)
    requires Binds(acc) !! (Binds(body) + {next})
    ensures Closed(acc + BranchCode(cond, next, body, end), fwd + {end}, back)
    ensures Binds(acc + BranchCode(cond, next, body, end)) == Binds(acc) + Binds(body) + {next}
  {
    BranchClosed(cond, next, body, end, fwd, back);
    var b := BranchCode(cond, next, body, end);
    ClosedWeaken(acc, fwd + {end}, back, fwd + {end} + Binds(b), back);
    ClosedThen(acc, b, fwd + {end}, back, fwd + {end}, back);
  }

  /** The branches so far, then one more branch, are the branches one further. */
  lemma BranchesSnoc(branches: seq<Branch>, k: nat, nexts: seq<nat>, bodies: seq<seq<Item>>, next: nat, body: seq<Item>, end: nat)
    requires k < |branches| && |nexts| == |bodies| == k
    ensures Branches(branches[..k], nexts, bodies, end) + BranchCode(branches[k].cond, next, body, end)
         == Branches(branches[..k + 1], nexts + [next], bodies + [body], end)
  {
    var bs, ns, bds := branches[..k + 1], nexts + [next], bodies + [body];
    assert bs[..k] == branches[..k] && bs[k] == branches[k];
    assert ns[..k] == nexts && ns[k] == next;
    assert bds[..k] == bodies && bds[k] == body;
  }

  /** One more branch emitted after the branches so far keeps them resolved, with labels from `lo` on. */
  lemma BranchesGrow(acc: seq<Item>, cond: Expr, next: nat, body: seq<Item>, end: nat, lo: nat, hi: nat, loop: Option<Loop>)
    requires Pending(acc, lo, next, end, loop)
    requires end < next && lo <= next < hi && Emitted(body, next + 1, hi, loop)
    ensures Pending(acc + BranchCode(cond, next, body, end), lo, hi, end, loop)
  {
    assert Binds(acc) !! (Binds(body) + {next}) by {
      forall l | l in Binds(acc) ensures l !in Binds(body) + {next} {
        assert l < next;
      }
    }
    BranchesStep(acc, cond, next, body, end, Fwd(loop), Back(loop));
  }

  /** Binding `end` after the branches and the `else` body resolves every jump to it. */
  lemma IfClosed(bp: seq<Item>, other: seq<Item>, end: nat, fwd: set<nat>, back: set<nat>)
    requires Closed(bp, fwd + {end}, back) && Closed(other, fwd, back)
    requires end !in Binds(bp) && end !in Binds(other) && Binds(bp) !! Binds(other)
    ensures Closed(bp + other + [Bind(end)], fwd, back)
    ensures Binds(bp + other + [Bind(end)]) == Binds(bp) + Binds(other) + {end}
  {
    ClosedWeaken(bp, fwd + {end}, back, fwd + {end} + Binds(other), back);
    ClosedThen(bp, other, fwd + {end}, back, fwd, back);
    ClosedSingle(Bind(end), fwd, back);
    ClosedThen(bp + other, [Bind(end)], fwd, back, fwd, back);
  }

  /** The end of a loop: jump back to `start`, then bind `end`, which the body may leave for. */
  lemma LoopTail(body: seq<Item>, start: nat, end: nat, fwd: set<nat>, back: set<nat>)
    requires start in back && end !in Binds(body) && Closed(body, {end}, {start})
    ensures Closed(body + [Emit(JumpLoop(start)), Bind(end)], fwd, back)
    ensures Binds(body + [Emit(JumpLoop(start)), Bind(end)]) == Binds(body) + {end}
  {
    var again := Emit(JumpLoop(start));
    var tail := [again, Bind(end)];
    ClosedSingle(again, {}, {start});
    ClosedSingle(Bind(end), fwd, back + Binds(body) + Binds([again]));
    ClosedCons(again, [Bind(end)], fwd, back + Binds(body));
    assert [again] + [Bind(end)] == tail;
    ClosedWeaken(body, {end}, {start}, fwd + Binds(tail), back);
    ClosedThen(body, tail, fwd, back, fwd, back + Binds(body));
  }

  /** An `if` whose branches were emitted after reserving `end`, and its `else` after them, is `Emitted`. */
  lemma IfEmitted(bp: seq<Item>, other: seq<Item>, end: nat, mid: nat, hi: nat, loop: Option<Loop>)
    requires Pending(bp, end + 1, mid, end, loop)
    requires end < mid <= hi && Emitted(other, mid, hi, loop)
    ensures Emitted(bp + other + [Bind(end)], end, hi, loop)
  {
    assert Binds(bp) !! Binds(other) by {
      forall l | l in Binds(bp) ensures l !in Binds(other) {
        assert l < mid;
      }
    }
    IfClosed(bp, other, end, Fwd(loop), Back(loop));
  }

  /** A `while` loop resolves all its jumps: it needs nothing from outside. */
  lemma WhileClosed(start: nat, end: nat, cond: Expr, body: seq<Item>, fwd: set<nat>, back: set<nat>)
    requires start != end && start !in Binds(body) && end !in Binds(body)
    requires Closed(body, {end}, {start})
    ensures Closed(WhileCode(start, end, cond, body), fwd, back)
    ensures Binds(WhileCode(start, end, cond, body)) == Binds(body) + {start, end}
  {
    var rest := body + [Emit(JumpLoop(start)), Bind(end)];
    LoopTail(body, start, end, fwd, back + {start});
    var exit := Emit(JumpIfFalse(end));
    ClosedSingle(exit, {end}, {});
    ClosedWeaken(rest, fwd, back + {start}, fwd, back + {start} + Binds([exit]));
    ClosedCons(exit, rest, fwd, back + {start});
    var test := [Emit(Eval(cond))] + ([exit] + rest);
    ClosedStraightThen([Emit(Eval(cond))], [exit] + rest, fwd, back + {start});
    ClosedSingle(Bind(start), fwd, back);
    ClosedWeaken(test, fwd, back + {start}, fwd, back + Binds([Bind(start)]));
    ClosedCons(Bind(start), test, fwd, back);
    assert WhileCode(start, end, cond, body) == [Bind(start)] + test;
  }

  /** An infinite loop resolves all its jumps. */
  lemma InfiniteClosed(start: nat, end: nat, body: seq<Item>, fwd: set<nat>, back: set<nat>)
    requires start != end && start !in Binds(body) && end !in Binds(body)
    requires Closed(body, {end}, {start})
    ensures Closed(InfiniteCode(start, end, body), fwd, back)
    ensures Binds(InfiniteCode(start, end, body)) == Binds(body) + {start, end}
  {
    var rest := body + [Emit(JumpLoop(start)), Bind(end)];
    LoopTail(body, start, end, fwd, back + {start});
    ClosedSingle(Bind(start), fwd, back);
    ClosedWeaken(rest, fwd, back + {start}, fwd, back + Binds([Bind(start)]));
    ClosedCons(Bind(start), rest, fwd, back);
    assert InfiniteCode(start, end, body) == [Bind(start)] + rest;
  }

  /** The head of a range loop resolves its jumps to `body` and back to `cond`; only `end` is left. */
  lemma RangeHeadClosed(cond: nat, latch: nat, bodyLabel: nat, end: nat, item: nat, last: nat,
                        from: Expr, to: Expr, inclusive: bool, fwd: set<nat>, back: set<nat>)
    requires cond < latch < bodyLabel < end
    ensures Closed(RangeHead(cond, latch, bodyLabel, end, item, last, from, to, inclusive), fwd + {end}, back)
    ensures Binds(RangeHead(cond, latch, bodyLabel, end, item, last, from, to, inclusive)) == {cond, latch, bodyLabel}
  {
    var h := RangeHead(cond, latch, bodyLabel, end, item, last, from, to, inclusive);
    forall k | 0 <= k < |h| && Forward(h[k]) ensures h[k].op.target in fwd + {end} || BoundAfter(h, k, h[k].op.target) {
      assert k == 7 || k == 8;
      assert h[14] == Bind(bodyLabel);
    }
    forall k | 0 <= k < |h| && Backward(h[k]) ensures h[k].op.target in back || BoundBefore(h, k, h[k].op.target) {
      assert k == 13;
      assert h[4] == Bind(cond);
    }
    forall j, k | 0 <= j < k < |h| && h[j].Bind? && h[k].Bind? ensures h[j].id != h[k].id {
      assert j == 4 || j == 9;
      assert k == 9 || k == 14;
    }
    forall l | l in Binds(h) ensures l in {cond, latch, bodyLabel} {
      var k :| 0 <= k < |h| && h[k].Bind? && h[k].id == l;
      assert k == 4 || k == 9 || k == 14;
    }
    assert h[4] == Bind(cond) && h[9] == Bind(latch) && h[14] == Bind(bodyLabel);
  }

  /** A range loop resolves all its jumps. */
  lemma ForRangeClosed(cond: nat, latch: nat, bodyLabel: nat, end: nat, item: nat, last: nat,
                       from: Expr, to: Expr, inclusive: bool, body: seq<Item>, fwd: set<nat>, back: set<nat>)
    requires cond < latch < bodyLabel < end
    requires forall l :: l in Binds(body) ==> end < l
    requires Closed(body, {end}, {latch})
    ensures Closed(ForRangeCode(cond, latch, bodyLabel, end, item, last, from, to, inclusive, body), fwd, back)
    ensures Binds(ForRangeCode(cond, latch, bodyLabel, end, item, last, from, to, inclusive, body))
         == Binds(body) + {cond, latch, bodyLabel, end}
  {
    var head := RangeHead(cond, latch, bodyLabel, end, item, last, from, to, inclusive);
    var rest := body + [Emit(JumpLoop(latch)), Bind(end)];
    RangeHeadClosed(cond, latch, bodyLabel, end, item, last, from, to, inclusive, fwd, back);
    LoopTail(body, latch, end, fwd, back + Binds(head));
    ClosedWeaken(head, fwd + {end}, back, fwd + Binds(rest), back);
    ClosedThen(head, rest, fwd, back, fwd, back + Binds(head));
    assert ForRangeCode(cond, latch, bodyLabel, end, item, last, from, to, inclusive, body) == head + rest;
  }

  /** A range loop whose labels start at `lo` and whose body was emitted after them is `Emitted`. */
  lemma ForRangeEmitted(lo: nat, hi: nat, item: nat, last: nat, s: Stmt, body: seq<Item>, loop: Option<Loop>)
    requires s.ForRange? && lo + 4 <= hi && Emitted(body, lo + 4, hi, Some(Loop(lo + 1, lo + 3)))
    ensures Emitted(ForRangeCode(lo, lo + 1, lo + 2, lo + 3, item, last, s.start, s.end, s.inclusive, body), lo, hi, loop)
  {
    ForRangeClosed(lo, lo + 1, lo + 2, lo + 3, item, last, s.start, s.end, s.inclusive, body, Fwd(loop), Back(loop));
    var c := ForRangeCode(lo, lo + 1, lo + 2, lo + 3, item, last, s.start, s.end, s.inclusive, body);
    forall l | l in Binds(c) ensures lo <= l < hi {
      if l in Binds(body) {
        assert lo + 4 <= l;
      }
    }
  }

  /**
   * The state of emitting one function: its code so far, the next label
   * number, its register allocator, the scope depth, the locals declared,
   * the loop being emitted, and the module's variables.
   */
  class Emitter {
    var code: seq<Item>
    var nextLabel: nat
    const regs: RegAlloc.RegAlloc
    var depth: nat
    var locals: seq<Local>
    var currentLoop: Option<Loop>
    /** `module.is_root`. */
    const isRoot: bool
    /** Emitting the module's own top-level code rather than a function body. */
    const moduleCode: bool
    var moduleVars: seq<string>

    ghost predicate Valid()
      reads regs
    {
      regs.Valid()
    }

    constructor (alloc: RegAlloc.RegAlloc, root: bool, topLevel: bool)
      requires alloc.Valid()
      ensures Valid() && regs == alloc && isRoot == root && moduleCode == topLevel
      ensures code == [] && nextLabel == 0 && depth == 0 && locals == [] && currentLoop == None && moduleVars == []
    {
      code := [];
      nextLabel := 0;
      regs := alloc;
      depth := 0;
      locals := [];
      currentLoop := None;
      isRoot := root;
      moduleCode := topLevel;
      moduleVars := [];
    }

    /** `is_global_scope`: top-level code of the module, outside every block. */
    predicate IsGlobalScope()
      reads this
    {
      moduleCode && depth == 0
    }

    /** `label`, `multi_label`, `loop_header`: reserve the next label. */
    method Reserve() returns (l: nat)
      modifies this`nextLabel
      ensures l == old(nextLabel) && nextLabel == l + 1
    {
      l := nextLabel;
      nextLabel := nextLabel + 1;
    }

    /** `emit`, `bind_label`, `bind_loop_header`: append to the code. */
    method Put(x: Item)
      modifies this`code
      ensures code == old(code) + [x]
    {
      code := code + [x];
    }

    method EmitExpr(e: Expr)
      modifies this`code
      ensures code == old(code) + [Emit(Eval(e))]
    {
      code := code + [Emit(Eval(e))];
    }

    method EnterScope()
      modifies this`depth
      ensures depth == old(depth) + 1
    {
      depth := depth + 1;
    }

    method LeaveScope()
      requires depth > 0
      modifies this`depth
      ensures depth == old(depth) - 1
    {
      depth := depth - 1;
    }

    method DeclareLocal(name: string, register: RegAlloc.Register)
      modifies this`locals
      ensures locals == old(locals) + [Local(name, depth, register)]
    {
      locals := locals + [Local(name, depth, register)];
    }

    /** `declare_module_var`: the index of the name among the module's variables, added when new. */
    method DeclareModuleVar(name: string) returns (index: nat)
      modifies this`moduleVars
      ensures index < |moduleVars| && moduleVars[index] == name
      ensures name in old(moduleVars) ==> moduleVars == old(moduleVars)
      ensures name !in old(moduleVars) ==> moduleVars == old(moduleVars) + [name]
    {
      index := 0;
      while index < |moduleVars|
        invariant index <= |moduleVars| && name !in moduleVars[..index]
      {
        if moduleVars[index] == name {
          return;
        }
        index := index + 1;
      }
      assert moduleVars[..index] == moduleVars;
      moduleVars := moduleVars + [name];
    }

    /** `enter_loop_body`: the loop being emitted becomes (`start`, `end`); the previous one is returned. */
    method EnterLoopBody(start: nat, end: nat) returns (previous: Option<Loop>)
      modifies this`currentLoop
      ensures previous == old(currentLoop) && currentLoop == Some(Loop(start, end))
    {
      previous := currentLoop;
      currentLoop := Some(Loop(start, end));
    }

    /** `leave_loop_body`: restore the previous loop and return the one left. */
    method LeaveLoopBody(previous: Option<Loop>) returns (current: Option<Loop>)
      modifies this`currentLoop
      ensures current == old(currentLoop) && currentLoop == previous
    {
      current := currentLoop;
      currentLoop := previous;
    }

    /** `emit_var_stmt`. */
    method EmitVar(name: string, value: Expr) returns (ghost piece: seq<Item>)
      requires Valid()
      modifies this`code, this`locals, this`moduleVars, regs
      ensures Valid() && code == old(code) + piece && Straight(piece)
      ensures old(IsGlobalScope()) && isRoot ==>
        piece == [Emit(Eval(value)), Emit(StoreGlobal(name))] && regs.intervals == old(regs.intervals) && locals == old(locals)
      ensures old(IsGlobalScope()) && !isRoot ==>
        |piece| == 2 && piece[0] == Emit(Eval(value)) && piece[1].Emit? && piece[1].op.StoreModuleVar?
        && piece[1].op.index < |moduleVars| && moduleVars[piece[1].op.index] == name
        && regs.intervals == old(regs.intervals) && locals == old(locals)
      ensures !old(IsGlobalScope()) ==>
        var r := |old(regs.intervals)|;
        piece == [Emit(Eval(value)), Emit(Store(r))] && |regs.intervals| == r + 1
        && locals == old(locals) + [Local(name, depth, RegAlloc.Register(r))]
    {
      EmitExpr(value);
      if IsGlobalScope() {
        if isRoot {
          Put(Emit(StoreGlobal(name)));
          piece := [Emit(Eval(value)), Emit(StoreGlobal(name))];
        } else {
          var index := DeclareModuleVar(name);
          Put(Emit(StoreModuleVar(index)));
          piece := [Emit(Eval(value)), Emit(StoreModuleVar(index))];
        }
      } else {
        var register := regs.Alloc();
        var r := regs.Access(register);
        Put(Emit(Store(r)));
        DeclareLocal(name, register);
        piece := [Emit(Eval(value)), Emit(Store(r))];
      }
    }

    /** `emit_print_stmt`. */
    method EmitPrint(values: seq<Expr>) returns (ghost piece: seq<Item>)
      requires Valid()
      modifies this`code, regs
      ensures Valid() && code == old(code) + piece
      ensures piece == PrintCode(values, |old(regs.intervals)|)
      ensures |values| >= 2 ==> |regs.intervals| == |old(regs.intervals)| + |values|
      ensures |values| < 2 ==> regs.intervals == old(regs.intervals)
    {
      if |values| == 0 {
        piece := [];
      } else if |values| == 1 {
        EmitExpr(values[0]);
        Put(Emit(Print));
        piece := [Emit(Eval(values[0])), Emit(Print)];
      } else {
        ghost var first := |regs.intervals|;
        var registers: seq<RegAlloc.Register> := [];
        for k := 0 to |values|
          invariant regs.Valid() && |regs.intervals| == first + k && code == old(code)
          invariant |registers| == k && forall j :: 0 <= j < k ==> registers[j].id == first + j
        {
          var r := regs.Alloc();
          registers := registers + [r];
        }
        for k := 0 to |values|
          invariant regs.Valid() && |regs.intervals| == first + |values|
          invariant code == old(code) + StoreEach(values[..k], first)
        {
          EmitExpr(values[k]);
          var r := regs.Access(registers[k]);
          Put(Emit(Store(r)));
          assert values[..k + 1][..k] == values[..k];
        }
        var start := regs.Access(registers[0]);
        Put(Emit(PrintN(start, |values| % 0x1_0000_0000)));
        assert values[..|values|] == values;
        piece := PrintCode(values, first);
      }
    }

    /** `emit_ctrl_stmt`. */
    method EmitCtrl(s: Stmt) returns (ok: bool, ghost piece: seq<Item>)
      requires s.ReturnStmt? || s.YieldStmt? || s.ContinueStmt? || s.BreakStmt?
      modifies this`code
      ensures code == old(code) + piece
      ensures ok <==> !Panics(s, currentLoop.Some?)
      ensures s.ReturnStmt? ==> piece == ReturnCode(s.result)
      ensures s.ContinueStmt? && ok ==> piece == [Emit(JumpLoop(currentLoop.value.start))]
      ensures s.BreakStmt? && ok ==> piece == [Emit(Jump(currentLoop.value.end))]
      ensures ok ==> Closed(piece, Fwd(currentLoop), Back(currentLoop)) && Binds(piece) == {}
    {
      match s
      case ReturnStmt(value) =>
        if value.Some? {
          EmitExpr(value.value);
        } else {
          Put(Emit(LoadNone));
        }
        Put(Emit(Ret));
        piece := ReturnCode(value);
        ok := true;
        ClosedStraight(piece, Fwd(currentLoop), Back(currentLoop));
      case YieldStmt(_) =>
        ok, piece := false, [];
      case ContinueStmt =>
        if currentLoop.None? {
          return false, [];
        }
        Put(Emit(JumpLoop(currentLoop.value.start)));
        piece := [Emit(JumpLoop(currentLoop.value.start))];
        ok := true;
        ClosedSingle(piece[0], Fwd(currentLoop), Back(currentLoop));
      case BreakStmt =>
        if currentLoop.None? {
          return false, [];
        }
        Put(Emit(Jump(currentLoop.value.end)));
        piece := [Emit(Jump(currentLoop.value.end))];
        ok := true;
        ClosedSingle(piece[0], Fwd(currentLoop), Back(currentLoop));
    }

    /** `emit_stmt`. */
    method EmitStmt(s: Stmt) returns (ok: bool, ghost piece: seq<Item>)
      requires Valid()
      modifies this, regs
      ensures Valid() && code == old(code) + piece
      ensures old(nextLabel) <= nextLabel && |old(regs.intervals)| <= |regs.intervals|
      ensures ok <==> !Panics(s, old(currentLoop).Some?)
      ensures ok ==> currentLoop == old(currentLoop) && depth == old(depth)
      ensures ok ==> Emitted(piece, old(nextLabel), nextLabel, old(currentLoop))
      decreases s, 2
    {
      match s
      case VarStmt(name, value) =>
        piece := EmitVar(name, value);
        ok := true;
        EmittedStraight(piece, nextLabel, nextLabel, currentLoop);
      case IfStmt(_, _) =>
        ghost var nexts, bodies, otherwise;
        ok, piece, nexts, bodies, otherwise := EmitIf(s);
      case ForRange(_, _, _, _, _) =>
        ghost var body;
        ok, piece, body := EmitForRange(s);
      case WhileLoop(_, _) =>
        ghost var body;
        ok, piece, body := EmitWhile(s);
      case InfiniteLoop(_) =>
        ghost var body;
        ok, piece, body := EmitInfinite(s);
      case ReturnStmt(_) =>
        ok, piece := EmitCtrl(s);
        assert Binds(piece) == {};
      case YieldStmt(_) =>
        ok, piece := EmitCtrl(s);
      case ContinueStmt =>
        ok, piece := EmitCtrl(s);
        assert ok ==> Binds(piece) == {};
      case BreakStmt =>
        ok, piece := EmitCtrl(s);
        assert ok ==> Binds(piece) == {};
      case ExprStmt(e) =>
        EmitExpr(e);
        piece := [Emit(Eval(e))];
        ok := true;
        EmittedStraight(piece, nextLabel, nextLabel, currentLoop);
      case PassStmt =>
        piece := [];
        ok := true;
        EmittedStraight(piece, nextLabel, nextLabel, currentLoop);
      case PrintStmt(values) =>
        piece := EmitPrint(values);
        ok := true;
        if |values| >= 2 {
          StoreEachStraight(values, |old(regs.intervals)|);
        }
        EmittedStraight(piece, nextLabel, nextLabel, currentLoop);
      case ForIter(_, _, _) =>
        ok, piece := false, [];
      case FuncStmt(_) =>
        ok, piece := false, [];
      case ClassStmt(_) =>
        ok, piece := false, [];
      case ImportStmt(_) =>
        ok, piece := false, [];
    }

    /** `emit_stmt_list`: each statement in turn, stopping at the first that panics. */
    method EmitStmtList(ss: seq<Stmt>) returns (ok: bool, ghost piece: seq<Item>)
      requires Valid()
      modifies this, regs
      ensures Valid() && code == old(code) + piece
      ensures old(nextLabel) <= nextLabel && |old(regs.intervals)| <= |regs.intervals|
      ensures ok <==> !PanicsIn(ss, old(currentLoop).Some?)
      ensures ok ==> currentLoop == old(currentLoop) && depth == old(depth)
      ensures ok ==> Emitted(piece, old(nextLabel), nextLabel, old(currentLoop))
      decreases ss, 0
    {
      ghost var loop := currentLoop;
      piece := [];
      EmittedStraight(piece, nextLabel, nextLabel, loop);
      for k := 0 to |ss|
        invariant Valid() && code == old(code) + piece
        invariant old(nextLabel) <= nextLabel && |old(regs.intervals)| <= |regs.intervals|
        invariant currentLoop == loop && depth == old(depth)
        invariant forall j :: 0 <= j < k ==> !Panics(ss[j], loop.Some?)
        invariant Emitted(piece, old(nextLabel), nextLabel, loop)
      {
        ghost var mid := nextLabel;
        var okS, p := EmitStmt(ss[k]);
        if !okS {
          return false, piece + p;
        }
        EmittedAppend(piece, p, old(nextLabel), mid, nextLabel, loop);
        piece := piece + p;
      }
      ok := true;
    }

    /** `emit_loop_body`: the body, with `break` and `continue` aimed at (`start`, `end`). */
    method EmitLoopBody(start: nat, end: nat, body: seq<Stmt>) returns (ok: bool, ghost piece: seq<Item>)
      requires Valid()
      modifies this, regs
      ensures Valid() && code == old(code) + piece
      ensures old(nextLabel) <= nextLabel && |old(regs.intervals)| <= |regs.intervals|
      ensures ok <==> !PanicsIn(body, true)
      ensures ok ==> currentLoop == old(currentLoop) && depth == old(depth)
      ensures ok ==> Emitted(piece, old(nextLabel), nextLabel, Some(Loop(start, end)))
      decreases body, 1
    {
      var previous := EnterLoopBody(start, end);
      ok, piece := EmitStmtList(body);
      if !ok {
        return;
      }
      var current := LeaveLoopBody(previous);
    }

    /** The head of a loop: its header and end labels, a new scope, the header bound. */
    method EmitLoopHead() returns (start: nat, end: nat)
      modifies this`nextLabel, this`depth, this`code
      ensures start == old(nextLabel) && end == start + 1 && nextLabel == start + 2 && depth == old(depth) + 1
      ensures code == old(code) + [Bind(start)]
    {
      start := Reserve();
      end := Reserve();
      EnterScope();
      Put(Bind(start));
    }

    /** The end of a loop: jump back to its header, bind its end, leave the scope. */
    method EmitLoopEnd(start: nat, end: nat)
      requires depth > 0
      modifies this`depth, this`code
      ensures depth == old(depth) - 1 && code == old(code) + [Emit(JumpLoop(start)), Bind(end)]
    {
      Put(Emit(JumpLoop(start)));
      Put(Bind(end));
      LeaveScope();
    }

    /** The start of an `if` branch: a label for the next branch, the test, and a new scope. */
    method EmitBranchHead(cond: Expr) returns (next: nat)
      modifies this`nextLabel, this`depth, this`code
      ensures next == old(nextLabel) && nextLabel == next + 1 && depth == old(depth) + 1
      ensures code == old(code) + [Emit(Eval(cond)), Emit(JumpIfFalse(next))]
    {
      next := Reserve();
      EmitExpr(cond);
      Put(Emit(JumpIfFalse(next)));
      EnterScope();
    }

    /** The end of an `if` branch: leave for `end`, close the scope, bind the next branch's label. */
    method EmitBranchEnd(next: nat, end: nat)
      requires depth > 0
      modifies this`depth, this`code
      ensures depth == old(depth) - 1 && code == old(code) + [Emit(Jump(end)), Bind(next)]
    {
      Put(Emit(Jump(end)));
      LeaveScope();
      Put(Bind(next));
    }

    /** One branch of `emit_if_stmt`: test, body in a scope of its own, leave for `end`. */
    method EmitBranch(branch: Branch, end: nat) returns (ok: bool, next: nat, ghost body: seq<Item>)
      requires Valid() && end < nextLabel
      modifies this, regs
      ensures Valid() && next == old(nextLabel) && next < nextLabel && |old(regs.intervals)| <= |regs.intervals|
      ensures ok <==> !PanicsIn(branch.body, old(currentLoop).Some?)
      ensures ok ==> currentLoop == old(currentLoop) && depth == old(depth)
      ensures ok ==> code == old(code) + BranchCode(branch.cond, next, body, end)
      ensures !ok ==> code == old(code) + [Emit(Eval(branch.cond)), Emit(JumpIfFalse(next))] + body
      ensures ok ==> Emitted(body, next + 1, nextLabel, old(currentLoop))
      decreases branch, 0
    {
      next := EmitBranchHead(branch.cond);
      ok, body := EmitStmtList(branch.body);
      if ok {
        EmitBranchEnd(next, end);
      }
    }

    /** Branch `k` of an `if`, after the branches before it: the branches so far grow by one. */
    method EmitNextBranch(s: Stmt, k: nat, end: nat, ghost lo: nat, ghost piece: seq<Item>,
                          ghost nexts: seq<nat>, ghost bodies: seq<seq<Item>>)
      returns (ok: bool, ghost step: seq<Item>, ghost nexts': seq<nat>, ghost bodies': seq<seq<Item>>)
      requires Valid() && s.IfStmt? && k < |s.branches| && end < lo <= nextLabel
      requires |nexts| == |bodies| == k && piece == Branches(s.branches[..k], nexts, bodies, end)
      requires Pending(piece, lo, nextLabel, end, currentLoop)
      modifies this, regs
      ensures Valid() && code == old(code) + step
      ensures old(nextLabel) <= nextLabel && |old(regs.intervals)| <= |regs.intervals|
      ensures ok <==> !PanicsIn(s.branches[k].body, old(currentLoop).Some?)
      ensures ok ==> currentLoop == old(currentLoop) && depth == old(depth)
      ensures ok ==> |nexts'| == |bodies'| == k + 1 && piece + step == Branches(s.branches[..k + 1], nexts', bodies', end)
      ensures ok ==> Pending(piece + step, lo, nextLabel, end, old(currentLoop))
      decreases s.branches[k], 1
    {
      ghost var loop := currentLoop;
      var branch := s.branches[k];
      var next;
      ghost var body;
      ok, next, body := EmitBranch(branch, end);
      if !ok {
        step := [Emit(Eval(branch.cond)), Emit(JumpIfFalse(next))] + body;
        nexts', bodies' := nexts, bodies;
        return;
      }
      BranchesGrow(piece, branch.cond, next, body, end, lo, nextLabel, loop);
      BranchesSnoc(s.branches, k, nexts, bodies, next, body, end);
      step := BranchCode(branch.cond, next, body, end);
      nexts', bodies' := nexts + [next], bodies + [body];
    }

    /** The branches of `emit_if_stmt`, each leaving for `end` once its body is done. */
    method EmitBranches(s: Stmt, end: nat) returns (ok: bool, ghost piece: seq<Item>, ghost nexts: seq<nat>,
                                                    ghost bodies: seq<seq<Item>>)
      requires Valid() && s.IfStmt? && end < nextLabel
      modifies this, regs
      ensures Valid() && code == old(code) + piece
      ensures old(nextLabel) <= nextLabel && |old(regs.intervals)| <= |regs.intervals|
      ensures ok <==> forall j :: 0 <= j < |s.branches| ==> !PanicsIn(s.branches[j].body, old(currentLoop).Some?)
      ensures ok ==> currentLoop == old(currentLoop) && depth == old(depth)
      ensures ok ==> |nexts| == |bodies| == |s.branches| && piece == Branches(s.branches, nexts, bodies, end)
      ensures ok ==> Pending(piece, old(nextLabel), nextLabel, end, old(currentLoop))
      decreases s, 0
    {
      ghost var loop := currentLoop;
      piece, nexts, bodies := [], [], [];
      ClosedStraight(piece, Fwd(loop) + {end}, Back(loop));
      assert Pending(piece, nextLabel, nextLabel, end, loop);
      for k := 0 to |s.branches|
        invariant Valid() && code == old(code) + piece
        invariant old(nextLabel) <= nextLabel && |old(regs.intervals)| <= |regs.intervals|
        invariant currentLoop == loop && depth == old(depth)
        invariant forall j :: 0 <= j < k ==> !PanicsIn(s.branches[j].body, loop.Some?)
        invariant |nexts| == |bodies| == k && piece == Branches(s.branches[..k], nexts, bodies, end)
        invariant Pending(piece, old(nextLabel), nextLabel, end, loop)
      {
        assert s.branches[k] in s.branches;
        var okB;
        ghost var step;
        okB, step, nexts, bodies := EmitNextBranch(s, k, end, old(nextLabel), piece, nexts, bodies);
        piece := piece + step;
        if !okB {
          return false, piece, nexts, bodies;
        }
      }
      assert s.branches[..|s.branches|] == s.branches;
      ok := true;
    }

    /** The `else` part of `emit_if_stmt`, in a scope of its own. */
    method EmitElse(s: Stmt) returns (ok: bool, ghost otherwise: seq<Item>)
      requires Valid() && s.IfStmt?
      modifies this, regs
      ensures Valid() && code == old(code) + otherwise
      ensures old(nextLabel) <= nextLabel && |old(regs.intervals)| <= |regs.intervals|
      ensures ok <==> (s.default.Else? ==> !PanicsIn(s.default.body, old(currentLoop).Some?))
      ensures ok ==> currentLoop == old(currentLoop) && depth == old(depth)
      ensures ok ==> Emitted(otherwise, old(nextLabel), nextLabel, old(currentLoop))
      ensures s.default.NoElse? ==> otherwise == []
      decreases s, 0
    {
      match s {
        case IfStmt(_, Else(d)) =>
          EnterScope();
          ok, otherwise := EmitStmtList(d);
          if ok {
            LeaveScope();
          }
        case _ =>
          ok, otherwise := true, [];
          EmittedStraight(otherwise, nextLabel, nextLabel, currentLoop);
      }
    }

    /** `emit_if_stmt`. */
    method EmitIf(s: Stmt) returns (ok: bool, ghost piece: seq<Item>, ghost nexts: seq<nat>,
                                    ghost bodies: seq<seq<Item>>, ghost otherwise: seq<Item>)
      requires Valid() && s.IfStmt?
      modifies this, regs
      ensures Valid() && code == old(code) + piece
      ensures old(nextLabel) <= nextLabel && |old(regs.intervals)| <= |regs.intervals|
      ensures ok <==> !Panics(s, old(currentLoop).Some?)
      ensures ok ==> currentLoop == old(currentLoop) && depth == old(depth)
      ensures ok ==> Emitted(piece, old(nextLabel), nextLabel, old(currentLoop))
      ensures ok ==> |nexts| == |bodies| == |s.branches|
      ensures ok ==> piece == IfCode(s.branches, nexts, bodies, otherwise, old(nextLabel))
      ensures ok && s.default.NoElse? ==> otherwise == []
      decreases s, 1
    {
      ghost var loop := currentLoop;
      otherwise := [];
      var end := Reserve();
      ok, piece, nexts, bodies := EmitBranches(s, end);
      if !ok {
        return;
      }
      ghost var branchCode := piece;
      ghost var mid := nextLabel;
      var okD;
      okD, otherwise := EmitElse(s);
      if !okD {
        ok := false;
        piece := piece + otherwise;
        return;
      }
      Put(Bind(end));
      IfEmitted(branchCode, otherwise, end, mid, nextLabel, loop);
      piece := piece + otherwise + [Bind(end)];
      ok := true;
    }

    /** `emit_while_loop`. */
    method EmitWhile(s: Stmt) returns (ok: bool, ghost piece: seq<Item>, ghost body: seq<Item>)
      requires Valid() && s.WhileLoop?
      modifies this, regs
      ensures Valid() && code == old(code) + piece
      ensures old(nextLabel) <= nextLabel && |old(regs.intervals)| <= |regs.intervals|
      ensures ok <==> !Panics(s, old(currentLoop).Some?)
      ensures ok ==> currentLoop == old(currentLoop) && depth == old(depth)
      ensures ok ==> Emitted(piece, old(nextLabel), nextLabel, old(currentLoop))
      ensures ok ==> piece == WhileCode(old(nextLabel), old(nextLabel) + 1, s.cond, body)
      decreases s, 1
    {
      ghost var loop := currentLoop;
      var start, end := EmitLoopHead();
      EmitExpr(s.cond);
      Put(Emit(JumpIfFalse(end)));
      ok, body := EmitLoopBody(start, end, s.body);
      if !ok {
        piece := [Bind(start), Emit(Eval(s.cond)), Emit(JumpIfFalse(end))] + body;
        return;
      }
      EmitLoopEnd(start, end);
      WhileClosed(start, end, s.cond, body, Fwd(loop), Back(loop));
      piece := WhileCode(start, end, s.cond, body);
    }

    /** `emit_inf_loop`. */
    method EmitInfinite(s: Stmt) returns (ok: bool, ghost piece: seq<Item>, ghost body: seq<Item>)
      requires Valid() && s.InfiniteLoop?
      modifies this, regs
      ensures Valid() && code == old(code) + piece
      ensures old(nextLabel) <= nextLabel && |old(regs.intervals)| <= |regs.intervals|
      ensures ok <==> !Panics(s, old(currentLoop).Some?)
      ensures ok ==> currentLoop == old(currentLoop) && depth == old(depth)
      ensures ok ==> Emitted(piece, old(nextLabel), nextLabel, old(currentLoop))
      ensures ok ==> piece == InfiniteCode(old(nextLabel), old(nextLabel) + 1, body)
      decreases s, 1
    {
      ghost var loop := currentLoop;
      var start, end := EmitLoopHead();
      ok, body := EmitLoopBody(start, end, s.body);
      if !ok {
        piece := [Bind(start)] + body;
        return;
      }
      EmitLoopEnd(start, end);
      InfiniteClosed(start, end, body, Fwd(loop), Back(loop));
      piece := InfiniteCode(start, end, body);
    }

    /** The start of `emit_for_range_loop`: two registers, the item declared, both stored. */
    method EmitRangeInit(s: Stmt) returns (item: RegAlloc.Register, last: RegAlloc.Register)
      requires Valid() && s.ForRange?
      modifies this`code, this`locals, regs
      ensures Valid() && item.id == |old(regs.intervals)| && last.id == item.id + 1 && |regs.intervals| == last.id + 1
      ensures code == old(code) + [Emit(Eval(s.start)), Emit(Store(item.id)), Emit(Eval(s.end)), Emit(Store(last.id))]
      ensures locals == old(locals) + [Local(s.item, depth, item)]
    {
      item := regs.Alloc();
      last := regs.Alloc();
      DeclareLocal(s.item, item);
      EmitExpr(s.start);
      var r := regs.Access(item);
      Put(Emit(Store(r)));
      EmitExpr(s.end);
      r := regs.Access(last);
      Put(Emit(Store(r)));
    }

    /** The loop test of `emit_for_range_loop`: compare the item with the end, leave or enter the body. */
    method EmitRangeTest(cond: nat, bodyLabel: nat, end: nat, item: nat, last: nat, inclusive: bool)
      requires Valid() && item < |regs.intervals| && last < |regs.intervals|
      modifies this`code, regs
      ensures Valid() && |regs.intervals| == |old(regs.intervals)|
      ensures code == old(code) + [Bind(cond), Emit(Load(last)), Emit(if inclusive then CmpLe(item) else CmpLt(item)),
                                   Emit(JumpIfFalse(end)), Emit(Jump(bodyLabel))]
    {
      Put(Bind(cond));
      var r := regs.Access(RegAlloc.Register(last));
      Put(Emit(Load(r)));
      r := regs.Access(RegAlloc.Register(item));
      if inclusive {
        Put(Emit(CmpLe(r)));
      } else {
        Put(Emit(CmpLt(r)));
      }
      Put(Emit(JumpIfFalse(end)));
      Put(Emit(Jump(bodyLabel)));
    }

    /** The latch of `emit_for_range_loop`: add 1 to the item and go back to the test; the body follows. */
    method EmitRangeLatch(cond: nat, latch: nat, bodyLabel: nat, item: nat)
      requires Valid() && item < |regs.intervals|
      modifies this`code, regs
      ensures Valid() && |regs.intervals| == |old(regs.intervals)|
      ensures code == old(code) + [Bind(latch), Emit(LoadSmi(1)), Emit(Add(item)), Emit(Store(item)),
                                   Emit(JumpLoop(cond)), Bind(bodyLabel)]
    {
      Put(Bind(latch));
      Put(Emit(LoadSmi(1)));
      var r := regs.Access(RegAlloc.Register(item));
      Put(Emit(Add(r)));
      r := regs.Access(RegAlloc.Register(item));
      Put(Emit(Store(r)));
      Put(Emit(JumpLoop(cond)));
      Put(Bind(bodyLabel));
    }

    /** Everything `emit_for_range_loop` does before the body: four labels, a scope, and the head. */
    method EmitRangeSetup(s: Stmt) returns (cond: nat, latch: nat, bodyLabel: nat, end: nat,
                                            item: RegAlloc.Register, last: RegAlloc.Register)
      requires Valid() && s.ForRange?
      modifies this`nextLabel, this`depth, this`code, this`locals, regs
      ensures Valid() && cond == old(nextLabel) && latch == cond + 1 && bodyLabel == cond + 2 && end == cond + 3
      ensures nextLabel == cond + 4 && depth == old(depth) + 1
      ensures item.id == |old(regs.intervals)| && last.id == item.id + 1 && |regs.intervals| == last.id + 1
      ensures code == old(code) + RangeHead(cond, latch, bodyLabel, end, item.id, last.id, s.start, s.end, s.inclusive)
    {
      cond := Reserve();
      latch := Reserve();
      bodyLabel := Reserve();
      end := Reserve();
      EnterScope();
      item, last := EmitRangeInit(s);
      EmitRangeTest(cond, bodyLabel, end, item.id, last.id, s.inclusive);
      EmitRangeLatch(cond, latch, bodyLabel, item.id);
    }

    /**
     * The accesses after a range loop's body: the end register, then the
     * item register, are used once more, so both live intervals reach past
     * the start of every register allocated so far.
     */
    method KeepAlive(item: RegAlloc.Register, last: RegAlloc.Register)
      requires Valid() && item.id < |regs.intervals| && last.id < |regs.intervals|
      modifies regs
      ensures Valid() && |regs.intervals| == |old(regs.intervals)|
      ensures forall j :: 0 <= j < |regs.intervals| ==>
        regs.intervals[j].start <= regs.intervals[last.id].end <= regs.intervals[item.id].end
    {
      var r := regs.Access(last);
      r := regs.Access(item);
    }

    /** After the body of a range loop: back to the latch, keep both registers alive, bind `end`, leave the scope. */
    method EmitRangeEnd(latch: nat, end: nat, item: RegAlloc.Register, last: RegAlloc.Register)
      requires Valid() && depth > 0 && item.id < |regs.intervals| && last.id < |regs.intervals|
      modifies this`depth, this`code, regs
      ensures Valid() && |regs.intervals| == |old(regs.intervals)|
      ensures depth == old(depth) - 1 && code == old(code) + [Emit(JumpLoop(latch)), Bind(end)]
      ensures forall j :: 0 <= j < |regs.intervals| ==>
        regs.intervals[j].start <= regs.intervals[last.id].end <= regs.intervals[item.id].end
    {
      Put(Emit(JumpLoop(latch)));
      KeepAlive(item, last);
      Put(Bind(end));
      LeaveScope();
    }

    /**
     * `emit_for_range_loop`. The allocator gives no register allocated in
     * the body the physical register of the item or of the end value.
     */
    method EmitForRange(s: Stmt) returns (ok: bool, ghost piece: seq<Item>, ghost body: seq<Item>)
      requires Valid() && s.ForRange?
      modifies this, regs
      ensures Valid() && code == old(code) + piece
      ensures old(nextLabel) <= nextLabel && |old(regs.intervals)| <= |regs.intervals|
      ensures ok <==> !Panics(s, old(currentLoop).Some?)
      ensures ok ==> currentLoop == old(currentLoop) && depth == old(depth)
      ensures ok ==> Emitted(piece, old(nextLabel), nextLabel, old(currentLoop))
      ensures ok ==>
        var lo, item := old(nextLabel), |old(regs.intervals)|;
        && piece == ForRangeCode(lo, lo + 1, lo + 2, lo + 3, item, item + 1, s.start, s.end, s.inclusive, body)
        && item + 1 < |regs.intervals|
        && forall j :: 0 <= j < |regs.intervals| ==>
             regs.intervals[j].start <= regs.intervals[item + 1].end <= regs.intervals[item].end
      decreases s, 1
    {
      ghost var loop := currentLoop;
      var cond, latch, bodyLabel, end, item, last := EmitRangeSetup(s);
      ghost var head := RangeHead(cond, latch, bodyLabel, end, item.id, last.id, s.start, s.end, s.inclusive);
      ok, body := EmitLoopBody(latch, end, s.body);
      if !ok {
        piece := head + body;
        return;
      }
      EmitRangeEnd(latch, end, item, last);
      ForRangeEmitted(cond, nextLabel, item.id, last.id, s, body, loop);
      piece := ForRangeCode(cond, latch, bodyLabel, end, item.id, last.id, s.start, s.end, s.inclusive, body);
      assert piece == head + body + [Emit(JumpLoop(latch)), Bind(end)];
    }
  }
}

=== FILE: stmt_labels.dfy ===
/**
 * The instructions the statement emitter appends (src/emit/stmt.rs) and
 * what it means for a stretch of them to have its jumps resolved.
 *
 * Code is kept symbolic: a jump names a label, and a `Bind` item marks
 * the place a label is bound to. Forward jumps (`jump`, `jump_if_false`)
 * must land on a label bound later; backward jumps (`jump_loop`) on a
 * loop header bound earlier. A stretch of code may also jump to labels it
 * does not bind: forward to the labels in `fwd`, backward to those in
 * `back` (the enclosing loop's end and header).
 */
module StmtLabels {

  /** An expression, by its source text; what `emit_expr` emits for it is one `Eval`. */
  datatype Expr = Expr(text: string)

  /** The instructions statements emit, with virtual register indices and symbolic labels. */
  datatype Op =
    | Eval(expr: Expr)
    | StoreGlobal(name: string)
    | StoreModuleVar(index: nat)
    | Store(register: nat)
    | Load(register: nat)
    | CmpLe(lhs: nat)
    | CmpLt(lhs: nat)
    | LoadSmi(value: int)
    | Add(lhs: nat)
    | LoadNone
    | Ret
    | Print
    | PrintN(start: nat, count: nat)
    | Jump(target: nat)
    | JumpIfFalse(target: nat)
    | JumpLoop(target: nat)

  /** An emitted instruction, or the binding of a label to the current offset. */
  datatype Item = Emit(op: Op) | Bind(id: nat)

  predicate Forward(x: Item) {
    x.Emit? && (x.op.Jump? || x.op.JumpIfFalse?)
  }

  predicate Backward(x: Item) {
    x.Emit? && x.op.JumpLoop?
  }

  /** The labels bound in `p`. */
  ghost function Binds(p: seq<Item>): set<nat> {
    set k | 0 <= k < |p| && p[k].Bind? :: p[k].id
  }

  /** No label is bound twice. */
  ghost predicate Unique(p: seq<Item>) {
    forall j, k :: 0 <= j < k < |p| && p[j].Bind? && p[k].Bind? ==> p[j].id != p[k].id
  }

  /** Label `l` is bound somewhere after position `k`. */
  ghost predicate BoundAfter(p: seq<Item>, k: nat, l: nat) {
    exists j :: k < j < |p| && p[j] == Bind(l)
  }

  /** Label `l` is bound somewhere before position `k`. */
  ghost predicate BoundBefore(p: seq<Item>, k: nat, l: nat) {
    exists j :: 0 <= j < k && j < |p| && p[j] == Bind(l)
  }

  /** Every forward jump lands later in `p` or in `fwd`; every backward jump earlier in `p` or in `back`. */
  ghost predicate Resolved(p: seq<Item>, fwd: set<nat>, back: set<nat>) {
    && (forall k :: 0 <= k < |p| && Forward(p[k]) ==> p[k].op.target in fwd || BoundAfter(p, k, p[k].op.target))
    && (forall k :: 0 <= k < |p| && Backward(p[k]) ==> p[k].op.target in back || BoundBefore(p, k, p[k].op.target))
  }

  ghost predicate Closed(p: seq<Item>, fwd: set<nat>, back: set<nat>) {
    Unique(p) && Resolved(p, fwd, back)
  }

  lemma BindsAppend(p: seq<Item>, q: seq<Item>)
    ensures Binds(p + q) == Binds(p) + Binds(q)
  {
    forall l | l in Binds(p + q) ensures l in Binds(p) + Binds(q) {
      var k :| 0 <= k < |p + q| && (p + q)[k].Bind? && (p + q)[k].id == l;
      if k >= |p| {
        assert q[k - |p|] == (p + q)[k];
      }
    }
    forall l | l in Binds(p) ensures l in Binds(p + q) {
      var k :| 0 <= k < |p| && p[k].Bind? && p[k].id == l;
      assert (p + q)[k] == p[k];
    }
    forall l | l in Binds(q) ensures l in Binds(p + q) {
      var k :| 0 <= k < |q| && q[k].Bind? && q[k].id == l;
      assert (p + q)[|p| + k] == q[k];
    }
  }

  /** Two stretches compose when each resolves its jumps into the other and they bind different labels. */
  lemma ClosedAppend(p: seq<Item>, q: seq<Item>, fwd: set<nat>, back: set<nat>)
    requires Closed(p, fwd + Binds(q), back) && Closed(q, fwd, back + Binds(p))
    requires Binds(p) !! Binds(q)
    ensures Closed(p + q, fwd, back) && Binds(p + q) == Binds(p) + Binds(q)
  {
    var pq := p + q;
    BindsAppend(p, q);
    forall j, k | 0 <= j < k < |pq| && pq[j].Bind? && pq[k].Bind? ensures pq[j].id != pq[k].id {
      if j < |p| && k >= |p| {
        assert pq[j] == p[j] && pq[j].id in Binds(p);
        assert q[k - |p|] == pq[k];
        assert pq[k].id in Binds(q);
      } else if j >= |p| {
        assert q[j - |p|] == pq[j] && q[k - |p|] == pq[k];
      } else {
        assert pq[j] == p[j] && pq[k] == p[k];
      }
    }
    forall k | 0 <= k < |pq| && Forward(pq[k]) ensures pq[k].op.target in fwd || BoundAfter(pq, k, pq[k].op.target) {
      var t := pq[k].op.target;
      if k < |p| {
        assert pq[k] == p[k];
        if t in Binds(q) {
          var i :| 0 <= i < |q| && q[i].Bind? && q[i].id == t;
          assert pq[|p| + i] == q[i];
        } else if t !in fwd {
          var i :| k < i < |p| && p[i] == Bind(t);
          assert pq[i] == p[i];
        }
      } else {
        assert pq[k] == q[k - |p|];
        if t !in fwd {
          var i :| k - |p| < i < |q| && q[i] == Bind(t);
          assert pq[|p| + i] == q[i];
        }
      }
    }
    forall k | 0 <= k < |pq| && Backward(pq[k]) ensures pq[k].op.target in back || BoundBefore(pq, k, pq[k].op.target) {
      var t := pq[k].op.target;
      if k < |p| {
        assert pq[k] == p[k];
        if t !in back {
          var i :| 0 <= i < k && i < |p| && p[i] == Bind(t);
          assert pq[i] == p[i];
        }
      } else {
        assert pq[k] == q[k - |p|];
        if t in Binds(p) {
          var i :| 0 <= i < |p| && p[i].Bind? && p[i].id == t;
          assert pq[i] == p[i];
        } else if t !in back {
          var i :| 0 <= i < k - |p| && i < |q| && q[i] == Bind(t);
          assert pq[|p| + i] == q[i];
        }
      }
    }
  }

  /** More labels allowed outside never hurt. */
  lemma ClosedWeaken(p: seq<Item>, fwd: set<nat>, back: set<nat>, fwd': set<nat>, back': set<nat>)
    requires Closed(p, fwd, back) && fwd <= fwd' && back <= back'
    ensures Closed(p, fwd', back')
  {
  }

  /** An instruction other than a jump, or a label binding, stands on its own. */
  lemma ClosedSingle(x: Item, fwd: set<nat>, back: set<nat>)
    requires Forward(x) ==> x.op.target in fwd
    requires Backward(x) ==> x.op.target in back
    ensures Closed([x], fwd, back) && Binds([x]) == (if x.Bind? then {x.id} else {})
  {
    assert [x][0] == x;
  }

  /** A stretch without jumps or label bindings stands on its own. */
  predicate Straight(p: seq<Item>) {
    forall k :: 0 <= k < |p| ==> p[k].Emit? && !Forward(p[k]) && !Backward(p[k])
  }

  lemma ClosedStraight(p: seq<Item>, fwd: set<nat>, back: set<nat>)
    requires Straight(p)
    ensures Closed(p, fwd, back) && Binds(p) == {}
  {
  }

  /** Code without jumps or bindings in front of a stretch changes nothing about it. */
  lemma ClosedStraightThen(p: seq<Item>, q: seq<Item>, fwd: set<nat>, back: set<nat>)
    requires Straight(p) && Closed(q, fwd, back)
    ensures Closed(p + q, fwd, back) && Binds(p + q) == Binds(q)
  {
    ClosedStraight(p, fwd + Binds(q), back);
    ClosedThen(p, q, fwd, back, fwd, back);
  }

  /** A stretch of code followed by more of it, with the labels bound in front allowed backwards. */
  lemma ClosedThen(p: seq<Item>, q: seq<Item>, fwd: set<nat>, back: set<nat>, fwdQ: set<nat>, backQ: set<nat>)
    requires Closed(p, fwd + Binds(q), back) && Closed(q, fwdQ, backQ)
    requires fwdQ <= fwd && backQ <= back + Binds(p) && Binds(p) !! Binds(q)
    ensures Closed(p + q, fwd, back) && Binds(p + q) == Binds(p) + Binds(q)
  {
    ClosedWeaken(q, fwdQ, backQ, fwd, back + Binds(p));
    ClosedAppend(p, q, fwd, back);
  }

  /** One item in front of a stretch of code. */
  lemma ClosedCons(x: Item, p: seq<Item>, fwd: set<nat>, back: set<nat>)
    requires Closed(p, fwd, back + Binds([x]))
    requires Forward(x) ==> x.op.target in fwd + Binds(p)
    requires Backward(x) ==> x.op.target in back
    requires x.Bind? ==> x.id !in Binds(p)
    ensures Closed([x] + p, fwd, back) && Binds([x] + p) == Binds([x]) + Binds(p)
  {
    ClosedSingle(x, fwd + Binds(p), back);
    ClosedThen([x], p, fwd, back, fwd, back + Binds([x]));
  }
}

=== FILE: str_object.dfy ===
/**
 * The string object `Str` of src/value/object/string.rs. Contents are a
 * sequence of Unicode scalar values; lengths are counted in UTF-8 bytes, as
 * Rust's `String::len` does.
 */
module StrObject {
  import opened Wrappers
  import opened Values

  datatype Str = Str(contents: string)

  /** The number of bytes UTF-8 spends on one scalar value. */
  function Utf8Width(c: char): (w: nat)
    ensures 1 <= w <= 4
    ensures w == 1 <==> (c as int) < 0x80
  {
    if (c as int) < 0x80 then 1
    else if (c as int) < 0x800 then 2
    else if (c as int) < 0x1_0000 then 3
    else 4
  }

  /** `String::len`: the UTF-8 byte length. */
  function ByteLen(s: string): (n: nat)
    ensures |s| <= n <= 4 * |s|
  {
    if |s| == 0 then 0 else ByteLen(s[..|s| - 1]) + Utf8Width(s[|s| - 1])
  }

  /** An ASCII-only string has as many bytes as characters. */
  lemma {:induction false} AsciiByteLen(s: string)
    requires forall i :: 0 <= i < |s| ==> (s[i] as int) < 0x80
    ensures ByteLen(s) == |s|
  {
    if |s| > 0 {
      AsciiByteLen(s[..|s| - 1]);
    }
  }

  /** Byte length adds up over concatenation. */
  lemma {:induction false} ByteLenAppend(a: string, b: string)
    ensures ByteLen(a + b) == ByteLen(a) + ByteLen(b)
    decreases |b|
  {
    if |b| == 0 {
      assert a + b == a;
    } else {
      var b' := b[..|b| - 1];
      assert (a + b)[..|a + b| - 1] == a + b';
      ByteLenAppend(a, b');
    }
  }

  /** `From<String>` / `From<&str>`: wrap the text as it is. */
  function FromString(t: string): (s: Str)
    ensures AsStr(s) == t
  {
    Str(t)
  }

  /** `Str::as_str`: the stored text. */
  function AsStr(s: Str): string {
    s.contents
  }

  /**
   * `Access::field_get`: the only field is "len", the byte length as an
   * i32 (the cast keeps the low 32 bits).
   */
  function FieldGet(s: Str, key: string): (r: Option<Value>)
    ensures r.Some? <==> key == "len"
    ensures r.Some? ==> r.value.Int? && -0x8000_0000 <= r.value.i < 0x8000_0000
    ensures r.Some? && ByteLen(s.contents) < 0x8000_0000 ==> r.value == Int(ByteLen(s.contents))
  {
    if key == "len" then Some(Int(WrapI32(ByteLen(s.contents)))) else None
  }

  /** `Display`: the contents between two double quotes. */
  function Display(s: Str): (r: string)
    ensures |r| == |s.contents| + 2
    ensures r[0] == '"' && r[|r| - 1] == '"'
    ensures r[1..|r| - 1] == s.contents
  {
    "\"" + s.contents + "\""
  }

  /** `Str::concat`: a fresh string holding self's text followed by `other`. */
  function Concat(s: Str, other: string): (r: string)
    ensures |r| == |s.contents| + |other|
    ensures r[..|s.contents|] == s.contents && r[|s.contents|..] == other
    ensures ByteLen(r) == ByteLen(s.contents) + ByteLen(other)
  {
    ByteLenAppend(s.contents, other);
    s.contents + other
  }

  /** The byte length of a concatenation, read back through the "len" field. */
  lemma ConcatLenField(s: Str, other: string)
    requires ByteLen(s.contents) + ByteLen(other) < 0x8000_0000
    ensures FieldGet(Str(Concat(s, other)), "len") == Some(Int(ByteLen(s.contents) + ByteLen(other)))
  {
  }
}

=== FILE: values.dfy ===
/**
 * The value, key and error shapes shared by the object model, the field and
 * index rules and the accumulator interpreter. Heap objects are referred to
 * by address; the object store itself lives in module Objects.
 */
module Values {
  type Addr = nat

  /**
   * A handle to a native class method. Such objects are immutable once
   * built, so the model represents the handle by the method's contents:
   * its name and an opaque id standing for the host function pointer.
   */
  datatype NativeClassMethod = NativeClassMethod(name: string, f: nat)

  datatype Value =
    | NoneValue
    | Bool(b: bool)
    | Int(i: int)
    | Float(bits: bv64)
    | Obj(addr: Addr)
    | Native(m: NativeClassMethod)

  /** Keys of dictionaries and of class field tables. */
  datatype Key = IntKey(i: int) | StrKey(s: string)

  datatype Error =
    | CannotSetField(key: Key)
    | CannotGetField(key: Key)
    | HostError(message: string)
    | VmError
    | Panic(reason: string)

  function DigitChar(d: nat): char
    requires d < 10
  {
    "0123456789"[d]
  }

  /** Decimal text of a natural number. */
  function NatText(n: nat): string
    decreases n
  {
    if n < 10 then [DigitChar(n)] else NatText(n / 10) + [DigitChar(n % 10)]
  }

  /** How a key is displayed: an integer in decimal, a string as it is. */
  function KeyText(k: Key): string {
    match k
    case IntKey(i) => if i < 0 then "-" + NatText(-i) else NatText(i)
    case StrKey(s) => s
  }

  /** The text of an error, as the runtime formats it (the receiver's display is left out). */
  function ErrorText(e: Error): string {
    match e
    case CannotSetField(k) => "cannot set field `" + KeyText(k) + "`"
    case CannotGetField(k) => "cannot get field `" + KeyText(k) + "`"
    case HostError(m) => m
    case VmError => "error"
    case Panic(m) => m
  }

  /** Rust's `as i32` on a non-negative length: keep the low 32 bits, read them signed. */
  function WrapI32(n: nat): (r: int)
    ensures -0x8000_0000 <= r < 0x8000_0000
    ensures n < 0x8000_0000 ==> r == n
    ensures (r - n) % 0x1_0000_0000 == 0
  {
    var low := n % 0x1_0000_0000;
    if low < 0x8000_0000 then low else low - 0x1_0000_0000
  }
}

=== FILE: vm3_emit.dfy ===
/**
 * The third-generation emitter (ex/vm3/src/op/emit.rs): the state of the
 * function being emitted, and the lowering of `let`, blocks, variable
 * reads and literals into vm3 instructions.
 *
 * `FunctionState` hands out registers from a bump counter whose
 * high-water mark becomes the function's stack space, counts nested
 * scopes, records locals, and at the top level declares module variables
 * in the module's table. The bytecode builder is represented by the
 * instructions and constants emitted so far.
 *
 * `todo!()` in the source is the outcome `Todo`: the emitter panics there.
 */
module Vm3Emit {
  import opened Wrappers
  import opened Vm3Op

  /** `emit::Result`, plus `todo!()`. */
  datatype Outcome<T> = Done(value: T) | Fail(message: string) | Todo

  /** `ast::Lit`; the contents of records, lists and tuples do not matter here. */
  datatype Lit = Float(bits: bv64) | Int(value: int) | Nil | Bool(b: bool) | Str(text: string) | Record | List | Tuple

  /** `ast::Expr`; the kinds the emitter does not handle yet are `Unhandled`. */
  datatype Expr =
    | Block(body: seq<Stmt>, last: Tail)
    | GetVar(name: string)
    | Literal(lit: Lit)
    | Unhandled(kind: string)

  /** A block's trailing expression, if it has one. */
  datatype Tail = NoTail | Tail(expr: Expr)

  /** A `let`'s initialiser, if it has one. */
  datatype Init = NoInit | Init(expr: Expr)

  /** `ast::Stmt`; loops, `break`, `continue`, `return` and functions are `UnhandledStmt`. */
  datatype Stmt =
    | Let(name: string, value: Init)
    | ExprStmt(expr: Expr)
    | UnhandledStmt(kind: string)

  /** A constant-pool entry. */
  datatype Constant = FloatConst(bits: bv64) | StrConst(text: string)

  /** `Var`: where a name resolves to. Upvalue resolution is a `todo!()`, so no upvalue appears. */
  datatype Var = Local(reg: Reg) | Module(mvar: Mvar) | Global

  /** An entry of `locals`: the scope it was declared in, its name and its register. */
  datatype LocalVar = LocalVar(scope: nat, name: string, reg: Reg)

  /** `Registers`: the next free register and the most ever in use. */
  datatype Registers = Registers(current: u8, total: u8)

  /** What `top_level` hands to the function descriptor. */
  datatype Code = Code(stackSpace: u8, ops: seq<Op>, pool: seq<Constant>)

  /** What `module` hands to the module descriptor. */
  datatype ModuleDescriptor = ModuleDescriptor(name: string, root: Code, varCount: nat)

  /** Every field of a `FunctionState` that emitting changes. */
  datatype Snapshot = Snapshot(
    vars: map<string, Mvar>,
    ops: seq<Op>,
    pool: seq<Constant>,
    registers: Registers,
    scope: nat,
    locals: seq<LocalVar>)

  function Max(a: u8, b: u8): u8 {
    if a < b then b else a
  }

  function TooManyRegisters(name: string): string {
    "function `" + name + "` uses too many registers, maximum is 255"
  }

  const TooManyGlobals := "too many global variables, maximum is 65535"

  /** The constant pool's own overflow; its wording is the model's. */
  const TooManyConstants := "too many constants"

  /** `iter().rfind(p)` over the locals: the position of the last one satisfying `p`. */
  function FindLast(locals: seq<LocalVar>, p: LocalVar -> bool): (r: Option<nat>)
    ensures r.Some? ==> r.value < |locals| && p(locals[r.value])
    ensures r.Some? ==> forall j :: r.value < j < |locals| ==> !p(locals[j])
    ensures r.None? ==> forall j :: 0 <= j < |locals| ==> !p(locals[j])
    decreases |locals|
  {
    if |locals| == 0 then None
    else if p(locals[|locals| - 1]) then Some(|locals| - 1)
    else FindLast(locals[..|locals| - 1], p)
  }

  /** Module variables are numbered 0, 1, 2, ... in order of first declaration, each name its own. */
  ghost predicate VarsIndexed(vars: map<string, Mvar>) {
    && (forall n :: n in vars ==> vars[n].value as int < |vars|)
    && (forall n, m :: n in vars && m in vars && n != m ==> vars[n] != vars[m])
  }

  /** No name is declared twice in the same scope. */
  ghost predicate LocalsDistinct(locals: seq<LocalVar>) {
    forall j, k :: 0 <= j < k < |locals| ==> locals[j].scope != locals[k].scope || locals[j].name != locals[k].name
  }

  /** Every instruction's operands exist: registers below `regs`, constants in the pool, module variables declared. */
  ghost predicate CodeInBounds(ops: seq<Op>, regs: int, poolSize: int, varCount: int) {
    forall k :: 0 <= k < |ops| ==> Within(ops[k], regs, poolSize, varCount)
  }

  /** What emitting never takes back: code, constants, module variables and locals only grow, and so does the high-water mark. */
  ghost predicate Grows(a: Snapshot, b: Snapshot) {
    && a.ops <= b.ops && a.pool <= b.pool && a.locals <= b.locals
    && a.vars.Keys <= b.vars.Keys && (forall n :: n in a.vars ==> b.vars[n] == a.vars[n])
    && a.registers.total <= b.registers.total
  }

  lemma GrowsTrans(a: Snapshot, b: Snapshot, c: Snapshot)
    requires Grows(a, b) && Grows(b, c)
    ensures Grows(a, c)
  {
    assert a.ops <= c.ops by {
      assert b.ops[..|a.ops|] == a.ops;
    }
    assert a.pool <= c.pool by {
      assert b.pool[..|a.pool|] == a.pool;
    }
    assert a.locals <= c.locals by {
      assert b.locals[..|a.locals|] == a.locals;
    }
  }

  /** A literal's value, as the VM sees it after loading it. */
  datatype Value = NoneValue | BoolValue(b: bool) | IntValue(i: int) | ConstValue(c: Constant)

  /** Which register a load instruction writes, and what. */
  function Loaded(op: Op, pool: seq<Constant>): Option<(Reg, Value)> {
    match op
    case LoadNone(dst) => Some((dst, NoneValue))
    case LoadTrue(dst) => Some((dst, BoolValue(true)))
    case LoadFalse(dst) => Some((dst, BoolValue(false)))
    case LoadSmi(dst, v) => Some((dst, IntValue(v.Wide() as int)))
    case LoadConst(dst, idx) => if idx.Wide() < |pool| then Some((dst, ConstValue(pool[idx.Wide()]))) else None
    case _ => None
  }

  /** The value a literal denotes; records, lists and tuples are not lowered yet. */
  function LitValue(lit: Lit): Option<Value> {
    match lit
    case Float(bits) => Some(ConstValue(FloatConst(bits)))
    case Int(v) => Some(IntValue(v))
    case Nil => Some(NoneValue)
    case Bool(b) => Some(BoolValue(b))
    case Str(s) => Some(ConstValue(StrConst(s)))
    case _ => None
  }

  /** `i16::try_from` succeeds. */
  predicate FitsI16(v: int) {
    -0x8000 <= v < 0x8000
  }

  /** The instruction `lit` emits for a literal that needs no constant; none for the others. */
  function LitOp(dst: Reg, lit: Lit): (r: Option<Op>)
    ensures r.Some? ==> LitValue(lit).Some? && forall pool :: Loaded(r.value, pool) == Some((dst, LitValue(lit).value))
    ensures r.Some? ==> forall regs, poolSize, varCount :: Within(r.value, regs, poolSize, varCount) <==> dst.value as int < regs
  {
    match lit
    case Int(v) => if FitsI16(v) then Some(LoadSmi(dst, Smi(v as i16))) else None
    case Nil => Some(LoadNone(dst))
    case Bool(b) => Some(if b then LoadTrue(dst) else LoadFalse(dst))
    case _ => None
  }

  /** The constant a float or string literal puts in the pool. */
  function LitConstant(lit: Lit): Option<Constant> {
    match lit
    case Float(bits) => Some(FloatConst(bits))
    case Str(s) => Some(StrConst(s))
    case _ => None
  }

  /**
   * Loading a literal's constant from the pool gives the literal's value:
   * the instruction `lit` emits for a float or a string loads it.
   */
  lemma LitConstLoads(dst: Reg, lit: Lit, pool: seq<Constant>)
    requires LitConstant(lit).Some? && |pool| < 0x1_0000
    ensures
      var pool' := pool + [LitConstant(lit).value];
      Loaded(LoadConst(dst, Const16(|pool| as u16)), pool') == Some((dst, LitValue(lit).value))
  {
  }

  class FunctionState {
    /** The function's name, for error messages. */
    const name: string
    /** `parent.is_some()`: the function is nested in another. */
    const nested: bool
    /** `module.vars`: the module's table of top-level variables. */
    var vars: map<string, Mvar>
    /** The builder's instructions so far. */
    var ops: seq<Op>
    /** The builder's constant pool so far. */
    var pool: seq<Constant>
    var registers: Registers
    var scope: nat
    var locals: seq<LocalVar>

    ghost predicate Valid()
      reads this
    {
      && VarsIndexed(vars) && |vars| <= 0x1_0000
      && LocalsDistinct(locals)
      && (forall k :: 0 <= k < |locals| ==> locals[k].reg.value < registers.total)
      && CodeInBounds(ops, registers.total as int, |pool|, |vars|)
    }

    function State(): Snapshot
      reads this
    {
      Snapshot(vars, ops, pool, registers, scope, locals)
    }

    /** A fresh function state with no registers, no scope, no locals and an empty builder. */
    constructor (name: string, nested: bool, vars: map<string, Mvar>)
      requires VarsIndexed(vars) && |vars| <= 0x1_0000
      ensures Valid() && this.name == name && this.nested == nested
      ensures State() == Snapshot(vars, [], [], Registers(0, 0), 0, [])
    {
      this.name := name;
      this.nested := nested;
      this.vars := vars;
      ops := [];
      pool := [];
      registers := Registers(0, 0);
      scope := 0;
      locals := [];
    }

    /** `is_top_level`: declarations here are module variables. */
    predicate IsTopLevel()
      reads this
    {
      !nested && scope <= 1
    }

    /** The first half of `scope`: one level deeper. */
    method EnterScope()
      requires Valid()
      modifies this
      ensures Valid() && scope == old(scope) + 1
      ensures vars == old(vars) && ops == old(ops) && pool == old(pool) && registers == old(registers) && locals == old(locals)
    {
      scope := scope + 1;
    }

    /** The second half of `scope`: back out. */
    method LeaveScope()
      requires Valid() && scope >= 1
      modifies this
      ensures Valid() && scope == old(scope) - 1
      ensures vars == old(vars) && ops == old(ops) && pool == old(pool) && registers == old(registers) && locals == old(locals)
    {
      scope := scope - 1;
    }

    /**
     * `reg`: the next register, or an error once 255 are in use. The
     * high-water mark `total` stays at or above every register handed out.
     */
    method AllocReg() returns (r: Outcome<Reg>)
      requires Valid()
      modifies this
      ensures Valid()
      ensures old(registers.current) == 0xFF ==> r == Fail(TooManyRegisters(name)) && State() == old(State())
      ensures old(registers.current) < 0xFF ==>
        && r == Done(Reg(old(registers.current)))
        && State() == old(State()).(registers := Registers(old(registers.current) + 1, Max(old(registers.current) + 1, old(registers.total))))
      ensures r.Done? ==> r.value.value < registers.total
    {
      if registers.current == 0xFF {
        return Fail(TooManyRegisters(name));
      }
      var reg := registers.current;
      var current := registers.current + 1;
      registers := Registers(current, Max(current, registers.total));
      r := Done(Reg(reg));
    }

    /** `free`: `r` and every register after it are free again. */
    method Free(r: Reg)
      requires Valid()
      modifies this
      ensures Valid() && registers == old(registers).(current := r.value)
      ensures vars == old(vars) && ops == old(ops) && pool == old(pool) && scope == old(scope) && locals == old(locals)
    {
      registers := registers.(current := r.value);
    }

    /** `emit`: append an instruction whose operands all exist. */
    method Emit(op: Op)
      requires Valid() && Within(op, registers.total as int, |pool|, |vars|)
      modifies this
      ensures Valid() && ops == old(ops) + [op]
      ensures vars == old(vars) && pool == old(pool) && registers == old(registers) && scope == old(scope) && locals == old(locals)
    {
      ops := ops + [op];
    }

    /** The constant pool's `float`/`str`: append a constant and give its index. */
    method AddConstant(c: Constant) returns (r: Outcome<Const16>)
      requires Valid()
      modifies this
      ensures Valid()
      ensures old(|pool|) >= 0x1_0000 ==> r == Fail(TooManyConstants) && State() == old(State())
      ensures old(|pool|) < 0x1_0000 ==>
        && r == Done(Const16(old(|pool|) as u16))
        && State() == old(State()).(pool := old(pool) + [c])
    {
      if |pool| >= 0x1_0000 {
        return Fail(TooManyConstants);
      }
      r := Done(Const16(|pool| as u16));
      pool := pool + [c];
    }

    /** `resolve_local`: the register of the most recently declared local of that name. */
    function ResolveLocal(nm: string): (r: Option<Reg>)
      reads this
      ensures r.None? <==> forall k :: 0 <= k < |locals| ==> locals[k].name != nm
      ensures r.Some? ==>
        exists k :: 0 <= k < |locals| && locals[k].name == nm && locals[k].reg == r.value && (forall j :: k < j < |locals| ==> locals[j].name != nm)
    {
      match FindLast(locals, (l: LocalVar) => l.name == nm)
      case None => None
      case Some(k) => Some(locals[k].reg)
    }

    /** `resolve_local_in_scope`: the register of the local of that name declared in scope `s`. */
    function ResolveLocalInScope(s: nat, nm: string): (r: Option<Reg>)
      reads this
      ensures r.None? <==> forall k :: 0 <= k < |locals| ==> locals[k].scope != s || locals[k].name != nm
      ensures r.Some? ==> exists k :: 0 <= k < |locals| && locals[k].scope == s && locals[k].name == nm && locals[k].reg == r.value
    {
      match FindLast(locals, (l: LocalVar) => l.scope == s && l.name == nm)
      case None => None
      case Some(k) => Some(locals[k].reg)
    }

    /**
     * `resolve_var`: a local first, then (inside a nested function or
     * block) an upvalue, then a module variable, else a global.
     */
    function ResolveVar(nm: string): (r: Outcome<Var>)
      reads this
      ensures ResolveLocal(nm).Some? ==> r == Done(Local(ResolveLocal(nm).value))
      ensures ResolveLocal(nm).None? && !IsTopLevel() ==> r == Todo
      ensures ResolveLocal(nm).None? && IsTopLevel() && nm in vars ==> r == Done(Module(vars[nm]))
      ensures r == Done(Global) <==> ResolveLocal(nm).None? && IsTopLevel() && nm !in vars
    {
      match ResolveLocal(nm)
      case Some(reg) => Done(Local(reg))
      case None =>
        if !IsTopLevel() then Todo
        else if nm in vars then Done(Module(vars[nm]))
        else Done(Global)
    }

    /**
     * `declare_var`, for a value already in `reg`. At the top level the
     * name becomes a module variable (a new index, or the one it already
     * has), the value is stored there and `reg` is freed; the table is
     * full once it holds more than 65535 names. Elsewhere the name becomes
     * a local unless this scope already has one.
     */
    method DeclareVar(nm: string, reg: Reg) returns (r: Outcome<()>)
      requires Valid() && reg.value < registers.total
      modifies this
      ensures Valid() && Grows(old(State()), State()) && scope == old(scope) && !r.Todo?
      ensures r.Done? ==> Declared(nm, old(IsTopLevel()))
      ensures old(IsTopLevel()) && old(|vars|) > 0xFFFF ==> r == Fail(TooManyGlobals) && State() == old(State())
      ensures old(IsTopLevel()) && old(|vars|) <= 0xFFFF ==>
        var idx := if nm in old(vars) then old(vars)[nm] else Mvar(old(|vars|) as u16);
        && r == Done(())
        && State() == old(State()).(
          vars := old(vars)[nm := idx],
          ops := old(ops) + [SetMvar(reg, idx)],
          registers := old(registers).(current := reg.value))
      ensures !old(IsTopLevel()) ==>
        && r == Done(())
        && State() == old(State()).(
          locals := if old(ResolveLocalInScope(scope, nm)).Some? then old(locals) else old(locals) + [LocalVar(scope, nm, reg)])
      ensures r.Done? && old(IsTopLevel()) && old(ResolveLocal(nm)).None? ==> ResolveVar(nm) == Done(Module(vars[nm]))
      ensures r.Done? && !old(IsTopLevel()) ==> ResolveLocalInScope(scope, nm).Some? && ResolveLocal(nm).Some?
    {
      if IsTopLevel() {
        r := DeclareModuleVar(nm, reg);
      } else {
        DeclareLocal(nm, reg);
        r := Done(());
      }
    }

    /** The top-level arm of `declare_var`. */
    method DeclareModuleVar(nm: string, reg: Reg) returns (r: Outcome<()>)
      requires Valid() && reg.value < registers.total
      modifies this
      ensures Valid()
      ensures old(|vars|) > 0xFFFF ==> r == Fail(TooManyGlobals) && State() == old(State())
      ensures old(|vars|) <= 0xFFFF ==>
        var idx := if nm in old(vars) then old(vars)[nm] else Mvar(old(|vars|) as u16);
        && r == Done(())
        && State() == old(State()).(
          vars := old(vars)[nm := idx],
          ops := old(ops) + [SetMvar(reg, idx)],
          registers := old(registers).(current := reg.value))
    {
      var last := |vars|;
      if last > 0xFFFF {
        return Fail(TooManyGlobals);
      }
      var idx := if nm in vars then vars[nm] else Mvar(last as u16);
      VarsInsert(vars, nm, idx);
      vars := vars[nm := idx];
      Emit(SetMvar(reg, idx));
      Free(reg);
      r := Done(());
    }

    /** The nested arm of `declare_var`. */
    method DeclareLocal(nm: string, reg: Reg)
      requires Valid() && reg.value < registers.total
      modifies this
      ensures Valid()
      ensures State() == old(State()).(
          locals := if old(ResolveLocalInScope(scope, nm)).Some? then old(locals) else old(locals) + [LocalVar(scope, nm, reg)])
      ensures ResolveLocalInScope(scope, nm).Some? && ResolveLocal(nm).Some?
    {
      if ResolveLocalInScope(scope, nm).None? {
        locals := locals + [LocalVar(scope, nm, reg)];
        assert locals[|locals| - 1].name == nm;
      }
    }

    /** `get_var`: a local is its own register; a module variable is loaded into `dst`, if there is one. */
    method EmitGetVar(dst: Option<Reg>, nm: string) returns (r: Outcome<Option<Reg>>)
      requires Valid() && (dst.Some? ==> dst.value.value < registers.total)
      modifies this
      ensures Valid()
      ensures old(ResolveVar(nm)) == Todo || old(ResolveVar(nm)) == Done(Global) ==> r == Todo && State() == old(State())
      ensures old(ResolveVar(nm)).Done? && old(ResolveVar(nm)).value.Local? ==>
        r == Done(Some(old(ResolveVar(nm)).value.reg)) && State() == old(State())
      ensures old(ResolveVar(nm)).Done? && old(ResolveVar(nm)).value.Module? ==>
        && r == Done(None)
        && State() == old(State()).(ops := old(ops) + if dst.Some? then [LoadMvar(dst.value, old(ResolveVar(nm)).value.mvar)] else [])
      ensures r.Done? && r.value.Some? ==> r.value.value.value < registers.total
    {
      var v := ResolveVar(nm);
      match v
      case Todo =>
        return Todo;
      case Fail(_) =>
        assert false;
        return Todo;
      case Done(Local(reg)) =>
        LocalBelow(nm);
        return Done(Some(reg));
      case Done(Module(mvar)) =>
        if dst.Some? {
          Emit(LoadMvar(dst.value, mvar));
        }
        return Done(None);
      case Done(Global) =>
        return Todo;
    }

    /** A local's register is below the high-water mark. */
    lemma LocalBelow(nm: string)
      requires Valid() && ResolveLocal(nm).Some?
      ensures ResolveLocal(nm).value.value < registers.total
    {
    }

    /**
     * `lit`: with no destination nothing is emitted. Otherwise the literal
     * is loaded into `dst`: a small integer as an immediate, `nil` and
     * booleans by their own instructions, floats and strings from the
     * constant pool. Integers that do not fit 16 bits, records, lists and
     * tuples are not lowered yet.
     */
    method EmitLit(dst: Option<Reg>, lit: Lit) returns (r: Outcome<Option<Reg>>)
      requires Valid() && (dst.Some? ==> dst.value.value < registers.total)
      modifies this
      ensures Valid()
      ensures dst.None? ==> r == Done(None) && State() == old(State())
      ensures dst.Some? && LitOp(dst.value, lit).Some? ==>
        r == Done(None) && State() == old(State()).(ops := old(ops) + [LitOp(dst.value, lit).value])
      ensures dst.Some? && LitConstant(lit).Some? && old(|pool|) >= 0x1_0000 ==>
        r == Fail(TooManyConstants) && State() == old(State())
      ensures dst.Some? && LitConstant(lit).Some? && old(|pool|) < 0x1_0000 ==>
        && r == Done(None)
        && State() == old(State()).(
          pool := old(pool) + [LitConstant(lit).value],
          ops := old(ops) + [LoadConst(dst.value, Const16(old(|pool|) as u16))])
      ensures dst.Some? && LitOp(dst.value, lit).None? && LitConstant(lit).None? ==> r == Todo && State() == old(State())
      ensures dst.Some? && r.Done? ==> Loaded(ops[|ops| - 1], pool) == Some((dst.value, LitValue(lit).value))
    {
      if dst.None? {
        return Done(None);
      }
      var d := dst.value;
      if LitOp(d, lit).Some? {
        Emit(LitOp(d, lit).value);
        r := Done(None);
      } else if LitConstant(lit).Some? {
        r := EmitConstant(d, lit);
      } else {
        r := Todo;
      }
    }

    /** The float and string arms of `lit`: pool the constant, then load it. */
    method EmitConstant(dst: Reg, lit: Lit) returns (r: Outcome<Option<Reg>>)
      requires Valid() && dst.value < registers.total && LitConstant(lit).Some?
      modifies this
      ensures Valid()
      ensures old(|pool|) >= 0x1_0000 ==> r == Fail(TooManyConstants) && State() == old(State())
      ensures old(|pool|) < 0x1_0000 ==>
        && r == Done(None)
        && State() == old(State()).(
          pool := old(pool) + [LitConstant(lit).value],
          ops := old(ops) + [LoadConst(dst, Const16(old(|pool|) as u16))])
      ensures r.Done? ==> Loaded(ops[|ops| - 1], pool) == Some((dst, LitValue(lit).value))
    {
      var c := AddConstant(LitConstant(lit).value);
      if !c.Done? {
        return Fail(TooManyConstants);
      }
      LitConstLoads(dst, lit, old(pool));
      Emit(LoadConst(dst, c.value));
      r := Done(None);
    }

    /** A local's register declared in scope `s` is below the high-water mark. */
    lemma LocalInScopeBelow(s: nat, nm: string)
      requires Valid() && ResolveLocalInScope(s, nm).Some?
      ensures ResolveLocalInScope(s, nm).value.value < registers.total
    {
    }

    /** After a successful `let`: a module variable at the top level, a local of this scope elsewhere. */
    predicate Declared(nm: string, topLevel: bool)
      reads this
    {
      if topLevel then nm in vars else ResolveLocalInScope(scope, nm).Some?
    }

    /** `stmt`: `let` and expression statements; the other kinds are not lowered yet. */
    method EmitStmt(s: Stmt) returns (r: Outcome<()>)
      requires Valid()
      modifies this
      ensures Valid() && Grows(old(State()), State())
      ensures !r.Todo? ==> scope == old(scope)
      ensures r.Done? && s.Let? ==> Declared(s.name, old(IsTopLevel()))
      decreases s, 1
    {
      match s
      case Let(_, _) =>
        r := EmitLet(s);
      case ExprStmt(e) =>
        var out := EmitExpr(None, e);
        r := match out case Done(_) => Done(()) case Fail(m) => Fail(m) case Todo => Todo;
      case UnhandledStmt(_) =>
        r := Todo;
    }

    /** The statements of a module or a block, in order, up to the first that does not succeed. */
    method EmitStmts(ss: seq<Stmt>) returns (r: Outcome<()>)
      requires Valid()
      modifies this
      ensures Valid() && Grows(old(State()), State())
      ensures !r.Todo? ==> scope == old(scope)
      decreases ss, 0
    {
      var i := 0;
      while i < |ss|
        invariant 0 <= i <= |ss|
        invariant Valid() && Grows(old(State()), State()) && scope == old(scope)
      {
        ghost var before := State();
        var o := EmitStmt(ss[i]);
        GrowsTrans(old(State()), before, State());
        if !o.Done? {
          return o;
        }
        i := i + 1;
      }
      r := Done(());
    }

    /**
     * `let_`: the value goes into the register of this scope's local of
     * that name, or a new register; then the name is declared.
     */
    method EmitLet(s: Stmt) returns (r: Outcome<()>)
      requires Valid() && s.Let?
      modifies this
      ensures Valid() && Grows(old(State()), State())
      ensures !r.Todo? ==> scope == old(scope)
      ensures r.Done? ==> Declared(s.name, old(IsTopLevel()))
      decreases s, 0, 1
    {
      var dst := LetTarget(s.name);
      if dst.Fail? {
        return Fail(dst.message);
      }
      ghost var chosen := State();
      r := EmitLetInto(s, dst.value);
      GrowsTrans(old(State()), chosen, State());
    }

    /** The rest of `let_`, once the register is chosen: the value, then the declaration. */
    method EmitLetInto(s: Stmt, dst: Reg) returns (r: Outcome<()>)
      requires Valid() && s.Let? && dst.value < registers.total
      modifies this
      ensures Valid() && Grows(old(State()), State())
      ensures !r.Todo? ==> scope == old(scope)
      ensures r.Done? ==> Declared(s.name, old(IsTopLevel()))
      decreases s, 0, 0
    {
      var stored := EmitLetValue(dst, s.value);
      if !stored.Done? {
        return stored;
      }
      ghost var mid := State();
      r := DeclareVar(s.name, dst);
      GrowsTrans(old(State()), mid, State());
    }

    /** Where `let_` puts the value: this scope's local of that name, else a new register. */
    method LetTarget(nm: string) returns (r: Outcome<Reg>)
      requires Valid()
      modifies this
      ensures Valid() && Grows(old(State()), State()) && scope == old(scope) && !r.Todo?
      ensures r.Done? ==> r.value.value < registers.total
      ensures old(ResolveLocalInScope(scope, nm)).Some? ==> r == Done(old(ResolveLocalInScope(scope, nm)).value) && State() == old(State())
    {
      var found := ResolveLocalInScope(scope, nm);
      if found.Some? {
        LocalInScopeBelow(scope, nm);
        return Done(found.value);
      }
      r := AllocReg();
    }

    /**
     * The value of a `let` into `dst`: an initialiser that leaves its
     * value elsewhere is moved there, and no initialiser stores `none`.
     */
    method EmitLetValue(dst: Reg, value: Init) returns (r: Outcome<()>)
      requires Valid() && dst.value < registers.total
      modifies this
      ensures Valid() && Grows(old(State()), State())
      ensures !r.Todo? ==> scope == old(scope)
      ensures value.NoInit? ==> r == Done(()) && State() == old(State()).(ops := old(ops) + [LoadNone(dst)])
      decreases value, 2
    {
      match value
      case Init(e) =>
        var out := EmitExpr(Some(dst), e);
        if out.Fail? {
          return Fail(out.message);
        }
        if out.Todo? {
          return Todo;
        }
        if out.value.Some? {
          ghost var mid := State();
          Emit(Mov(out.value.value, dst));
          GrowsTrans(old(State()), mid, State());
        }
        r := Done(());
      case NoInit =>
        Emit(LoadNone(dst));
        r := Done(());
    }

    /** The end of `top_level`: finalize the module, return `none` from register 0, and hand over the code. */
    method FinishTopLevel() returns (code: Code)
      requires Valid()
      modifies this
      ensures Valid()
      ensures code == Code(registers.total, ops, pool) && vars == old(vars)
      ensures 1 <= code.stackSpace && code.ops == old(ops) + [FinalizeModule, LoadNone(Reg(0)), Ret(Reg(0))]
      ensures CodeInBounds(code.ops, code.stackSpace as int, |code.pool|, |vars|)
    {
      Emit(FinalizeModule);
      ReturnNone();
      code := Code(registers.total, ops, pool);
    }

    /** Free every register, take the first one again, and return `none` from it. */
    method ReturnNone()
      requires Valid()
      modifies this
      ensures Valid() && ops == old(ops) + [LoadNone(Reg(0)), Ret(Reg(0))]
      ensures registers == Registers(1, Max(1, old(registers.total)))
      ensures vars == old(vars) && pool == old(pool) && scope == old(scope) && locals == old(locals)
    {
      Free(Reg(0));
      var d := AllocReg();
      EmitReturn(d.value);
    }

    /** Load `none` into `dst` and return it. */
    method EmitReturn(dst: Reg)
      requires Valid() && dst.value < registers.total
      modifies this
      ensures Valid() && ops == old(ops) + [LoadNone(dst), Ret(dst)]
      ensures vars == old(vars) && pool == old(pool) && registers == old(registers) && scope == old(scope) && locals == old(locals)
    {
      Emit(LoadNone(dst));
      Emit(Ret(dst));
    }

    /** `expr`: blocks, variable reads and literals; the other kinds are not lowered yet. */
    method EmitExpr(dst: Option<Reg>, e: Expr) returns (r: Outcome<Option<Reg>>)
      requires Valid() && (dst.Some? ==> dst.value.value < registers.total)
      modifies this
      ensures Valid() && Grows(old(State()), State())
      ensures !r.Todo? ==> scope == old(scope)
      ensures r.Done? && r.value.Some? ==> r.value.value.value < registers.total
      decreases e, 1
    {
      match e
      case Block(_, _) =>
        r := EmitBlock(dst, e);
      case GetVar(nm) =>
        r := EmitGetVar(dst, nm);
      case Literal(lit) =>
        r := EmitLit(dst, lit);
      case Unhandled(_) =>
        r := Todo;
    }

    /**
     * `block`: the statements and the trailing expression one scope
     * deeper. The scope is restored when the block succeeds or fails with
     * an error; a `todo!()` panics out of it.
     */
    method EmitBlock(dst: Option<Reg>, e: Expr) returns (r: Outcome<Option<Reg>>)
      requires Valid() && e.Block? && (dst.Some? ==> dst.value.value < registers.total)
      modifies this
      ensures Valid() && Grows(old(State()), State())
      ensures !r.Todo? ==> scope == old(scope)
      ensures r.Done? && r.value.Some? ==> r.value.value.value < registers.total
      decreases e, 0
    {
      EnterScope();
      var o := EmitStmts(e.body);
      if o.Fail? {
        LeaveScope();
        return Fail(o.message);
      }
      if o.Todo? {
        return Todo;
      }
      ghost var mid := State();
      match e.last {
        case NoTail =>
          r := Done(None);
        case Tail(x) =>
          r := EmitExpr(dst, x);
      }
      GrowsTrans(old(State()), mid, State());
      if r.Todo? {
        return;
      }
      LeaveScope();
    }
  }

  /** Adding a name to the module's table keeps it numbered 0, 1, 2, ... */
  lemma VarsInsert(vars: map<string, Mvar>, nm: string, idx: Mvar)
    requires VarsIndexed(vars) && |vars| <= 0xFFFF
    requires idx == if nm in vars then vars[nm] else Mvar(|vars| as u16)
    ensures VarsIndexed(vars[nm := idx]) && |vars[nm := idx]| <= 0x1_0000
  {
  }

  /**
   * `top_level`: the module's statements one scope in, then
   * `FinalizeModule` and a return of `none` from register 0. The stack
   * space is the register high-water mark, so every register the code
   * names fits in the frame; every constant it loads is in its pool and
   * every module variable it touches is declared.
   */
  method TopLevel(ast: seq<Stmt>) returns (r: Outcome<Code>, vars: map<string, Mvar>)
    ensures VarsIndexed(vars) && |vars| <= 0x1_0000
    ensures r.Done? ==> CodeInBounds(r.value.ops, r.value.stackSpace as int, |r.value.pool|, |vars|)
    ensures r.Done? ==>
      && 1 <= r.value.stackSpace && 3 <= |r.value.ops|
      && r.value.ops[|r.value.ops| - 3..] == [FinalizeModule, LoadNone(Reg(0)), Ret(Reg(0))]
  {
    var f := new FunctionState("__main__", false, map[]);
    f.EnterScope();
    var o := f.EmitStmts(ast);
    if o.Fail? {
      f.LeaveScope();
      return Fail(o.message), f.vars;
    }
    if o.Todo? {
      return Todo, f.vars;
    }
    f.LeaveScope();
    var code := f.FinishTopLevel();
    return Done(code), f.vars;
  }

  /** The number of module variables the module descriptor is given: all of them. */
  function ModuleVarCount(vars: map<string, Mvar>): (r: nat)
    ensures VarsIndexed(vars) ==> forall n :: n in vars ==> vars[n].value as int < r
  {
    |vars|
  }

  /** The count as `module` computes it, `vars.len() as u16`. */
  function ModuleVarCountAsWritten(vars: map<string, Mvar>): u16 {
    (|vars| % 0x1_0000) as u16
  }

  /**
   * With 65536 module variables, which `declare_var` allows, the count
   * wraps to 0 and leaves every declared index outside it.
   */
  lemma ModuleVarCountWraps(vars: map<string, Mvar>)
    requires VarsIndexed(vars) && |vars| == 0x1_0000
    ensures ModuleVarCountAsWritten(vars) == 0
    ensures exists n :: n in vars && vars[n].value as int == 0xFFFF
  {
    IndicesCount(vars);
    IndicesCoverRange(Indices(vars), |vars|);
    assert 0xFFFF in Indices(vars);
  }

  /** The indices a module-variable table hands out. */
  ghost function Indices(vars: map<string, Mvar>): set<int> {
    set n | n in vars :: vars[n].value as int
  }

  /** Distinct names hold distinct indices, so there are as many indices as names. */
  lemma {:induction false} IndicesCount(vars: map<string, Mvar>)
    requires forall n, m :: n in vars && m in vars && n != m ==> vars[n] != vars[m]
    ensures |Indices(vars)| == |vars|
    decreases |vars|
  {
    if |vars| > 0 {
      var k :| k in vars;
      var rest := vars - {k};
      assert rest.Keys == vars.Keys - {k};
      IndicesCount(rest);
      forall x | x in Indices(vars)
        ensures x in Indices(rest) || x == vars[k].value as int
      {
        var n :| n in vars && vars[n].value as int == x;
        if n != k {
          assert n in rest;
        }
      }
      assert vars[k].value as int !in Indices(rest);
      assert Indices(vars) == Indices(rest) + {vars[k].value as int};
    }
  }

  /** The integers from 0 below `count`. */
  ghost function Below(count: nat): (r: set<int>)
    ensures |r| == count
    ensures forall x :: x in r <==> 0 <= x < count
  {
    if count == 0 then {} else Below(count - 1) + {count - 1}
  }

  /** A subset is no larger than the set holding it. */
  lemma SubsetCount(a: set<int>, b: set<int>)
    requires a <= b
    ensures |a| <= |b|
  {
    assert b == a + (b - a);
    assert |b| == |a| + |b - a|;
  }

  /** `count` distinct integers, all below `count`, are every integer below it. */
  lemma IndicesCoverRange(s: set<int>, count: nat)
    requires forall x :: x in s ==> 0 <= x < count
    requires |s| == count
    ensures forall x :: 0 <= x < count ==> x in s
  {
    forall x | 0 <= x < count
      ensures x in s
    {
      if x !in s {
        SubsetCount(s, Below(count) - {x});
      }
    }
  }

  /**
   * `module`: emit the top level and describe the module by its name, its
   * code and its variable count. The descriptor is the corrected one: its
   * count is `ModuleVarCount`, the unwrapped number of variables, not
   * the source's `vars.len() as u16`, which wraps to 0 at 65536 variables
   * (see `ModuleVarCountWraps`).
   */
  method EmitModule(name: string, ast: seq<Stmt>) returns (r: Outcome<ModuleDescriptor>)
    ensures r.Done? ==> r.value.name == name
    ensures r.Done? ==> CodeInBounds(r.value.root.ops, r.value.root.stackSpace as int, |r.value.root.pool|, r.value.varCount)
  {
    var root, vars := TopLevel(ast);
    match root
    case Done(code) =>
      r := Done(ModuleDescriptor(name, code, ModuleVarCount(vars)));
    case Fail(m) =>
      r := Fail(m);
    case Todo =>
      r := Todo;
  }
}

=== FILE: vm3_func.dfy ===
/**
 * The debug side of a vm3 function (ex/vm3/src/obj/func.rs): the label
 * map the bytecode builder fills while it emits, the lookup of the source
 * line an instruction came from, and the byte-counting writer the
 * disassembler pads its columns with.
 *
 * A label is reserved once and then bound at one offset and referred to
 * by any number of jumps. `LabelMapBuilder` records which labels are
 * bound at each offset, in the order of binding, and which label the jump
 * at each offset refers to; the builder also keeps, as ghost state, the
 * history of its `on_bind` and `on_emit` calls, and the maps are stated
 * in terms of that history.
 */
module Vm3Func {
  import opened Wrappers

  /** `LabelInfo`: a label's name and its position among the reserved labels. */
  datatype LabelInfo = LabelInfo(name: string, index: nat)

  /** One `on_bind`: the label with this index is bound at `offset`. */
  datatype Binding = Binding(index: nat, offset: nat)

  /** One `on_emit`: the jump at `referrer` refers to the label with this index. */
  datatype Reference = Reference(referrer: nat, index: nat)

  /** The labels bound at `o`, in the order they were bound. */
  function BoundAt(binds: seq<Binding>, o: nat): (r: seq<nat>)
    ensures |r| <= |binds|
    ensures r == [] <==> forall k :: 0 <= k < |binds| ==> binds[k].offset != o
    ensures forall i :: i in r ==> exists k :: 0 <= k < |binds| && binds[k] == Binding(i, o)
  {
    if |binds| == 0 then []
    else
      var last := binds[|binds| - 1];
      BoundAt(binds[..|binds| - 1], o) + (if last.offset == o then [last.index] else [])
  }

  /** The label the most recent reference from `r` names. */
  function LastReference(refs: seq<Reference>, r: nat): (x: Option<nat>)
    ensures x.None? <==> forall k :: 0 <= k < |refs| ==> refs[k].referrer != r
    ensures x.Some? ==>
      exists k :: 0 <= k < |refs| && refs[k] == Reference(r, x.value) && forall j :: k < j < |refs| ==> refs[j].referrer != r
  {
    if |refs| == 0 then None
    else if refs[|refs| - 1].referrer == r then Some(refs[|refs| - 1].index)
    else LastReference(refs[..|refs| - 1], r)
  }

  /** `LabelMap`: the labels, the labels bound at each offset, and the label each jump refers to. */
  datatype LabelMap = LabelMap(labels: seq<LabelInfo>, offset: map<nat, seq<nat>>, referrer: map<nat, nat>)

  /**
   * `m` is what the calls in `binds` and `refs` leave behind: label `k` is
   * the `k`-th reserved, an offset has a list exactly when something was
   * bound there and the list is what was bound there in order, and a
   * referrer maps to the label its last reference named.
   */
  ghost predicate Records(m: LabelMap, binds: seq<Binding>, refs: seq<Reference>) {
    && (forall k :: 0 <= k < |m.labels| ==> m.labels[k].index == k)
    && (forall k :: 0 <= k < |binds| ==> binds[k].index < |m.labels|)
    && (forall k :: 0 <= k < |refs| ==> refs[k].index < |m.labels|)
    && OffsetsOf(m.offset, binds)
    && ReferrersOf(m.referrer, refs)
  }

  /** `offset` lists, under each offset that has one, the labels bound there. */
  ghost predicate OffsetsOf(offset: map<nat, seq<nat>>, binds: seq<Binding>) {
    && (forall o :: o in offset <==> BoundAt(binds, o) != [])
    && (forall o :: o in offset ==> offset[o] == BoundAt(binds, o))
  }

  /** `referrer` maps each referring offset to the label it last referred to. */
  ghost predicate ReferrersOf(referrer: map<nat, nat>, refs: seq<Reference>) {
    && (forall r :: r in referrer <==> LastReference(refs, r).Some?)
    && (forall r :: r in referrer ==> referrer[r] == LastReference(refs, r).value)
  }

  /** Every index the maps hold names a label. */
  predicate Indexed(m: LabelMap) {
    && (forall o, k :: o in m.offset && 0 <= k < |m.offset[o]| ==> m.offset[o][k] < |m.labels|)
    && (forall r :: r in m.referrer ==> m.referrer[r] < |m.labels|)
  }

  lemma RecordsIndexed(m: LabelMap, binds: seq<Binding>, refs: seq<Reference>)
    requires Records(m, binds, refs)
    ensures Indexed(m)
  {
    forall o, k | o in m.offset && 0 <= k < |m.offset[o]| ensures m.offset[o][k] < |m.labels| {
      assert m.offset[o][k] in BoundAt(binds, o);
      var j :| 0 <= j < |binds| && binds[j] == Binding(m.offset[o][k], o);
    }
    forall r | r in m.referrer ensures m.referrer[r] < |m.labels| {
      var k :| 0 <= k < |refs| && refs[k] == Reference(r, m.referrer[r]) && forall j :: k < j < |refs| ==> refs[j].referrer != r;
    }
  }

  /** `by_offset`: the labels bound at `o`, or nothing when none is. */
  function ByOffset(m: LabelMap, o: nat): Option<seq<LabelInfo>>
    requires Indexed(m)
  {
    if o in m.offset then
      var ids := m.offset[o];
      Some(seq(|ids|, k requires 0 <= k < |ids| => m.labels[ids[k]]))
    else None
  }

  /** `by_referrer`: the label the jump at `r` refers to. */
  function ByReferrer(m: LabelMap, r: nat): Option<LabelInfo>
    requires Indexed(m)
  {
    if r in m.referrer then Some(m.labels[m.referrer[r]]) else None
  }

  /** `by_offset` yields exactly the labels bound at `o`, in the order they were bound. */
  lemma ByOffsetBound(m: LabelMap, binds: seq<Binding>, refs: seq<Reference>, o: nat)
    requires Records(m, binds, refs)
    ensures Indexed(m)
    ensures ByOffset(m, o).None? <==> forall k :: 0 <= k < |binds| ==> binds[k].offset != o
    ensures ByOffset(m, o).Some? ==>
      && |ByOffset(m, o).value| == |BoundAt(binds, o)|
      && forall k :: 0 <= k < |BoundAt(binds, o)| ==> ByOffset(m, o).value[k].index == BoundAt(binds, o)[k]
  {
    RecordsIndexed(m, binds, refs);
    if o in m.offset {
      var ids := m.offset[o];
      assert ids == BoundAt(binds, o);
      var shown := ByOffset(m, o).value;
      forall k | 0 <= k < |ids| ensures shown[k].index == ids[k] {
        assert shown[k] == m.labels[ids[k]];
      }
    }
  }

  /** `by_referrer` yields the label of the last `on_emit` for that referrer. */
  lemma ByReferrerLast(m: LabelMap, binds: seq<Binding>, refs: seq<Reference>, r: nat)
    requires Records(m, binds, refs)
    ensures Indexed(m)
    ensures ByReferrer(m, r).None? <==> forall k :: 0 <= k < |refs| ==> refs[k].referrer != r
    ensures ByReferrer(m, r).Some? ==> ByReferrer(m, r).value.index == LastReference(refs, r).value
  {
    RecordsIndexed(m, binds, refs);
  }

  /** Binding one more label adds it at the end of its offset's list and changes no other list. */
  lemma BoundAtSnoc(binds: seq<Binding>, b: Binding, o: nat)
    ensures BoundAt(binds + [b], o) == BoundAt(binds, o) + (if b.offset == o then [b.index] else [])
  {
    assert (binds + [b])[..|binds|] == binds;
  }

  /** A new reference from `r` is the last one from `r`, and leaves every other referrer alone. */
  lemma LastReferenceSnoc(refs: seq<Reference>, x: Reference, r: nat)
    ensures LastReference(refs + [x], r) == if x.referrer == r then Some(x.index) else LastReference(refs, r)
  {
    assert (refs + [x])[..|refs|] == refs;
  }

  /** `LabelMapBuilder`. */
  class LabelMapBuilder {
    var labels: seq<LabelInfo>
    var offset: map<nat, seq<nat>>
    var referrer: map<nat, nat>
    /** Every `on_bind` so far, in order. */
    ghost var binds: seq<Binding>
    /** Every `on_emit` so far, in order. */
    ghost var refs: seq<Reference>

    ghost predicate Valid()
      reads this
    {
      Records(LabelMap(labels, offset, referrer), binds, refs)
    }

    /** `new_in`: no labels, nothing bound, nothing referred to. */
    constructor ()
      ensures Valid() && labels == [] && offset == map[] && referrer == map[] && binds == [] && refs == []
    {
      labels := [];
      offset := map[];
      referrer := map[];
      binds := [];
      refs := [];
    }

    /** `reserve_label`: a new label, numbered by how many came before it. */
    method ReserveLabel(name: string) returns (info: LabelInfo)
      requires Valid()
      modifies this
      ensures Valid()
      ensures info == LabelInfo(name, old(|labels|)) && labels == old(labels) + [info]
      ensures offset == old(offset) && referrer == old(referrer) && binds == old(binds) && refs == old(refs)
    {
      info := LabelInfo(name, |labels|);
      labels := labels + [info];
    }

    /** `on_emit`: the jump at `at` refers to `info`; a later call for the same jump replaces it. */
    method OnEmit(info: LabelInfo, at: nat)
      requires Valid() && info in labels
      modifies this
      ensures Valid()
      ensures referrer == old(referrer)[at := info.index] && refs == old(refs) + [Reference(at, info.index)]
      ensures labels == old(labels) && offset == old(offset) && binds == old(binds)
    {
      ReferRecords(LabelMap(labels, offset, referrer), binds, refs, Reference(at, info.index));
      referrer := referrer[at := info.index];
      refs := refs + [Reference(at, info.index)];
    }

    /** `on_bind`: `info` is bound at offset `at`, after any label already bound there. */
    method OnBind(info: LabelInfo, at: nat)
      requires Valid() && info in labels
      modifies this
      ensures Valid()
      ensures offset == old(offset)[at := (if at in old(offset) then old(offset)[at] else []) + [info.index]]
      ensures binds == old(binds) + [Binding(info.index, at)]
      ensures labels == old(labels) && referrer == old(referrer) && refs == old(refs)
    {
      BindRecords(LabelMap(labels, offset, referrer), binds, refs, Binding(info.index, at));
      var indices := if at in offset then offset[at] else [];
      offset := offset[at := indices + [info.index]];
      binds := binds + [Binding(info.index, at)];
    }

    /** `finish`: the label map, with the same labels, offset lists and referrer entries. */
    method Finish() returns (m: LabelMap)
      requires Valid()
      ensures m == LabelMap(labels, offset, referrer) && Records(m, binds, refs)
    {
      var offsets := CopyOffsets();
      var referrers := CopyReferrers();
      m := LabelMap(labels, offsets, referrers);
    }

    /** The first loop of `finish`: every offset list, moved into a fresh table. */
    method CopyOffsets() returns (copy: map<nat, seq<nat>>)
      ensures copy == offset
    {
      copy := map[];
      var left := offset.Keys;
      while left != {}
        invariant left <= offset.Keys && copy.Keys == offset.Keys - left
        invariant forall o :: o in copy ==> copy[o] == offset[o]
        decreases left
      {
        var o :| o in left;
        copy := copy[o := offset[o]];
        left := left - {o};
      }
    }

    /** The second loop of `finish`: every referrer entry, moved into a fresh table. */
    method CopyReferrers() returns (copy: map<nat, nat>)
      ensures copy == referrer
    {
      copy := map[];
      var pending := referrer.Keys;
      while pending != {}
        invariant pending <= referrer.Keys && copy.Keys == referrer.Keys - pending
        invariant forall r :: r in copy ==> copy[r] == referrer[r]
        decreases pending
      {
        var r :| r in pending;
        copy := copy[r := referrer[r]];
        pending := pending - {r};
      }
    }
  }

  /** What `on_bind` does to the map keeps it a record of the bindings, one longer. */
  lemma BindRecords(m: LabelMap, binds: seq<Binding>, refs: seq<Reference>, b: Binding)
    requires Records(m, binds, refs) && b.index < |m.labels|
    ensures
      var list := (if b.offset in m.offset then m.offset[b.offset] else []) + [b.index];
      Records(m.(offset := m.offset[b.offset := list]), binds + [b], refs)
  {
    var binds' := binds + [b];
    BindOffsets(m.offset, binds, b);
    assert forall k :: 0 <= k < |binds'| ==> binds'[k].index < |m.labels| by {
      forall k | 0 <= k < |binds'| ensures binds'[k].index < |m.labels| {
        if k < |binds| {
          assert binds'[k] == binds[k];
        }
      }
    }
  }

  /** Appending `b.index` under `b.offset` keeps `offset` a record of the bindings, one longer. */
  lemma BindOffsets(offset: map<nat, seq<nat>>, binds: seq<Binding>, b: Binding)
    requires OffsetsOf(offset, binds)
    ensures OffsetsOf(offset[b.offset := (if b.offset in offset then offset[b.offset] else []) + [b.index]], binds + [b])
  {
    var offset' := offset[b.offset := (if b.offset in offset then offset[b.offset] else []) + [b.index]];
    forall o ensures (o in offset' <==> BoundAt(binds + [b], o) != []) && (o in offset' ==> offset'[o] == BoundAt(binds + [b], o)) {
      BoundAtSnoc(binds, b, o);
    }
  }

  /** What `on_emit` does to the map keeps it a record of the references, one longer. */
  lemma ReferRecords(m: LabelMap, binds: seq<Binding>, refs: seq<Reference>, x: Reference)
    requires Records(m, binds, refs) && x.index < |m.labels|
    ensures Records(m.(referrer := m.referrer[x.referrer := x.index]), binds, refs + [x])
  {
    var refs' := refs + [x];
    ReferReferrers(m.referrer, refs, x);
    assert forall k :: 0 <= k < |refs'| ==> refs'[k].index < |m.labels| by {
      forall k | 0 <= k < |refs'| ensures refs'[k].index < |m.labels| {
        if k < |refs| {
          assert refs'[k] == refs[k];
        }
      }
    }
  }

  /** Mapping `x.referrer` to `x.index` keeps `referrer` a record of the references, one longer. */
  lemma ReferReferrers(referrer: map<nat, nat>, refs: seq<Reference>, x: Reference)
    requires ReferrersOf(referrer, refs)
    ensures ReferrersOf(referrer[x.referrer := x.index], refs + [x])
  {
    forall r ensures LastReference(refs + [x], r) == if r == x.referrer then Some(x.index) else LastReference(refs, r) {
      LastReferenceSnoc(refs, x, r);
    }
  }

  /** `Span`: a range of byte offsets into the source. */
  datatype Span = Span(start: nat, end: nat)

  /** `rfind`: the position of the last `c` in `s`. */
  function RFind(s: string, c: char): (r: Option<nat>)
    ensures r.Some? ==> r.value < |s| && s[r.value] == c && c !in s[r.value + 1..]
    ensures r.None? ==> c !in s
  {
    if |s| == 0 then None
    else if s[|s| - 1] == c then Some(|s| - 1)
    else
      assert s == s[..|s| - 1] + [s[|s| - 1]];
      RFind(s[..|s| - 1], c)
  }

  /** `find`: the position of the first `c` in `s`. */
  function Find(s: string, c: char): (r: Option<nat>)
    ensures r.Some? ==> r.value < |s| && s[r.value] == c && c !in s[..r.value]
    ensures r.None? ==> c !in s
  {
    if |s| == 0 then None
    else if s[0] == c then Some(0)
    else match Find(s[1..], c)
      case None => None
      case Some(k) =>
        assert s[..k + 1] == [s[0]] + s[1..][..k];
        Some(k + 1)
  }

  /**
   * `find_line`: the line around `span`. It starts at the last newline
   * before the span (or at 0) and ends at the first newline at or after
   * the span's end (or at the end of the source).
   */
  function FindLine(src: string, span: Span): (r: Span)
    requires span.start <= |src| && span.end <= |src|
    ensures r.start <= span.start && span.end <= r.end <= |src|
    ensures
      || (r.start < span.start && src[r.start] == '\n' && '\n' !in src[r.start + 1..span.start])
      || (r.start == 0 && '\n' !in src[..span.start])
    ensures
      || (r.end < |src| && src[r.end] == '\n' && '\n' !in src[span.end..r.end])
      || (r.end == |src| && '\n' !in src[span.end..])
  {
    var start := match RFind(src[..span.start], '\n') case Some(k) => k case None => 0;
    var end := match Find(src[span.end..], '\n') case Some(k) => k + span.end case None => |src|;
    assert RFind(src[..span.start], '\n').Some? ==> src[..span.start][start + 1..] == src[start + 1..span.start];
    assert src[span.end..][..end - span.end] == src[span.end..end];
    Span(start, end)
  }

  /** Text without `c` after the last `c` does not move it. */
  lemma {:induction false} RFindPastEnd(s: string, t: string, c: char)
    requires c !in t
    ensures RFind(s + t, c) == RFind(s, c)
  {
    if |t| == 0 {
      assert s + t == s;
    } else {
      var u := s + t;
      assert u[|u| - 1] == t[|t| - 1] && u[..|u| - 1] == s + t[..|t| - 1];
      RFindPastEnd(s, t[..|t| - 1], c);
    }
  }

  /** Text without `c` in front of the first `c` only shifts it. */
  lemma {:induction false} FindPastStart(t: string, s: string, c: char)
    requires c !in t
    ensures Find(t + s, c) == match Find(s, c) case Some(k) => Some(k + |t|) case None => None
  {
    if |t| == 0 {
      assert t + s == s;
    } else {
      assert (t + s)[0] == t[0] && (t + s)[1..] == t[1..] + s;
      FindPastStart(t[1..], s, c);
    }
  }

  /** Moving a span's start within one line does not move the start of its line. */
  lemma SameLineStart(src: string, a: Span, b: Span)
    requires a.start <= b.start <= |src| && a.end <= |src| && b.end <= |src|
    requires '\n' !in src[a.start..b.start]
    ensures FindLine(src, a).start == FindLine(src, b).start
  {
    assert src[..b.start] == src[..a.start] + src[a.start..b.start];
    RFindPastEnd(src[..a.start], src[a.start..b.start], '\n');
  }

  /** Moving a span's end within one line does not move the end of its line. */
  lemma SameLineEnd(src: string, a: Span, b: Span)
    requires a.end <= b.end <= |src| && a.start <= |src| && b.start <= |src|
    requires '\n' !in src[a.end..b.end]
    ensures FindLine(src, a).end == FindLine(src, b).end
  {
    assert src[a.end..] == src[a.end..b.end] + src[b.end..];
    FindPastStart(src[a.end..b.end], src[b.end..], '\n');
  }

  /** `remainder_to`: the padding that brings a column of width `v` up to `n`. */
  function RemainderTo(n: nat, v: nat): (r: nat)
    ensures v + r >= n && r <= n
    ensures r > 0 ==> v + r == n
  {
    if v < n then n - v else 0
  }

  /** The number of bytes `s` takes in UTF-8, the unit of `str::len`. */
  function Utf8Len(s: string): (r: nat)
    ensures |s| <= r <= 4 * |s|
  {
    if |s| == 0 then 0
    else
      var c := s[0] as int;
      (if c < 0x80 then 1 else if c < 0x800 then 2 else if c < 0x1_0000 then 3 else 4) + Utf8Len(s[1..])
  }

  /** The byte length of a concatenation is the sum of the byte lengths. */
  lemma {:induction false} Utf8LenAppend(a: string, b: string)
    ensures Utf8Len(a + b) == Utf8Len(a) + Utf8Len(b)
  {
    if |a| > 0 {
      assert (a + b)[0] == a[0] && (a + b)[1..] == a[1..] + b;
      Utf8LenAppend(a[1..], b);
    } else {
      assert a + b == b;
    }
  }

  /** The pieces of a formatted write, one after the other. */
  function Concat(pieces: seq<string>): string {
    if |pieces| == 0 then "" else Concat(pieces[..|pieces| - 1]) + pieces[|pieces| - 1]
  }

  /** One more piece: its text follows, and its bytes add up. */
  lemma ConcatNext(pieces: seq<string>, n: nat)
    requires n < |pieces|
    ensures Concat(pieces[..n + 1]) == Concat(pieces[..n]) + pieces[n]
    ensures Utf8Len(Concat(pieces[..n + 1])) == Utf8Len(Concat(pieces[..n])) + Utf8Len(pieces[n])
  {
    assert pieces[..n + 1][..n] == pieces[..n];
    Utf8LenAppend(Concat(pieces[..n]), pieces[n]);
  }

  /**
   * `ProxyFmt`: passes every string on to the writer it wraps, and counts
   * the bytes it was asked to write, whether or not the writer took them.
   * The wrapped writer is represented by the text it has taken so far.
   */
  class ProxyFmt {
    var out: string
    var written: nat

    /** `ProxyFmt(f, 0)`. */
    constructor (out: string)
      ensures this.out == out && written == 0
    {
      this.out := out;
      written := 0;
    }

    /** `write_str`: `accepted` is whether the wrapped writer takes `s` or fails with `fmt::Error`. */
    method WriteStr(s: string, accepted: bool) returns (r: Result<(), ()>)
      modifies this
      ensures written == old(written) + Utf8Len(s)
      ensures out == old(out) + (if accepted then s else "")
      ensures r.Ok? <==> accepted
    {
      written := written + Utf8Len(s);
      if accepted {
        out := out + s;
        r := Ok(());
      } else {
        r := Err(());
      }
    }

    /**
     * `write!` through the proxy: the pieces go out in order until the
     * wrapped writer refuses one (`accepts`), which ends the write with
     * an error. The count includes the refused piece.
     */
    method WriteAll(pieces: seq<string>, accepts: string -> bool) returns (r: Result<(), ()>, sent: nat)
      modifies this
      ensures sent <= |pieces| && (forall k :: 0 <= k < sent ==> accepts(pieces[k]))
      ensures r.Ok? <==> sent == |pieces|
      ensures r.Err? ==> !accepts(pieces[sent])
      ensures out == old(out) + Concat(pieces[..sent])
      ensures written == old(written) + Utf8Len(Concat(pieces[..if r.Ok? then sent else sent + 1]))
    {
      sent := 0;
      while sent < |pieces|
        invariant sent <= |pieces| && (forall k :: 0 <= k < sent ==> accepts(pieces[k]))
        invariant out == old(out) + Concat(pieces[..sent])
        invariant written == old(written) + Utf8Len(Concat(pieces[..sent]))
      {
        var piece := pieces[sent];
        ConcatNext(pieces, sent);
        var w := WriteStr(piece, accepts(piece));
        if w.Err? {
          return Err(()), sent;
        }
        sent := sent + 1;
      }
      r := Ok(());
    }
  }
}

=== FILE: vm3_op.dfy ===
/**
 * The instruction set of the third-generation VM (ex/vm3/src/op.rs).
 *
 * Operands are wrapped in small newtypes that say what they index: a
 * register, a constant, a module variable, a jump offset, an argument count
 * or a small integer immediate. Each is stored at a fixed width (registers
 * and counts in a byte, constants and module variables in two, jump offsets
 * in three, immediates as a signed 16-bit value) and `wide` widens it for
 * indexing without changing it.
 *
 * The source asserts that every instruction takes four bytes. `Encode` is
 * the model's own four-byte layout: it keeps the tag position, the size and
 * the two-byte field offsets of `#[repr(u8)]` (the variant's tag, then its
 * fields in order), writes multi-byte fields low byte first and sets
 * padding bytes to zero. `Decode` reads it back: four bytes are enough, and
 * they determine the instruction.
 */
module Vm3Op {
  import opened Wrappers

  newtype u8 = x: int | 0 <= x < 0x100
  newtype u16 = x: int | 0 <= x < 0x1_0000
  newtype u24 = x: int | 0 <= x < 0x100_0000
  newtype i16 = x: int | -0x8000 <= x < 0x8000
  newtype i32 = x: int | -0x8000_0000 <= x < 0x8000_0000

  /** `Reg<u8>`: a register index. */
  datatype Reg = Reg(value: u8) {
    /** `Reg::wide`: the index as a `usize`, unchanged. */
    function Wide(): (r: nat)
      ensures r < 0x100 && Reg(r as u8) == this
    {
      value as nat
    }
  }

  /** `Const<u8>`: a constant-pool index stored in a byte. */
  datatype Const8 = Const8(value: u8) {
    function Wide(): (r: nat)
      ensures r < 0x100 && Const8(r as u8) == this
    {
      value as nat
    }
  }

  /** `Const<u16>`: a constant-pool index stored in two bytes. */
  datatype Const16 = Const16(value: u16) {
    function Wide(): (r: nat)
      ensures r < 0x1_0000 && Const16(r as u16) == this
    {
      value as nat
    }
  }

  /** `Const<u24>`: a jump offset kept in the constant pool, by its index. */
  datatype Const24 = Const24(value: u24) {
    function Wide(): (r: nat)
      ensures r < 0x100_0000 && Const24(r as u24) == this
    {
      value as nat
    }
  }

  /** `Mvar<u16>`: a module-variable index. */
  datatype Mvar = Mvar(value: u16) {
    function Wide(): (r: nat)
      ensures r < 0x1_0000 && Mvar(r as u16) == this
    {
      value as nat
    }
  }

  /** `Offset<u24>`: a jump distance stored in the instruction. */
  datatype Offset = Offset(value: u24) {
    function Wide(): (r: nat)
      ensures r < 0x100_0000 && Offset(r as u24) == this
    {
      value as nat
    }
  }

  /** `Count<u8>`: an argument count. */
  datatype Count = Count(value: u8) {
    function Wide(): (r: nat)
      ensures r < 0x100 && Count(r as u8) == this
    {
      value as nat
    }
  }

  /** `Smi<i16>`: a small integer immediate. */
  datatype Smi = Smi(value: i16) {
    /** `Smi::wide`: the immediate as an `i32`, sign kept. */
    function Wide(): (r: i32)
      ensures -0x8000 <= r < 0x8000 && Smi(r as i16) == this
    {
      value as i32
    }
  }

  /**
   * `Op`. Fields are positional; the comment after each variant gives the
   * source's field names in order.
   */
  datatype Op =
    | Nop
    | Mov(Reg, Reg)  // src, dst
    | LoadConst(Reg, Const16)  // dst, idx
    | LoadUpvalue(Reg, Const16)  // dst, idx
    | SetUpvalue(Reg, Const16)  // src, idx
    | LoadMvar(Reg, Mvar)  // dst, idx
    | SetMvar(Reg, Mvar)  // src, idx
    | LoadGlobal(Reg, Const16)  // dst, name
    | SetGlobal(Reg, Const16)  // reg, name
    | LoadFieldReg(Reg, Reg, Reg)  // obj, name, reg
    | LoadFieldConst(Reg, Const8, Reg)  // obj, name, reg
    | LoadFieldOptReg(Reg, Reg, Reg)  // obj, name, reg
    | LoadFieldOptConst(Reg, Const8, Reg)  // obj, name, reg
    | SetField(Reg, Reg, Reg)  // obj, name, reg
    | LoadIndex(Reg, Reg, Reg)  // obj, key, reg
    | LoadIndexOpt(Reg, Reg, Reg)  // obj, key, reg
    | SetIndex(Reg, Reg, Reg)  // obj, key, reg
    | LoadSuper(Reg)  // dst
    | LoadNone(Reg)  // dst
    | LoadTrue(Reg)  // dst
    | LoadFalse(Reg)  // dst
    | LoadSmi(Reg, Smi)  // dst, value
    | MakeFn(Reg, Const16)  // dst, desc
    | MakeClass(Reg, Const16)  // dst, desc
    | MakeClassDerived(Reg, Const16)  // dst, desc
    | MakeList(Reg, Const16)  // dst, desc
    | MakeListEmpty(Reg)  // dst
    | MakeTable(Reg, Const16)  // dst, desc
    | MakeTableEmpty(Reg)  // dst
    | Jump(Offset)  // offset
    | JumpConst(Const24)  // offset
    | JumpLoop(Offset)  // offset
    | JumpLoopConst(Const24)  // offset
    | JumpIfFalse(Offset)  // offset
    | JumpIfFalseConst(Const24)  // offset
    | Add(Reg, Reg, Reg)  // dst, lhs, rhs
    | Sub(Reg, Reg, Reg)  // dst, lhs, rhs
    | Mul(Reg, Reg, Reg)  // dst, lhs, rhs
    | Div(Reg, Reg, Reg)  // dst, lhs, rhs
    | Rem(Reg, Reg, Reg)  // dst, lhs, rhs
    | Pow(Reg, Reg, Reg)  // dst, lhs, rhs
    | Inv(Reg)  // val
    | Not(Reg)  // val
    | CmpEq(Reg, Reg)  // lhs, rhs
    | CmpNe(Reg, Reg)  // lhs, rhs
    | CmpGt(Reg, Reg)  // lhs, rhs
    | CmpGe(Reg, Reg)  // lhs, rhs
    | CmpLt(Reg, Reg)  // lhs, rhs
    | CmpLe(Reg, Reg)  // lhs, rhs
    | CmpType(Reg, Reg)  // lhs, rhs
    | Contains(Reg, Reg)  // lhs, rhs
    | IsNone(Reg)  // val
    | Call(Reg, Count)  // func, count
    | Call0(Reg)  // func
    | Import(Reg, Const16)  // dst, path
    | FinalizeModule
    | Ret(Reg)  // val
    | Yld(Reg)  // val

  /** Two bytes, low first. */
  function Split16(x: u16): (r: (u8, u8))
    ensures Join16(r.0, r.1) == x
  {
    ((x % 0x100) as u8, (x / 0x100) as u8)
  }

  function Join16(lo: u8, hi: u8): u16 {
    (lo as int + 0x100 * hi as int) as u16
  }

  /** The two's-complement bytes of a signed immediate, low first. */
  function SplitI16(x: i16): (r: (u8, u8))
    ensures JoinI16(r.0, r.1) == x
  {
    var bits := if x < 0 then x as int + 0x1_0000 else x as int;
    ((bits % 0x100) as u8, (bits / 0x100) as u8)
  }

  function JoinI16(lo: u8, hi: u8): i16 {
    var bits := lo as int + 0x100 * hi as int;
    (if bits >= 0x8000 then bits - 0x1_0000 else bits) as i16
  }

  /** Three bytes, low first. */
  function Split24(x: u24): (r: (u8, u8, u8))
    ensures Join24(r.0, r.1, r.2) == x
  {
    var high := x as int / 0x100;
    assert x as int == x as int % 0x100 + 0x100 * (high % 0x100 + 0x100 * (high / 0x100));
    ((x % 0x100) as u8, (high % 0x100) as u8, (high / 0x100) as u8)
  }

  function Join24(b0: u8, b1: u8, b2: u8): u24 {
    (b0 as int + 0x100 * b1 as int + 0x1_0000 * b2 as int) as u24
  }

  /** Four bytes: a tag and three more. */
  datatype Word = Word(tag: u8, b1: u8, b2: u8, b3: u8) {
    function Bytes(): (r: seq<u8>)
      ensures |r| == 4 && r[0] == tag
    {
      [tag, b1, b2, b3]
    }
  }

  /**
   * The four bytes of an instruction: the tag (the variant's position in
   * the declaration), then the fields, a two-byte field at an even offset,
   * padding bytes zero. Four bytes hold every variant, and they determine
   * it.
   */
  function Encode(op: Op): Word {
    match op
    case Nop => Word(0, 0, 0, 0)
    case Mov(src, dst) => Word(1, src.value, dst.value, 0)
    case LoadConst(dst, idx) => var (l1, h1) := Split16(idx.value); Word(2, dst.value, l1, h1)
    case LoadUpvalue(dst, idx) => var (l1, h1) := Split16(idx.value); Word(3, dst.value, l1, h1)
    case SetUpvalue(src, idx) => var (l1, h1) := Split16(idx.value); Word(4, src.value, l1, h1)
    case LoadMvar(dst, idx) => var (l1, h1) := Split16(idx.value); Word(5, dst.value, l1, h1)
    case SetMvar(src, idx) => var (l1, h1) := Split16(idx.value); Word(6, src.value, l1, h1)
    case LoadGlobal(dst, name) => var (l1, h1) := Split16(name.value); Word(7, dst.value, l1, h1)
    case SetGlobal(reg, name) => var (l1, h1) := Split16(name.value); Word(8, reg.value, l1, h1)
    case LoadFieldReg(obj, name, reg) => Word(9, obj.value, name.value, reg.value)
    case LoadFieldConst(obj, name, reg) => Word(10, obj.value, name.value, reg.value)
    case LoadFieldOptReg(obj, name, reg) => Word(11, obj.value, name.value, reg.value)
    case LoadFieldOptConst(obj, name, reg) => Word(12, obj.value, name.value, reg.value)
    case SetField(obj, name, reg) => Word(13, obj.value, name.value, reg.value)
    case LoadIndex(obj, key, reg) => Word(14, obj.value, key.value, reg.value)
    case LoadIndexOpt(obj, key, reg) => Word(15, obj.value, key.value, reg.value)
    case SetIndex(obj, key, reg) => Word(16, obj.value, key.value, reg.value)
    case LoadSuper(dst) => Word(17, dst.value, 0, 0)
    case LoadNone(dst) => Word(18, dst.value, 0, 0)
    case LoadTrue(dst) => Word(19, dst.value, 0, 0)
    case LoadFalse(dst) => Word(20, dst.value, 0, 0)
    case LoadSmi(dst, value) => var (l1, h1) := SplitI16(value.value); Word(21, dst.value, l1, h1)
    case MakeFn(dst, desc) => var (l1, h1) := Split16(desc.value); Word(22, dst.value, l1, h1)
    case MakeClass(dst, desc) => var (l1, h1) := Split16(desc.value); Word(23, dst.value, l1, h1)
    case MakeClassDerived(dst, desc) => var (l1, h1) := Split16(desc.value); Word(24, dst.value, l1, h1)
    case MakeList(dst, desc) => var (l1, h1) := Split16(desc.value); Word(25, dst.value, l1, h1)
    case MakeListEmpty(dst) => Word(26, dst.value, 0, 0)
    case MakeTable(dst, desc) => var (l1, h1) := Split16(desc.value); Word(27, dst.value, l1, h1)
    case MakeTableEmpty(dst) => Word(28, dst.value, 0, 0)
    case Jump(offset) => var (a0, b0, c0) := Split24(offset.value); Word(29, a0, b0, c0)
    case JumpConst(offset) => var (a0, b0, c0) := Split24(offset.value); Word(30, a0, b0, c0)
    case JumpLoop(offset) => var (a0, b0, c0) := Split24(offset.value); Word(31, a0, b0, c0)
    case JumpLoopConst(offset) => var (a0, b0, c0) := Split24(offset.value); Word(32, a0, b0, c0)
    case JumpIfFalse(offset) => var (a0, b0, c0) := Split24(offset.value); Word(33, a0, b0, c0)
    case JumpIfFalseConst(offset) => var (a0, b0, c0) := Split24(offset.value); Word(34, a0, b0, c0)
    case Add(dst, lhs, rhs) => Word(35, dst.value, lhs.value, rhs.value)
    case Sub(dst, lhs, rhs) => Word(36, dst.value, lhs.value, rhs.value)
    case Mul(dst, lhs, rhs) => Word(37, dst.value, lhs.value, rhs.value)
    case Div(dst, lhs, rhs) => Word(38, dst.value, lhs.value, rhs.value)
    case Rem(dst, lhs, rhs) => Word(39, dst.value, lhs.value, rhs.value)
    case Pow(dst, lhs, rhs) => Word(40, dst.value, lhs.value, rhs.value)
    case Inv(val) => Word(41, val.value, 0, 0)
    case Not(val) => Word(42, val.value, 0, 0)
    case CmpEq(lhs, rhs) => Word(43, lhs.value, rhs.value, 0)
    case CmpNe(lhs, rhs) => Word(44, lhs.value, rhs.value, 0)
    case CmpGt(lhs, rhs) => Word(45, lhs.value, rhs.value, 0)
    case CmpGe(lhs, rhs) => Word(46, lhs.value, rhs.value, 0)
    case CmpLt(lhs, rhs) => Word(47, lhs.value, rhs.value, 0)
    case CmpLe(lhs, rhs) => Word(48, lhs.value, rhs.value, 0)
    case CmpType(lhs, rhs) => Word(49, lhs.value, rhs.value, 0)
    case Contains(lhs, rhs) => Word(50, lhs.value, rhs.value, 0)
    case IsNone(val) => Word(51, val.value, 0, 0)
    case Call(func, count) => Word(52, func.value, count.value, 0)
    case Call0(func) => Word(53, func.value, 0, 0)
    case Import(dst, path) => var (l1, h1) := Split16(path.value); Word(54, dst.value, l1, h1)
    case FinalizeModule => Word(55, 0, 0, 0)
    case Ret(val) => Word(56, val.value, 0, 0)
    case Yld(val) => Word(57, val.value, 0, 0)
  }

  /** Read an instruction back from its four bytes; a tag past the last variant is none. */
  function Decode(w: Word): (r: Option<Op>)
    ensures r.Some? <==> w.tag < 58
  {
    if w.tag < 29 then DecodeLow(w) else DecodeHigh(w)
  }

  function DecodeLow(w: Word): Option<Op>
    requires w.tag < 29
  {
    match w.tag
    case 0 => Some(Nop)
    case 1 => Some(Mov(Reg(w.b1), Reg(w.b2)))
    case 2 => Some(LoadConst(Reg(w.b1), Const16(Join16(w.b2, w.b3))))
    case 3 => Some(LoadUpvalue(Reg(w.b1), Const16(Join16(w.b2, w.b3))))
    case 4 => Some(SetUpvalue(Reg(w.b1), Const16(Join16(w.b2, w.b3))))
    case 5 => Some(LoadMvar(Reg(w.b1), Mvar(Join16(w.b2, w.b3))))
    case 6 => Some(SetMvar(Reg(w.b1), Mvar(Join16(w.b2, w.b3))))
    case 7 => Some(LoadGlobal(Reg(w.b1), Const16(Join16(w.b2, w.b3))))
    case 8 => Some(SetGlobal(Reg(w.b1), Const16(Join16(w.b2, w.b3))))
    case 9 => Some(LoadFieldReg(Reg(w.b1), Reg(w.b2), Reg(w.b3)))
    case 10 => Some(LoadFieldConst(Reg(w.b1), Const8(w.b2), Reg(w.b3)))
    case 11 => Some(LoadFieldOptReg(Reg(w.b1), Reg(w.b2), Reg(w.b3)))
    case 12 => Some(LoadFieldOptConst(Reg(w.b1), Const8(w.b2), Reg(w.b3)))
    case 13 => Some(SetField(Reg(w.b1), Reg(w.b2), Reg(w.b3)))
    case 14 => Some(LoadIndex(Reg(w.b1), Reg(w.b2), Reg(w.b3)))
    case 15 => Some(LoadIndexOpt(Reg(w.b1), Reg(w.b2), Reg(w.b3)))
    case 16 => Some(SetIndex(Reg(w.b1), Reg(w.b2), Reg(w.b3)))
    case 17 => Some(LoadSuper(Reg(w.b1)))
    case 18 => Some(LoadNone(Reg(w.b1)))
    case 19 => Some(LoadTrue(Reg(w.b1)))
    case 20 => Some(LoadFalse(Reg(w.b1)))
    case 21 => Some(LoadSmi(Reg(w.b1), Smi(JoinI16(w.b2, w.b3))))
    case 22 => Some(MakeFn(Reg(w.b1), Const16(Join16(w.b2, w.b3))))
    case 23 => Some(MakeClass(Reg(w.b1), Const16(Join16(w.b2, w.b3))))
    case 24 => Some(MakeClassDerived(Reg(w.b1), Const16(Join16(w.b2, w.b3))))
    case 25 => Some(MakeList(Reg(w.b1), Const16(Join16(w.b2, w.b3))))
    case 26 => Some(MakeListEmpty(Reg(w.b1)))
    case 27 => Some(MakeTable(Reg(w.b1), Const16(Join16(w.b2, w.b3))))
    case 28 => Some(MakeTableEmpty(Reg(w.b1)))
  }

  function DecodeHigh(w: Word): Option<Op>
    requires w.tag >= 29
  {
    match w.tag
    case 29 => Some(Jump(Offset(Join24(w.b1, w.b2, w.b3))))
    case 30 => Some(JumpConst(Const24(Join24(w.b1, w.b2, w.b3))))
    case 31 => Some(JumpLoop(Offset(Join24(w.b1, w.b2, w.b3))))
    case 32 => Some(JumpLoopConst(Const24(Join24(w.b1, w.b2, w.b3))))
    case 33 => Some(JumpIfFalse(Offset(Join24(w.b1, w.b2, w.b3))))
    case 34 => Some(JumpIfFalseConst(Const24(Join24(w.b1, w.b2, w.b3))))
    case 35 => Some(Add(Reg(w.b1), Reg(w.b2), Reg(w.b3)))
    case 36 => Some(Sub(Reg(w.b1), Reg(w.b2), Reg(w.b3)))
    case 37 => Some(Mul(Reg(w.b1), Reg(w.b2), Reg(w.b3)))
    case 38 => Some(Div(Reg(w.b1), Reg(w.b2), Reg(w.b3)))
    case 39 => Some(Rem(Reg(w.b1), Reg(w.b2), Reg(w.b3)))
    case 40 => Some(Pow(Reg(w.b1), Reg(w.b2), Reg(w.b3)))
    case 41 => Some(Inv(Reg(w.b1)))
    case 42 => Some(Not(Reg(w.b1)))
    case 43 => Some(CmpEq(Reg(w.b1), Reg(w.b2)))
    case 44 => Some(CmpNe(Reg(w.b1), Reg(w.b2)))
    case 45 => Some(CmpGt(Reg(w.b1), Reg(w.b2)))
    case 46 => Some(CmpGe(Reg(w.b1), Reg(w.b2)))
    case 47 => Some(CmpLt(Reg(w.b1), Reg(w.b2)))
    case 48 => Some(CmpLe(Reg(w.b1), Reg(w.b2)))
    case 49 => Some(CmpType(Reg(w.b1), Reg(w.b2)))
    case 50 => Some(Contains(Reg(w.b1), Reg(w.b2)))
    case 51 => Some(IsNone(Reg(w.b1)))
    case 52 => Some(Call(Reg(w.b1), Count(w.b2)))
    case 53 => Some(Call0(Reg(w.b1)))
    case 54 => Some(Import(Reg(w.b1), Const16(Join16(w.b2, w.b3))))
    case 55 => Some(FinalizeModule)
    case 56 => Some(Ret(Reg(w.b1)))
    case 57 => Some(Yld(Reg(w.b1)))
    case _ => None
  }

  /** Four bytes are enough: decoding what `Encode` wrote gives the instruction back. */
  lemma DecodeEncode(op: Op)
    ensures Decode(Encode(op)) == Some(op)
  {
    if op.Nop? || op.Mov? || op.LoadConst? || op.LoadUpvalue? || op.SetUpvalue? || op.LoadMvar? || op.SetMvar? || op.LoadGlobal? || op.SetGlobal? || op.LoadFieldReg? {
      DecodeEncode0(op);
    } else if op.LoadFieldConst? || op.LoadFieldOptReg? || op.LoadFieldOptConst? || op.SetField? || op.LoadIndex? || op.LoadIndexOpt? || op.SetIndex? || op.LoadSuper? || op.LoadNone? || op.LoadTrue? {
      DecodeEncode1(op);
    } else if op.LoadFalse? || op.LoadSmi? || op.MakeFn? || op.MakeClass? || op.MakeClassDerived? || op.MakeList? || op.MakeListEmpty? || op.MakeTable? || op.MakeTableEmpty? || op.Jump? {
      DecodeEncode2(op);
    } else if op.JumpConst? || op.JumpLoop? || op.JumpLoopConst? || op.JumpIfFalse? || op.JumpIfFalseConst? || op.Add? || op.Sub? || op.Mul? || op.Div? || op.Rem? {
      DecodeEncode3(op);
    } else if op.Pow? || op.Inv? || op.Not? || op.CmpEq? || op.CmpNe? || op.CmpGt? || op.CmpGe? || op.CmpLt? || op.CmpLe? || op.CmpType? {
      DecodeEncode4(op);
    } else {
      DecodeEncode5(op);
    }
  }

  /** The round trip for Nop to LoadFieldReg. */
  lemma DecodeEncode0(op: Op)
    requires op.Nop? || op.Mov? || op.LoadConst? || op.LoadUpvalue? || op.SetUpvalue? || op.LoadMvar? || op.SetMvar? || op.LoadGlobal? || op.SetGlobal? || op.LoadFieldReg?
    ensures Decode(Encode(op)) == Some(op)
  {
  }

  /** The round trip for LoadFieldConst to LoadTrue. */
  lemma DecodeEncode1(op: Op)
    requires op.LoadFieldConst? || op.LoadFieldOptReg? || op.LoadFieldOptConst? || op.SetField? || op.LoadIndex? || op.LoadIndexOpt? || op.SetIndex? || op.LoadSuper? || op.LoadNone? || op.LoadTrue?
    ensures Decode(Encode(op)) == Some(op)
  {
  }

  /** The round trip for LoadFalse to Jump. */
  lemma DecodeEncode2(op: Op)
    requires op.LoadFalse? || op.LoadSmi? || op.MakeFn? || op.MakeClass? || op.MakeClassDerived? || op.MakeList? || op.MakeListEmpty? || op.MakeTable? || op.MakeTableEmpty? || op.Jump?
    ensures Decode(Encode(op)) == Some(op)
  {
  }

  /** The round trip for JumpConst to Rem. */
  lemma DecodeEncode3(op: Op)
    requires op.JumpConst? || op.JumpLoop? || op.JumpLoopConst? || op.JumpIfFalse? || op.JumpIfFalseConst? || op.Add? || op.Sub? || op.Mul? || op.Div? || op.Rem?
    ensures Decode(Encode(op)) == Some(op)
  {
  }

  /** The round trip for Pow to CmpType. */
  lemma DecodeEncode4(op: Op)
    requires op.Pow? || op.Inv? || op.Not? || op.CmpEq? || op.CmpNe? || op.CmpGt? || op.CmpGe? || op.CmpLt? || op.CmpLe? || op.CmpType?
    ensures Decode(Encode(op)) == Some(op)
  {
  }

  /** The round trip for Contains to Yld. */
  lemma DecodeEncode5(op: Op)
    requires op.Contains? || op.IsNone? || op.Call? || op.Call0? || op.Import? || op.FinalizeModule? || op.Ret? || op.Yld?
    ensures Decode(Encode(op)) == Some(op)
  {
  }

  /**
   * Every operand `op` refers to exists: its registers are below `regs`,
   * its constants are in a pool of `poolSize` entries and its module
   * variables are among the first `varCount`.
   */
  predicate Within(op: Op, regs: int, poolSize: int, varCount: int) {
    match op
    case Mov(src, dst) => src.value as int < regs && dst.value as int < regs
    case LoadConst(dst, idx) => dst.value as int < regs && idx.Wide() < poolSize
    case LoadUpvalue(dst, idx) => dst.value as int < regs && idx.Wide() < poolSize
    case SetUpvalue(src, idx) => src.value as int < regs && idx.Wide() < poolSize
    case LoadMvar(dst, idx) => dst.value as int < regs && idx.value as int < varCount
    case SetMvar(src, idx) => src.value as int < regs && idx.value as int < varCount
    case LoadGlobal(dst, name) => dst.value as int < regs && name.Wide() < poolSize
    case SetGlobal(reg, name) => reg.value as int < regs && name.Wide() < poolSize
    case LoadFieldReg(obj, name, reg) => obj.value as int < regs && name.value as int < regs && reg.value as int < regs
    case LoadFieldConst(obj, name, reg) => obj.value as int < regs && name.Wide() < poolSize && reg.value as int < regs
    case LoadFieldOptReg(obj, name, reg) => obj.value as int < regs && name.value as int < regs && reg.value as int < regs
    case LoadFieldOptConst(obj, name, reg) => obj.value as int < regs && name.Wide() < poolSize && reg.value as int < regs
    case SetField(obj, name, reg) => obj.value as int < regs && name.value as int < regs && reg.value as int < regs
    case LoadIndex(obj, key, reg) => obj.value as int < regs && key.value as int < regs && reg.value as int < regs
    case LoadIndexOpt(obj, key, reg) => obj.value as int < regs && key.value as int < regs && reg.value as int < regs
    case SetIndex(obj, key, reg) => obj.value as int < regs && key.value as int < regs && reg.value as int < regs
    case LoadSuper(dst) => dst.value as int < regs
    case LoadNone(dst) => dst.value as int < regs
    case LoadTrue(dst) => dst.value as int < regs
    case LoadFalse(dst) => dst.value as int < regs
    case LoadSmi(dst, value) => dst.value as int < regs
    case MakeFn(dst, desc) => dst.value as int < regs && desc.Wide() < poolSize
    case MakeClass(dst, desc) => dst.value as int < regs && desc.Wide() < poolSize
    case MakeClassDerived(dst, desc) => dst.value as int < regs && desc.Wide() < poolSize
    case MakeList(dst, desc) => dst.value as int < regs && desc.Wide() < poolSize
    case MakeListEmpty(dst) => dst.value as int < regs
    case MakeTable(dst, desc) => dst.value as int < regs && desc.Wide() < poolSize
    case MakeTableEmpty(dst) => dst.value as int < regs
    case JumpConst(offset) => offset.Wide() < poolSize
    case JumpLoopConst(offset) => offset.Wide() < poolSize
    case JumpIfFalseConst(offset) => offset.Wide() < poolSize
    case Add(dst, lhs, rhs) => dst.value as int < regs && lhs.value as int < regs && rhs.value as int < regs
    case Sub(dst, lhs, rhs) => dst.value as int < regs && lhs.value as int < regs && rhs.value as int < regs
    case Mul(dst, lhs, rhs) => dst.value as int < regs && lhs.value as int < regs && rhs.value as int < regs
    case Div(dst, lhs, rhs) => dst.value as int < regs && lhs.value as int < regs && rhs.value as int < regs
    case Rem(dst, lhs, rhs) => dst.value as int < regs && lhs.value as int < regs && rhs.value as int < regs
    case Pow(dst, lhs, rhs) => dst.value as int < regs && lhs.value as int < regs && rhs.value as int < regs
    case Inv(val) => val.value as int < regs
    case Not(val) => val.value as int < regs
    case CmpEq(lhs, rhs) => lhs.value as int < regs && rhs.value as int < regs
    case CmpNe(lhs, rhs) => lhs.value as int < regs && rhs.value as int < regs
    case CmpGt(lhs, rhs) => lhs.value as int < regs && rhs.value as int < regs
    case CmpGe(lhs, rhs) => lhs.value as int < regs && rhs.value as int < regs
    case CmpLt(lhs, rhs) => lhs.value as int < regs && rhs.value as int < regs
    case CmpLe(lhs, rhs) => lhs.value as int < regs && rhs.value as int < regs
    case CmpType(lhs, rhs) => lhs.value as int < regs && rhs.value as int < regs
    case Contains(lhs, rhs) => lhs.value as int < regs && rhs.value as int < regs
    case IsNone(val) => val.value as int < regs
    case Call(func, count) => func.value as int < regs
    case Call0(func) => func.value as int < regs
    case Import(dst, path) => dst.value as int < regs && path.Wide() < poolSize
    case Ret(val) => val.value as int < regs
    case Yld(val) => val.value as int < regs
    case _ => true
  }
}

=== FILE: wrappers.dfy ===
/** Option and Result, the two failure-carrying shapes the runtime uses. */
module Wrappers {
  datatype Option<+T> = None | Some(value: T)

  datatype Result<+T, +E> = Ok(value: T) | Err(error: E)
}
